=== FILE: README.md ===
# Fuenteovejuna digital edition: a Dafny model of its core

The digital edition of Lope de Vega's *Fuenteovejuna* has two halves.

- **Browser side.** The reading page and the notes laboratory run in the browser. They cut a passage out of the TEI document (`extraerFragmento`). They keep the notes whose targets lie inside that passage (`filtrarNotasPorXmlIds`). A highlight pass (`processNotes` / `aplicarHighlights`) wraps every target element's content in a `note-wrapper` that lists the note ids in `data-note-groups`. Hover, click, prev/next buttons and a cyclic "next pending note" search move a current note around the text. Per-note evaluation counters sit in a page cache.
- **Preparation side.** A set of Python scripts produced the TEI file:
  - add `xml:id`s to verses and speeches;
  - number verses, skipping the middle and final pieces of split verses;
  - repair the ids of final pieces;
  - find likely split verses;
  - attach `who` to speeches;
  - strip `ns0:` prefixes and spaces before punctuation;
  - turn the plain-text note list into XML;
  - extract note positions from the old HTML edition;
  - map each note to a verse by word and context;
  - insert `{n}` markers after the annotated word.

Each of these is modelled as pure functions over immutable datatypes:

- the rendered DOM is a forest of `Dom.Node`;
- a TEI verse is `Tei.Verse`;
- the scripts' element lists are sequences of records.

Loops of the original appear as methods whose results are proved equal to a functional definition. The properties the code promises are stated as contracts and lemmas, for example:

- the highlight pass changes nothing but wrappers and is idempotent;
- ids are distinct;
- a second id-repair run changes nothing;
- the note-mapping buckets partition the notes;
- reading the generated notes file back line by line gives the notes again.

The modules follow the program's files:

| module | models |
|---|---|
| `Text`, `Sorting`, `Paths`, `Tei` | shared string helpers, a stable sort, output-file naming, the TEI verse record |
| `Dom`, `Marking` | the rendered tree, id lookup, in-place replacement, class toggling |
| `Pasajes`, `Notas` | passage extraction and note filtering |
| `Highlight` | the wrapper/group pass of both pages |
| `Edicion` | hover, click and font size on the reading page |
| `Laboratorio`, `EvalStats` | the notes laboratory and its evaluation counters |
| `VerseIds`, `VerseNumbers`, `SplitVerseIds`, `SpIds` | the id and numbering scripts |
| `SplitCandidates`, `Who` | split-verse detection and speaker assignment |
| `Namespaces`, `Punctuation` | the two text-cleaning scripts |
| `NotesText`, `NotePositions`, `MapNotes`, `ApplyNotes` | the note pipeline from text and HTML to the TEI |

## Model

| member | source | states |
|---|---|---|
| Dom.HasIdIffInIds | assets/js/edicion.js:169-180 | an element with id `x` is found in a subtree exactly when `x` is among the subtree's ids |
| Dom.HasIdInIffInIds | assets/js/edicion.js:169-180 | the same equivalence for a forest: the `[xml:id=…]` lookup and the id list agree |
| Dom.FindPath | assets/js/edicion.js:169-180 | a path is returned iff some element carries the id, and it is a valid path to an element with that id |
| Dom.Find | assets/js/edicion.js:169-180 | the lookup yields an element iff one has the id, and the element yielded has that id |
| Marking.MarkShells | assets/js/laboratorio-de-notas.js:375-399 | toggling classes on every element restyles each element shell, and nothing is added or removed |
| Marking.MarkOnlyStyles | assets/js/laboratorio-de-notas.js:375-399 | class toggling leaves the tree with styles erased exactly as it was |
| Pasajes.Closest | assets/js/pasajes.js:38-39 | `closest('sp, stage')`: the result is the nearest ancestor-or-self on the path that is a speech or stage direction, or the node itself if none is |
| Pasajes.Extract | assets/js/pasajes.js:8-42 | missing start or end id gives the error result; equal ids give the one element; a start that contains the end gives the start element; the parent error arises exactly when, in the remaining case, the start's `sp`/`stage` (or the start itself) is a top-level node with no parent element |
| Pasajes.ExtractRange | assets/js/pasajes.js:38-66 | otherwise the fragment is the container's element children from the start's child through the end's, to the last child when the end is not below the container, and empty when the end's child comes first |
| Pasajes.FragmentIds | assets/js/pasajes.js:71-74 | an id is in the collected list exactly when some element of the fragment carries it |
| Pasajes.FragmentIdsOrder | assets/js/pasajes.js:71-74 | the list follows document order with one entry per element that has an id, repeats kept: fragments side by side give their lists in turn, a text node gives nothing, an element gives its id ahead of its descendants' |
| Notas.NormalizedTargetsOfRefs | assets/js/notas.js:38-40 | a target written as `#id` references joined by single spaces reads back as exactly those ids, in order |
| Notas.FilterByIds | assets/js/notas.js:35-45 | the kept notes are a subsequence of the notes, a note is kept iff one of its targets is among the ids, and no ids keep nothing |
| Notas.FilterByIdsCounts | assets/js/notas.js:35-45 | every occurrence of a note that applies is kept and no other, so duplicates are not dropped |
| Notas.FilterMonotone | assets/js/notas.js:35-45 | with more ids the kept notes can only grow: the smaller result is a subsequence of the larger |
| Notas.FilterByFragment | assets/js/notas.js:35-45 | with a fragment's ids, a note is kept iff one of its targets names an element of the fragment |
| Highlight.SortNotes | assets/js/edicion.js:142-157 | sorting permutes the notes |
| Highlight.SortNotesOrder | assets/js/edicion.js:142-157 | after sorting every `seg` note precedes every other, and within each group target counts do not decrease |
| Highlight.SortNotesStable | assets/js/laboratorio-de-notas.js:228-241 | notes of equal rank keep their relative order (the sort is stable) |
| Highlight.TargetIdsOfRefs | assets/js/edicion.js:165 | a target written as `#id` references joined by spaces reads back as exactly those ids, in order |
| Highlight.Resolved | assets/js/edicion.js:168-190 | the targets kept are exactly those that resolve to an element, and each one resolves |
| Highlight.AddGroup | assets/js/edicion.js:226-231 | the id is appended only when absent; the old list is a prefix; membership is old list plus the id; no duplicates arise |
| Highlight.Configure | assets/js/edicion.js:225-248 | the wrapper gets the id in its groups and the event marker; children change only when the id is new and propagation is on, and then by propagation |
| Highlight.Attach | assets/js/edicion.js:195-216 | an existing first-element wrapper is reused and only it changes; otherwise one new wrapper holds all former children; either way the element is wrapped with the id |
| Highlight.AttachPropagates | assets/js/edicion.js:233-243 | in the reading page a new id reaches every wrapper below the target's wrapper |
| Highlight.AttachNoPropagation | assets/js/laboratorio-de-notas.js:298-305 | in the laboratory nothing below the target's wrapper changes |
| Highlight.PropAllReaches | assets/js/edicion.js:234-243 | after propagation every wrapper in the subtree holds the id |
| Highlight.ApplyAtIsReplace | assets/js/edicion.js:195-216 | processing a target replaces exactly the first element with that id by its processed version; every other node stays as it was |
| Highlight.ProcessNotes | assets/js/edicion.js:134-248 | the pass keeps every id and every non-wrapper node in place: erasing wrappers gives back the input |
| Highlight.RunMarks | assets/js/edicion.js:159-231 | after the pass each note's resolvable targets are wrapped with a wrapper listing the note's id |
| Highlight.ProcessNotesIdempotent | assets/js/edicion.js:134-248 | a second pass with the same notes changes nothing: no new wrapper, group or handler |
| Highlight.ProcessNotesDupFree | assets/js/edicion.js:226-243 | group lists that start duplicate-free stay duplicate-free |
| Edicion.MouseEnter | assets/js/edicion.js:251-273 | entering a wrapper activates every element sharing one of its groups and deactivates none; only the classes change; no groups means no change |
| Edicion.MouseLeave | assets/js/edicion.js:276-306 | moving into a wrapper that shares a group changes nothing; otherwise every `note-active` class is removed |
| Edicion.MouseLeaveClears | assets/js/edicion.js:276-306 | after such a leave no element is active |
| Edicion.FindNote | assets/js/edicion.js:322-329 | the first note whose id is the given one, or none when no note has it |
| Edicion.Click | assets/js/edicion.js:309-346 | no groups: nothing; otherwise the note whose id is the first group is shown, or a not-found panel iff no note has that id |
| Edicion.IncreaseFont | assets/js/edicion.js:38-43 | a size in the allowed range stays in it; the size grows by at most 10, and stays put exactly when it is already at 150 or more |
| Edicion.DecreaseFont | assets/js/edicion.js:45-50 | a size in the allowed range stays in it; the size shrinks by at most 10, and stays put exactly when it is already at 70 or less |
| Edicion.FontStepsUndo | assets/js/edicion.js:38-50 | inside the range, a decrease undoes an increase below 150 and an increase undoes a decrease above 70 |
| Edicion.FontAlwaysInRange | assets/js/edicion.js:38-50 | from 100, any sequence of clicks keeps the size a multiple of ten between 70 and 150 |
| Laboratorio.MatchesMember | assets/js/laboratorio-de-notas.js:362 | a wrapper holding the id among its groups is selected by the substring selector |
| Laboratorio.SubstringAlsoMatches | assets/js/laboratorio-de-notas.js:362 | the selector also picks a wrapper whose only group is `n-12` when `n-1` is asked for |
| Laboratorio.HighlightNote | assets/js/laboratorio-de-notas.js:358-371 | exactly the selected wrappers get `note-active` set to the flag; nothing else changes |
| Laboratorio.MarkCurrent | assets/js/laboratorio-de-notas.js:375-401 | afterwards an element is current, and active, iff it is selected by the id; only classes change |
| Laboratorio.CurrentIsActive | assets/js/laboratorio-de-notas.js:375-401 | after marking, current and active coincide on every element |
| Laboratorio.RefreshButtons | assets/js/laboratorio-de-notas.js:632-642 | prev is disabled iff no earlier note, next iff no later note; nothing else changes |
| Laboratorio.LoadPassage | assets/js/laboratorio-de-notas.js:108-140 | out of range: the finish screen; otherwise index -1, nothing evaluated, the passage's notes are those targeting its fragment, the view is the highlighted rendering; the buttons keep their old state |
| Laboratorio.LoadPassageFixed | assets/js/laboratorio-de-notas.js:632-642 | the same load with the buttons refreshed keeps the laboratory invariant |
| Laboratorio.NextPassage | assets/js/laboratorio-de-notas.js:748-751 | the next passage is loaded with no current note, or the finish screen is shown after the last |
| Laboratorio.Navigate | assets/js/laboratorio-de-notas.js:406-424 | out of range: nothing; otherwise the note becomes current in the state, the text and the buttons, and nothing else changes |
| Laboratorio.PrevClick | assets/js/laboratorio-de-notas.js:715-719 | the index moves one back when there is an earlier note, and otherwise stays |
| Laboratorio.NextClick | assets/js/laboratorio-de-notas.js:721-729 | the index moves one forward when there is a later note, and otherwise stays |
| Laboratorio.NextClickFirstBranchCovers | assets/js/laboratorio-de-notas.js:721-729 | the `else if` branch never decides: with no note selected the first branch already goes to note 0 |
| Laboratorio.WrapperClick | assets/js/laboratorio-de-notas.js:312-326 | the note whose id is the wrapper's first group becomes current; with no such note nothing changes |
| Laboratorio.WrapperEnter | assets/js/laboratorio-de-notas.js:328-335 | the wrappers selected by the first group become active; only the view changes |
| Laboratorio.CurrentId | assets/js/laboratorio-de-notas.js:341-342 | an id is returned iff a note is current |
| Laboratorio.WrapperLeave | assets/js/laboratorio-de-notas.js:337-347 | the first group's highlight is removed unless it is the current note |
| Laboratorio.MarkEvaluated | assets/js/laboratorio-de-notas.js:570-581 | the id joins the evaluated set and nothing else changes |
| Laboratorio.NextPending | assets/js/laboratorio-de-notas.js:586-609 | the first pending note after the current one, else the first before it; "completed" only when every note is evaluated |
| Laboratorio.RenderNote | assets/js/laboratorio-de-notas.js:428-499 | the evaluated mark iff the note is evaluated; otherwise the buttons carry the counters and the first-evaluator message iff the total is 0 |
| Laboratorio.StaleNextButton | assets/js/laboratorio-de-notas.js:108-140 | as written, after moving on from a last current note the next button stays disabled over a passage that has a note |
| EvalStats.Obtain | assets/js/evaluaciones-stats.js:11-37 | counters come from the note object, else from the first cache entry for the note if that entry has counters, else zeros; non-zero counters always come from one of them |
| EvalStats.Count | assets/js/evaluaciones-stats.js:108-114 | one more evaluation, and one more useful or improvable vote by kind; consistency is kept |
| EvalStats.UpdateLocal | assets/js/evaluaciones-stats.js:87-120 | the first cache entry for the note gets the incremented counters, or a new entry is appended; other entries are untouched |
| EvalStats.ObtainAfterUpdate | assets/js/evaluaciones-stats.js:87-120 | after an update the cache answers with the new counters for that note and the old answer for every other |
| EvalStats.UpdateKeepsConsistent | assets/js/evaluaciones-stats.js:87-114 | consistent counters (no negatives, votes within total) stay consistent |
| EvalStats.RefreshAgreesWithMake | assets/js/evaluaciones-stats.js:126-147 | refreshing buttons built from older counters with newer (never smaller) consistent counters gives the buttons built from the newer ones |
| EvalStats.UpdateRemovesFirstMessage | assets/js/evaluaciones-stats.js:142-146 | after any local update the message is gone |
| VerseIds.LastNumbered | procesamiento/scripts/anadir_ids_versos.py:45-47 | the last verse with a number, or none when no verse has one |
| VerseIds.NumberFor | procesamiento/scripts/anadir_ids_versos.py:46-50 | a verse's own `n`, else for a split piece the last earlier `n`; the number exists only for numbered verses or pieces |
| VerseIds.IdForParses | procesamiento/scripts/anadir_ids_versos.py:60-73 | a new id reads back to the verse's number and, for a piece, to the letter counting the earlier pieces of that number (for a number without `-`) |
| VerseIds.Assigned | procesamiento/scripts/anadir_ids_versos.py:52-76 | numbers and parts are kept; an existing id or a missing number leaves the verse as it was; a numbered verse without an id gets the id its number and piece count call for |
| VerseIds.AssignAllSpec | procesamiento/scripts/anadir_ids_versos.py:38-76 | the pass keeps numbers, parts and existing ids, and afterwards a verse has an id exactly when it had one or has a number |
| VerseIds.AssignIds | procesamiento/scripts/anadir_ids_versos.py:38-76 | the loop computes the pass; its two counters count new and existing ids, and together they count the numbered verses |
| VerseIds.PiecesGetDistinctIds | procesamiento/scripts/anadir_ids_versos.py:61-70 | two pieces of the same verse number get different ids |
| VerseIds.AssignIdempotent | procesamiento/scripts/anadir_ids_versos.py:52-58 | running the script again changes nothing |
| VerseNumbers.NumberOf | procesamiento/scripts/numerar_versos.py:39-42 | a counted verse receives, and reads back as, the start plus the number of counted verses before it |
| VerseNumbers.NumberVersesIdempotent | procesamiento/scripts/numerar_versos.py:34-47 | numbering a division twice gives what numbering it once does, and afterwards a verse with a known `part` has `n` exactly when it is whole or an initial piece |
| VerseNumbers.NumberVersesLoop | procesamiento/scripts/numerar_versos.py:34-42 | the loop computes the numbering of the division and ends with the counter advanced by the counted verses |
| VerseNumbers.NumberLoop | procesamiento/scripts/numerar_versos.py:26-47 | over the selected divisions, numbering runs on from one division to the next, starting at 1 |
| VerseNumbers.NumbersGrow | procesamiento/scripts/numerar_versos.py:39-42 | numbers strictly increase in document order |
| VerseNumbers.NumbersCover | procesamiento/scripts/numerar_versos.py:39-42 | every number from the start up to the last is given to some verse |
| VerseNumbers.NumberPlay | procesamiento/scripts/numerar_versos.py:19-50 | only divisions of the selected kind in the namespace the path names are numbered, each from where the shared counter stood after the earlier ones; the reported total is the verses numbered |
| VerseNumbers.NumberPlayNumbers | procesamiento/scripts/numerar_versos.py:26-42 | a whole verse or initial piece of a selected division gets one more than the counted verses of the selected divisions before it, a number between 1 and the reported total |
| VerseNumbers.NumberPlayGrows | procesamiento/scripts/numerar_versos.py:26-42 | across all selected divisions the numbers strictly increase in document order |
| VerseNumbers.NumberPlayCovers | procesamiento/scripts/numerar_versos.py:26-50 | every number from 1 to the reported total is given to some counted verse, so the numbers are exactly 1 to the total |
| VerseNumbers.NumberAsWritten | procesamiento/scripts/numerar_versos.py:20-24 | the script's unprefixed paths only match a document without a namespace; any other document is left as it is |
| VerseNumbers.UnprefixedPathsFindNothing | procesamiento/scripts/numerar_versos.py:20-24 | on a TEI document with an act and a verse, the script as written numbers nothing |
| VerseNumbers.NumberTei | procesamiento/scripts/numerar_versos.py:19-50 | with TEI-qualified paths the TEI document's selected divisions are numbered with the shared counter and the total is their counted verses; any other document is left as it is |
| VerseNumbers.FallsBackToPlay | procesamiento/scripts/numerar_versos.py:22-24 | with no act division, the play division is numbered |
| SplitVerseIds.FixId | procesamiento/scripts/corregir_ids_versos_partidos.py:38 | a trailing `-a` becomes `-b`; the rest of the id is kept |
| SplitVerseIds.Fix | procesamiento/scripts/corregir_ids_versos_partidos.py:31-41 | a final piece whose id ends in `-a` gets that id with the final `a` made `b`; number and part are kept; a verse changes iff it needed the repair, and none needs it afterwards |
| SplitVerseIds.FixIds | procesamiento/scripts/corregir_ids_versos_partidos.py:29-42 | the loop leaves every verse as the repair makes it (the id's final `-a` made `-b` on a final piece) and counts the repairs |
| SplitVerseIds.CountFixesCountsChanges | procesamiento/scripts/corregir_ids_versos_partidos.py:41 | the count equals the number of positions that needed repair |
| SplitVerseIds.SecondRunChangesNothing | procesamiento/scripts/corregir_ids_versos_partidos.py:29-42 | a second run makes no corrections and leaves the verses as they are |
| SplitVerseIds.NoneLeft | procesamiento/scripts/corregir_ids_versos_partidos.py:35 | with nothing to repair, the count is 0 |
| SpIds.LocalNameSuffix | procesamiento/scripts/anadir_ids_sp.py:39-40 | the local name holds no `}` and ends the tag |
| SpIds.LocalNameIsLastPiece | procesamiento/scripts/anadir_ids_sp.py:39-40 | it is the last piece of `tag.split('}')`, or the tag when there is no `}` |
| SpIds.LocalNameOfQualified | procesamiento/scripts/anadir_ids_sp.py:39-40 | `{ns}sp` and `sp` both have local name `sp` |
| SpIds.AssignSpIds | procesamiento/scripts/anadir_ids_sp.py:101-111 | the loop gives each element its id from the count of speeches before it |
| SpIds.SpIdInjective | procesamiento/scripts/anadir_ids_sp.py:109 | different counters give different ids |
| SpIds.GeneratedIdsDistinct | procesamiento/scripts/anadir_ids_sp.py:101-111 | two speeches that are given new ids get different ids |
| SpIds.PreserveKeepsPositions | procesamiento/scripts/anadir_ids_sp.py:105-108 | a preserved id still uses up its number: a speech without an id gets the same id with or without `--preserve` |
| SpIds.IdsOutputPath | procesamiento/scripts/anadir_ids_sp.py:113-125 | `x.xml` and `x.XML` are written to `x.ids.xml` |
| SpIds.CollapseBlankLines | procesamiento/scripts/anadir_ids_sp.py:68-85 | the loop computes the collapse of blank runs |
| SpIds.CollapseNoDoubleBlank | procesamiento/scripts/anadir_ids_sp.py:72-83 | no two blank lines remain adjacent |
| SpIds.CollapseKeepsText | procesamiento/scripts/anadir_ids_sp.py:72-83 | the non-blank lines are kept, in order |
| Paths.ChooseOutput | procesamiento/scripts/limpiar_espacios_puntuacion.py:98-110 | `--inplace` wins, then `--output`, else a derived name ending in the suffix and different from the input |
| Paths.ChooseOutputKeepsStem | procesamiento/scripts/limpiar_espacios_puntuacion.py:107-108 | an `.xml` extension in any case is replaced and the stem kept |
| Paths.ChooseOutputAppends | procesamiento/scripts/limpiar_espacios_puntuacion.py:109-110 | without that extension the suffix is appended |
| Punctuation.DropBeforeCloser | procesamiento/scripts/limpiar_espacios_puntuacion.py:52 | a closer at the head of the result was preceded only by whitespace in the input |
| Punctuation.DropBeforeCloseTag | procesamiento/scripts/limpiar_espacios_puntuacion.py:54 | a `</` at the head of the result came after a whitespace run |
| Punctuation.CleanOnlyDeletesSpaces | procesamiento/scripts/limpiar_espacios_puntuacion.py:51-61 | cleaning only erases whitespace: the text without whitespace is unchanged |
| Punctuation.CleanLeavesNone | procesamiento/scripts/limpiar_espacios_puntuacion.py:76-82 | afterwards no whitespace precedes a closer or `</`, so the second count is 0 |
| Punctuation.CountZeroIff | procesamiento/scripts/limpiar_espacios_puntuacion.py:76 | the count is 0 iff no whitespace precedes a closer |
| Punctuation.MarkAfterTagFollowsSpace | procesamiento/scripts/limpiar_espacios_puntuacion.py:53 | wherever the second pattern matches, some whitespace is directly followed by a mark |
| Punctuation.CleanTextUnchanged | procesamiento/scripts/limpiar_espacios_puntuacion.py:51-61 | text with nothing to clean is unchanged |
| Punctuation.CleanIdempotent | procesamiento/scripts/limpiar_espacios_puntuacion.py:51-61 | cleaning twice is cleaning once |
| Punctuation.CleanOutputPath | procesamiento/scripts/limpiar_espacios_puntuacion.py:107-110 | `x.xml` and `x.XML` are written to `x.clean.xml` |
| Namespaces.DeclAt | procesamiento/scripts/limpiar_namespaces.py:12 | a match spans whitespace, `xmlns:ns0="` and the value up to its closing quote |
| Namespaces.OpenTagRenamed | procesamiento/scripts/limpiar_namespaces.py:8 | `<ns0:` becomes `<`; text before it without `<` is kept |
| Namespaces.CloseTagRenamed | procesamiento/scripts/limpiar_namespaces.py:9 | `</ns0:` becomes `</` |
| Namespaces.CloseTagSurvivesFirstPass | procesamiento/scripts/limpiar_namespaces.py:8-9 | the first substitution leaves `</ns0:` alone; the second one handles it |
| Namespaces.DeclRemoved | procesamiento/scripts/limpiar_namespaces.py:12 | a declaration goes with its leading whitespace and value; the text around it stays |
| Namespaces.CleanLeavesOtherText | procesamiento/scripts/limpiar_namespaces.py:8-12 | text without prefixes or declarations comes out unchanged |
| NotesText.NoteStart | procesamiento/scripts/convertir_notas_xml.py:36 | a match yields a non-empty digit run and a rest that does not begin with whitespace |
| NotesText.NoteStartMatches | procesamiento/scripts/convertir_notas_xml.py:36 | a line starts a note iff it is digits, whitespace, then anything; the parts are the number and the rest |
| NotesText.ParseNotes | procesamiento/scripts/convertir_notas_xml.py:28-60 | the loop computes the functional parse of the file's lines |
| NotesText.ParseNumbers | procesamiento/scripts/convertir_notas_xml.py:38-60 | one note per starting line, with the starting lines' numbers, in order |
| NotesText.RunContinues | procesamiento/scripts/convertir_notas_xml.py:50-53 | non-starting lines add their stripped non-blank text to the open note |
| NotesText.OneNote | procesamiento/scripts/convertir_notas_xml.py:38-60 | a note's text is its first line's rest joined with the continuation lines by spaces, stripped |
| NotesText.PreambleIgnored | procesamiento/scripts/convertir_notas_xml.py:50-53 | lines before the first note are dropped |
| NotesText.ParseWellFormed | procesamiento/scripts/convertir_notas_xml.py:43 | every note has a non-empty digit number and text that does not start with whitespace |
| NotesText.XmlLines | procesamiento/scripts/convertir_notas_xml.py:62-78 | header, eight lines per note, footer |
| NotesText.XmlRoundTrip | procesamiento/scripts/convertir_notas_xml.py:62-78 | reading the generated lines back by their fixed layout gives exactly the parsed notes |
| NotesText.BlocksRoundTrip | procesamiento/scripts/convertir_notas_xml.py:68-76 | the note blocks alone read back to the notes |
| NotesText.OutputFor | procesamiento/scripts/convertir_notas_xml.py:81-82 | a given output is used; otherwise `notas.xml` |
| NotesText.DefaultOutputBeside | procesamiento/scripts/convertir_notas_xml.py:82 | the default output sits in the input's directory |
| NotePositions.EntitiesWellFormed | procesamiento/scripts/extraer_posiciones_notas.py:17-34 | the sixteen entities are distinct, each `&name;`, and none yields `&` |
| NotePositions.CleanText | procesamiento/scripts/extraer_posiciones_notas.py:14-41 | the result has single spaces only and no leading or trailing space |
| NotePositions.EntityReplaced | procesamiento/scripts/extraer_posiciones_notas.py:36-37 | an entity in `&`-free text becomes its character |
| NotePositions.CleanPlain | procesamiento/scripts/extraer_posiciones_notas.py:36-40 | `&`-free text is only whitespace-squashed |
| NotePositions.NoteOf | procesamiento/scripts/extraer_posiciones_notas.py:56-103 | a note iff the link text is digits and there is a container with words before the mark; the number is that integer; the full text is the first 200 characters of the cleaned text, or all of it when shorter |
| NotePositions.NoteContext | procesamiento/scripts/extraer_posiciones_notas.py:92-96 | the context is the last five words (fewer when there are fewer), and the word is the last |
| NotePositions.FileNotesSpec | procesamiento/scripts/extraer_posiciones_notas.py:56-105 | a file's notes are exactly the notes its marks yield |
| NotePositions.AllNotesSound | procesamiento/scripts/extraer_posiciones_notas.py:118-124 | every note collected comes from some file |
| NotePositions.SortNotes | procesamiento/scripts/extraer_posiciones_notas.py:127 | sorting permutes the notes |
| NotePositions.SortNotesSpec | procesamiento/scripts/extraer_posiciones_notas.py:127 | ascending by number, stable for equal numbers |
| NotePositions.MissingSpec | procesamiento/scripts/extraer_posiciones_notas.py:153-156 | a number is reported iff it lies between min and max and is absent; the list strictly ascends |
| NotePositions.Missing | procesamiento/scripts/extraer_posiciones_notas.py:146-156 | no notes gives no answer (`min` of an empty list fails); otherwise the gaps |
| NotePositions.ExtractMissing | procesamiento/scripts/extraer_posiciones_notas.py:118-156 | over the sorted notes, a number is missing iff it lies between the first and last note's numbers and no note has it |
| MapNotes.DeletePunct | procesamiento/scripts/mapear_notas_xml.py:19 | no deleted character remains, and every remaining one was in the input |
| MapNotes.DeletePunctSpec | procesamiento/scripts/mapear_notas_xml.py:19 | the deletion distributes over concatenation and keeps a single character iff it is not in the class, so it is exactly the filter that keeps every other character in order |
| MapNotes.Normalize | procesamiento/scripts/mapear_notas_xml.py:14-21 | the result is single-spaced and free of the deleted punctuation |
| MapNotes.NormalizeKeepsWords | procesamiento/scripts/mapear_notas_xml.py:14-21 | the result has the same words as the lower-cased text with the punctuation deleted |
| MapNotes.NormalizeIdempotent | procesamiento/scripts/mapear_notas_xml.py:14-21 | normalising twice is normalising once |
| MapNotes.CountFound | procesamiento/scripts/mapear_notas_xml.py:50 | at most as many words as there are |
| MapNotes.CountFoundAll | procesamiento/scripts/mapear_notas_xml.py:50 | every word is found iff the count is the number of words |
| MapNotes.ValueBounds | procesamiento/scripts/mapear_notas_xml.py:51 | the score lies in [0,1] |
| MapNotes.ValueOrder | procesamiento/scripts/mapear_notas_xml.py:79 | over one context, scores compare as their found counts |
| MapNotes.WindowSpec | procesamiento/scripts/mapear_notas_xml.py:54-62 | a text is in the window exactly when it is the text of a sibling whose tag ends in `l` at most two places from the verse |
| MapNotes.FinalScore | procesamiento/scripts/mapear_notas_xml.py:49-69 | out of the context's words; either the verse's own score or the window's, and never below either, so the window's replaces the verse's exactly when it is larger |
| MapNotes.CandidatesComplete | procesamiento/scripts/mapear_notas_xml.py:40-76 | every verse containing the normalised word gives a candidate |
| MapNotes.CandidatesSound | procesamiento/scripts/mapear_notas_xml.py:40-76 | every candidate comes from a verse containing the word |
| MapNotes.Find | procesamiento/scripts/mapear_notas_xml.py:79 | sorting permutes the candidates |
| MapNotes.FindSpec | procesamiento/scripts/mapear_notas_xml.py:79 | descending by score, stable among equal scores |
| MapNotes.Classify | procesamiento/scripts/mapear_notas_xml.py:113-132 | not found iff no candidate; mapped to the first; or ambiguous with the first five |
| MapNotes.ClassifySorted | procesamiento/scripts/mapear_notas_xml.py:115 | on sorted candidates: mapped iff the best strictly wins, ambiguous iff the second ties the first |
| MapNotes.Lists | procesamiento/scripts/mapear_notas_xml.py:99-132 | the three lists together hold one entry per note |
| MapNotes.MappingsSound | procesamiento/scripts/mapear_notas_xml.py:115-124 | each mapping is a note's clear best candidate |
| MapNotes.NotFoundSound | procesamiento/scripts/mapear_notas_xml.py:113-114 | each unfound note has no candidate |
| MapNotes.MultiplesSound | procesamiento/scripts/mapear_notas_xml.py:125-132 | each multiple is a note classified as ambiguous, with the first five (or fewer) of its sorted candidates |
| MapNotes.ListsComplete | procesamiento/scripts/mapear_notas_xml.py:103-132 | every note appears in the list of its bucket: unmatched in the not-found list, a note whose first sorted candidate is alone or strictly best as a mapping with that verse and score, an ambiguous note as a multiple entry with the first five (or fewer) of its sorted candidates |
| MapNotes.MapAll | procesamiento/scripts/mapear_notas_xml.py:99-132 | the loop computes the three lists |
| ApplyNotes.MatchEnd | procesamiento/scripts/aplicar_notas_xml.py:27-45 | the end of a case-insensitive occurrence; none iff the word does not occur at all |
| ApplyNotes.MatchEndIsLeftmost | procesamiento/scripts/aplicar_notas_xml.py:33-45 | a whole-word match wins, and the leftmost one; otherwise the leftmost occurrence |
| ApplyNotes.RemoveInserted | procesamiento/scripts/aplicar_notas_xml.py:53 | removing the inserted marker gives back the text |
| ApplyNotes.Marker | procesamiento/scripts/aplicar_notas_xml.py:53 | the marker is two longer than the number, starts with `{`, ends with `}`, and what lies between is the number |
| ApplyNotes.WalkSucceeds | procesamiento/scripts/aplicar_notas_xml.py:68-86 | an in-range position is always placed in some child text or tail |
| ApplyNotes.WalkSpec | procesamiento/scripts/aplicar_notas_xml.py:68-86 | the walk inserts the marker at exactly that position of the verse's full text |
| ApplyNotes.InsertInLineSpec | procesamiento/scripts/aplicar_notas_xml.py:50-86 | insertion succeeds iff the verse has text, and then the marker sits at that position of the full text |
| ApplyNotes.InsertNoteSpec | procesamiento/scripts/aplicar_notas_xml.py:20-86 | the note is inserted iff the word occurs and the verse has text; the full text gains the marker right after the match |
| ApplyNotes.TextOnlyVerse | procesamiento/scripts/aplicar_notas_xml.py:50-54 | a verse of text only gets the marker after the word |
| ApplyNotes.FindVerse | procesamiento/scripts/aplicar_notas_xml.py:117-127 | the first verse with that number, or none |
| ApplyNotes.StepSpec | procesamiento/scripts/aplicar_notas_xml.py:116-138 | the verse is missing iff the outcome is the not-found failure; a failure leaves the document as it was; outcomes name the entry's note; verse numbers never change |
| ApplyNotes.OutcomesSpec | procesamiento/scripts/aplicar_notas_xml.py:108-138 | one outcome per mapping, naming its note; a mapping whose verse the document lacks fails with "not found" |
| ApplyNotes.BucketsPartition | procesamiento/scripts/aplicar_notas_xml.py:103-138 | applied plus failed count every mapping |
| ApplyNotes.ApplyAll | procesamiento/scripts/aplicar_notas_xml.py:89-143 | the loop computes the final document and the two lists |
| ApplyNotes.Report | procesamiento/scripts/aplicar_notas_xml.py:146-169 | a header and one line per unfound, ambiguous and failed note |
| ApplyNotes.ReportLines | procesamiento/scripts/aplicar_notas_xml.py:153-166 | the sections come in order, each line starting with the note number and its problem kind |
| SplitCandidates.KeepWordsAndSpaces | procesamiento/scripts/detectar_versos_partidos.py:14 | only word characters and whitespace remain, and text made only of them is kept whole |
| SplitCandidates.KeepWordsAndSpacesSpec | procesamiento/scripts/detectar_versos_partidos.py:14 | the filter works character by character: it distributes over concatenation, and keeps a single character exactly when it is a word character or whitespace |
| SplitCandidates.FindRuns | procesamiento/scripts/detectar_versos_partidos.py:16 | each run is a non-empty block of vowels |
| SplitCandidates.FindRunsCountsStarts | procesamiento/scripts/detectar_versos_partidos.py:16 | the number of runs is the number of positions where a vowel block starts |
| SplitCandidates.SyllablesCountStarts | procesamiento/scripts/detectar_versos_partidos.py:12-17 | the syllable estimate counts the vowel blocks of the cleaned lower-case text |
| SplitCandidates.FindRunsEmptyIff | procesamiento/scripts/detectar_versos_partidos.py:16 | no runs iff no vowel |
| SplitCandidates.PairCandidateSpec | procesamiento/scripts/detectar_versos_partidos.py:38-89 | a candidate iff both speeches have speakers and verses, neither piece is marked, both are short, the speakers differ and the sum lies in 7..12 |
| SplitCandidates.CandidatesSpec | procesamiento/scripts/detectar_versos_partidos.py:34-89 | the candidates are exactly the qualifying adjacent pairs |
| Who.Add | procesamiento/scripts/asignar_who.py:40 | `setdefault(...).add`: the id joins that name's set, and other names are untouched |
| Who.AddPersonsSpec | procesamiento/scripts/asignar_who.py:35-40 | an id is recorded for a name iff it was already there, or some person with an id and a name gives it |
| Who.AddRolesSpec | procesamiento/scripts/asignar_who.py:43-47 | the same for roles with `corresp` |
| Who.BuildSpec | procesamiento/scripts/asignar_who.py:35-47 | the assignments hold an id for a name iff some person or role gives it |
| Who.Resolve | procesamiento/scripts/asignar_who.py:53-69 | skipped iff `who` is set or there is no speaker; resolved iff one match; ambiguous iff more; missing iff none |
| Who.ResolveApply | procesamiento/scripts/asignar_who.py:53-69 | the speaker is kept; a speech with a `who` or no speaker text is left alone, as is one whose name matches no id or several; one that matches exactly one id gets that id |
| Who.AssignWith | procesamiento/scripts/asignar_who.py:53-69 | every speech is resolved against the assignments; the ambiguous and missing lists hold the speaker texts of those outcomes in speech order, with the ambiguous ids; the three tallies add up to the speeches considered |
| Who.AssignAsWritten | procesamiento/scripts/asignar_who.py:35-69 | the script as written, reading the person id under the literal key `xml:id` |
| Who.AsWrittenIgnoresPersons | procesamiento/scripts/asignar_who.py:36 | parsed persons never have that key, so only roles contribute |
| Who.PersonIdLost | procesamiento/scripts/asignar_who.py:36-40 | a person `laurencia` named LAURENCIA is missed as written and resolved when corrected |
| Who.Assign | procesamiento/scripts/asignar_who.py:35-69 | the corrected script, reading the namespaced id; its missing list is the unmatched speaker texts in order |

## Left out

- File and network I/O are not modelled: reading and writing files, `argparse`, backups, pretty-printing and indentation, JSON, Supabase, the CETEI renderer (a parameter `render`), timers, `scrollIntoView`, toasts and console output. XML and HTML parsing is not modelled either: the scripts' element lists, and the BeautifulSoup traversal in `extraer_posiciones_notas.py`, are given as inputs.
- Floating-point values are not modelled: the window resize handler and CSS sizes.
- The pages' other scripts are not modelled: tabs, stanza toggles, the resize handle and mutation observers in `edicion.js`, and `modal-modo.js`, `user-manager.js`, `editor-social.js` and `edicion-evaluacion.js`. The laboratory's vote buttons and comment form, which call Supabase, are also out.
- `revisar_versos_interactivo.py` is interactive console I/O and is not part of this model.
- Unicode is approximated:
  - `str.lower`, `str.upper`, `\w`, `\d` and `isdigit` are modelled over the Latin characters the edition uses;
  - `unicodedata.normalize` in `asignar_who.py` is the parameter `norm`.
- MapNotes.FinalScore: a score is kept as a found count over the shared number of context words, not a Python float. The comparisons the script makes (sorting and the tie test) are proved to depend only on those counts (`MapNotes.ValueOrder`).
- MapNotes.Window: `tag.endswith('l')` is decided on the tag string; lxml comments and processing instructions among the siblings are not modelled.
- MapNotes.Lists: the mapping's `xpath` field is not modelled.
- VerseIds.SuffixChar: `chr(ord('a') + k)` is exact below the surrogate range; beyond it the model picks another character, and `PiecesGetDistinctIds` requires fewer pieces than that.
- VerseNumbers.NumberPlay: a division's verses are all its `<l>` descendants, as `.//l` finds them; divisions are taken not to nest, so the script numbering again the verses of an act that sits inside another selected act is not modelled.
- ApplyNotes.WalkSpec: only the verse's direct children are walked. Text of grandchildren is part of `itertext()` in the script, and is not modelled.
- Who.AssignWith: the ambiguous ids are reported as a set; the script's `sorted` order is not modelled.
- NotesText.XmlLines: the note text goes into the file unescaped (`convertir_notas_xml.py:74`), so a note holding `&` or `<` gives a file that is not well-formed XML. The model reads the lines back by their fixed layout, not with an XML parser, and does not model escaping.
- NotesText.DefaultOutput: path normalisation by `pathlib` (repeated or trailing slashes) is not modelled.

## Findings

| source | as written | input that shows it | evidently intended | confidence | as-written member | corrected member |
|---|---|---|---|---|---|---|
| assets/js/laboratorio-de-notas.js:108-140 | `cargarPasaje` resets the current note to -1 and loads new notes, but never calls `actualizarBotonesNavegacion` | leave a passage whose only note was current (both buttons disabled) for a passage with one note: the next button stays disabled, so that note cannot be reached by the buttons | refresh the buttons after a load, as the initial load does through `setupEventListeners` | not executed | Laboratorio.LoadPassage, Laboratorio.StaleNextButton | Laboratorio.LoadPassageFixed |
| procesamiento/scripts/numerar_versos.py:20-30 | `findall('.//div[@type="act"]', ns)` and `.//l` carry no `tei:` prefix, so they only match elements outside any namespace | the edition's TEI file, whose elements are all in the TEI namespace (declared as the default namespace, which `limpiar_namespaces.py` leaves in place): no act, no play, no verse is found, and the total is 0; a file that `limpiar_namespaces.py` has stripped of an `ns0` prefix and its declaration has no namespace, and there the unprefixed paths do match (the `d.ns == ""` case of `NumberAsWritten`) | search for `tei:div` and `tei:l` | not executed; medium, since it depends on how the input file declares its namespace | VerseNumbers.NumberAsWritten, VerseNumbers.UnprefixedPathsFindNothing | VerseNumbers.NumberTei |
| procesamiento/scripts/asignar_who.py:36 | `pers.get("xml:id")` asks for the literal attribute name, but a parsed `xml:id` is stored as `{http://www.w3.org/XML/1998/namespace}id` | a `person` with `xml:id="laurencia"` and name LAURENCIA, with no matching role: the speaker LAURENCIA is reported missing | read the namespaced key, as `anadir_ids_sp.py` does | not executed | Who.AssignAsWritten, Who.AsWrittenIgnoresPersons, Who.PersonIdLost | Who.Assign |

=== FILE: apply_notes.dfy ===
/**
  `aplicar_notas_xml.py`: a note marker `{n}` is put into the text of a verse
  `<l>` right after the word the note is about; the mapping entries are
  applied one after the other and each ends up applied or failed; the review
  report lists what is left for a person to do.
 */
module ApplyNotes {
  import opened Text

  // ---------------------------------------------------------------------
  // Finding the word
  // ---------------------------------------------------------------------

  /** A word character of `s` at position `p`; outside the text there is none. */
  predicate WordAt(s: string, p: int) {
    0 <= p < |s| && IsWordChar(s[p])
  }

  /** `\b` at position `p`: a word character on exactly one side. */
  predicate Boundary(s: string, p: int) {
    WordAt(s, p - 1) != WordAt(s, p)
  }

  /** `\b` + `re.escape(w)` + `\b` matches at `i`. */
  predicate WholeWordAt(s: string, w: string, i: int) {
    OccursAt(s, w, i) && Boundary(s, i) && Boundary(s, i + |w|)
  }

  /** `re.search` for the whole word, starting the scan at `i`: the leftmost
      position where it matches. */
  function WholeWordFrom(s: string, w: string, i: nat): (r: Option<nat>)
    ensures r.Some? ==> i <= r.value && WholeWordAt(s, w, r.value)
    ensures r.Some? ==> forall j :: i <= j < r.value ==> !WholeWordAt(s, w, j)
    ensures r.None? ==> forall j :: i <= j ==> !WholeWordAt(s, w, j)
    decreases |s| - i
  {
    if i + |w| > |s| then None
    else if WholeWordAt(s, w, i) then Some(i)
    else WholeWordFrom(s, w, i + 1)
  }

  /** `pos_fin`: where the word ends in the verse's text, both lower-cased;
      the whole-word match is tried first, then any occurrence. */
  function MatchEnd(text: string, word: string): (r: Option<nat>)
    ensures r.Some? ==> |word| <= r.value <= |text|
    ensures r.Some? ==> OccursAt(Lower(text), Lower(word), r.value - |word|)
    ensures r.None? <==> !Contains(Lower(text), Lower(word))
  {
    var s := Lower(text);
    var w := Lower(word);
    match WholeWordFrom(s, w, 0)
    case Some(i) =>
      ContainsIff(s, w);
      Some(i + |w|)
    case None =>
      match IndexOf(s, w)
      case Some(i) => Some(i + |w|)
      case None => None
  }

  /** The word found is the leftmost whole-word occurrence when there is one,
      and otherwise the leftmost occurrence of any kind. */
  lemma MatchEndIsLeftmost(text: string, word: string)
    ensures forall j :: WholeWordAt(Lower(text), Lower(word), j) ==>
      && MatchEnd(text, word).Some?
      && MatchEnd(text, word).value - |word| <= j
      && WholeWordAt(Lower(text), Lower(word), MatchEnd(text, word).value - |word|)
    ensures (forall j :: !WholeWordAt(Lower(text), Lower(word), j)) ==>
      forall j :: OccursAt(Lower(text), Lower(word), j) ==>
        MatchEnd(text, word).Some? && MatchEnd(text, word).value - |word| <= j
  {
    var s := Lower(text);
    var w := Lower(word);
    var m := WholeWordFrom(s, w, 0);
    if m.None? {
      ContainsIff(s, w);
    }
  }

  // ---------------------------------------------------------------------
  // The verse and its text segments
  // ---------------------------------------------------------------------

  /** A child element of the verse (a `<seg>`, say) with its text and the
      tail text that follows it. Grandchildren are not modelled. */
  datatype Child = Child(text: Option<string>, tail: Option<string>)

  /** An `<l>` element: its leading text and its children. */
  datatype Line = Line(text: Option<string>, children: seq<Child>)

  /** The text a segment contributes. */
  function Seg(o: Option<string>): (r: string)
    ensures |r| > 0 <==> Present(o)
  {
    if Present(o) then o.value else ""
  }

  function ChildText(c: Child): string {
    Seg(c.text) + Seg(c.tail)
  }

  /** The text of the children from the `k`-th on. */
  function ChildrenFrom(cs: seq<Child>, k: nat): string
    requires k <= |cs|
    decreases |cs| - k
  {
    if k == |cs| then "" else ChildText(cs[k]) + ChildrenFrom(cs, k + 1)
  }

  /** `''.join(l_elem.itertext())`. */
  function FullText(l: Line): string {
    Seg(l.text) + ChildrenFrom(l.children, 0)
  }

  /** `s[:pos] + m + s[pos:]`, with Python's clamping of a position past the end. */
  function InsertAt(s: string, pos: nat, m: string): (r: string)
    ensures |r| == |s| + |m|
  {
    var p := if pos <= |s| then pos else |s|;
    s[..p] + m + s[p..]
  }

  /** Taking `n` characters out at `pos`. */
  function RemoveAt(s: string, pos: nat, n: nat): string
    requires pos + n <= |s|
  {
    s[..pos] + s[pos + n..]
  }

  /** Deleting what was inserted gives the text back. */
  lemma RemoveInserted(s: string, pos: nat, m: string)
    requires pos <= |s|
    ensures RemoveAt(InsertAt(s, pos, m), pos, |m|) == s
  {
    var r := InsertAt(s, pos, m);
    assert r[..pos] == s[..pos];
    assert r[pos + |m|..] == s[pos..];
  }

  /** The marker `{n}`. */
  function Marker(number: string): (m: string)
    ensures |m| == |number| + 2 && m[0] == '{' && m[|m| - 1] == '}'
    ensures m[1..|m| - 1] == number
  {
    "{" + number + "}"
  }

  // ---------------------------------------------------------------------
  // insertar_nota_en_verso
  // ---------------------------------------------------------------------

  /** The walk over the children from the `k`-th on, `cur` being the offset
      reached: the first segment with text whose range, ends included,
      holds `pos` receives the marker. */
  function WalkChildren(cs: seq<Child>, k: nat, cur: nat, pos: nat, m: string): Option<seq<Child>>
    requires k <= |cs|
    decreases |cs| - k
  {
    if k == |cs| then None
    else
      var c := cs[k];
      if Present(c.text) && cur <= pos <= cur + |c.text.value| then
        Some(cs[k := c.(text := Some(InsertAt(c.text.value, pos - cur, m)))])
      else
        var cur1 := cur + |Seg(c.text)|;
        if Present(c.tail) && cur1 <= pos <= cur1 + |c.tail.value| then
          Some(cs[k := c.(tail := Some(InsertAt(c.tail.value, pos - cur1, m)))])
        else WalkChildren(cs, k + 1, cur1 + |Seg(c.tail)|, pos, m)
  }

  /** The marker `m` put at offset `pos` of the verse's text: a verse that is
      only text takes it directly; otherwise the leading text, then each
      child's text and tail are tried. `None` is the `False` of the source. */
  function InsertInLine(l: Line, pos: nat, m: string): Option<Line> {
    if |l.children| == 0 && Present(l.text) then
      Some(l.(text := Some(InsertAt(l.text.value, pos, m))))
    else if Present(l.text) && pos <= |l.text.value| then
      Some(l.(text := Some(InsertAt(l.text.value, pos, m))))
    else
      match WalkChildren(l.children, 0, |Seg(l.text)|, pos, m)
      case Some(cs) => Some(l.(children := cs))
      case None => None
  }

  /** `insertar_nota_en_verso(l, palabra, numero)`. */
  function InsertNote(l: Line, word: string, number: string): Option<Line> {
    match MatchEnd(FullText(l), word)
    case None => None
    case Some(pos) => InsertInLine(l, pos, Marker(number))
  }

  lemma InsertLeft(a: string, b: string, p: nat, m: string)
    requires p <= |a|
    ensures InsertAt(a, p, m) + b == InsertAt(a + b, p, m)
  {
    assert (a + b)[..p] == a[..p];
    assert (a + b)[p..] == a[p..] + b;
  }

  lemma InsertRight(a: string, b: string, p: nat, m: string)
    requires |a| <= p <= |a| + |b|
    ensures a + InsertAt(b, p - |a|, m) == InsertAt(a + b, p, m)
  {
    assert (a + b)[..p] == a + b[..p - |a|];
    assert (a + b)[p..] == b[p - |a|..];
  }

  /** Changing the `k`-th child leaves the text of the later ones alone. */
  lemma {:induction false} ChildrenFromUpdate(cs: seq<Child>, k: nat, c: Child, j: nat)
    requires k < j <= |cs|
    ensures ChildrenFrom(cs[k := c], j) == ChildrenFrom(cs, j)
    decreases |cs| - j
  {
    if j < |cs| {
      ChildrenFromUpdate(cs, k, c, j + 1);
    }
  }

  /** The walk succeeds exactly when some text is left and `pos` is not past
      its end. */
  lemma {:induction false} WalkSucceeds(cs: seq<Child>, k: nat, cur: nat, pos: nat, m: string)
    requires k <= |cs| && cur <= pos
    ensures WalkChildren(cs, k, cur, pos, m).Some?
            <==> 0 < |ChildrenFrom(cs, k)| && pos <= cur + |ChildrenFrom(cs, k)|
    decreases |cs| - k
  {
    if k < |cs| {
      var c := cs[k];
      var t := Seg(c.text);
      var u := Seg(c.tail);
      assert ChildrenFrom(cs, k) == t + u + ChildrenFrom(cs, k + 1);
      var cur1 := cur + |t|;
      if !(Present(c.text) && cur <= pos <= cur + |c.text.value|)
         && !(Present(c.tail) && cur1 <= pos <= cur1 + |c.tail.value|) {
        WalkSucceeds(cs, k + 1, cur1 + |u|, pos, m);
      }
    }
  }

  /** What a successful walk leaves: one child changed, and the children's
      text is the old text with the marker at `pos`. */
  predicate WalkOk(cs: seq<Child>, k: nat, cur: nat, pos: nat, m: string)
    requires k <= |cs| && cur <= pos
  {
    var w := WalkChildren(cs, k, cur, pos, m);
    w.Some? ==>
      && |w.value| == |cs|
      && (exists j :: k <= j < |cs| && w.value == cs[j := w.value[j]])
      && ChildrenFrom(w.value, k) == InsertAt(ChildrenFrom(cs, k), pos - cur, m)
  }

  /** When it succeeds, the walk changes one child, and the children's text
      is the old text with the marker at `pos`. */
  lemma {:induction false} WalkSpec(cs: seq<Child>, k: nat, cur: nat, pos: nat, m: string)
    requires k <= |cs| && cur <= pos
    ensures WalkOk(cs, k, cur, pos, m)
    decreases |cs| - k
  {
    if k < |cs| {
      var c := cs[k];
      var cur1 := cur + |Seg(c.text)|;
      if Present(c.text) && cur <= pos <= cur + |c.text.value| {
        WalkIntoText(cs, k, cur, pos, m);
      } else if Present(c.tail) && cur1 <= pos <= cur1 + |c.tail.value| {
        WalkIntoTail(cs, k, cur, pos, m);
      } else {
        var cur2 := cur1 + |Seg(c.tail)|;
        WalkSpec(cs, k + 1, cur2, pos, m);
        WalkSucceeds(cs, k + 1, cur2, pos, m);
        WalkPast(cs, k, cur, pos, m);
      }
    }
  }

  lemma WalkIntoText(cs: seq<Child>, k: nat, cur: nat, pos: nat, m: string)
    requires k < |cs| && cur <= pos
    requires Present(cs[k].text) && pos <= cur + |cs[k].text.value|
    ensures WalkOk(cs, k, cur, pos, m)
  {
    var c := cs[k];
    var c' := c.(text := Some(InsertAt(c.text.value, pos - cur, m)));
    assert WalkChildren(cs, k, cur, pos, m) == Some(cs[k := c']);
    IntoText(cs, k, pos - cur, m);
  }

  lemma WalkIntoTail(cs: seq<Child>, k: nat, cur: nat, pos: nat, m: string)
    requires k < |cs| && cur <= pos
    requires !(Present(cs[k].text) && pos <= cur + |cs[k].text.value|)
    requires Present(cs[k].tail)
    requires cur + |Seg(cs[k].text)| <= pos <= cur + |Seg(cs[k].text)| + |cs[k].tail.value|
    ensures WalkOk(cs, k, cur, pos, m)
  {
    var c := cs[k];
    var cur1 := cur + |Seg(c.text)|;
    var c' := c.(tail := Some(InsertAt(c.tail.value, pos - cur1, m)));
    assert WalkChildren(cs, k, cur, pos, m) == Some(cs[k := c']);
    IntoTail(cs, k, pos - cur, m);
  }

  lemma WalkPast(cs: seq<Child>, k: nat, cur: nat, pos: nat, m: string)
    requires k < |cs| && cur <= pos
    requires !(Present(cs[k].text) && pos <= cur + |cs[k].text.value|)
    requires !(Present(cs[k].tail) && cur + |Seg(cs[k].text)| <= pos <= cur + |Seg(cs[k].text)| + |cs[k].tail.value|)
    requires cur + |ChildText(cs[k])| <= pos
    requires WalkOk(cs, k + 1, cur + |ChildText(cs[k])|, pos, m)
    requires WalkChildren(cs, k + 1, cur + |ChildText(cs[k])|, pos, m).Some?
             ==> pos <= cur + |ChildText(cs[k])| + |ChildrenFrom(cs, k + 1)|
    ensures WalkOk(cs, k, cur, pos, m)
  {
    var cur2 := cur + |ChildText(cs[k])|;
    var w := WalkChildren(cs, k + 1, cur2, pos, m);
    WalkPastStep(cs, k, cur, pos, m);
    if w.Some? {
      PastResult(cs, k, w.value, pos - cur2, m);
      assert pos - cur2 + |ChildText(cs[k])| == pos - cur;
    }
  }

  /** What the walk from the next child leaves, seen from the `k`-th child. */
  lemma PastResult(cs: seq<Child>, k: nat, r: seq<Child>, q: nat, m: string)
    requires k < |cs| == |r| && q <= |ChildrenFrom(cs, k + 1)|
    requires exists j :: k + 1 <= j < |cs| && r == cs[j := r[j]]
    requires ChildrenFrom(r, k + 1) == InsertAt(ChildrenFrom(cs, k + 1), q, m)
    ensures exists j :: k <= j < |cs| && r == cs[j := r[j]]
    ensures ChildrenFrom(r, k) == InsertAt(ChildrenFrom(cs, k), q + |ChildText(cs[k])|, m)
  {
    var j :| k + 1 <= j < |cs| && r == cs[j := r[j]];
    assert r[k] == cs[k];
    PastChild(cs, k, r, q, m);
  }

  /** A child whose text and tail both miss `pos` is walked past. */
  lemma WalkPastStep(cs: seq<Child>, k: nat, cur: nat, pos: nat, m: string)
    requires k < |cs| && cur <= pos
    requires !(Present(cs[k].text) && pos <= cur + |cs[k].text.value|)
    requires !(Present(cs[k].tail) && cur + |Seg(cs[k].text)| <= pos <= cur + |Seg(cs[k].text)| + |cs[k].tail.value|)
    ensures WalkChildren(cs, k, cur, pos, m) == WalkChildren(cs, k + 1, cur + |ChildText(cs[k])|, pos, m)
  {
    assert |ChildText(cs[k])| == |Seg(cs[k].text)| + |Seg(cs[k].tail)|;
  }

  /** A walk that passed the `k`-th child by moves the marker's offset by that
      child's text. */
  lemma PastChild(cs: seq<Child>, k: nat, r: seq<Child>, q: nat, m: string)
    requires k < |cs| == |r| && r[k] == cs[k]
    requires q <= |ChildrenFrom(cs, k + 1)|
    requires ChildrenFrom(r, k + 1) == InsertAt(ChildrenFrom(cs, k + 1), q, m)
    ensures ChildrenFrom(r, k) == InsertAt(ChildrenFrom(cs, k), q + |ChildText(cs[k])|, m)
  {
    var a := ChildText(cs[k]);
    InsertRight(a, ChildrenFrom(cs, k + 1), q + |a|, m);
  }

  /** The marker put into the text of the `k`-th child, at offset `p` of the
      text from that child on. */
  lemma IntoText(cs: seq<Child>, k: nat, p: nat, m: string)
    requires k < |cs| && Present(cs[k].text) && p <= |cs[k].text.value|
    ensures var r := cs[k := cs[k].(text := Some(InsertAt(cs[k].text.value, p, m)))];
      r == cs[k := r[k]] && ChildrenFrom(r, k) == InsertAt(ChildrenFrom(cs, k), p, m)
  {
    var c := cs[k];
    var c' := c.(text := Some(InsertAt(c.text.value, p, m)));
    var r := cs[k := c'];
    var t := Seg(c.text);
    var u := Seg(c.tail);
    var rest := ChildrenFrom(cs, k + 1);
    ChildrenFromUpdate(cs, k, c', k + 1);
    assert ChildrenFrom(r, k) == InsertAt(t, p, m) + (u + rest);
    InsertLeft(t, u + rest, p, m);
    assert ChildrenFrom(cs, k) == t + (u + rest);
  }

  /** The marker put into the tail of the `k`-th child, at offset `p` of the
      text from that child on. */
  lemma IntoTail(cs: seq<Child>, k: nat, p: nat, m: string)
    requires k < |cs| && Present(cs[k].tail)
    requires |Seg(cs[k].text)| <= p <= |Seg(cs[k].text)| + |cs[k].tail.value|
    ensures var r := cs[k := cs[k].(tail := Some(InsertAt(cs[k].tail.value, p - |Seg(cs[k].text)|, m)))];
      r == cs[k := r[k]] && ChildrenFrom(r, k) == InsertAt(ChildrenFrom(cs, k), p, m)
  {
    var c := cs[k];
    var t := Seg(c.text);
    var u := Seg(c.tail);
    var c' := c.(tail := Some(InsertAt(u, p - |t|, m)));
    var r := cs[k := c'];
    var rest := ChildrenFrom(cs, k + 1);
    ChildrenFromUpdate(cs, k, c', k + 1);
    assert ChildrenFrom(r, k) == t + (InsertAt(u, p - |t|, m) + rest);
    InsertLeft(u, rest, p - |t|, m);
    InsertRight(t, u + rest, p, m);
    assert ChildrenFrom(cs, k) == t + (u + rest);
  }

  /** Put at an offset inside the verse's text, the marker goes in exactly
      when the verse has some text; the verse's text is then the old text
      with the marker at that offset, and at most one segment changed. */
  lemma InsertInLineSpec(l: Line, pos: nat, m: string)
    requires pos <= |FullText(l)|
    ensures InsertInLine(l, pos, m).Some? <==> |FullText(l)| > 0
    ensures InsertInLine(l, pos, m).Some? ==>
      && FullText(InsertInLine(l, pos, m).value) == InsertAt(FullText(l), pos, m)
      && |InsertInLine(l, pos, m).value.children| == |l.children|
      && (|| InsertInLine(l, pos, m).value.children == l.children
          || (&& InsertInLine(l, pos, m).value.text == l.text
              && exists j :: 0 <= j < |l.children| &&
                   InsertInLine(l, pos, m).value.children == l.children[j := InsertInLine(l, pos, m).value.children[j]]))
  {
    var t := Seg(l.text);
    var rest := ChildrenFrom(l.children, 0);
    if |l.children| == 0 && Present(l.text) {
      assert rest == "";
      assert FullText(l) == l.text.value;
    } else if Present(l.text) && pos <= |l.text.value| {
      InsertLeft(t, rest, pos, m);
    } else {
      WalkSucceeds(l.children, 0, |t|, pos, m);
      WalkSpec(l.children, 0, |t|, pos, m);
      var w := WalkChildren(l.children, 0, |t|, pos, m);
      if w.Some? {
        InsertRight(t, rest, pos, m);
      }
    }
  }

  /** The note goes in exactly when the lower-cased word occurs in the
      lower-cased verse text and that text is not empty; the verse's text is
      then the old text with `{n}` right after the word, so taking the marker
      out again gives the old text back. */
  lemma InsertNoteSpec(l: Line, word: string, number: string)
    ensures InsertNote(l, word, number).Some?
            <==> Contains(Lower(FullText(l)), Lower(word)) && |FullText(l)| > 0
    ensures InsertNote(l, word, number).Some? ==>
      && FullText(InsertNote(l, word, number).value)
         == InsertAt(FullText(l), MatchEnd(FullText(l), word).value, Marker(number))
      && RemoveAt(FullText(InsertNote(l, word, number).value), MatchEnd(FullText(l), word).value, |Marker(number)|)
         == FullText(l)
  {
    var pos := MatchEnd(FullText(l), word);
    if pos.Some? {
      InsertInLineSpec(l, pos.value, Marker(number));
      RemoveInserted(FullText(l), pos.value, Marker(number));
    }
  }

  /** A verse that is only text takes the marker in its text. */
  lemma TextOnlyVerse(text: string, word: string, number: string)
    requires Contains(Lower(text), Lower(word)) && |text| > 0
    ensures InsertNote(Line(Some(text), []), word, number)
            == Some(Line(Some(InsertAt(text, MatchEnd(text, word).value, Marker(number))), []))
  {
    assert FullText(Line(Some(text), [])) == text;
  }

  // ---------------------------------------------------------------------
  // aplicar_notas_automaticas
  // ---------------------------------------------------------------------

  /** An entry of `mapeo`: the note number, its word and the verse number. */
  datatype Entry = Entry(number: string, word: string, verse: string)

  /** A verse of the document with its `n`. */
  datatype Verse = Verse(n: Option<string>, line: Line)

  /** An entry of `fallidas`; `verseText` is absent when the verse was not found. */
  datatype Failure = Failure(number: string, reason: string, word: string, verseText: Option<string>)

  datatype Outcome = Applied(number: string) | Failed(failure: Failure)

  /** `.//tei:l[@n="v"]`, first result: the first verse numbered `v` from `i` on. */
  function FindVerse(doc: seq<Verse>, v: string, i: nat): (r: Option<nat>)
    requires i <= |doc|
    ensures r.Some? ==> i <= r.value < |doc| && doc[r.value].n == Some(v)
    ensures r.Some? ==> forall j :: i <= j < r.value ==> doc[j].n != Some(v)
    ensures r.None? ==> forall j :: i <= j < |doc| ==> doc[j].n != Some(v)
    decreases |doc| - i
  {
    if i == |doc| then None
    else if doc[i].n == Some(v) then Some(i)
    else FindVerse(doc, v, i + 1)
  }

  function NotFoundReason(v: string): string { "Verso " + v + " no encontrado" }
  function NotInsertedReason(v: string): string { "No se pudo insertar en verso " + v }

  /** One entry of the loop: the document afterwards and where the entry went. */
  function Step(doc: seq<Verse>, e: Entry): (seq<Verse>, Outcome) {
    match FindVerse(doc, e.verse, 0)
    case None => (doc, Failed(Failure(e.number, NotFoundReason(e.verse), e.word, None)))
    case Some(k) =>
      match InsertNote(doc[k].line, e.word, e.number)
      case Some(l) => (doc[k := doc[k].(line := l)], Applied(e.number))
      case None => (doc, Failed(Failure(e.number, NotInsertedReason(e.verse), e.word, Some(FullText(doc[k].line)))))
  }

  /** The numbers `n` of the document's verses. */
  function Numbers(doc: seq<Verse>): (r: seq<Option<string>>)
    ensures |r| == |doc| && forall k :: 0 <= k < |doc| ==> r[k] == doc[k].n
  {
    seq(|doc|, k requires 0 <= k < |doc| => doc[k].n)
  }

  /** The entry's outcome names its note; a missing verse is a failure that
      says so; the verses keep their numbers, and a failed entry leaves the
      document as it was. */
  lemma StepSpec(doc: seq<Verse>, e: Entry)
    ensures var (d, o) := Step(doc, e);
      && (o.Applied? ==> o.number == e.number)
      && (o.Failed? ==> o.failure.number == e.number && o.failure.word == e.word && d == doc)
      && (FindVerse(doc, e.verse, 0).None? <==> o == Failed(Failure(e.number, NotFoundReason(e.verse), e.word, None)))
      && Numbers(d) == Numbers(doc)
  {
    var k := FindVerse(doc, e.verse, 0);
    if k.Some? {
      assert NotInsertedReason(e.verse) != NotFoundReason(e.verse) by {
        assert NotInsertedReason(e.verse)[0] != NotFoundReason(e.verse)[0];
      }
    }
  }

  /** The outcomes of the entries in order, each seeing the document the
      earlier ones left. */
  function Outcomes(doc: seq<Verse>, es: seq<Entry>): seq<Outcome>
    decreases |es|
  {
    if |es| == 0 then [] else [Step(doc, es[0]).1] + Outcomes(Step(doc, es[0]).0, es[1..])
  }

  function FinalDoc(doc: seq<Verse>, es: seq<Entry>): seq<Verse>
    decreases |es|
  {
    if |es| == 0 then doc else FinalDoc(Step(doc, es[0]).0, es[1..])
  }

  /** `aplicadas`. */
  function AppliedNumbers(os: seq<Outcome>): seq<string> {
    if |os| == 0 then [] else (if os[0].Applied? then [os[0].number] else []) + AppliedNumbers(os[1..])
  }

  /** `fallidas`. */
  function Failures(os: seq<Outcome>): seq<Failure> {
    if |os| == 0 then [] else (if os[0].Failed? then [os[0].failure] else []) + Failures(os[1..])
  }

  lemma BucketsAppend(a: seq<Outcome>, b: seq<Outcome>)
    ensures AppliedNumbers(a + b) == AppliedNumbers(a) + AppliedNumbers(b)
    ensures Failures(a + b) == Failures(a) + Failures(b)
  {
    AppliedAppend(a, b);
    FailuresAppend(a, b);
  }

  lemma {:induction false} AppliedAppend(a: seq<Outcome>, b: seq<Outcome>)
    ensures AppliedNumbers(a + b) == AppliedNumbers(a) + AppliedNumbers(b)
    decreases |a|
  {
    if |a| == 0 {
      assert a + b == b;
    } else {
      var h := if a[0].Applied? then [a[0].number] else [];
      assert (a + b)[0] == a[0];
      assert (a + b)[1..] == a[1..] + b;
      assert AppliedNumbers(a + b) == h + AppliedNumbers(a[1..] + b);
      AppliedAppend(a[1..], b);
      SeqAssoc(h, AppliedNumbers(a[1..]), AppliedNumbers(b));
    }
  }

  lemma {:induction false} FailuresAppend(a: seq<Outcome>, b: seq<Outcome>)
    ensures Failures(a + b) == Failures(a) + Failures(b)
    decreases |a|
  {
    if |a| == 0 {
      assert a + b == b;
    } else {
      var h := if a[0].Failed? then [a[0].failure] else [];
      assert (a + b)[0] == a[0];
      assert (a + b)[1..] == a[1..] + b;
      assert Failures(a + b) == h + Failures(a[1..] + b);
      FailuresAppend(a[1..], b);
      SeqAssoc(h, Failures(a[1..]), Failures(b));
    }
  }

  /** Every outcome is in exactly one of the two lists. */
  lemma {:induction false} BucketsPartition(os: seq<Outcome>)
    ensures |AppliedNumbers(os)| + |Failures(os)| == |os|
    decreases |os|
  {
    if |os| > 0 {
      BucketsPartition(os[1..]);
    }
  }

  /** One outcome per entry, naming that entry's note; an entry whose verse
      the document lacks is a failure that says the verse was not found. */
  lemma {:induction false} OutcomesSpec(doc: seq<Verse>, es: seq<Entry>)
    ensures |Outcomes(doc, es)| == |es|
    ensures forall k :: 0 <= k < |es| ==>
      (if Outcomes(doc, es)[k].Applied? then Outcomes(doc, es)[k].number
       else Outcomes(doc, es)[k].failure.number) == es[k].number
    ensures forall k :: 0 <= k < |es| && FindVerse(doc, es[k].verse, 0).None? ==>
      Outcomes(doc, es)[k] == Failed(Failure(es[k].number, NotFoundReason(es[k].verse), es[k].word, None))
    decreases |es|
  {
    if |es| > 0 {
      var (d, o) := Step(doc, es[0]);
      StepSpec(doc, es[0]);
      OutcomesSpec(d, es[1..]);
      forall k | 0 < k < |es| && FindVerse(doc, es[k].verse, 0).None?
        ensures FindVerse(d, es[k].verse, 0).None?
      {
        SameNumbersSameFind(doc, d, es[k].verse);
      }
    }
  }

  /** Verses with the same numbers are found at the same place. */
  lemma SameNumbersSameFind(a: seq<Verse>, b: seq<Verse>, v: string)
    requires Numbers(a) == Numbers(b)
    ensures FindVerse(a, v, 0) == FindVerse(b, v, 0)
  {
    var x := FindVerse(a, v, 0);
    var y := FindVerse(b, v, 0);
    if x.Some? { assert Numbers(b)[x.value] == Some(v); }
    if y.Some? { assert Numbers(a)[y.value] == Some(v); }
  }

  lemma {:induction false} OutcomesAppend(doc: seq<Verse>, es: seq<Entry>, e: Entry)
    ensures Outcomes(doc, es + [e]) == Outcomes(doc, es) + [Step(FinalDoc(doc, es), e).1]
    ensures FinalDoc(doc, es + [e]) == Step(FinalDoc(doc, es), e).0
    decreases |es|
  {
    if |es| == 0 {
      assert es + [e] == [e];
    } else {
      assert (es + [e])[0] == es[0];
      assert (es + [e])[1..] == es[1..] + [e];
      OutcomesAppend(Step(doc, es[0]).0, es[1..], e);
    }
  }

  /** The loop of `aplicar_notas_automaticas` over `mapeo_data['mapeo']`. */
  method ApplyAll(doc: seq<Verse>, entries: seq<Entry>) returns (out: seq<Verse>, applied: seq<string>, failed: seq<Failure>)
    ensures out == FinalDoc(doc, entries)
    ensures applied == AppliedNumbers(Outcomes(doc, entries))
    ensures failed == Failures(Outcomes(doc, entries))
    ensures |applied| + |failed| == |entries|
  {
    out := doc;
    applied := [];
    failed := [];
    var i := 0;
    while i < |entries|
      invariant 0 <= i <= |entries|
      invariant out == FinalDoc(doc, entries[..i])
      invariant applied == AppliedNumbers(Outcomes(doc, entries[..i]))
      invariant failed == Failures(Outcomes(doc, entries[..i]))
    {
      var e := entries[i];
      assert entries[..i + 1] == entries[..i] + [e];
      OutcomesAppend(doc, entries[..i], e);
      BucketsAppend(Outcomes(doc, entries[..i]), [Step(out, e).1]);
      var k := FindVerse(out, e.verse, 0);
      if k.None? {
        failed := failed + [Failure(e.number, NotFoundReason(e.verse), e.word, None)];
      } else {
        var l := InsertNote(out[k.value].line, e.word, e.number);
        if l.Some? {
          out := out[k.value := out[k.value].(line := l.value)];
          applied := applied + [e.number];
        } else {
          failed := failed + [Failure(e.number, NotInsertedReason(e.verse), e.word, Some(FullText(out[k.value].line)))];
        }
      }
      i := i + 1;
    }
    assert entries[..i] == entries;
    OutcomesSpec(doc, entries);
    BucketsPartition(Outcomes(doc, entries));
  }

  // ---------------------------------------------------------------------
  // generar_informe_revision
  // ---------------------------------------------------------------------

  /** An entry of `no_encontradas`. */
  datatype NotFound = NotFound(number: string, word: string, context: string)

  /** A candidate verse of an ambiguous note. */
  datatype Candidate = Candidate(verse: string, text: string)

  /** An entry of `multiples`. */
  datatype Multiple = Multiple(number: string, word: string, context: string, candidates: seq<Candidate>)

  const ReportHeader := "Número Nota,Tipo Problema,Palabra,Contexto,Candidatos/Motivo"

  function NotFoundLine(n: NotFound): (r: string)
    ensures StartsWith(r, n.number + ",No encontrada,")
  {
    n.number + ",No encontrada," + n.word + ",\"" + n.context + "\",Palabra no existe en XML"
  }

  function CandidateText(c: Candidate): string {
    "v" + c.verse + ": " + Take(c.text, 40) + "..."
  }

  /** The first three candidates, joined by ` | `. */
  function CandidatesText(cs: seq<Candidate>): string {
    var k := if |cs| < 3 then |cs| else 3;
    Join(seq(k, i requires 0 <= i < k => CandidateText(cs[i])), " | ")
  }

  function MultipleLine(m: Multiple): (r: string)
    ensures StartsWith(r, m.number + ",Múltiples candidatos,")
  {
    m.number + ",Múltiples candidatos," + m.word + ",\"" + m.context + "\",\"" + CandidatesText(m.candidates) + "\""
  }

  function FailureLine(f: Failure): (r: string)
    ensures StartsWith(r, f.number + ",Falló inserción,")
  {
    var text := if f.verseText.Some? then f.verseText.value else "N/A";
    f.number + ",Falló inserción," + f.word + "," + f.reason + ",\"" + Take(text, 50) + "\""
  }

  /** The report's lines: the header, then one line per note not found,
      per ambiguous note and per failed insertion, in that order. */
  function Report(nf: seq<NotFound>, ms: seq<Multiple>, fs: seq<Failure>): (r: seq<string>)
    ensures |r| == 1 + |nf| + |ms| + |fs| && r[0] == ReportHeader
  {
    [ReportHeader]
    + seq(|nf|, i requires 0 <= i < |nf| => NotFoundLine(nf[i]))
    + seq(|ms|, i requires 0 <= i < |ms| => MultipleLine(ms[i]))
    + seq(|fs|, i requires 0 <= i < |fs| => FailureLine(fs[i]))
  }

  /** Each line after the header starts with its note's number and the kind
      of problem. */
  lemma ReportLines(nf: seq<NotFound>, ms: seq<Multiple>, fs: seq<Failure>)
    ensures forall i :: 0 <= i < |nf| ==> StartsWith(Report(nf, ms, fs)[1 + i], nf[i].number + ",No encontrada,")
    ensures forall i :: 0 <= i < |ms| ==> StartsWith(Report(nf, ms, fs)[1 + |nf| + i], ms[i].number + ",Múltiples candidatos,")
    ensures forall i :: 0 <= i < |fs| ==> StartsWith(Report(nf, ms, fs)[1 + |nf| + |ms| + i], fs[i].number + ",Falló inserción,")
  {
    var r := Report(nf, ms, fs);
    var a := seq(|nf|, i requires 0 <= i < |nf| => NotFoundLine(nf[i]));
    var b := seq(|ms|, i requires 0 <= i < |ms| => MultipleLine(ms[i]));
    var c := seq(|fs|, i requires 0 <= i < |fs| => FailureLine(fs[i]));
    assert r == [ReportHeader] + a + b + c;
    forall i | 0 <= i < |nf| ensures StartsWith(r[1 + i], nf[i].number + ",No encontrada,") {
      assert r[1 + i] == a[i];
    }
    forall i | 0 <= i < |ms| ensures StartsWith(r[1 + |nf| + i], ms[i].number + ",Múltiples candidatos,") {
      assert r[1 + |nf| + i] == b[i];
    }
    forall i | 0 <= i < |fs| ensures StartsWith(r[1 + |nf| + |ms| + i], fs[i].number + ",Falló inserción,") {
      assert r[1 + |nf| + |ms| + i] == c[i];
    }
  }
}

=== FILE: dom.dfy ===
/**
  The document tree shared by the TEI source and the rendered page: a
  forest of text nodes and elements. An element carries its tag, its
  optional `xml:id`, and the marks the highlight code puts on it: the
  `note-wrapper` class, the `data-note-groups` list, the
  `data-note-events` marker, and the `note-active` / `note-current`
  classes.

  Elements are found by id the way `querySelector('[xml\:id="x"]')` and
  the fallback scan over `querySelectorAll('*')` find them: the first
  element in document (pre-)order whose id is `x`. An element is reached
  by a path of child indices.
 */
module Dom {
  import opened Text

  datatype Node =
    | TextNode(content: string)
    | Element(tag: string, id: Option<string>, wrapper: bool, groups: seq<string>,
              events: bool, active: bool, current: bool, children: seq<Node>)

  /** A plain element as the TEI source or the renderer produces it. */
  function Plain(tag: string, id: Option<string>, children: seq<Node>): Node {
    Element(tag, id, false, [], false, false, false, children)
  }

  // ---------------------------------------------------------------------
  // Ids in document order
  // ---------------------------------------------------------------------

  /** `n` is, or contains, an element whose id is `x`. */
  predicate HasId(n: Node, x: string)
    decreases n
  {
    n.Element? && (n.id == Some(x) || HasIdIn(n.children, x))
  }

  /** Some node of `f` is, or contains, an element whose id is `x`. */
  predicate HasIdIn(f: seq<Node>, x: string)
    decreases f
  {
    |f| > 0 && (HasId(f[0], x) || HasIdIn(f[1..], x))
  }

  /** The ids of the elements of `n`, in document order, one entry per element. */
  function Ids(n: Node): seq<string>
    decreases n
  {
    if n.TextNode? then []
    else (if n.id.Some? then [n.id.value] else []) + IdsIn(n.children)
  }

  function IdsIn(f: seq<Node>): seq<string>
    decreases f
  {
    if |f| == 0 then [] else Ids(f[0]) + IdsIn(f[1..])
  }

  /** An id can be found exactly when it is in the list of ids. */
  lemma {:induction false} HasIdIffInIds(n: Node, x: string)
    ensures HasId(n, x) <==> x in Ids(n)
    decreases n
  {
    if n.Element? {
      HasIdInIffInIds(n.children, x);
    }
  }

  lemma {:induction false} HasIdInIffInIds(f: seq<Node>, x: string)
    ensures HasIdIn(f, x) <==> x in IdsIn(f)
    decreases f
  {
    if |f| > 0 {
      HasIdIffInIds(f[0], x);
      HasIdInIffInIds(f[1..], x);
    }
  }

  /** Forests with the same id list agree on which ids can be found. */
  lemma SameIdsSameHas(f: seq<Node>, g: seq<Node>, x: string)
    requires IdsIn(f) == IdsIn(g)
    ensures HasIdIn(f, x) <==> HasIdIn(g, x)
  {
    HasIdInIffInIds(f, x);
    HasIdInIffInIds(g, x);
  }

  /** No id occurs twice (well-formed `xml:id`s). */
  predicate UniqueIds(f: seq<Node>) {
    var ids := IdsIn(f);
    forall i, j :: 0 <= i < j < |ids| ==> ids[i] != ids[j]
  }

  // ---------------------------------------------------------------------
  // Paths
  // ---------------------------------------------------------------------

  /** `p` leads through elements of `f` to a node. */
  predicate ValidPath(f: seq<Node>, p: seq<nat>)
    decreases |p|
  {
    |p| > 0 && p[0] < |f|
    && (|p| > 1 ==> f[p[0]].Element? && ValidPath(f[p[0]].children, p[1..]))
  }

  function At(f: seq<Node>, p: seq<nat>): Node
    requires ValidPath(f, p)
    decreases |p|
  {
    if |p| == 1 then f[p[0]] else At(f[p[0]].children, p[1..])
  }

  /** The forest with the node at `p` replaced by `m`. */
  function ReplaceAt(f: seq<Node>, p: seq<nat>, m: Node): (r: seq<Node>)
    requires ValidPath(f, p)
    ensures |r| == |f|
    decreases |p|
  {
    if |p| == 1 then f[p[0] := m]
    else
      var n := f[p[0]];
      f[p[0] := n.(children := ReplaceAt(n.children, p[1..], m))]
  }

  /** The path of the first element, in document order, whose id is `x`. */
  function FindPath(f: seq<Node>, x: string): (r: Option<seq<nat>>)
    ensures r.Some? <==> HasIdIn(f, x)
    ensures r.Some? ==> (ValidPath(f, r.value) && At(f, r.value).Element?
                         && At(f, r.value).id == Some(x))
    decreases f
  {
    if |f| == 0 then None
    else if HasId(f[0], x) then
      var q := FindPathNode(f[0], x);
      assert ([0] + q)[1..] == q;
      Some([0] + q)
    else
      var r := FindPath(f[1..], x);
      if r.Some? then
        var p := [r.value[0] + 1] + r.value[1..];
        assert p[1..] == r.value[1..];
        Some(p)
      else None
  }

  /** The path, inside `n`, of the first element of `n` whose id is `x`. */
  function FindPathNode(n: Node, x: string): (q: seq<nat>)
    requires HasId(n, x)
    ensures |q| > 0 ==> (n.Element? && ValidPath(n.children, q)
                         && At(n.children, q).Element? && At(n.children, q).id == Some(x))
    ensures |q| == 0 ==> n.id == Some(x)
    decreases n
  {
    if n.id == Some(x) then [] else FindPath(n.children, x).value
  }

  /** `querySelector('[xml\:id="x"]')`: the first element whose id is `x`. */
  function Find(f: seq<Node>, x: string): (r: Option<Node>)
    ensures r.Some? <==> HasIdIn(f, x)
    ensures r.Some? ==> r.value.Element? && r.value.id == Some(x)
  {
    var p := FindPath(f, x);
    if p.Some? then Some(At(f, p.value)) else None
  }

  /** The node's own fields, without its children. */
  function Shell(n: Node): Node {
    if n.TextNode? then n else n.(children := [])
  }

  /** The elements of the forest, without their children, in document order. */
  function ShellsNode(n: Node): seq<Node>
    decreases n
  {
    if n.TextNode? then [] else [Shell(n)] + Shells(n.children)
  }

  function Shells(f: seq<Node>): seq<Node>
    decreases f
  {
    if |f| == 0 then [] else ShellsNode(f[0]) + Shells(f[1..])
  }

  /** `a` is `b` or one of its ancestors (`a.contains(b)` on paths). */
  predicate IsPrefix(a: seq<nat>, b: seq<nat>) {
    |a| <= |b| && b[..|a|] == a
  }
}

=== FILE: edicion.dfy ===
/**
  The reading edition's handlers on note wrappers and its font-size
  buttons. Hover and leave sweep the `note-active` class over the whole
  text; click picks the note of the wrapper's first group.
 */
module Edicion {
  import opened Text
  import opened Dom
  import opened Highlight
  import opened Marking

  // ---------------------------------------------------------------------
  // Hover
  // ---------------------------------------------------------------------

  /** `mouseenter` on a wrapper whose groups are `hovered`: every element
      sharing a group with it becomes active; nothing is deactivated. */
  function MouseEnter(f: seq<Node>, hovered: seq<string>): (r: seq<Node>)
    ensures |hovered| == 0 ==> r == f
    ensures Unstyle(r) == Unstyle(f)
    ensures |Shells(r)| == |Shells(f)|
    ensures forall i :: 0 <= i < |Shells(f)| && Shells(f)[i].Element? ==>
      Shells(r)[i] == Shells(f)[i].(active := Shells(f)[i].active
                                    || (|hovered| > 0 && Shares(hovered, Shells(f)[i].groups)))
  {
    if |hovered| == 0 then f
    else
      var act: Rule := (a, c, gs) => a || Shares(hovered, gs);
      var cur: Rule := (a, c, gs) => c;
      MarkShells(f, act, cur);
      MarkOnlyStyles(f, act, cur);
      MarkAll(f, act, cur)
  }

  /** The source's test on leaving: the destination's nearest wrapper shares
      a group with the wrapper being left. */
  predicate StaysActive(own: seq<string>, dest: Option<seq<string>>) {
    dest.Some? && |own| > 0 && |dest.value| > 0 && Shares(own, dest.value)
  }

  /** `mouseleave` from a wrapper with groups `own`; `dest` holds the groups of
      the nearest wrapper around the element the mouse moves to, if any. */
  function MouseLeave(f: seq<Node>, own: seq<string>, dest: Option<seq<string>>): (r: seq<Node>)
    ensures StaysActive(own, dest) ==> r == f
    ensures Unstyle(r) == Unstyle(f)
    ensures |Shells(r)| == |Shells(f)|
    ensures !StaysActive(own, dest) ==>
      forall i :: 0 <= i < |Shells(f)| && Shells(f)[i].Element? ==>
        Shells(r)[i] == Shells(f)[i].(active := false)
  {
    if StaysActive(own, dest) then f
    else
      var act: Rule := (a, c, gs) => false;
      var cur: Rule := (a, c, gs) => c;
      MarkShells(f, act, cur);
      MarkOnlyStyles(f, act, cur);
      MarkAll(f, act, cur)
  }

  /** After leaving to an unrelated place, no element is active. */
  lemma MouseLeaveClears(f: seq<Node>, own: seq<string>, dest: Option<seq<string>>)
    requires !StaysActive(own, dest)
    ensures forall i :: 0 <= i < |Shells(MouseLeave(f, own, dest))| ==>
      !(Shells(MouseLeave(f, own, dest))[i].Element? && Shells(MouseLeave(f, own, dest))[i].active)
  {
    var r := MouseLeave(f, own, dest);
    forall i | 0 <= i < |Shells(r)|
      ensures !(Shells(r)[i].Element? && Shells(r)[i].active)
    {
      ShellsAreElements(f);
      ShellsAreElements(r);
    }
  }

  lemma {:induction false} ShellsAreElements(f: seq<Node>)
    ensures forall i :: 0 <= i < |Shells(f)| ==> Shells(f)[i].Element?
    decreases f
  {
    if |f| > 0 {
      ShellsAreElementsNode(f[0]);
      ShellsAreElements(f[1..]);
    }
  }

  lemma {:induction false} ShellsAreElementsNode(n: Node)
    ensures forall i :: 0 <= i < |ShellsNode(n)| ==> ShellsNode(n)[i].Element?
    decreases n
  {
    if n.Element? { ShellsAreElements(n.children); }
  }

  // ---------------------------------------------------------------------
  // Click
  // ---------------------------------------------------------------------

  datatype Panel = Unchanged | ShowNote(note: Note) | NoteNotFound

  /** The first note, in document order, whose id is `x`. */
  function FindNote(notes: seq<Note>, x: string): (r: Option<nat>)
    ensures r.Some? ==> r.value < |notes| && notes[r.value].id == x
    ensures r.Some? ==> forall j :: 0 <= j < r.value ==> notes[j].id != x
    ensures r.None? ==> forall j :: 0 <= j < |notes| ==> notes[j].id != x
  {
    if |notes| == 0 then None
    else if notes[0].id == x then Some(0)
    else
      var r := FindNote(notes[1..], x);
      if r.Some? then Some(r.value + 1) else None
  }

  /** `click` on a wrapper with groups `own`: the note of its first group is
      shown, or "Nota no encontrada" when no note has that id. */
  function Click(notes: seq<Note>, own: seq<string>): (r: Panel)
    ensures |own| == 0 <==> r.Unchanged?
    ensures r.ShowNote? ==> r.note in notes && r.note.id == own[0]
    ensures r.ShowNote? ==> exists k :: 0 <= k < |notes| && notes[k] == r.note
                             && forall j :: 0 <= j < k ==> notes[j].id != own[0]
    ensures r.NoteNotFound? <==> |own| > 0 && forall j :: 0 <= j < |notes| ==> notes[j].id != own[0]
  {
    if |own| == 0 then Unchanged
    else
      var k := FindNote(notes, own[0]);
      if k.Some? then ShowNote(notes[k.value]) else NoteNotFound
  }

  // ---------------------------------------------------------------------
  // Font size
  // ---------------------------------------------------------------------

  const InitialFontSize: int := 100

  /** The `+` button: 10 more, up to the cap of 150. */
  function IncreaseFont(size: int): (r: int)
    ensures FontSizeOk(size) ==> FontSizeOk(r)
    ensures size <= r <= size + 10
    ensures r == size <==> size >= 150
  {
    if size < 150 then size + 10 else size
  }

  /** The `-` button: 10 less, down to the floor of 70. */
  function DecreaseFont(size: int): (r: int)
    ensures FontSizeOk(size) ==> FontSizeOk(r)
    ensures size - 10 <= r <= size
    ensures r == size <==> size <= 70
  {
    if size > 70 then size - 10 else size
  }

  /** Away from the bounds, each button undoes the other. */
  lemma FontStepsUndo(size: int)
    requires FontSizeOk(size)
    ensures size < 150 ==> DecreaseFont(IncreaseFont(size)) == size
    ensures size > 70 ==> IncreaseFont(DecreaseFont(size)) == size
  {
  }

  /** The sizes reachable from 100: multiples of 10 in [70, 150]. */
  predicate FontSizeOk(size: int) {
    70 <= size <= 150 && size % 10 == 0
  }

  /** A sequence of clicks: `true` for the increase button, `false` for decrease. */
  function FontAfter(clicks: seq<bool>): int
    decreases |clicks|
  {
    if |clicks| == 0 then InitialFontSize
    else
      var s := FontAfter(clicks[..|clicks| - 1]);
      if clicks[|clicks| - 1] then IncreaseFont(s) else DecreaseFont(s)
  }

  /** Whatever the clicks, the size stays a multiple of 10 within [70, 150]. */
  lemma {:induction false} FontAlwaysInRange(clicks: seq<bool>)
    ensures FontSizeOk(FontAfter(clicks))
    decreases |clicks|
  {
    if |clicks| > 0 {
      FontAlwaysInRange(clicks[..|clicks| - 1]);
    }
  }
}

=== FILE: evalstats.dfy ===
/**
  The per-note evaluation counters kept in the page's note cache, and the
  "first evaluator" message.
 */
module EvalStats {
  import opened Text

  /** `{total, utiles, mejorables}`. */
  datatype Stats = Stats(total: int, utiles: int, mejorables: int)

  const Zero := Stats(0, 0, 0)

  /** A cache entry: the note id and its counters, if loaded. */
  datatype Entry = Entry(noteId: string, evals: Option<Stats>)

  /** The global cache `notasActivasCache`, `None` while it does not exist. */
  type Cache = Option<seq<Entry>>

  /** Counters that are consistent: no count below zero, and no more votes
      than evaluations. */
  predicate Consistent(s: Stats) {
    0 <= s.utiles && 0 <= s.mejorables && s.utiles + s.mejorables <= s.total
  }

  /** `find(n => n.nota_id === id)`: the index of the first entry for `id`. */
  function FindEntry(es: seq<Entry>, id: string): (r: Option<nat>)
    ensures r.Some? ==> r.value < |es| && es[r.value].noteId == id
    ensures r.Some? ==> forall j :: 0 <= j < r.value ==> es[j].noteId != id
    ensures r.None? ==> forall j :: 0 <= j < |es| ==> es[j].noteId != id
  {
    if |es| == 0 then None
    else if es[0].noteId == id then Some(0)
    else
      var r := FindEntry(es[1..], id);
      if r.Some? then Some(r.value + 1) else None
  }

  /** `obtenerEvaluacionesStats(id, data)`: the counters of the note object
      itself if it has them, else those of the cache entry, else zeros. */
  function Obtain(id: string, data: Option<Entry>, cache: Cache): (r: Stats)
    ensures data.Some? && data.value.evals.Some? ==> r == data.value.evals.value
    ensures !(data.Some? && data.value.evals.Some?) && cache.Some?
            && FindEntry(cache.value, id).Some?
            && cache.value[FindEntry(cache.value, id).value].evals.Some?
            ==> r == cache.value[FindEntry(cache.value, id).value].evals.value
    ensures r != Zero ==> (
      || (data.Some? && data.value.evals == Some(r))
      || (cache.Some? && exists k :: 0 <= k < |cache.value| && cache.value[k].noteId == id
                                      && cache.value[k].evals == Some(r)))
  {
    if data.Some? && data.value.evals.Some? then data.value.evals.value
    else if cache.Some? then
      var k := FindEntry(cache.value, id);
      if k.Some? && cache.value[k.value].evals.Some? then cache.value[k.value].evals.value
      else Zero
    else Zero
  }

  predicate IsUp(vote: string) { vote == "up" || vote == "util" }
  predicate IsDown(vote: string) { vote == "down" || vote == "mejorable" }

  /** One more evaluation with `vote`. */
  function Count(s: Stats, vote: string): (r: Stats)
    ensures r.total == s.total + 1
    ensures r.utiles == s.utiles + (if IsUp(vote) then 1 else 0)
    ensures r.mejorables == s.mejorables + (if IsDown(vote) then 1 else 0)
    ensures Consistent(s) ==> Consistent(r)
  {
    var t := s.(total := s.total + 1);
    if IsUp(vote) then t.(utiles := t.utiles + 1)
    else if IsDown(vote) then t.(mejorables := t.mejorables + 1)
    else t
  }

  /** `actualizarContadorLocal(id, vote)`: the new cache and the counters
      written into the buttons. */
  function UpdateLocal(cache: Cache, id: string, vote: string): (r: (seq<Entry>, Stats))
    ensures var es := if cache.Some? then cache.value else [];
      var k := FindEntry(es, id);
      && (k.Some? ==> |r.0| == |es| && r.0[k.value].noteId == id
                      && r.0[k.value].evals == Some(r.1)
                      && r.1 == Count(if es[k.value].evals.Some? then es[k.value].evals.value else Zero, vote))
      && (k.None? ==> r.0 == es + [Entry(id, Some(r.1))] && r.1 == Count(Zero, vote))
    ensures var es := if cache.Some? then cache.value else [];
      forall j :: 0 <= j < |es| && es[j].noteId != id ==> r.0[j] == es[j]
  {
    var es := if cache.Some? then cache.value else [];
    var k := FindEntry(es, id);
    if k.Some? then
      var prior := if es[k.value].evals.Some? then es[k.value].evals.value else Zero;
      var s := Count(prior, vote);
      (es[k.value := es[k.value].(evals := Some(s))], s)
    else
      var s := Count(Zero, vote);
      (es + [Entry(id, Some(s))], s)
  }

  /** After an update the cache answers with the new counters for that note,
      and with the same counters as before for every other note. */
  lemma ObtainAfterUpdate(cache: Cache, id: string, vote: string, other: string)
    ensures var (es, s) := UpdateLocal(cache, id, vote);
      Obtain(id, None, Some(es)) == s
      && (other != id ==> Obtain(other, None, Some(es)) == Obtain(other, None, cache))
  {
    var es0 := if cache.Some? then cache.value else [];
    var (es, s) := UpdateLocal(cache, id, vote);
    var k := FindEntry(es0, id);
    FindAfterUpdate(es0, es, id, k);
    if other != id {
      FindOther(es0, es, id, other);
    }
  }

  lemma FindAfterUpdate(es0: seq<Entry>, es: seq<Entry>, id: string, k: Option<nat>)
    requires k == FindEntry(es0, id)
    requires k.Some? ==> |es| == |es0| && es[k.value].noteId == id
    requires k.None? ==> |es| == |es0| + 1 && es[|es0|].noteId == id
    requires forall j :: 0 <= j < |es0| && es0[j].noteId != id ==> es[j] == es0[j]
    ensures FindEntry(es, id) == if k.Some? then k else Some(|es0|)
  {
    var want := if k.Some? then k.value else |es0|;
    forall j | 0 <= j < want ensures es[j].noteId != id {
      assert es0[j].noteId != id;
    }
    FindFirst(es, id, want);
  }

  /** The first entry for `id` is at `i`. */
  lemma FindFirst(es: seq<Entry>, id: string, i: nat)
    requires i < |es| && es[i].noteId == id
    requires forall j :: 0 <= j < i ==> es[j].noteId != id
    ensures FindEntry(es, id) == Some(i)
  {
  }

  lemma FindOther(es0: seq<Entry>, es: seq<Entry>, id: string, other: string)
    requires other != id
    requires |es0| <= |es| <= |es0| + 1
    requires |es| == |es0| + 1 ==> es[|es0|].noteId == id
    requires forall j :: 0 <= j < |es0| ==> es[j].noteId == es0[j].noteId
    requires forall j :: 0 <= j < |es0| && es0[j].noteId != id ==> es[j] == es0[j]
    ensures FindEntry(es, other) == FindEntry(es0, other)
    ensures FindEntry(es, other).Some? ==> es[FindEntry(es, other).value] == es0[FindEntry(es, other).value]
  {
    var a := FindEntry(es, other);
    var b := FindEntry(es0, other);
    if a.Some? && a.value < |es0| { assert es0[a.value].noteId == other; }
    if b.Some? { assert es[b.value].noteId == other; }
  }

  /** Entry counters that are consistent stay consistent. */
  lemma UpdateKeepsConsistent(cache: Cache, id: string, vote: string)
    requires cache.Some? ==> forall j :: 0 <= j < |cache.value| && cache.value[j].evals.Some?
                                 ==> Consistent(cache.value[j].evals.value)
    ensures var (es, s) := UpdateLocal(cache, id, vote);
      Consistent(s) && forall j :: 0 <= j < |es| && es[j].evals.Some? ==> Consistent(es[j].evals.value)
  {
  }

  /** `crearBotonesConContadores`: the counters shown and whether the
      "Sé el primero en evaluar esta nota" message is included. */
  datatype Buttons = Buttons(utiles: int, mejorables: int, firstMessage: bool)

  function MakeButtons(s: Stats): (r: Buttons)
    ensures r.firstMessage <==> s.total == 0
    ensures r.utiles == s.utiles && r.mejorables == s.mejorables
  {
    Buttons(s.utiles, s.mejorables, s.total == 0)
  }

  /** `actualizarContadoresEnBotones`: new counters; the message goes once the
      total is positive. */
  function RefreshButtons(b: Buttons, s: Stats): (r: Buttons)
    ensures r.utiles == s.utiles && r.mejorables == s.mejorables
    ensures r.firstMessage <==> b.firstMessage && s.total <= 0
  {
    Buttons(s.utiles, s.mejorables, b.firstMessage && !(s.total > 0))
  }

  /** Refreshing the buttons in place shows what building them afresh from
      the new counters would, as long as the total does not go down. */
  lemma RefreshAgreesWithMake(s0: Stats, s: Stats)
    requires Consistent(s0) && Consistent(s) && s0.total <= s.total
    ensures RefreshButtons(MakeButtons(s0), s) == MakeButtons(s)
  {
  }

  /** After any local update, the message is gone. */
  lemma UpdateRemovesFirstMessage(b: Buttons, cache: Cache, id: string, vote: string)
    requires cache.Some? ==> forall j :: 0 <= j < |cache.value| && cache.value[j].evals.Some?
                                 ==> Consistent(cache.value[j].evals.value)
    ensures !RefreshButtons(b, UpdateLocal(cache, id, vote).1).firstMessage
  {
    UpdateKeepsConsistent(cache, id, vote);
  }
}

=== FILE: highlight.dfy ===
/**
  The highlight pass that the reading edition (`processNotes`) and the
  notes laboratory (`aplicarHighlights`) run over the rendered text.

  Notes are sorted so that notes aimed at `seg` elements come first and,
  among equals, notes with fewer targets come first. For every note with
  a target and an id, each target id that resolves to an element gets a
  `note-wrapper` as its first element child (reused if already there,
  otherwise created around all of the element's children), the note id
  is appended to the wrapper's group list if absent, and, in the edition
  variant only, a newly added id is also appended to every wrapper below.
  The event marker is set once per wrapper.
 */
module Highlight {
  import opened Text
  import opened Dom
  import opened Sorting

  /** A note as the pass reads it; an absent attribute is the empty string. */
  datatype Note = Note(id: string, target: string, number: string, body: string)

  // ---------------------------------------------------------------------
  // Sorting and target parsing
  // ---------------------------------------------------------------------

  predicate IsSegNote(n: Note) {
    Contains(n.target, "seg-")
  }

  /** The comparator's order: `seg` notes first, then by number of targets. */
  function NoteRank(n: Note): Rank {
    Rank(if IsSegNote(n) then 0 else 1, |JsSplitWs(n.target)|)
  }

  function SortNotes(notes: seq<Note>): (r: seq<Note>)
    ensures multiset(r) == multiset(notes)
  {
    SortBy(notes, NoteRank)
  }

  /** Every `seg` note precedes every other note, and each group is ordered
      by target count. */
  lemma SortNotesOrder(notes: seq<Note>)
    ensures var r := SortNotes(notes);
      forall i, j :: 0 <= i < j < |r| ==>
        (IsSegNote(r[j]) ==> IsSegNote(r[i]))
        && (IsSegNote(r[i]) == IsSegNote(r[j]) ==> |JsSplitWs(r[i].target)| <= |JsSplitWs(r[j].target)|)
  {
    SortByIsSorted(notes, NoteRank);
  }

  /** Notes of the same rank keep their document order. */
  lemma SortNotesStable(notes: seq<Note>, k: Rank)
    ensures OfRank(SortNotes(notes), NoteRank, k) == OfRank(notes, NoteRank, k)
  {
    SortByStable(notes, NoteRank, k);
  }

  /** `target.split(/\s+/).map(t => t.replace('#', ''))`. */
  function TargetIds(target: string): (r: seq<string>)
    ensures |r| == |JsSplitWs(target)|
    ensures forall k :: 0 <= k < |r| ==> r[k] == RemoveFirst(JsSplitWs(target)[k], '#')
  {
    var ts := JsSplitWs(target);
    seq(|ts|, k requires 0 <= k < |ts| => RemoveFirst(ts[k], '#'))
  }

  /** The ids written as references: `#id` for each. */
  function Refs(ids: seq<string>): (r: seq<string>)
    ensures |r| == |ids| && forall k :: 0 <= k < |ids| ==> r[k] == "#" + ids[k]
  {
    seq(|ids|, k requires 0 <= k < |ids| => "#" + ids[k])
  }

  /** A target listing references `#id`, one space apart, yields its ids
      back, in order, when no id holds `#` or whitespace. */
  lemma TargetIdsOfRefs(ids: seq<string>)
    requires |ids| > 0
    requires forall k :: 0 <= k < |ids| ==> '#' !in ids[k] && forall i :: 0 <= i < |ids[k]| ==> !IsJsSpace(ids[k][i])
    ensures TargetIds(Join(Refs(ids), " ")) == ids
  {
    var rs := Refs(ids);
    forall k | 0 <= k < |rs| ensures IsJsWord(rs[k]) {
      forall i | 0 <= i < |rs[k]| ensures !IsJsSpace(rs[k][i]) {
        if i > 0 { assert rs[k][i] == ids[k][i - 1]; }
      }
    }
    JsSplitWsJoin(rs);
    forall k | 0 <= k < |ids| ensures TargetIds(Join(rs, " "))[k] == ids[k] {
      RemoveHash(ids[k]);
    }
  }

  /** The target ids that resolve to an element, in order. */
  function Resolved(f: seq<Node>, ts: seq<string>): (r: seq<string>)
    ensures forall k :: 0 <= k < |r| ==> HasIdIn(f, r[k])
    ensures forall t :: t in r <==> t in ts && HasIdIn(f, t)
  {
    if |ts| == 0 then []
    else if HasIdIn(f, ts[0]) then [ts[0]] + Resolved(f, ts[1..])
    else Resolved(f, ts[1..])
  }

  // ---------------------------------------------------------------------
  // Group lists
  // ---------------------------------------------------------------------

  predicate NoDup(gs: seq<string>) {
    forall i, j :: 0 <= i < j < |gs| ==> gs[i] != gs[j]
  }

  /** `if (!groups.includes(id)) groups.push(id)`: append-only, no duplicates. */
  function AddGroup(gs: seq<string>, x: string): (r: seq<string>)
    ensures x in r && |gs| <= |r| <= |gs| + 1 && r[..|gs|] == gs
    ensures forall g :: g in r <==> g in gs || g == x
    ensures NoDup(gs) ==> NoDup(r)
    ensures x in gs <==> r == gs
  {
    if x in gs then gs else gs + [x]
  }

  predicate Shares(a: seq<string>, b: seq<string>) {
    exists g :: g in a && g in b
  }

  // ---------------------------------------------------------------------
  // Wrappers
  // ---------------------------------------------------------------------

  /** `firstElementChild`: the index of the first element among `cs`. */
  function FirstElement(cs: seq<Node>): (r: Option<nat>)
    ensures r.Some? ==> r.value < |cs| && cs[r.value].Element?
    ensures forall j :: 0 <= j < |cs| && (r.None? || j < r.value) ==> cs[j].TextNode?
  {
    if |cs| == 0 then None
    else if cs[0].Element? then Some(0)
    else
      var r := FirstElement(cs[1..]);
      if r.Some? then Some(r.value + 1) else None
  }

  /** The element's first element child is a `note-wrapper`. */
  predicate WrapperFirst(e: Node) {
    e.Element? && FirstElement(e.children).Some?
    && e.children[FirstElement(e.children).value].wrapper
  }

  function FirstWrapper(e: Node): Node
    requires WrapperFirst(e)
  {
    e.children[FirstElement(e.children).value]
  }

  /** The element is wrapped, its wrapper holds group `x` and has its handlers. */
  predicate WrappedWith(e: Node, x: string) {
    WrapperFirst(e) && x in FirstWrapper(e).groups && FirstWrapper(e).events
  }

  /** The new `span.note-wrapper` holding the given nodes. */
  function NewWrapper(cs: seq<Node>): Node {
    Element("span", None, true, [], false, false, false, cs)
  }

  /** Adds `x` to every wrapper in the forest (`querySelectorAll('.note-wrapper')`). */
  function PropNode(n: Node, x: string): (m: Node)
    decreases n
  {
    if n.TextNode? then n
    else n.(groups := if n.wrapper then AddGroup(n.groups, x) else n.groups,
            children := PropAll(n.children, x))
  }

  function PropAll(f: seq<Node>, x: string): (r: seq<Node>)
    ensures |r| == |f|
    ensures forall i :: 0 <= i < |f| ==> r[i] == PropNode(f[i], x)
    decreases f
  {
    if |f| == 0 then [] else [PropNode(f[0], x)] + PropAll(f[1..], x)
  }

  /** Every wrapper in the forest holds `x`. */
  predicate AllWrappersHave(f: seq<Node>, x: string)
    decreases f
  {
    forall i :: 0 <= i < |f| ==> WrappersHave(f[i], x)
  }

  predicate WrappersHave(n: Node, x: string)
    decreases n
  {
    n.TextNode? || ((n.wrapper ==> x in n.groups) && AllWrappersHave(n.children, x))
  }

  /** After propagation, every wrapper of the forest holds the id. */
  lemma {:induction false} PropAllReaches(f: seq<Node>, x: string)
    ensures AllWrappersHave(PropAll(f, x), x)
    decreases f
  {
    forall i | 0 <= i < |f| ensures WrappersHave(PropAll(f, x)[i], x) {
      PropNodeReaches(f[i], x);
    }
  }

  lemma {:induction false} PropNodeReaches(n: Node, x: string)
    ensures WrappersHave(PropNode(n, x), x)
    decreases n
  {
    if n.Element? {
      PropAllReaches(n.children, x);
    }
  }

  /** Group registration on the wrapper: add the id, propagate it if new, set
      the event marker. */
  function Configure(w: Node, x: string, propagate: bool): (r: Node)
    requires w.Element?
    ensures r.Element? && r.wrapper == w.wrapper && r.id == w.id && r.tag == w.tag
    ensures r.groups == AddGroup(w.groups, x) && r.events
    ensures x !in w.groups && propagate ==> r.children == PropAll(w.children, x)
    ensures !(x !in w.groups && propagate) ==> r.children == w.children
    ensures r.active == w.active && r.current == w.current
  {
    var added := x !in w.groups;
    w.(groups := AddGroup(w.groups, x), events := true,
       children := if added && propagate then PropAll(w.children, x) else w.children)
  }

  /** One target element: reuse or create its wrapper, then register the group. */
  function Attach(e: Node, x: string, propagate: bool): (r: Node)
    requires e.Element?
    ensures r.Element? && r == e.(children := r.children)
    ensures WrappedWith(r, x)
    ensures WrapperFirst(e) ==>
              && FirstElement(r.children) == FirstElement(e.children)
              && |r.children| == |e.children|
              && FirstWrapper(r) == Configure(FirstWrapper(e), x, propagate)
              && (forall j :: 0 <= j < |e.children| && j != FirstElement(e.children).value
                    ==> r.children[j] == e.children[j])
    ensures !WrapperFirst(e) ==> r.children == [Configure(NewWrapper(e.children), x, propagate)]
  {
    if WrapperFirst(e) then
      var k := FirstElement(e.children).value;
      var r := e.(children := e.children[k := Configure(e.children[k], x, propagate)]);
      assert FirstElement(r.children) == FirstElement(e.children) by {
        FirstElementSameKinds(e.children, r.children);
      }
      r
    else
      var r := e.(children := [Configure(NewWrapper(e.children), x, propagate)]);
      assert FirstElement(r.children) == Some(0);
      r
  }

  /** Only the kinds of the nodes matter to `FirstElement`. */
  lemma {:induction false} FirstElementSameKinds(a: seq<Node>, b: seq<Node>)
    requires |a| == |b| && forall i :: 0 <= i < |a| ==> a[i].Element? == b[i].Element?
    ensures FirstElement(a) == FirstElement(b)
    decreases |a|
  {
    if |a| > 0 && !a[0].Element? {
      FirstElementSameKinds(a[1..], b[1..]);
    }
  }

  /** In the edition variant, a new id reaches every wrapper below the target's wrapper. */
  lemma AttachPropagates(e: Node, x: string)
    requires e.Element?
    requires !WrapperFirst(e) || x !in FirstWrapper(e).groups
    ensures AllWrappersHave(FirstWrapper(Attach(e, x, true)).children, x)
  {
    if WrapperFirst(e) {
      PropAllReaches(FirstWrapper(e).children, x);
    } else {
      PropAllReaches(e.children, x);
      assert FirstElement(Attach(e, x, true).children) == Some(0);
    }
  }

  /** Without propagation, nothing below the target's wrapper changes. */
  lemma AttachNoPropagation(e: Node, x: string)
    requires e.Element?
    ensures FirstWrapper(Attach(e, x, false)).children
      == (if WrapperFirst(e) then FirstWrapper(e).children else e.children)
  {
    if !WrapperFirst(e) {
      assert FirstElement(Attach(e, x, false).children) == Some(0);
    }
  }

  // ---------------------------------------------------------------------
  // Applying a note to the first element with a given id
  // ---------------------------------------------------------------------

  /** Applies `Attach` to the first element, in document order, whose id is `t`. */
  function ApplyAt(f: seq<Node>, t: string, x: string, propagate: bool): (r: seq<Node>)
    ensures |r| == |f|
    decreases f
  {
    if |f| == 0 then []
    else if HasId(f[0], t) then [ApplyNode(f[0], t, x, propagate)] + f[1..]
    else [f[0]] + ApplyAt(f[1..], t, x, propagate)
  }

  function ApplyNode(n: Node, t: string, x: string, propagate: bool): (m: Node)
    decreases n
  {
    if n.TextNode? then n
    else if n.id == Some(t) then Attach(n, x, propagate)
    else n.(children := ApplyAt(n.children, t, x, propagate))
  }

  /** Every resolved target of one note, in order. */
  function ApplyAll(f: seq<Node>, ts: seq<string>, x: string, propagate: bool): seq<Node>
    decreases |ts|
  {
    if |ts| == 0 then f else ApplyAll(ApplyAt(f, ts[0], x, propagate), ts[1..], x, propagate)
  }

  /** JavaScript truthiness of an attribute value. */
  predicate Truthy(s: string) { |s| > 0 }

  /** One note: skipped without target or id; otherwise its resolved targets. */
  function ProcessNote(f: seq<Node>, n: Note, propagate: bool): seq<Node> {
    if !Truthy(n.target) || !Truthy(n.id) then f
    else ApplyAll(f, Resolved(f, TargetIds(n.target)), n.id, propagate)
  }

  function Run(f: seq<Node>, ns: seq<Note>, propagate: bool): seq<Node>
    decreases |ns|
  {
    if |ns| == 0 then f else Run(ProcessNote(f, ns[0], propagate), ns[1..], propagate)
  }

  /** `processNotes` (with `propagate`) and `aplicarHighlights` (without):
      the pass keeps every id in place and changes nothing but wrappers. */
  function ProcessNotes(f: seq<Node>, notes: seq<Note>, propagate: bool): (r: seq<Node>)
    ensures IdsIn(r) == IdsIn(f)
    ensures EraseAll(r) == EraseAll(f)
  {
    var ns := SortNotes(notes);
    IdsRun(f, ns, propagate);
    EraseRun(f, ns, propagate);
    Run(f, ns, propagate)
  }

  // ---------------------------------------------------------------------
  // The pass keeps the ids
  // ---------------------------------------------------------------------

  lemma {:induction false} IdsPropNode(n: Node, x: string)
    ensures Ids(PropNode(n, x)) == Ids(n)
    decreases n
  {
    if n.Element? { IdsPropAll(n.children, x); }
  }

  lemma {:induction false} IdsPropAll(f: seq<Node>, x: string)
    ensures IdsIn(PropAll(f, x)) == IdsIn(f)
    decreases f
  {
    if |f| > 0 {
      IdsPropNode(f[0], x);
      IdsPropAll(f[1..], x);
      assert PropAll(f, x)[1..] == PropAll(f[1..], x);
    }
  }

  lemma {:induction false} IdsInUpdate(cs: seq<Node>, k: nat, m: Node)
    requires k < |cs| && Ids(m) == Ids(cs[k])
    ensures IdsIn(cs[k := m]) == IdsIn(cs)
    decreases |cs|
  {
    if k > 0 {
      IdsInUpdate(cs[1..], k - 1, m);
      assert cs[k := m][1..] == cs[1..][k - 1 := m];
    } else {
      assert cs[k := m][1..] == cs[1..];
    }
  }

  lemma IdsAttach(e: Node, x: string, propagate: bool)
    requires e.Element?
    ensures Ids(Attach(e, x, propagate)) == Ids(e)
  {
    IdsAttachChildren(e, x, propagate);
  }

  lemma IdsAttachChildren(e: Node, x: string, propagate: bool)
    requires e.Element?
    ensures IdsIn(Attach(e, x, propagate).children) == IdsIn(e.children)
  {
    var r := Attach(e, x, propagate);
    if WrapperFirst(e) {
      var k := FirstElement(e.children).value;
      var w := e.children[k];
      if x !in w.groups && propagate { IdsPropAll(w.children, x); }
      assert r.children == e.children[k := Configure(w, x, propagate)];
      IdsInUpdate(e.children, k, Configure(w, x, propagate));
    } else {
      if propagate { IdsPropAll(e.children, x); }
      assert r.children[1..] == [];
    }
  }

  lemma {:induction false} IdsApplyNode(n: Node, t: string, x: string, propagate: bool)
    ensures Ids(ApplyNode(n, t, x, propagate)) == Ids(n)
    decreases n
  {
    if n.Element? {
      if n.id == Some(t) { IdsAttach(n, x, propagate); }
      else { IdsApplyAt(n.children, t, x, propagate); }
    }
  }

  lemma {:induction false} IdsApplyAt(f: seq<Node>, t: string, x: string, propagate: bool)
    ensures IdsIn(ApplyAt(f, t, x, propagate)) == IdsIn(f)
    decreases f
  {
    if |f| > 0 {
      var g := ApplyAt(f, t, x, propagate);
      if HasId(f[0], t) {
        IdsApplyNode(f[0], t, x, propagate);
        assert g[1..] == f[1..];
      } else {
        IdsApplyAt(f[1..], t, x, propagate);
        assert g[1..] == ApplyAt(f[1..], t, x, propagate);
      }
    }
  }

  /** Wrapping keeps the document-order list of ids, so an id resolved
      before the note's targets are processed still names the same element. */
  lemma {:induction false} IdsApplyAll(f: seq<Node>, ts: seq<string>, x: string, propagate: bool)
    ensures IdsIn(ApplyAll(f, ts, x, propagate)) == IdsIn(f)
    decreases |ts|
  {
    if |ts| > 0 {
      IdsApplyAt(f, ts[0], x, propagate);
      IdsApplyAll(ApplyAt(f, ts[0], x, propagate), ts[1..], x, propagate);
    }
  }

  lemma {:induction false} IdsRun(f: seq<Node>, ns: seq<Note>, propagate: bool)
    ensures IdsIn(Run(f, ns, propagate)) == IdsIn(f)
    decreases |ns|
  {
    if |ns| > 0 {
      var n := ns[0];
      if Truthy(n.target) && Truthy(n.id) {
        IdsApplyAll(f, Resolved(f, TargetIds(n.target)), n.id, propagate);
      }
      IdsRun(ProcessNote(f, n, propagate), ns[1..], propagate);
    }
  }

  // ---------------------------------------------------------------------
  // The pass changes nothing but wrappers
  // ---------------------------------------------------------------------

  /** The forest with every wrapper replaced by its children. */
  function EraseNode(n: Node): seq<Node>
    decreases n
  {
    if n.TextNode? then [n]
    else if n.wrapper then EraseAll(n.children)
    else [n.(children := EraseAll(n.children))]
  }

  function EraseAll(f: seq<Node>): seq<Node>
    decreases f
  {
    if |f| == 0 then [] else EraseNode(f[0]) + EraseAll(f[1..])
  }

  lemma {:induction false} ErasePropNode(n: Node, x: string)
    ensures EraseNode(PropNode(n, x)) == EraseNode(n)
    decreases n
  {
    if n.Element? { ErasePropAll(n.children, x); }
  }

  lemma {:induction false} ErasePropAll(f: seq<Node>, x: string)
    ensures EraseAll(PropAll(f, x)) == EraseAll(f)
    decreases f
  {
    if |f| > 0 {
      ErasePropNode(f[0], x);
      ErasePropAll(f[1..], x);
      assert PropAll(f, x)[1..] == PropAll(f[1..], x);
    }
  }

  lemma {:induction false} EraseAllUpdate(cs: seq<Node>, k: nat, m: Node)
    requires k < |cs| && EraseNode(m) == EraseNode(cs[k])
    ensures EraseAll(cs[k := m]) == EraseAll(cs)
    decreases |cs|
  {
    if k > 0 {
      EraseAllUpdate(cs[1..], k - 1, m);
      assert cs[k := m][1..] == cs[1..][k - 1 := m];
    } else {
      assert cs[k := m][1..] == cs[1..];
    }
  }

  lemma EraseAttachChildren(e: Node, x: string, propagate: bool)
    requires e.Element?
    ensures EraseAll(Attach(e, x, propagate).children) == EraseAll(e.children)
  {
    var r := Attach(e, x, propagate);
    if WrapperFirst(e) {
      var k := FirstElement(e.children).value;
      var w := e.children[k];
      if x !in w.groups && propagate { ErasePropAll(w.children, x); }
      assert r.children == e.children[k := Configure(w, x, propagate)];
      EraseAllUpdate(e.children, k, Configure(w, x, propagate));
    } else {
      if propagate { ErasePropAll(e.children, x); }
      assert r.children[1..] == [];
    }
  }

  lemma {:induction false} EraseApplyNode(n: Node, t: string, x: string, propagate: bool)
    ensures EraseNode(ApplyNode(n, t, x, propagate)) == EraseNode(n)
    decreases n
  {
    if n.Element? {
      if n.id == Some(t) { EraseAttachChildren(n, x, propagate); }
      else { EraseApplyAt(n.children, t, x, propagate); }
    }
  }

  lemma {:induction false} EraseApplyAt(f: seq<Node>, t: string, x: string, propagate: bool)
    ensures EraseAll(ApplyAt(f, t, x, propagate)) == EraseAll(f)
    decreases f
  {
    if |f| > 0 {
      var g := ApplyAt(f, t, x, propagate);
      if HasId(f[0], t) {
        EraseApplyNode(f[0], t, x, propagate);
        assert g[1..] == f[1..];
      } else {
        EraseApplyAt(f[1..], t, x, propagate);
        assert g[1..] == ApplyAt(f[1..], t, x, propagate);
      }
    }
  }

  lemma {:induction false} EraseApplyAll(f: seq<Node>, ts: seq<string>, x: string, propagate: bool)
    ensures EraseAll(ApplyAll(f, ts, x, propagate)) == EraseAll(f)
    decreases |ts|
  {
    if |ts| > 0 {
      EraseApplyAt(f, ts[0], x, propagate);
      EraseApplyAll(ApplyAt(f, ts[0], x, propagate), ts[1..], x, propagate);
    }
  }

  lemma {:induction false} EraseRun(f: seq<Node>, ns: seq<Note>, propagate: bool)
    ensures EraseAll(Run(f, ns, propagate)) == EraseAll(f)
    decreases |ns|
  {
    if |ns| > 0 {
      var n := ns[0];
      if Truthy(n.target) && Truthy(n.id) {
        EraseApplyAll(f, Resolved(f, TargetIds(n.target)), n.id, propagate);
      }
      EraseRun(ProcessNote(f, n, propagate), ns[1..], propagate);
    }
  }

  // ---------------------------------------------------------------------
  // A second pass changes nothing
  // ---------------------------------------------------------------------

  /** The first element with id `t` is wrapped and its wrapper holds group `y`. */
  predicate MarkedNode(n: Node, t: string, y: string)
    decreases n
  {
    n.Element? && (if n.id == Some(t) then WrappedWith(n, y) else MarkedIn(n.children, t, y))
  }

  predicate MarkedIn(f: seq<Node>, t: string, y: string)
    decreases f
  {
    |f| > 0 && (if HasId(f[0], t) then MarkedNode(f[0], t, y) else MarkedIn(f[1..], t, y))
  }

  lemma {:induction false} MarkedHasNode(n: Node, t: string, y: string)
    requires MarkedNode(n, t, y)
    ensures HasId(n, t)
    decreases n
  {
    if n.id != Some(t) { MarkedHasIn(n.children, t, y); }
  }

  lemma {:induction false} MarkedHasIn(f: seq<Node>, t: string, y: string)
    requires MarkedIn(f, t, y)
    ensures HasIdIn(f, t)
    decreases f
  {
    if !HasId(f[0], t) { MarkedHasIn(f[1..], t, y); }
  }

  /** `m` is `n` with groups and event markers possibly added, nothing else. */
  predicate GrowsNode(n: Node, m: Node)
    decreases n
  {
    if n.TextNode? then m == n
    else
      && m.Element? && m.tag == n.tag && m.id == n.id && m.wrapper == n.wrapper
      && (forall g :: g in n.groups ==> g in m.groups) && (n.events ==> m.events)
      && GrowsAll(n.children, m.children)
  }

  predicate GrowsAll(f: seq<Node>, g: seq<Node>)
    decreases f
  {
    |f| == |g| && forall i :: 0 <= i < |f| ==> GrowsNode(f[i], g[i])
  }

  lemma {:induction false} GrowsReflNode(n: Node)
    ensures GrowsNode(n, n)
    decreases n
  {
    if n.Element? { GrowsReflAll(n.children); }
  }

  lemma {:induction false} GrowsReflAll(f: seq<Node>)
    ensures GrowsAll(f, f)
    decreases f
  {
    forall i | 0 <= i < |f| ensures GrowsNode(f[i], f[i]) { GrowsReflNode(f[i]); }
  }

  lemma {:induction false} PropGrowsNode(n: Node, x: string)
    ensures GrowsNode(n, PropNode(n, x))
    decreases n
  {
    if n.Element? { PropGrowsAll(n.children, x); }
  }

  lemma {:induction false} PropGrowsAll(f: seq<Node>, x: string)
    ensures GrowsAll(f, PropAll(f, x))
    decreases f
  {
    forall i | 0 <= i < |f| ensures GrowsNode(f[i], PropAll(f, x)[i]) { PropGrowsNode(f[i], x); }
  }

  lemma ConfigureGrows(w: Node, x: string, propagate: bool)
    requires w.Element?
    ensures GrowsNode(w, Configure(w, x, propagate))
  {
    if x !in w.groups && propagate { PropGrowsAll(w.children, x); }
    else { GrowsReflAll(w.children); }
  }

  lemma {:induction false} GrowsIdsNode(n: Node, m: Node)
    requires GrowsNode(n, m)
    ensures Ids(m) == Ids(n)
    decreases n
  {
    if n.Element? { GrowsIdsAll(n.children, m.children); }
  }

  lemma {:induction false} GrowsIdsAll(f: seq<Node>, g: seq<Node>)
    requires GrowsAll(f, g)
    ensures IdsIn(g) == IdsIn(f)
    decreases f
  {
    if |f| > 0 {
      GrowsIdsNode(f[0], g[0]);
      assert GrowsAll(f[1..], g[1..]) by {
        forall i | 0 <= i < |f[1..]| ensures GrowsNode(f[1..][i], g[1..][i]) {
          assert GrowsNode(f[i + 1], g[i + 1]);
        }
      }
      GrowsIdsAll(f[1..], g[1..]);
    }
  }

  lemma SameIdsSameHasNode(n: Node, m: Node, t: string)
    requires Ids(n) == Ids(m)
    ensures HasId(n, t) <==> HasId(m, t)
  {
    HasIdIffInIds(n, t);
    HasIdIffInIds(m, t);
  }

  lemma GrowsWrapped(n: Node, m: Node, y: string)
    requires GrowsNode(n, m) && WrappedWith(n, y)
    ensures WrappedWith(m, y)
  {
    assert forall i :: 0 <= i < |n.children| ==> GrowsNode(n.children[i], m.children[i]);
    assert forall i :: 0 <= i < |n.children| ==> n.children[i].Element? == m.children[i].Element?;
    FirstElementSameKinds(n.children, m.children);
  }

  /** Added groups and markers never undo a mark. */
  lemma {:induction false} GrowsMarkedNode(n: Node, m: Node, t: string, y: string)
    requires GrowsNode(n, m) && MarkedNode(n, t, y)
    ensures MarkedNode(m, t, y)
    decreases n
  {
    if n.id == Some(t) {
      GrowsWrapped(n, m, y);
    } else {
      GrowsMarkedIn(n.children, m.children, t, y);
    }
  }

  lemma {:induction false} GrowsMarkedIn(f: seq<Node>, g: seq<Node>, t: string, y: string)
    requires GrowsAll(f, g) && MarkedIn(f, t, y)
    ensures MarkedIn(g, t, y)
    decreases f
  {
    GrowsIdsNode(f[0], g[0]);
    SameIdsSameHasNode(f[0], g[0], t);
    if HasId(f[0], t) {
      GrowsMarkedNode(f[0], g[0], t, y);
    } else {
      assert GrowsAll(f[1..], g[1..]) by {
        forall i | 0 <= i < |f[1..]| ensures GrowsNode(f[1..][i], g[1..][i]) {
          assert GrowsNode(f[i + 1], g[i + 1]);
        }
      }
      GrowsMarkedIn(f[1..], g[1..], t, y);
    }
  }

  /** Applying a note changes no node's own fields at the top level. */
  lemma {:induction false} ApplyAtShallow(f: seq<Node>, t: string, x: string, propagate: bool)
    ensures forall i :: 0 <= i < |f| ==> Shell(ApplyAt(f, t, x, propagate)[i]) == Shell(f[i])
    decreases f
  {
    if |f| > 0 {
      var g := ApplyAt(f, t, x, propagate);
      if !HasId(f[0], t) {
        ApplyAtShallow(f[1..], t, x, propagate);
        assert g[1..] == ApplyAt(f[1..], t, x, propagate);
        forall i | 1 <= i < |f| ensures Shell(g[i]) == Shell(f[i]) {
          assert g[i] == g[1..][i - 1] && f[i] == f[1..][i - 1];
        }
      } else {
        forall i | 1 <= i < |f| ensures Shell(g[i]) == Shell(f[i]) {
          assert g[i] == f[i];
        }
      }
    }
  }

  /** Processing the first element with id `t` marks it with the note. */
  lemma {:induction false} MarkApplyIn(f: seq<Node>, t: string, x: string, propagate: bool)
    requires HasIdIn(f, t)
    ensures MarkedIn(ApplyAt(f, t, x, propagate), t, x)
    decreases f
  {
    var g := ApplyAt(f, t, x, propagate);
    if HasId(f[0], t) {
      IdsApplyNode(f[0], t, x, propagate);
      SameIdsSameHasNode(f[0], g[0], t);
      MarkApplyNode(f[0], t, x, propagate);
    } else {
      assert g[1..] == ApplyAt(f[1..], t, x, propagate);
      MarkApplyIn(f[1..], t, x, propagate);
    }
  }

  lemma {:induction false} MarkApplyNode(n: Node, t: string, x: string, propagate: bool)
    requires HasId(n, t)
    ensures MarkedNode(ApplyNode(n, t, x, propagate), t, x)
    decreases n
  {
    if n.id != Some(t) { MarkApplyIn(n.children, t, x, propagate); }
  }

  /** Processing any element keeps every existing mark. */
  lemma {:induction false} KeepMarksIn(f: seq<Node>, t: string, x: string, propagate: bool, u: string, y: string)
    requires MarkedIn(f, u, y)
    ensures MarkedIn(ApplyAt(f, t, x, propagate), u, y)
    decreases f
  {
    var g := ApplyAt(f, t, x, propagate);
    if HasId(f[0], t) {
      IdsApplyNode(f[0], t, x, propagate);
      SameIdsSameHasNode(f[0], g[0], u);
      assert g[1..] == f[1..];
      if HasId(f[0], u) { KeepMarksNode(f[0], t, x, propagate, u, y); }
    } else {
      assert g[1..] == ApplyAt(f[1..], t, x, propagate);
      if !HasId(f[0], u) { KeepMarksIn(f[1..], t, x, propagate, u, y); }
    }
  }

  lemma {:induction false} KeepMarksNode(n: Node, t: string, x: string, propagate: bool, u: string, y: string)
    requires MarkedNode(n, u, y)
    ensures MarkedNode(ApplyNode(n, t, x, propagate), u, y)
    decreases n
  {
    var m := ApplyNode(n, t, x, propagate);
    if n.id == Some(t) {
      if n.id != Some(u) {
        KeepMarksAttach(n, x, propagate, u, y);
      }
    } else if n.id == Some(u) {
      ApplyAtShallow(n.children, t, x, propagate);
      FirstElementSameKinds(n.children, m.children);
      var k := FirstElement(n.children).value;
      assert Shell(m.children[k]) == Shell(n.children[k]);
    } else {
      KeepMarksIn(n.children, t, x, propagate, u, y);
    }
  }

  lemma KeepMarksAttach(e: Node, x: string, propagate: bool, u: string, y: string)
    requires e.Element? && MarkedIn(e.children, u, y)
    ensures MarkedIn(Attach(e, x, propagate).children, u, y)
  {
    var r := Attach(e, x, propagate);
    if WrapperFirst(e) {
      var k := FirstElement(e.children).value;
      ConfigureGrows(e.children[k], x, propagate);
      GrowsReflAll(e.children);
      assert GrowsAll(e.children, r.children) by {
        forall j | 0 <= j < |e.children| ensures GrowsNode(e.children[j], r.children[j]) {
          if j != k { assert r.children[j] == e.children[j]; }
        }
      }
      GrowsMarkedIn(e.children, r.children, u, y);
    } else {
      var w := NewWrapper(e.children);
      MarkedHasIn(e.children, u, y);
      assert MarkedNode(w, u, y);
      assert MarkedIn([w], u, y);
      ConfigureGrows(w, x, propagate);
      assert GrowsAll([w], r.children);
      GrowsMarkedIn([w], r.children, u, y);
    }
  }

  /** On a marked element, processing the same note again is the identity. */
  lemma {:induction false} FixIn(f: seq<Node>, t: string, x: string, propagate: bool)
    requires MarkedIn(f, t, x)
    ensures ApplyAt(f, t, x, propagate) == f
    decreases f
  {
    if HasId(f[0], t) {
      FixNode(f[0], t, x, propagate);
    } else {
      FixIn(f[1..], t, x, propagate);
    }
  }

  lemma {:induction false} FixNode(n: Node, t: string, x: string, propagate: bool)
    requires MarkedNode(n, t, x)
    ensures ApplyNode(n, t, x, propagate) == n
    decreases n
  {
    if n.id == Some(t) {
      var k := FirstElement(n.children).value;
      assert Configure(n.children[k], x, propagate) == n.children[k];
      assert n.children[k := n.children[k]] == n.children;
    } else {
      FixIn(n.children, t, x, propagate);
    }
  }

  lemma {:induction false} KeepMarksAll(f: seq<Node>, ts: seq<string>, x: string, propagate: bool, u: string, y: string)
    requires MarkedIn(f, u, y)
    ensures MarkedIn(ApplyAll(f, ts, x, propagate), u, y)
    decreases |ts|
  {
    if |ts| > 0 {
      KeepMarksIn(f, ts[0], x, propagate, u, y);
      KeepMarksAll(ApplyAt(f, ts[0], x, propagate), ts[1..], x, propagate, u, y);
    }
  }

  lemma {:induction false} MarkTargets(f: seq<Node>, ts: seq<string>, x: string, propagate: bool)
    requires forall k :: 0 <= k < |ts| ==> HasIdIn(f, ts[k])
    ensures forall k :: 0 <= k < |ts| ==> MarkedIn(ApplyAll(f, ts, x, propagate), ts[k], x)
    decreases |ts|
  {
    if |ts| > 0 {
      var f1 := ApplyAt(f, ts[0], x, propagate);
      var r := ApplyAll(f, ts, x, propagate);
      MarkApplyIn(f, ts[0], x, propagate);
      KeepMarksAll(f1, ts[1..], x, propagate, ts[0], x);
      IdsApplyAt(f, ts[0], x, propagate);
      forall k | 1 <= k < |ts| ensures HasIdIn(f1, ts[k]) {
        SameIdsSameHas(f, f1, ts[k]);
      }
      MarkTargets(f1, ts[1..], x, propagate);
      forall k | 0 <= k < |ts| ensures MarkedIn(r, ts[k], x) {
        if k > 0 { assert ts[k] == ts[1..][k - 1]; }
      }
    }
  }

  lemma {:induction false} FixAll(f: seq<Node>, ts: seq<string>, x: string, propagate: bool)
    requires forall k :: 0 <= k < |ts| ==> MarkedIn(f, ts[k], x)
    ensures ApplyAll(f, ts, x, propagate) == f
    decreases |ts|
  {
    if |ts| > 0 {
      FixIn(f, ts[0], x, propagate);
      FixAll(f, ts[1..], x, propagate);
    }
  }

  /** Every target of the note that resolves in `g` is marked with the note. */
  predicate NoteMarked(g: seq<Node>, n: Note) {
    Truthy(n.target) && Truthy(n.id) ==>
      forall t :: t in TargetIds(n.target) && HasIdIn(g, t) ==> MarkedIn(g, t, n.id)
  }

  lemma ProcessNoteMarks(f: seq<Node>, n: Note, propagate: bool)
    ensures NoteMarked(ProcessNote(f, n, propagate), n)
  {
    if Truthy(n.target) && Truthy(n.id) {
      var ts := Resolved(f, TargetIds(n.target));
      var g := ProcessNote(f, n, propagate);
      MarkTargets(f, ts, n.id, propagate);
      IdsApplyAll(f, ts, n.id, propagate);
      forall t | t in TargetIds(n.target) && HasIdIn(g, t) ensures MarkedIn(g, t, n.id) {
        SameIdsSameHas(f, g, t);
        var k :| 0 <= k < |ts| && ts[k] == t;
      }
    }
  }

  lemma ProcessNoteKeeps(f: seq<Node>, n: Note, propagate: bool, u: string, y: string)
    requires MarkedIn(f, u, y)
    ensures MarkedIn(ProcessNote(f, n, propagate), u, y)
  {
    if Truthy(n.target) && Truthy(n.id) {
      KeepMarksAll(f, Resolved(f, TargetIds(n.target)), n.id, propagate, u, y);
    }
  }

  lemma ProcessNoteIds(f: seq<Node>, n: Note, propagate: bool)
    ensures IdsIn(ProcessNote(f, n, propagate)) == IdsIn(f)
  {
    if Truthy(n.target) && Truthy(n.id) {
      IdsApplyAll(f, Resolved(f, TargetIds(n.target)), n.id, propagate);
    }
  }

  lemma NoteMarkedKept(f: seq<Node>, m: Note, n: Note, propagate: bool)
    requires NoteMarked(f, n)
    ensures NoteMarked(ProcessNote(f, m, propagate), n)
  {
    var g := ProcessNote(f, m, propagate);
    if Truthy(n.target) && Truthy(n.id) {
      ProcessNoteIds(f, m, propagate);
      forall t | t in TargetIds(n.target) && HasIdIn(g, t) ensures MarkedIn(g, t, n.id) {
        SameIdsSameHas(f, g, t);
        ProcessNoteKeeps(f, m, propagate, t, n.id);
      }
    }
  }

  /** On a forest where the note is already marked, the note changes nothing. */
  lemma ProcessNoteFix(f: seq<Node>, n: Note, propagate: bool)
    requires NoteMarked(f, n)
    ensures ProcessNote(f, n, propagate) == f
  {
    if Truthy(n.target) && Truthy(n.id) {
      var ts := Resolved(f, TargetIds(n.target));
      forall k | 0 <= k < |ts| ensures MarkedIn(f, ts[k], n.id) {
        assert ts[k] in ts;
      }
      FixAll(f, ts, n.id, propagate);
    }
  }

  predicate AllMarked(g: seq<Node>, ns: seq<Note>) {
    forall i :: 0 <= i < |ns| ==> NoteMarked(g, ns[i])
  }

  lemma {:induction false} RunKeeps(f: seq<Node>, ns: seq<Note>, propagate: bool, n: Note)
    requires NoteMarked(f, n)
    ensures NoteMarked(Run(f, ns, propagate), n)
    decreases |ns|
  {
    if |ns| > 0 {
      NoteMarkedKept(f, ns[0], n, propagate);
      RunKeeps(ProcessNote(f, ns[0], propagate), ns[1..], propagate, n);
    }
  }

  lemma {:induction false} RunMarks(f: seq<Node>, ns: seq<Note>, propagate: bool)
    ensures AllMarked(Run(f, ns, propagate), ns)
    decreases |ns|
  {
    if |ns| > 0 {
      var f1 := ProcessNote(f, ns[0], propagate);
      ProcessNoteMarks(f, ns[0], propagate);
      RunKeeps(f1, ns[1..], propagate, ns[0]);
      RunMarks(f1, ns[1..], propagate);
      forall i | 1 <= i < |ns| ensures NoteMarked(Run(f, ns, propagate), ns[i]) {
        assert ns[i] == ns[1..][i - 1];
      }
    }
  }

  lemma {:induction false} RunFix(g: seq<Node>, ns: seq<Note>, propagate: bool)
    requires AllMarked(g, ns)
    ensures Run(g, ns, propagate) == g
    decreases |ns|
  {
    if |ns| > 0 {
      ProcessNoteFix(g, ns[0], propagate);
      assert AllMarked(g, ns[1..]) by {
        forall i | 0 <= i < |ns[1..]| ensures NoteMarked(g, ns[1..][i]) { assert ns[1..][i] == ns[i + 1]; }
      }
      RunFix(g, ns[1..], propagate);
    }
  }

  /** A second pass over the same notes changes nothing: no new wrapper, no
      new group, no second set of handlers. */
  lemma ProcessNotesIdempotent(f: seq<Node>, notes: seq<Note>, propagate: bool)
    ensures ProcessNotes(ProcessNotes(f, notes, propagate), notes, propagate)
         == ProcessNotes(f, notes, propagate)
  {
    var ns := SortNotes(notes);
    RunMarks(f, ns, propagate);
    RunFix(Run(f, ns, propagate), ns, propagate);
  }

  // ---------------------------------------------------------------------
  // Only the target's subtree changes; group lists stay duplicate-free
  // ---------------------------------------------------------------------

  /** Processing a target replaces the first element with that id by its
      processed version and leaves every other node, its ancestors included,
      as it was. */
  lemma {:induction false} ApplyAtIsReplace(f: seq<Node>, t: string, x: string, propagate: bool)
    requires HasIdIn(f, t)
    ensures var q := FindPath(f, t).value;
      ApplyAt(f, t, x, propagate) == ReplaceAt(f, q, Attach(At(f, q), x, propagate))
    decreases f
  {
    var q := FindPath(f, t).value;
    if HasId(f[0], t) {
      if f[0].id != Some(t) {
        ApplyAtIsReplace(f[0].children, t, x, propagate);
        var q' := FindPathNode(f[0], t);
        assert q' == FindPath(f[0].children, t).value;
        assert q == [0] + q';
        assert q[1..] == q';
      }
    } else {
      ApplyAtIsReplace(f[1..], t, x, propagate);
      var r := FindPath(f[1..], t).value;
      assert q == [r[0] + 1] + r[1..];
      ReplaceShift(f, r, Attach(At(f[1..], r), x, propagate));
    }
  }

  lemma ReplaceShift(f: seq<Node>, r: seq<nat>, m: Node)
    requires |f| > 0 && ValidPath(f[1..], r)
    ensures var q := [r[0] + 1] + r[1..];
      ValidPath(f, q) && At(f, q) == At(f[1..], r)
      && ReplaceAt(f, q, m) == [f[0]] + ReplaceAt(f[1..], r, m)
  {
    var q := [r[0] + 1] + r[1..];
    assert q[1..] == r[1..];
  }

  predicate DupFreeNode(n: Node)
    decreases n
  {
    n.TextNode? || (NoDup(n.groups) && DupFreeAll(n.children))
  }

  /** No element's group list holds an id twice. */
  predicate DupFreeAll(f: seq<Node>)
    decreases f
  {
    forall i :: 0 <= i < |f| ==> DupFreeNode(f[i])
  }

  lemma {:induction false} DupFreePropNode(n: Node, x: string)
    requires DupFreeNode(n)
    ensures DupFreeNode(PropNode(n, x))
    decreases n
  {
    if n.Element? { DupFreePropAll(n.children, x); }
  }

  lemma {:induction false} DupFreePropAll(f: seq<Node>, x: string)
    requires DupFreeAll(f)
    ensures DupFreeAll(PropAll(f, x))
    decreases f
  {
    forall i | 0 <= i < |f| ensures DupFreeNode(PropAll(f, x)[i]) { DupFreePropNode(f[i], x); }
  }

  lemma DupFreeAttach(e: Node, x: string, propagate: bool)
    requires e.Element? && DupFreeNode(e)
    ensures DupFreeNode(Attach(e, x, propagate))
  {
    var r := Attach(e, x, propagate);
    assert DupFreeAll(e.children);
    if WrapperFirst(e) {
      var k := FirstElement(e.children).value;
      assert DupFreeNode(e.children[k]);
      DupFreeConfigure(e.children[k], x, propagate);
      forall j | 0 <= j < |r.children| ensures DupFreeNode(r.children[j]) {
        if j != k { assert r.children[j] == e.children[j]; }
      }
    } else {
      var w := NewWrapper(e.children);
      DupFreeConfigure(w, x, propagate);
      assert r.children == [Configure(w, x, propagate)];
    }
    assert DupFreeAll(r.children);
  }

  lemma DupFreeConfigure(w: Node, x: string, propagate: bool)
    requires w.Element? && NoDup(w.groups) && DupFreeAll(w.children)
    ensures DupFreeNode(Configure(w, x, propagate))
  {
    if x !in w.groups && propagate { DupFreePropAll(w.children, x); }
  }

  lemma {:induction false} DupFreeApplyNode(n: Node, t: string, x: string, propagate: bool)
    requires DupFreeNode(n)
    ensures DupFreeNode(ApplyNode(n, t, x, propagate))
    decreases n
  {
    if n.Element? {
      if n.id == Some(t) { DupFreeAttach(n, x, propagate); }
      else { DupFreeApplyAt(n.children, t, x, propagate); }
    }
  }

  lemma {:induction false} DupFreeApplyAt(f: seq<Node>, t: string, x: string, propagate: bool)
    requires DupFreeAll(f)
    ensures DupFreeAll(ApplyAt(f, t, x, propagate))
    decreases f
  {
    if |f| > 0 {
      var g := ApplyAt(f, t, x, propagate);
      if HasId(f[0], t) {
        DupFreeApplyNode(f[0], t, x, propagate);
        forall i | 1 <= i < |f| ensures DupFreeNode(g[i]) { assert g[i] == f[i]; }
      } else {
        DupFreeApplyAt(f[1..], t, x, propagate);
        forall i | 1 <= i < |f| ensures DupFreeNode(g[i]) {
          assert g[i] == ApplyAt(f[1..], t, x, propagate)[i - 1];
        }
      }
    }
  }

  lemma {:induction false} DupFreeApplyAll(f: seq<Node>, ts: seq<string>, x: string, propagate: bool)
    requires DupFreeAll(f)
    ensures DupFreeAll(ApplyAll(f, ts, x, propagate))
    decreases |ts|
  {
    if |ts| > 0 {
      DupFreeApplyAt(f, ts[0], x, propagate);
      DupFreeApplyAll(ApplyAt(f, ts[0], x, propagate), ts[1..], x, propagate);
    }
  }

  lemma {:induction false} DupFreeRun(f: seq<Node>, ns: seq<Note>, propagate: bool)
    requires DupFreeAll(f)
    ensures DupFreeAll(Run(f, ns, propagate))
    decreases |ns|
  {
    if |ns| > 0 {
      var n := ns[0];
      if Truthy(n.target) && Truthy(n.id) {
        DupFreeApplyAll(f, Resolved(f, TargetIds(n.target)), n.id, propagate);
      }
      DupFreeRun(ProcessNote(f, n, propagate), ns[1..], propagate);
    }
  }

  /** Group lists never hold an id twice after the pass. */
  lemma ProcessNotesDupFree(f: seq<Node>, notes: seq<Note>, propagate: bool)
    requires DupFreeAll(f)
    ensures DupFreeAll(ProcessNotes(f, notes, propagate))
  {
    DupFreeRun(f, SortNotes(notes), propagate);
  }
}

=== FILE: laboratorio.dfy ===
/**
  The note laboratory: one passage at a time, its notes highlighted
  without propagation to nested wrappers, a current note chosen by click
  or by the prev/next buttons, and a cyclic search for the next note still
  to be evaluated.

  Wrappers are selected for highlighting with the attribute selector
  `[data-note-groups*="id"]`, a substring test on the space-joined group
  list.
 */
module Laboratorio {
  import opened Text
  import opened Dom
  import opened Highlight
  import opened Marking
  import opened Pasajes
  import opened Notas
  import opened EvalStats
  import Edicion

  // ---------------------------------------------------------------------
  // Highlighting in the text
  // ---------------------------------------------------------------------

  /** `[data-note-groups*="id"]`: the group attribute contains `id` as a
      substring; an empty `id` selects nothing. */
  predicate Matches(groups: seq<string>, id: string) {
    |id| > 0 && Contains(Join(groups, " "), id)
  }

  /** Every wrapper holding the id as a group is selected. */
  lemma {:induction false} MatchesMember(groups: seq<string>, id: string)
    requires id in groups && |id| > 0
    ensures Matches(groups, id)
    decreases |groups|
  {
    if groups[0] == id {
      assert Contains(id, id);
      if |groups| > 1 {
        assert Join(groups, " ") == "" + id + (" " + Join(groups[1..], " "));
        ContainsInside("", id, " " + Join(groups[1..], " "), id);
      }
    } else {
      MatchesMember(groups[1..], id);
      assert Join(groups, " ") == groups[0] + " " + Join(groups[1..], " ") + "";
      ContainsInside(groups[0] + " ", Join(groups[1..], " "), "", id);
    }
  }

  /** The selector also picks wrappers of a different note whose id has the
      selected id inside it. */
  lemma SubstringAlsoMatches()
    ensures Matches(["n-12"], "n-1") && "n-1" !in ["n-12"]
  {
    assert Join(["n-12"], " ") == "n-12";
    assert OccursAt("n-12", "n-1", 0);
  }

  /** `highlightNotaEnTexto(id, on)`: `note-active` set to `on` on the
      selected wrappers; nothing else changes. */
  function HighlightNote(f: seq<Node>, id: string, on: bool): (r: seq<Node>)
    ensures Unstyle(r) == Unstyle(f)
    ensures |Shells(r)| == |Shells(f)|
    ensures forall i :: 0 <= i < |Shells(f)| && Shells(f)[i].Element? ==>
      Shells(r)[i] == Shells(f)[i].(active := if Matches(Shells(f)[i].groups, id) then on
                                              else Shells(f)[i].active)
  {
    var act: Rule := (a, c, gs) => if Matches(gs, id) then on else a;
    var cur: Rule := (a, c, gs) => c;
    MarkShells(f, act, cur);
    MarkOnlyStyles(f, act, cur);
    MarkAll(f, act, cur)
  }

  /** `marcarNotaActualEnTexto(id)`: afterwards the current wrappers, the
      active wrappers and the selected wrappers are the same set. */
  function MarkCurrent(f: seq<Node>, id: string): (r: seq<Node>)
    ensures Unstyle(r) == Unstyle(f)
    ensures |Shells(r)| == |Shells(f)|
    ensures forall i :: 0 <= i < |Shells(f)| && Shells(f)[i].Element? ==>
      Shells(r)[i] == Shells(f)[i].(active := Matches(Shells(f)[i].groups, id),
                                    current := Matches(Shells(f)[i].groups, id))
  {
    var sel: Rule := (a, c, gs) => Matches(gs, id);
    MarkShells(f, sel, sel);
    MarkOnlyStyles(f, sel, sel);
    MarkAll(f, sel, sel)
  }

  /** After marking, an element is current exactly when it is active. */
  lemma CurrentIsActive(f: seq<Node>, id: string)
    ensures var s := Shells(MarkCurrent(f, id));
      forall i :: 0 <= i < |s| && s[i].Element? ==> (s[i].current <==> s[i].active)
  {
    var s := Shells(MarkCurrent(f, id));
    forall i | 0 <= i < |s| && s[i].Element?
      ensures s[i].current <==> s[i].active
    {
      Edicion.ShellsAreElements(f);
    }
  }

  // ---------------------------------------------------------------------
  // State
  // ---------------------------------------------------------------------

  /** The laboratory's state: passages, the passage shown, its notes, the
      current note (-1 for none), the ids evaluated, the rendered text, the
      finish screen, and the `disabled` flags of the prev/next buttons. */
  datatype Lab = Lab(passages: seq<Passage>, passageIndex: int, notes: seq<Note>, index: int,
                     evaluated: set<string>, view: seq<Node>, finished: bool,
                     prevDisabled: bool, nextDisabled: bool)

  /** `actualizarBotonesNavegacion`. */
  function RefreshButtons(st: Lab): (r: Lab)
    ensures ButtonsMatch(r)
    ensures r.(prevDisabled := st.prevDisabled, nextDisabled := st.nextDisabled) == st
  {
    st.(prevDisabled := st.index <= 0, nextDisabled := st.index >= |st.notes| - 1)
  }

  /** The buttons show the current position: prev is disabled iff there is
      no earlier note, next iff there is no later one. */
  predicate ButtonsMatch(st: Lab) {
    (st.prevDisabled <==> st.index <= 0) && (st.nextDisabled <==> st.index >= |st.notes| - 1)
  }

  /** The current note index is -1 or a valid position. */
  predicate IndexOk(st: Lab) {
    -1 <= st.index < |st.notes|
  }

  predicate Invariant(st: Lab) {
    IndexOk(st) && ButtonsMatch(st)
  }

  // ---------------------------------------------------------------------
  // Loading a passage
  // ---------------------------------------------------------------------

  /** The renderer (CETEI) turning the TEI fragment into the displayed tree. */
  type Renderer = seq<Node> -> seq<Node>

  /** `cargarPasaje(i)` followed by `cargarYAplicarNotas`, as written: the
      prev/next buttons are left as they were. */
  function LoadPassage(st: Lab, i: int, doc: seq<Node>, allNotes: seq<Note>, render: Renderer): (r: Lab)
    ensures !(0 <= i < |st.passages|) ==> r == st.(finished := true)
    ensures 0 <= i < |st.passages| ==>
      && r.passages == st.passages && r.passageIndex == i && r.finished == st.finished
      && r.index == -1 && r.evaluated == {}
      && r.prevDisabled == st.prevDisabled && r.nextDisabled == st.nextDisabled
    ensures 0 <= i < |st.passages| && !Extract(doc, st.passages[i]).Fragment? ==>
      r.notes == [] && r.view == st.view
    ensures 0 <= i < |st.passages| && Extract(doc, st.passages[i]).Fragment? ==>
      var frag := Extract(doc, st.passages[i]).children;
      && IsSubsequence(r.notes, allNotes)
      && (forall n :: n in r.notes <==>
            n in allNotes && exists t :: t in NormalizedTargets(n.target) && HasIdIn(frag, t))
      && IdsIn(r.view) == IdsIn(render(frag))
      && EraseAll(r.view) == EraseAll(render(frag))
  {
    if !(0 <= i < |st.passages|) then st.(finished := true)
    else
      var reset := st.(passageIndex := i, notes := [], index := -1, evaluated := {});
      var e := Extract(doc, st.passages[i]);
      if !e.Fragment? then reset
      else
        var notes := FilterByIds(allNotes, FragmentIds(e.children));
        forall n ensures n in notes <==>
          n in allNotes && exists t :: t in NormalizedTargets(n.target) && HasIdIn(e.children, t)
        {
          FilterByFragment(allNotes, e.children, n);
        }
        reset.(notes := notes, view := ProcessNotes(render(e.children), notes, false))
  }

  /** The load with the buttons brought up to date, as the initial load does. */
  function LoadPassageFixed(st: Lab, i: int, doc: seq<Node>, allNotes: seq<Note>, render: Renderer): (r: Lab)
    ensures 0 <= i < |st.passages| ==> Invariant(r)
    ensures Invariant(st) ==> Invariant(r)
    ensures r.(prevDisabled := false, nextDisabled := false)
         == LoadPassage(st, i, doc, allNotes, render).(prevDisabled := false, nextDisabled := false)
  {
    var r := LoadPassage(st, i, doc, allNotes, render);
    if 0 <= i < |st.passages| then RefreshButtons(r) else r
  }

  /** `siguientePasaje`. */
  function NextPassage(st: Lab, doc: seq<Node>, allNotes: seq<Note>, render: Renderer): (r: Lab)
    ensures Invariant(st) ==> Invariant(r)
    ensures st.passageIndex + 1 < |st.passages| && 0 <= st.passageIndex + 1 ==>
      r.passageIndex == st.passageIndex + 1 && r.index == -1 && r.evaluated == {}
    ensures st.passageIndex + 1 >= |st.passages| ==> r == st.(finished := true)
  {
    LoadPassageFixed(st, st.passageIndex + 1, doc, allNotes, render)
  }

  // ---------------------------------------------------------------------
  // Navigation
  // ---------------------------------------------------------------------

  /** `navegarANota(i)`: outside the notes nothing happens; otherwise note
      `i` becomes current in the state, the text and the buttons. */
  function Navigate(st: Lab, i: int): (r: Lab)
    ensures !(0 <= i < |st.notes|) ==> r == st
    ensures 0 <= i < |st.notes| ==>
      && r.index == i && Invariant(r)
      && r.(index := st.index, view := st.view, prevDisabled := st.prevDisabled,
            nextDisabled := st.nextDisabled) == st
      && Unstyle(r.view) == Unstyle(st.view)
      && |Shells(r.view)| == |Shells(st.view)|
      && (forall k :: 0 <= k < |Shells(st.view)| && Shells(st.view)[k].Element? ==>
            var m := Matches(Shells(st.view)[k].groups, st.notes[i].id);
            Shells(r.view)[k] == Shells(st.view)[k].(active := m, current := m))
  {
    if !(0 <= i < |st.notes|) then st
    else RefreshButtons(st.(index := i, view := MarkCurrent(st.view, st.notes[i].id)))
  }

  /** The prev button: ignored while disabled; otherwise one note back if
      there is one. */
  function PrevClick(st: Lab): (r: Lab)
    ensures Invariant(st) ==> Invariant(r)
    ensures r.index == st.index || (r.index == st.index - 1 && st.index > 0)
    ensures Invariant(st) && st.index > 0 ==> r.index == st.index - 1
  {
    if st.prevDisabled then st
    else if st.index > 0 then Navigate(st, st.index - 1)
    else st
  }

  /** The next button: ignored while disabled; otherwise one note forward if
      there is one, or the first note when none is selected. */
  function NextClick(st: Lab): (r: Lab)
    ensures Invariant(st) ==> Invariant(r)
    ensures r.index == st.index || (r.index == st.index + 1 && st.index + 1 < |st.notes|)
    ensures Invariant(st) && st.index < |st.notes| - 1 ==> r.index == st.index + 1
  {
    if st.nextDisabled then st
    else if st.index < |st.notes| - 1 then Navigate(st, st.index + 1)
    else if st.index == -1 && |st.notes| > 0 then Navigate(st, 0)
    else st
  }

  /** The `else if` of the next button never decides anything: whenever it
      could apply, the first branch has already moved to note 0. */
  lemma NextClickFirstBranchCovers(st: Lab)
    requires !st.nextDisabled && st.index == -1 && |st.notes| > 0
    ensures NextClick(st) == Navigate(st, st.index + 1) && NextClick(st).index == 0
  {
  }

  // ---------------------------------------------------------------------
  // Wrapper handlers
  // ---------------------------------------------------------------------

  /** A click on a wrapper whose groups are `own`: the note whose id is the
      first group becomes current; nothing happens if there is none. */
  function WrapperClick(st: Lab, own: seq<string>): (r: Lab)
    ensures Invariant(st) ==> Invariant(r)
    ensures |own| == 0 || (forall j :: 0 <= j < |st.notes| ==> st.notes[j].id != own[0]) ==> r == st
    ensures |own| > 0 && (exists j :: 0 <= j < |st.notes| && st.notes[j].id == own[0]) ==>
      0 <= r.index < |st.notes| && st.notes[r.index].id == own[0]
      && forall j :: 0 <= j < r.index ==> st.notes[j].id != own[0]
  {
    if |own| == 0 then st
    else
      var k := Edicion.FindNote(st.notes, own[0]);
      if k.Some? then Navigate(st, k.value) else st
  }

  /** Entering a wrapper highlights the wrappers selected by its first group. */
  function WrapperEnter(st: Lab, own: seq<string>): (r: Lab)
    ensures r.(view := st.view) == st
    ensures |own| == 0 ==> r == st
    ensures |own| > 0 ==> |Shells(r.view)| == |Shells(st.view)|
    ensures |own| > 0 ==> forall i :: 0 <= i < |Shells(st.view)| && Shells(st.view)[i].Element? ==>
      var e := Shells(st.view)[i];
      Shells(r.view)[i] == e.(active := e.active || Matches(e.groups, own[0]))
  {
    if |own| == 0 then st else st.(view := HighlightNote(st.view, own[0], true))
  }

  /** The current note's id, if a note is current. */
  function CurrentId(st: Lab): (r: Option<string>)
    ensures r.Some? <==> 0 <= st.index < |st.notes|
  {
    if 0 <= st.index < |st.notes| then Some(st.notes[st.index].id) else None
  }

  /** Leaving a wrapper removes the highlight of its first group, unless that
      group is the current note. */
  function WrapperLeave(st: Lab, own: seq<string>): (r: Lab)
    ensures r.(view := st.view) == st
    ensures |own| == 0 || CurrentId(st) == Some(own[0]) ==> r == st
    ensures |own| > 0 && CurrentId(st) != Some(own[0]) ==> |Shells(r.view)| == |Shells(st.view)|
    ensures |own| > 0 && CurrentId(st) != Some(own[0]) ==>
      forall i :: 0 <= i < |Shells(st.view)| && Shells(st.view)[i].Element? ==>
        var e := Shells(st.view)[i];
        Shells(r.view)[i] == e.(active := e.active && !Matches(e.groups, own[0]))
  {
    if |own| == 0 then st
    else if CurrentId(st) == Some(own[0]) then st
    else st.(view := HighlightNote(st.view, own[0], false))
  }

  // ---------------------------------------------------------------------
  // Evaluation
  // ---------------------------------------------------------------------

  /** `marcarNotaComoEvaluada`. */
  function MarkEvaluated(st: Lab, id: string): (r: Lab)
    ensures r.evaluated == st.evaluated + {id}
    ensures r.(evaluated := st.evaluated) == st
    ensures Invariant(st) ==> Invariant(r)
  {
    st.(evaluated := st.evaluated + {id})
  }

  /** What `avanzarSiguienteNotaPendiente` does: go to a note, announce the
      passage as completed, or nothing. */
  datatype Step = GoTo(i: nat) | Completed | Stay

  predicate Pending(st: Lab, j: int) {
    0 <= j < |st.notes| && st.notes[j].id !in st.evaluated
  }

  /** `avanzarSiguienteNotaPendiente`: the first pending note after the
      current one, else the first pending note before it. */
  method NextPending(st: Lab) returns (r: Step)
    requires -1 <= st.index
    ensures r.GoTo? ==> Pending(st, r.i) && r.i != st.index
    ensures r.GoTo? && r.i > st.index ==> forall j :: st.index < j < r.i ==> !Pending(st, j)
    ensures r.GoTo? && r.i < st.index ==>
      (forall j :: st.index < j < |st.notes| ==> !Pending(st, j))
      && forall j :: 0 <= j < r.i ==> !Pending(st, j)
    ensures !r.GoTo? ==> forall j :: 0 <= j < |st.notes| && j != st.index ==> !Pending(st, j)
    ensures r.Completed? <==> !r.GoTo? && |st.evaluated| == |st.notes|
  {
    var i := st.index + 1;
    while i < |st.notes|
      invariant st.index + 1 <= i
      invariant forall j :: st.index < j < i ==> !Pending(st, j)
    {
      if st.notes[i].id !in st.evaluated {
        return GoTo(i);
      }
      i := i + 1;
    }
    i := 0;
    while i < st.index
      invariant 0 <= i
      invariant forall j :: 0 <= j < i ==> !Pending(st, j)
      invariant forall j :: st.index < j < |st.notes| ==> !Pending(st, j)
    {
      if i < |st.notes| && st.notes[i].id !in st.evaluated {
        return GoTo(i);
      }
      i := i + 1;
    }
    if |st.evaluated| == |st.notes| {
      return Completed;
    }
    return Stay;
  }

  /** The note panel: the evaluated mark, or the two vote buttons with their
      counters and the "first evaluator" message. */
  datatype NotePanel = AlreadyEvaluated | Voting(buttons: Buttons)

  /** `renderizarNotaActual`. */
  function RenderNote(st: Lab, n: Note, stats: Stats): (r: NotePanel)
    ensures r.AlreadyEvaluated? <==> n.id in st.evaluated
    ensures r.Voting? ==> (r.buttons.firstMessage <==> stats.total == 0)
    ensures r.Voting? ==> r.buttons.utiles == stats.utiles && r.buttons.mejorables == stats.mejorables
  {
    if n.id in st.evaluated then AlreadyEvaluated else Voting(MakeButtons(stats))
  }

  // ---------------------------------------------------------------------
  // The buttons after a passage change
  // ---------------------------------------------------------------------

  /** A one-element document, a passage of that element, one note on it. */
  const SampleDoc: seq<Node> := [Plain("sp", Some("sp-1"), [])]
  const SampleNote: Note := Note("n-1", "#sp-1", "", "")

  /** Moving on from a passage whose last note was current, as written: the
      next passage has a note, but the next button stays disabled, so the
      button cannot bring up its first note. With the buttons refreshed it
      does. */
  lemma StaleNextButton()
    ensures var st := Lab([Passage("sp-1", "sp-1"), Passage("sp-1", "sp-1")], 0, [SampleNote], 0, {},
                          [], false, true, true);
            var render: Renderer := f => f;
      && Invariant(st)
      && var asWritten := LoadPassage(st, 1, SampleDoc, [SampleNote], render);
         var fixed := LoadPassageFixed(st, 1, SampleDoc, [SampleNote], render);
         && |asWritten.notes| == 1 && !ButtonsMatch(asWritten)
         && NextClick(asWritten).index == -1
         && NextClick(fixed).index == 0
  {
    var st := Lab([Passage("sp-1", "sp-1"), Passage("sp-1", "sp-1")], 0, [SampleNote], 0, {},
                  [], false, true, true);
    var render: Renderer := f => f;
    var ps := Passage("sp-1", "sp-1");
    assert HasId(SampleDoc[0], "sp-1");
    assert HasIdIn(SampleDoc, "sp-1");
    var e := Extract(SampleDoc, ps);
    assert e == Fragment([SampleDoc[0]]);
    assert FragmentIds(e.children) == ["sp-1"] by {
      assert Ids(SampleDoc[0]) == ["sp-1"] + IdsIn([]);
      assert e.children[1..] == [];
      assert IdsIn(e.children) == Ids(SampleDoc[0]) + IdsIn([]);
    }
    assert NormalizedTargets(SampleNote.target) == ["sp-1"] by {
      assert ' ' !in "#sp-1" by {
        assert "#sp-1" == ['#', 's', 'p', '-', '1'];
      }
      assert SplitOn("#sp-1", ' ') == ["#sp-1"];
      assert FirstIndexOf("#sp-1", '#') == 0;
      assert RemoveFirst("#sp-1", '#') == "#sp-1"[1..] == "sp-1";
      var r := NormalizedTargets(SampleNote.target);
      assert |r| == 1 && r[0] == RemoveFirst("#sp-1", '#');
    }
    assert Applies(SampleNote, ["sp-1"]);
    var asWritten := LoadPassage(st, 1, SampleDoc, [SampleNote], render);
    assert asWritten.notes == [SampleNote];
  }
}

=== FILE: map_notes.dfy ===
/**
  `mapear_notas_xml.py`: for every note taken from the HTML edition, the
  verses of the TEI file whose normalised text holds the note's normalised
  word are candidates; each is scored by how many words of the note's context
  it (or the verses around it) holds; the candidates are sorted best first,
  and the note is mapped, reported as not found, or kept as ambiguous.
 */
module MapNotes {
  import opened Text
  import opened Sorting

  // ---------------------------------------------------------------------
  // normalizar_texto
  // ---------------------------------------------------------------------

  /** The characters of `[¿?¡!,;:.—\-\(\)\[\]«»""]`. */
  predicate IsDeleted(c: char) {
    c in "¿?¡!,;:.—-()[]«»\""
  }

  /** `re.sub(r'[¿?¡!,;:.—\-\(\)\[\]«»""]', '', s)`. */
  function DeletePunct(s: string): (r: string)
    ensures |r| <= |s|
    ensures forall i :: 0 <= i < |r| ==> !IsDeleted(r[i]) && r[i] in s
  {
    if |s| == 0 then ""
    else
      var rest := DeletePunct(s[1..]);
      if IsDeleted(s[0]) then rest else [s[0]] + rest
  }

  /** The deletion is a filter: it works on each character alone, keeping
      every character but those of the class, in order. */
  lemma {:induction false} DeletePunctSpec(a: string, b: string, c: char)
    ensures DeletePunct(a + b) == DeletePunct(a) + DeletePunct(b)
    ensures DeletePunct([c]) == if IsDeleted(c) then [] else [c]
    decreases |a|
  {
    if |a| > 0 {
      DeletePunctSpec(a[1..], b, c);
      assert (a + b)[0] == a[0];
      assert (a + b)[1..] == a[1..] + b;
    } else {
      assert a + b == b;
    }
    assert [c][1..] == [];
  }

  /** Text without any of those characters is left alone. */
  lemma {:induction false} DeletePunctKeeps(s: string)
    requires forall i :: 0 <= i < |s| ==> !IsDeleted(s[i])
    ensures DeletePunct(s) == s
  {
    if |s| > 0 {
      DeletePunctKeeps(s[1..]);
      assert s == [s[0]] + s[1..];
    }
  }

  /** A character normalised text may hold. */
  predicate Clean(c: char) {
    !IsDeleted(c) && !IsUpperLatin(c)
  }

  predicate AllClean(s: string) {
    forall i :: 0 <= i < |s| ==> Clean(s[i])
  }

  /** `normalizar_texto`: lower case, the punctuation deleted, whitespace
      runs made single spaces and the ends trimmed. */
  function Normalize(t: string): (r: string)
    ensures Squashed(r) && AllClean(r)
  {
    var d := DeletePunct(Lower(t));
    assert AllClean(d) by {
      forall i | 0 <= i < |d| ensures Clean(d[i]) {
        var j :| 0 <= j < |Lower(t)| && Lower(t)[j] == d[i];
      }
    }
    SquashIsSquashed(d);
    SquashKeepsClean(d);
    Squash(d)
  }

  predicate AllWordsClean(ws: seq<string>) {
    forall k :: 0 <= k < |ws| ==> AllClean(ws[k])
  }

  lemma {:induction false} WordsKeepClean(s: string)
    requires AllClean(s)
    ensures AllWordsClean(Words(s))
    decreases |s|
  {
    if |DropSpaces(s)| > 0 {
      var u := WordsCleanStep(s);
      WordsKeepClean(u);
      CleanWordsCons(WordPrefix(DropSpaces(s)), Words(u));
    }
  }

  /** The first word of clean text and the text after it are clean. */
  lemma WordsCleanStep(s: string) returns (u: string)
    requires AllClean(s) && |DropSpaces(s)| > 0
    ensures |u| < |s| && AllClean(u) && AllClean(WordPrefix(DropSpaces(s)))
    ensures Words(s) == [WordPrefix(DropSpaces(s))] + Words(u)
  {
    var t := DropSpaces(s);
    var w := WordPrefix(t);
    WordsStep(s);
    CleanSlice(s, |s| - |t|, |s|);
    CleanSlice(t, 0, |w|);
    CleanSlice(t, |w|, |t|);
    u := t[|w|..];
  }

  /** A piece of clean text is clean. */
  lemma CleanSlice(s: string, a: nat, b: nat)
    requires AllClean(s) && a <= b <= |s|
    ensures AllClean(s[a..b])
  {
    forall i | 0 <= i < b - a ensures Clean(s[a..b][i]) {
      assert s[a..b][i] == s[a + i];
    }
  }

  lemma CleanWordsCons(w: string, ws: seq<string>)
    requires AllClean(w) && AllWordsClean(ws)
    ensures AllWordsClean([w] + ws)
  {
    forall k | 0 < k < |[w] + ws| ensures AllClean(([w] + ws)[k]) {
      assert ([w] + ws)[k] == ws[k - 1];
    }
  }

  lemma {:induction false} JoinKeepsClean(ws: seq<string>)
    requires forall k :: 0 <= k < |ws| ==> AllClean(ws[k])
    ensures AllClean(Join(ws, " "))
    decreases |ws|
  {
    if |ws| > 1 {
      JoinKeepsClean(ws[1..]);
      var r := Join(ws[1..], " ");
      assert Join(ws, " ") == ws[0] + " " + r;
      forall i | 0 <= i < |ws[0] + " " + r| ensures Clean((ws[0] + " " + r)[i]) {
        if i < |ws[0]| {
          assert (ws[0] + " " + r)[i] == ws[0][i];
        } else if i > |ws[0]| {
          assert (ws[0] + " " + r)[i] == r[i - |ws[0]| - 1];
        }
      }
    }
  }

  lemma SquashKeepsClean(s: string)
    requires AllClean(s)
    ensures AllClean(Squash(s))
  {
    WordsKeepClean(s);
    JoinKeepsClean(Words(s));
  }

  lemma LowerKeepsClean(s: string)
    requires AllClean(s)
    ensures Lower(s) == s
  {
  }

  /** Normalising keeps the words of the lower-cased text with the
      punctuation deleted: only the whitespace between them changes. */
  lemma NormalizeKeepsWords(t: string)
    ensures Words(Normalize(t)) == Words(DeletePunct(Lower(t)))
  {
    WordsOfJoin(Words(DeletePunct(Lower(t))));
  }

  /** Normalising normalised text changes nothing. */
  lemma NormalizeIdempotent(t: string)
    ensures Normalize(Normalize(t)) == Normalize(t)
  {
    var n := Normalize(t);
    LowerKeepsClean(n);
    DeletePunctKeeps(n);
    SquashIdempotent(DeletePunct(Lower(t)));
  }

  // ---------------------------------------------------------------------
  // Scores
  // ---------------------------------------------------------------------

  /** A score `found / total`, or 0 when there are no context words; every
      candidate of one note shares the same `total`. */
  datatype Score = Score(found: nat, total: nat)

  function Value(s: Score): real {
    if s.total == 0 then 0.0 else s.found as real / s.total as real
  }

  /** `sum(1 for p in palabras if p in texto)`. */
  function CountFound(ws: seq<string>, text: string): (c: nat)
    ensures c <= |ws|
  {
    if |ws| == 0 then 0 else (if Contains(text, ws[0]) then 1 else 0) + CountFound(ws[1..], text)
  }

  /** Every context word found makes the count the number of words. */
  lemma {:induction false} CountFoundAll(ws: seq<string>, text: string)
    ensures CountFound(ws, text) == |ws| <==> forall k :: 0 <= k < |ws| ==> Contains(text, ws[k])
  {
    if |ws| > 0 {
      CountFoundAll(ws[1..], text);
      assert forall k :: 1 <= k < |ws| ==> ws[k] == ws[1..][k - 1];
    }
  }

  /** A score of found words lies in [0, 1]. */
  lemma ValueBounds(s: Score)
    requires s.found <= s.total
    ensures 0.0 <= Value(s) <= 1.0
  {
  }

  /** With the same number of context words, the score orders as the count. */
  lemma ValueOrder(a: Score, b: Score)
    requires a.total == b.total && a.found <= a.total && b.found <= b.total
    ensures Value(a) < Value(b) <==> a.total > 0 && a.found < b.found
    ensures a.total > 0 ==> (Value(a) == Value(b) <==> a.found == b.found)
  {
    if a.total > 0 {
      DivOrder(a.found as real, b.found as real, a.total as real);
    }
  }

  lemma DivOrder(x: real, y: real, t: real)
    requires t > 0.0
    ensures x / t < y / t <==> x < y
    ensures x / t == y / t <==> x == y
  {
    assert x / t * t == x;
    assert y / t * t == y;
    assert (y / t - x / t) * t == y - x;
  }

  /** A sibling of the verse under its parent: its tag and its text. */
  datatype Sib = Sib(tag: string, text: string)

  /** The verse's parent's children and the verse's place among them. */
  datatype Place = Place(siblings: seq<Sib>, index: nat)

  /** The texts of the siblings from `i` up to `hi` whose tag ends in `l`. */
  function WindowFrom(sibs: seq<Sib>, i: nat, hi: nat): (r: seq<string>)
    requires hi <= |sibs|
    ensures |r| <= (if i <= hi then hi - i else 0)
    decreases hi - i
  {
    if i >= hi then []
    else (if EndsWith(sibs[i].tag, "l") then [sibs[i].text] else []) + WindowFrom(sibs, i + 1, hi)
  }

  /** `range(max(0, index-2), min(len(parent), index+3))`. */
  function Window(p: Place): (r: seq<string>)
    ensures |r| <= 5
  {
    var lo := if p.index >= 2 then p.index - 2 else 0;
    var hi := if p.index + 3 <= |p.siblings| then p.index + 3 else |p.siblings|;
    WindowFrom(p.siblings, lo, hi)
  }

  /** A sibling whose tag ends in `l` and that is at most two places from
      the verse, on either side, has its text in the window. */
  lemma WindowHolds(p: Place, i: nat)
    requires i < |p.siblings| && EndsWith(p.siblings[i].tag, "l")
    requires p.index <= i + 2 && i <= p.index + 2
    ensures p.siblings[i].text in Window(p)
  {
    var lo := if p.index >= 2 then p.index - 2 else 0;
    var hi := if p.index + 3 <= |p.siblings| then p.index + 3 else |p.siblings|;
    WindowFromHolds(p.siblings, lo, hi, i);
  }

  lemma {:induction false} WindowFromHolds(sibs: seq<Sib>, lo: nat, hi: nat, i: nat)
    requires lo <= i < hi <= |sibs| && EndsWith(sibs[i].tag, "l")
    ensures sibs[i].text in WindowFrom(sibs, lo, hi)
    decreases hi - lo
  {
    if lo < i {
      WindowFromHolds(sibs, lo + 1, hi, i);
    }
  }

  /** Nothing outside those two places on either side is read. */
  lemma {:induction false} WindowFromOnly(sibs: seq<Sib>, lo: nat, hi: nat, t: string)
    requires hi <= |sibs|
    requires t in WindowFrom(sibs, lo, hi)
    ensures exists i :: lo <= i < hi && EndsWith(sibs[i].tag, "l") && sibs[i].text == t
    decreases hi - lo
  {
    if lo < hi && !(EndsWith(sibs[lo].tag, "l") && sibs[lo].text == t) {
      WindowFromOnly(sibs, lo + 1, hi, t);
    }
  }

  /** Near(p, i): sibling `i` ends its tag in `l` and is at most two places
      from the verse. */
  predicate Near(p: Place, i: nat) {
    i < |p.siblings| && EndsWith(p.siblings[i].tag, "l") && p.index <= i + 2 && i <= p.index + 2
  }

  /** The window holds exactly the texts of the near `l` siblings. */
  lemma WindowSpec(p: Place, t: string)
    ensures t in Window(p) <==> exists i: nat :: Near(p, i) && p.siblings[i].text == t
  {
    var lo := if p.index >= 2 then p.index - 2 else 0;
    var hi := if p.index + 3 <= |p.siblings| then p.index + 3 else |p.siblings|;
    if t in Window(p) {
      WindowFromOnly(p.siblings, lo, hi, t);
      var i :| lo <= i < hi && EndsWith(p.siblings[i].tag, "l") && p.siblings[i].text == t;
      assert Near(p, i);
    }
    if exists i: nat :: Near(p, i) && p.siblings[i].text == t {
      var i: nat :| Near(p, i) && p.siblings[i].text == t;
      WindowHolds(p, i);
    }
  }

  /** The score of a verse whose normalised text is `verseNorm`: the share of
      context words it holds, replaced by the share the window holds when
      that is larger. */
  function FinalScore(ctx: seq<string>, verseNorm: string, parent: Option<Place>): (r: Score)
    ensures r.total == |ctx| && r.found <= r.total
    ensures Value(r) >= Value(Score(CountFound(ctx, verseNorm), |ctx|))
    ensures r.found == CountFound(ctx, verseNorm)
            || (parent.Some? && r.found == CountFound(ctx, Normalize(Join(Window(parent.value), " "))))
    ensures parent.Some? ==>
      Value(r) >= Value(Score(CountFound(ctx, Normalize(Join(Window(parent.value), " "))), |ctx|))
  {
    var base := Score(CountFound(ctx, verseNorm), |ctx|);
    if parent.None? then base
    else
      var wide := Score(CountFound(ctx, Normalize(Join(Window(parent.value), " "))), |ctx|);
      if Value(wide) > Value(base) then wide else base
  }

  // ---------------------------------------------------------------------
  // encontrar_palabra_en_xml
  // ---------------------------------------------------------------------

  /** A verse `<l>`: its `n` (or `''`), the text of `itertext()`, and its parent. */
  datatype LVerse = LVerse(n: string, text: string, parent: Option<Place>)

  datatype Candidate = Candidate(verse: string, text: string, score: Score)

  /** The verse is a candidate for the word. */
  predicate IsCandidate(v: LVerse, word: string) {
    Contains(Normalize(v.text), Normalize(word))
  }

  function CandidateOf(v: LVerse, context: string): Candidate {
    Candidate(v.n, Strip(v.text), FinalScore(Words(Normalize(context)), Normalize(v.text), v.parent))
  }

  /** The candidate a verse gives, if it holds the word. */
  function Consider(v: LVerse, word: string, context: string): (r: Option<Candidate>)
    ensures r.Some? <==> IsCandidate(v, word)
    ensures r.Some? ==> r.value == CandidateOf(v, context)
  {
    if IsCandidate(v, word) then Some(CandidateOf(v, context)) else None
  }

  function Considered(doc: seq<LVerse>, word: string, context: string): (r: seq<Option<Candidate>>)
    ensures |r| == |doc| && forall k :: 0 <= k < |doc| ==> r[k] == Consider(doc[k], word, context)
  {
    seq(|doc|, k requires 0 <= k < |doc| => Consider(doc[k], word, context))
  }

  /** The candidates in document order. */
  function Candidates(doc: seq<LVerse>, word: string, context: string): (r: seq<Candidate>)
    ensures |r| <= |doc|
  {
    Somes(Considered(doc, word, context))
  }

  /** Every verse that holds the word gives a candidate. */
  lemma CandidatesComplete(doc: seq<LVerse>, word: string, context: string, k: nat)
    requires k < |doc| && IsCandidate(doc[k], word)
    ensures CandidateOf(doc[k], context) in Candidates(doc, word, context)
  {
    SomesComplete(Considered(doc, word, context), k);
  }

  /** Every candidate comes from a verse that holds the word. */
  lemma CandidatesSound(doc: seq<LVerse>, word: string, context: string, c: Candidate)
    requires c in Candidates(doc, word, context)
    ensures exists k :: 0 <= k < |doc| && IsCandidate(doc[k], word) && c == CandidateOf(doc[k], context)
  {
    SomesSound(Considered(doc, word, context), c);
  }

  /** All candidates of one note share the number of context words. */
  lemma CandidatesTotal(doc: seq<LVerse>, word: string, context: string)
    ensures forall c :: c in Candidates(doc, word, context) ==>
      c.score.total == |Words(Normalize(context))| && c.score.found <= c.score.total
  {
    forall c | c in Candidates(doc, word, context)
      ensures c.score.total == |Words(Normalize(context))| && c.score.found <= c.score.total
    {
      CandidatesSound(doc, word, context, c);
    }
  }

  /** Best first: a higher count ranks lower. */
  function ByScore(c: Candidate): Rank {
    Rank(0 - c.score.found as int, 0)
  }

  /** `candidatos.sort(key=score, reverse=True)`, a stable sort. */
  function Find(doc: seq<LVerse>, word: string, context: string): (r: seq<Candidate>)
    ensures multiset(r) == multiset(Candidates(doc, word, context))
  {
    SortBy(Candidates(doc, word, context), ByScore)
  }

  /** Candidates that share one number of context words. */
  predicate SameTotal(cs: seq<Candidate>) {
    forall i :: 0 <= i < |cs| ==>
      cs[i].score.found <= cs[i].score.total && cs[i].score.total == cs[0].score.total
  }

  /** Sorted best first. */
  predicate Descending(cs: seq<Candidate>) {
    forall i, j :: 0 <= i < j < |cs| ==> Value(cs[i].score) >= Value(cs[j].score)
  }

  /** The sorted candidates are those of the document, best first, and
      candidates of equal score stay in document order. */
  lemma FindSpec(doc: seq<LVerse>, word: string, context: string)
    ensures Descending(Find(doc, word, context)) && SameTotal(Find(doc, word, context))
    ensures forall k :: OfRank(Find(doc, word, context), ByScore, k) == OfRank(Candidates(doc, word, context), ByScore, k)
  {
    var cs := Candidates(doc, word, context);
    var r := Find(doc, word, context);
    CandidatesTotal(doc, word, context);
    SortByIsSorted(cs, ByScore);
    forall i | 0 <= i < |r| ensures r[i] in cs {
      assert r[i] in multiset(r);
    }
    forall i, j | 0 <= i < j < |r| ensures Value(r[i].score) >= Value(r[j].score) {
      assert !Below(ByScore(r[j]), ByScore(r[i]));
      ValueOrder(r[i].score, r[j].score);
    }
    forall k { SortByStable(cs, ByScore, k); }
  }

  // ---------------------------------------------------------------------
  // The classification in main
  // ---------------------------------------------------------------------

  datatype Bucket = NotFound | Mapped(best: Candidate) | Ambiguous(top: seq<Candidate>)

  /** No candidate: not found; one, or a first strictly better than the
      second: mapped to the first; otherwise ambiguous, with the first five. */
  function Classify(cs: seq<Candidate>): (b: Bucket)
    ensures b.NotFound? <==> |cs| == 0
    ensures b.Mapped? ==> b.best == cs[0]
    ensures b.Ambiguous? ==> |cs| >= 2 && |b.top| == (if |cs| < 5 then |cs| else 5) && b.top == cs[..|b.top|]
  {
    if |cs| == 0 then NotFound
    else if |cs| == 1 || Value(cs[0].score) > Value(cs[1].score) then Mapped(cs[0])
    else Ambiguous(cs[..if |cs| < 5 then |cs| else 5])
  }

  /** On sorted candidates the note is mapped exactly when the first one
      scores strictly above every other, and ambiguous exactly when two or
      more share the best score. */
  lemma ClassifySorted(cs: seq<Candidate>)
    requires Descending(cs) && SameTotal(cs)
    ensures Classify(cs).Mapped? <==>
      |cs| > 0 && forall j :: 0 < j < |cs| ==> Value(cs[j].score) < Value(cs[0].score)
    ensures Classify(cs).Ambiguous? <==>
      |cs| > 1 && Value(cs[1].score) == Value(cs[0].score)
  {
  }

  /** A note of `posiciones_notas.json`. */
  datatype Note = Note(number: string, word: string, context: string)

  /** Where one note goes. */
  function BucketOf(doc: seq<LVerse>, n: Note): Bucket {
    Classify(Find(doc, n.word, n.context))
  }

  /** An entry of `mapeo`. */
  datatype Mapping = Mapping(number: string, word: string, verse: string, text: string, score: Score)

  /** An entry of `multiples`. */
  datatype Multiple = Multiple(number: string, word: string, context: string, candidates: seq<Candidate>)

  /** `m` records the note `n` mapped to its best candidate. */
  predicate MappedFrom(doc: seq<LVerse>, n: Note, m: Mapping) {
    var b := BucketOf(doc, n);
    b.Mapped? && m == Mapping(n.number, n.word, b.best.verse, b.best.text, b.best.score)
  }

  /** The three lists `main` builds, in the order of the notes. */
  function Lists(doc: seq<LVerse>, notes: seq<Note>): (r: (seq<Mapping>, seq<Note>, seq<Multiple>))
    ensures |r.0| + |r.1| + |r.2| == |notes|
  {
    if |notes| == 0 then ([], [], [])
    else
      var n := notes[0];
      var (ms, nf, mu) := Lists(doc, notes[1..]);
      match BucketOf(doc, n)
      case NotFound => (ms, [n] + nf, mu)
      case Mapped(c) => ([Mapping(n.number, n.word, c.verse, c.text, c.score)] + ms, nf, mu)
      case Ambiguous(top) => (ms, nf, [Multiple(n.number, n.word, n.context, top)] + mu)
  }

  /** Every entry of `mapeo` is a mapped note with its best candidate. */
  lemma {:induction false} MappingsSound(doc: seq<LVerse>, notes: seq<Note>, m: Mapping)
    requires m in Lists(doc, notes).0
    ensures exists k :: 0 <= k < |notes| && MappedFrom(doc, notes[k], m)
  {
    var rest := Lists(doc, notes[1..]).0;
    if m in rest {
      MappingsSound(doc, notes[1..], m);
      var k :| 0 <= k < |notes[1..]| && MappedFrom(doc, notes[1..][k], m);
      assert notes[k + 1] == notes[1..][k];
    } else {
      assert MappedFrom(doc, notes[0], m);
    }
  }

  /** Every note of `no_encontradas` has no candidate. */
  lemma {:induction false} NotFoundSound(doc: seq<LVerse>, notes: seq<Note>, n: Note)
    requires n in Lists(doc, notes).1
    ensures n in notes && BucketOf(doc, n).NotFound?
  {
    if n in Lists(doc, notes[1..]).1 {
      NotFoundSound(doc, notes[1..], n);
    }
  }

  /** `m` records the ambiguous note `n` with its best candidates: at most
      five, a prefix of the sorted list. */
  predicate AmbiguousFrom(doc: seq<LVerse>, n: Note, m: Multiple) {
    var b := BucketOf(doc, n);
    b.Ambiguous? && m == Multiple(n.number, n.word, n.context, b.top)
  }

  /** Every entry of `multiples` is an ambiguous note with its best
      candidates, at most five of them. */
  lemma {:induction false} MultiplesSound(doc: seq<LVerse>, notes: seq<Note>, m: Multiple)
    requires m in Lists(doc, notes).2
    ensures exists k :: 0 <= k < |notes| && AmbiguousFrom(doc, notes[k], m)
    ensures |m.candidates| <= 5
  {
    var k := MultipleSource(doc, notes, m);
    assert AmbiguousFrom(doc, notes[k], m);
  }

  /** The note an entry of `multiples` was made for. */
  lemma {:induction false} MultipleSource(doc: seq<LVerse>, notes: seq<Note>, m: Multiple) returns (k: nat)
    requires m in Lists(doc, notes).2
    ensures k < |notes| && AmbiguousFrom(doc, notes[k], m)
  {
    if m in Lists(doc, notes[1..]).2 {
      var j := MultipleSource(doc, notes[1..], m);
      k := j + 1;
      assert notes[k] == notes[1..][j];
    } else {
      MultipleHead(doc, notes, m);
      k := 0;
    }
  }

  /** An entry not made for a later note was made for the first one. */
  lemma MultipleHead(doc: seq<LVerse>, notes: seq<Note>, m: Multiple)
    requires |notes| > 0 && m in Lists(doc, notes).2 && m !in Lists(doc, notes[1..]).2
    ensures AmbiguousFrom(doc, notes[0], m)
  {
  }

  /** The note `n` is in the list its bucket calls for: `no_encontradas`
      with no candidate, `mapeo` with its best candidate, `multiples` with
      its best five. */
  predicate Listed(doc: seq<LVerse>, n: Note, r: (seq<Mapping>, seq<Note>, seq<Multiple>)) {
    match BucketOf(doc, n)
    case NotFound => n in r.1
    case Mapped(c) => Mapping(n.number, n.word, c.verse, c.text, c.score) in r.0
    case Ambiguous(top) => Multiple(n.number, n.word, n.context, top) in r.2
  }

  /** Every note lands in the list its candidates call for. */
  lemma {:induction false} ListsComplete(doc: seq<LVerse>, notes: seq<Note>, k: nat)
    requires k < |notes|
    ensures Listed(doc, notes[k], Lists(doc, notes))
  {
    if k == 0 {
      ListedHead(doc, notes);
    } else {
      ListsComplete(doc, notes[1..], k - 1);
      assert notes[1..][k - 1] == notes[k];
      ListedTail(doc, notes, notes[k]);
    }
  }

  lemma ListedHead(doc: seq<LVerse>, notes: seq<Note>)
    requires |notes| > 0
    ensures Listed(doc, notes[0], Lists(doc, notes))
  {
  }

  /** A note listed for the later notes stays listed. */
  lemma ListedTail(doc: seq<LVerse>, notes: seq<Note>, n: Note)
    requires |notes| > 0 && Listed(doc, n, Lists(doc, notes[1..]))
    ensures Listed(doc, n, Lists(doc, notes))
  {
  }

  /** The loop of `main`. */
  method MapAll(doc: seq<LVerse>, notes: seq<Note>)
    returns (mapeo: seq<Mapping>, noEncontradas: seq<Note>, multiples: seq<Multiple>)
    ensures (mapeo, noEncontradas, multiples) == Lists(doc, notes)
    ensures |mapeo| + |noEncontradas| + |multiples| == |notes|
  {
    mapeo := [];
    noEncontradas := [];
    multiples := [];
    var i := |notes|;
    assert notes[|notes|..] == [];
    while i > 0
      invariant 0 <= i <= |notes|
      invariant (mapeo, noEncontradas, multiples) == Lists(doc, notes[i..])
    {
      i := i - 1;
      var n := notes[i];
      assert notes[i..][0] == n && notes[i..][1..] == notes[i + 1..];
      var b := Classify(Find(doc, n.word, n.context));
      assert b == BucketOf(doc, n);
      if b.NotFound? {
        noEncontradas := [n] + noEncontradas;
      } else if b.Mapped? {
        mapeo := [Mapping(n.number, n.word, b.best.verse, b.best.text, b.best.score)] + mapeo;
      } else {
        multiples := [Multiple(n.number, n.word, n.context, b.top)] + multiples;
      }
    }
    assert notes[0..] == notes;
  }
}

=== FILE: marking.dfy ===
/**
  Class changes that sweep the whole rendered text: `note-active` and
  `note-current` set or cleared on every element according to its own
  flags and group list. Nothing else in the tree changes.
 */
module Marking {
  import opened Dom

  /** A rule computing a new flag from an element's `active`, `current` and groups. */
  type Rule = (bool, bool, seq<string>) -> bool

  function Restyle(n: Node, act: Rule, cur: Rule): (r: Node)
    ensures r.Element? == n.Element?
  {
    if n.TextNode? then n
    else n.(active := act(n.active, n.current, n.groups), current := cur(n.active, n.current, n.groups))
  }

  function MarkNode(n: Node, act: Rule, cur: Rule): Node
    decreases n
  {
    if n.TextNode? then n
    else n.(active := act(n.active, n.current, n.groups), current := cur(n.active, n.current, n.groups),
            children := MarkAll(n.children, act, cur))
  }

  /** Applies the two rules to every element of the forest. */
  function MarkAll(f: seq<Node>, act: Rule, cur: Rule): (r: seq<Node>)
    ensures |r| == |f|
    decreases f
  {
    if |f| == 0 then [] else [MarkNode(f[0], act, cur)] + MarkAll(f[1..], act, cur)
  }

  function RestyleEach(es: seq<Node>, act: Rule, cur: Rule): (r: seq<Node>)
    ensures |r| == |es|
    ensures forall i :: 0 <= i < |es| ==> r[i] == Restyle(es[i], act, cur)
  {
    if |es| == 0 then [] else [Restyle(es[0], act, cur)] + RestyleEach(es[1..], act, cur)
  }

  lemma RestyleEachAppend(a: seq<Node>, b: seq<Node>, act: Rule, cur: Rule)
    ensures RestyleEach(a + b, act, cur) == RestyleEach(a, act, cur) + RestyleEach(b, act, cur)
  {
  }

  /** Element by element, in document order, the sweep applies the rules. */
  lemma {:induction false} MarkShells(f: seq<Node>, act: Rule, cur: Rule)
    ensures Shells(MarkAll(f, act, cur)) == RestyleEach(Shells(f), act, cur)
    decreases f
  {
    if |f| > 0 {
      MarkShellsNode(f[0], act, cur);
      MarkShells(f[1..], act, cur);
      assert MarkAll(f, act, cur)[1..] == MarkAll(f[1..], act, cur);
      RestyleEachAppend(ShellsNode(f[0]), Shells(f[1..]), act, cur);
    }
  }

  lemma {:induction false} MarkShellsNode(n: Node, act: Rule, cur: Rule)
    ensures ShellsNode(MarkNode(n, act, cur)) == RestyleEach(ShellsNode(n), act, cur)
    decreases n
  {
    if n.Element? {
      MarkShells(n.children, act, cur);
      RestyleEachAppend([Shell(n)], Shells(n.children), act, cur);
    }
  }

  /** The tree with every `note-active` and `note-current` class removed. */
  function UnstyleNode(n: Node): Node
    decreases n
  {
    if n.TextNode? then n else n.(active := false, current := false, children := Unstyle(n.children))
  }

  function Unstyle(f: seq<Node>): seq<Node>
    decreases f
  {
    if |f| == 0 then [] else [UnstyleNode(f[0])] + Unstyle(f[1..])
  }

  /** The sweep changes the two classes and nothing else. */
  lemma {:induction false} MarkOnlyStyles(f: seq<Node>, act: Rule, cur: Rule)
    ensures Unstyle(MarkAll(f, act, cur)) == Unstyle(f)
    decreases f
  {
    if |f| > 0 {
      MarkOnlyStylesNode(f[0], act, cur);
      MarkOnlyStyles(f[1..], act, cur);
      assert MarkAll(f, act, cur)[1..] == MarkAll(f[1..], act, cur);
    }
  }

  lemma {:induction false} MarkOnlyStylesNode(n: Node, act: Rule, cur: Rule)
    ensures UnstyleNode(MarkNode(n, act, cur)) == UnstyleNode(n)
    decreases n
  {
    if n.Element? { MarkOnlyStyles(n.children, act, cur); }
  }
}

=== FILE: namespaces.dfy ===
/**
  `limpiar_namespaces.py`: the three regular-expression substitutions that
  take the `ns0:` prefix out of a serialised TEI file. The substitutions run
  one after the other over the whole text, each leftmost-first and without
  overlaps, as Python's `re.sub` does.
 */
module Namespaces {
  import opened Text

  const OpenPrefixed := "<ns0:"
  const ClosePrefixed := "</ns0:"
  /** The fixed part of `xmlns:ns0="[^"]*"` up to the opening quote. */
  const DeclStart := "xmlns:ns0=\""

  /** `re.sub(r'<ns0:', '<', s)`. */
  function RenameOpenTags(s: string): string {
    ReplaceAll(s, OpenPrefixed, "<")
  }

  /** `re.sub(r'</ns0:', '</', s)`. */
  function RenameCloseTags(s: string): string {
    ReplaceAll(s, ClosePrefixed, "</")
  }

  /** The length of a match of `\s*xmlns:ns0="[^"]*"` at the start of `s`:
      the whitespace run, the declaration, its value up to the first closing
      quote, and that quote. */
  function DeclAt(s: string): (m: Option<nat>)
    ensures m.Some? ==> OccursAt(s, DeclStart, SpaceRun(s))
    ensures m.Some? ==> SpaceRun(s) + |DeclStart| < m.value <= |s| && s[m.value - 1] == '"'
    ensures m.Some? ==> forall k :: SpaceRun(s) + |DeclStart| <= k < m.value - 1 ==> s[k] != '"'
  {
    var j := SpaceRun(s);
    if OccursAt(s, DeclStart, j) then
      match QuoteFrom(s, j + |DeclStart|)
      case Some(e) => Some(e + 1)
      case None => None
    else None
  }

  /** The first `"` at position `i` or later. */
  function QuoteFrom(s: string, i: nat): (r: Option<nat>)
    requires i <= |s|
    ensures r.Some? ==> i <= r.value < |s| && s[r.value] == '"'
    ensures r.Some? ==> forall k :: i <= k < r.value ==> s[k] != '"'
    ensures r.None? ==> forall k :: i <= k < |s| ==> s[k] != '"'
    decreases |s| - i
  {
    if i == |s| then None
    else if s[i] == '"' then Some(i)
    else QuoteFrom(s, i + 1)
  }

  /** The search stops at the first quote, wherever it is. */
  lemma QuoteFromIs(s: string, i: nat, e: nat)
    requires i <= e < |s| && s[e] == '"'
    requires forall k :: i <= k < e ==> s[k] != '"'
    ensures QuoteFrom(s, i) == Some(e)
  {
  }

  /** `re.sub(r'\s*xmlns:ns0="[^"]*"', '', s)`. */
  function RemoveDecls(s: string): (r: string)
    ensures |r| <= |s|
    decreases |s|
  {
    if |s| == 0 then ""
    else match DeclAt(s)
      case Some(m) => RemoveDecls(s[m..])
      case None => [s[0]] + RemoveDecls(s[1..])
  }

  /** The whole script on the file's text. */
  function Clean(s: string): string {
    RemoveDecls(RenameCloseTags(RenameOpenTags(s)))
  }

  /** An opening tag `<ns0:` loses its prefix; text before it that holds no
      `<` is copied, and the rest is handled the same way. */
  lemma OpenTagRenamed(p: string, q: string)
    requires '<' !in p
    ensures RenameOpenTags(p + OpenPrefixed + q) == p + "<" + RenameOpenTags(q)
  {
    ReplaceAllSkip(p, OpenPrefixed + q, OpenPrefixed, "<");
    assert StartsWith(OpenPrefixed + q, OpenPrefixed);
    assert (OpenPrefixed + q)[|OpenPrefixed|..] == q;
    assert ReplaceAll(OpenPrefixed + q, OpenPrefixed, "<") == "<" + ReplaceAll(q, OpenPrefixed, "<");
    assert p + OpenPrefixed + q == p + (OpenPrefixed + q);
    assert p + ("<" + ReplaceAll(q, OpenPrefixed, "<")) == p + "<" + ReplaceAll(q, OpenPrefixed, "<");
  }

  /** A closing tag `</ns0:` loses its prefix in the same way. */
  lemma CloseTagRenamed(p: string, q: string)
    requires '<' !in p
    ensures RenameCloseTags(p + ClosePrefixed + q) == p + "</" + RenameCloseTags(q)
  {
    ReplaceAllSkip(p, ClosePrefixed + q, ClosePrefixed, "</");
    assert StartsWith(ClosePrefixed + q, ClosePrefixed);
    assert (ClosePrefixed + q)[|ClosePrefixed|..] == q;
    assert ReplaceAll(ClosePrefixed + q, ClosePrefixed, "</") == "</" + ReplaceAll(q, ClosePrefixed, "</");
    assert p + ClosePrefixed + q == p + (ClosePrefixed + q);
    assert p + ("</" + ReplaceAll(q, ClosePrefixed, "</")) == p + "</" + ReplaceAll(q, ClosePrefixed, "</");
  }

  /** The first substitution does not see closing tags: `</ns0:` survives it
      and is left for the second one. */
  lemma CloseTagSurvivesFirstPass(p: string, q: string)
    requires '<' !in p && '<' !in q
    ensures RenameOpenTags(p + ClosePrefixed + q) == p + ClosePrefixed + q
  {
    var s := p + ClosePrefixed + q;
    forall j | 0 <= j && j + |OpenPrefixed| <= |s| ensures !OccursAt(s, OpenPrefixed, j) {
      assert s[j..j + |OpenPrefixed|][0] == s[j];
      if j < |p| {
        assert s[j] == p[j];
      } else if j == |p| {
        assert s[j..j + |OpenPrefixed|][1] == s[j + 1] == '/';
      } else if j < |p| + |ClosePrefixed| {
        assert s[j] == ClosePrefixed[j - |p|];
      } else {
        assert s[j] == q[j - |p| - |ClosePrefixed|];
      }
    }
    ContainsIff(s, OpenPrefixed);
    ReplaceAllAbsent(s, OpenPrefixed, "<");
  }

  /** No match starts in text free of `x` that does not end in whitespace. */
  lemma NoDeclInPlain(p: string, t: string)
    requires 'x' !in p && |p| > 0 && !IsPySpace(p[|p| - 1])
    ensures DeclAt(p + t).None?
  {
    var s := p + t;
    var j := SpaceRun(s);
    assert s[|p| - 1] == p[|p| - 1];
    assert s[j] == p[j];
    if j + |DeclStart| <= |s| {
      assert s[j..j + |DeclStart|][0] == s[j];
    }
  }

  /** Text in which no match can start: free of `x`, and not ending in
      whitespace that a match could begin with. */
  predicate Plain(p: string) {
    'x' !in p && (|p| == 0 || !IsPySpace(p[|p| - 1]))
  }

  /** Such text is copied whole. */
  lemma {:induction false} RemoveDeclsKeepsPlain(p: string, t: string)
    requires Plain(p)
    ensures RemoveDecls(p + t) == p + RemoveDecls(t)
    decreases |p|
  {
    if |p| > 0 {
      PlainStep(p, t);
      RemoveDeclsKeepsPlain(p[1..], t);
      SeqAssoc([p[0]], p[1..], RemoveDecls(t));
      assert [p[0]] + p[1..] == p;
    } else {
      assert p + t == t;
    }
  }

  /** The first character of plain text is copied, and the rest is plain. */
  lemma PlainStep(p: string, t: string)
    requires Plain(p) && |p| > 0
    ensures RemoveDecls(p + t) == [p[0]] + RemoveDecls(p[1..] + t)
    ensures Plain(p[1..])
  {
    NoDeclInPlain(p, t);
    RemoveDeclsCopies(p + t);
    PlainRest(p, t);
  }

  lemma PlainRest(p: string, t: string)
    requires Plain(p) && |p| > 0
    ensures (p + t)[0] == p[0] && (p + t)[1..] == p[1..] + t
    ensures Plain(p[1..])
  {
    assert (p + t)[1..] == p[1..] + t;
    if |p| > 1 {
      assert p[1..][|p| - 2] == p[|p| - 1];
    }
  }

  /** Where no declaration starts, the first character is copied. */
  lemma RemoveDeclsCopies(s: string)
    requires |s| > 0 && DeclAt(s).None?
    ensures RemoveDecls(s) == [s[0]] + RemoveDecls(s[1..])
  {
  }

  /** A namespace declaration goes, with the whitespace before it and its
      quoted value; the text before it (free of `x` and not ending in
      whitespace) and the text after it are kept. */
  lemma DeclRemoved(p: string, w: string, v: string, q: string)
    requires Plain(p)
    requires forall i :: 0 <= i < |w| ==> IsPySpace(w[i])
    requires '"' !in v
    ensures RemoveDecls(p + w + DeclStart + v + "\"" + q) == p + RemoveDecls(q)
  {
    DeclMatched(w, v, q);
    var m := |w| + |DeclStart| + |v| + 1;
    RemoveDeclsDrops(w + DeclStart + v + "\"" + q, m);
    assert (w + DeclStart + v + "\"" + q)[m..] == q;
    RemoveDeclsKeepsPlain(p, w + DeclStart + v + "\"" + q);
    SeqAssoc(p, w, DeclStart);
    SeqAssoc(p, w + DeclStart, v);
    SeqAssoc(p, w + DeclStart + v, "\"");
    SeqAssoc(p, w + DeclStart + v + "\"", q);
  }

  /** Where a declaration starts, all of its match is dropped. */
  lemma RemoveDeclsDrops(s: string, m: nat)
    requires DeclAt(s) == Some(m)
    ensures RemoveDecls(s) == RemoveDecls(s[m..])
  {
  }

  /** The match of one declaration is its whitespace, the declaration and
      the value up to its closing quote. */
  lemma DeclMatched(w: string, v: string, q: string)
    requires forall i :: 0 <= i < |w| ==> IsPySpace(w[i])
    requires '"' !in v
    ensures DeclAt(w + DeclStart + v + "\"" + q) == Some(|w| + |DeclStart| + |v| + 1)
  {
    var tail := w + DeclStart + v + "\"" + q;
    var a := |w| + |DeclStart|;
    assert tail[..|w|] == w;
    assert tail[|w|] == 'x';
    SpaceRunOf(w, tail);
    assert tail[|w|..a] == DeclStart;
    assert tail[a + |v|] == '"';
    forall k | a <= k < a + |v| ensures tail[k] != '"' {
      assert tail[k] == v[k - a];
    }
    QuoteFromIs(tail, a, a + |v|);
  }

  /** The run at the start of `s` is the prefix `w` when `w` is all spaces and
      the character after it is not. */
  lemma SpaceRunOf(w: string, s: string)
    requires |w| < |s| && s[..|w|] == w && !IsPySpace(s[|w|])
    requires forall i :: 0 <= i < |w| ==> IsPySpace(w[i])
    ensures SpaceRun(s) == |w|
  {
    forall i | 0 <= i < |w| ensures IsPySpace(s[i]) {
      assert s[i] == s[..|w|][i];
    }
    SpaceRunIs(s, |w|);
  }

  /** Text that names no `ns0` prefix and no `xmlns:ns0` declaration comes out
      of the script unchanged. */
  lemma CleanLeavesOtherText(s: string)
    requires !Contains(s, OpenPrefixed) && !Contains(s, ClosePrefixed) && !Contains(s, DeclStart)
    ensures Clean(s) == s
  {
    ReplaceAllAbsent(s, OpenPrefixed, "<");
    ReplaceAllAbsent(s, ClosePrefixed, "</");
    RemoveDeclsAbsent(s);
  }

  lemma {:induction false} RemoveDeclsAbsent(s: string)
    requires !Contains(s, DeclStart)
    ensures RemoveDecls(s) == s
    decreases |s|
  {
    if |s| > 0 {
      ContainsIff(s, DeclStart);
      ShiftOccurrence(s, DeclStart);
      ContainsIff(s[1..], DeclStart);
      RemoveDeclsAbsent(s[1..]);
    }
  }
}

=== FILE: notas.dfy ===
/**
  Keeping the notes of a passage: a note applies when one of the ids it
  targets belongs to the passage's fragment.
 */
module Notas {
  import opened Text
  import opened Dom
  import opened Highlight
  import opened Pasajes

  /** `a` is `b` with some elements left out, order kept. */
  predicate IsSubsequence<T(==)>(a: seq<T>, b: seq<T>)
    decreases |b|
  {
    |a| == 0 || (|b| > 0 && ((a[0] == b[0] && IsSubsequence(a[1..], b[1..])) || IsSubsequence(a, b[1..])))
  }

  /** `target.split(' ').map(t => t.replace('#', ''))`: single spaces, and only
      the first `#` of each token dropped. */
  function NormalizedTargets(target: string): (r: seq<string>)
    ensures |r| == |SplitOn(target, ' ')|
    ensures forall k :: 0 <= k < |r| ==> r[k] == RemoveFirst(SplitOn(target, ' ')[k], '#')
  {
    var ts := SplitOn(target, ' ');
    seq(|ts|, k requires 0 <= k < |ts| => RemoveFirst(ts[k], '#'))
  }

  /** A target listing references `#id`, one space apart, yields its ids
      back, in order, when no id holds `#` or a space. */
  lemma NormalizedTargetsOfRefs(ids: seq<string>)
    requires |ids| > 0
    requires forall k :: 0 <= k < |ids| ==> '#' !in ids[k] && ' ' !in ids[k]
    ensures NormalizedTargets(Join(Refs(ids), " ")) == ids
  {
    var rs := Refs(ids);
    forall k | 0 <= k < |rs| ensures ' ' !in rs[k] {
      assert rs[k] == "#" + ids[k];
    }
    SplitOnJoin(rs, ' ');
    assert [' '] == " ";
    forall k | 0 <= k < |ids| ensures NormalizedTargets(Join(rs, " "))[k] == ids[k] {
      RemoveHash(ids[k]);
    }
  }

  /** `targetsNota.some(t => xmlIds.includes(t))`. */
  predicate Applies(n: Note, ids: seq<string>) {
    exists t :: t in NormalizedTargets(n.target) && t in ids
  }

  /** `filtrarNotasPorXmlIds`. */
  function FilterByIds(notes: seq<Note>, ids: seq<string>): (r: seq<Note>)
    ensures IsSubsequence(r, notes)
    ensures forall n :: n in r <==> n in notes && Applies(n, ids)
    ensures |ids| == 0 ==> r == []
  {
    if |notes| == 0 then []
    else
      var rest := FilterByIds(notes[1..], ids);
      if Applies(notes[0], ids) then
        assert ([notes[0]] + rest)[1..] == rest;
        [notes[0]] + rest
      else rest
  }

  /** Every occurrence of a note that applies is kept, and no other: the
      filter drops no duplicate. */
  lemma {:induction false} FilterByIdsCounts(notes: seq<Note>, ids: seq<string>, n: Note)
    ensures multiset(FilterByIds(notes, ids))[n] == if Applies(n, ids) then multiset(notes)[n] else 0
    decreases |notes|
  {
    if |notes| > 0 {
      FilterByIdsCounts(notes[1..], ids, n);
      assert notes == [notes[0]] + notes[1..];
    }
  }

  /** Enlarging the id list keeps every note kept before, in the same order. */
  lemma {:induction false} FilterMonotone(notes: seq<Note>, ids: seq<string>, more: seq<string>)
    requires forall x :: x in ids ==> x in more
    ensures IsSubsequence(FilterByIds(notes, ids), FilterByIds(notes, more))
    decreases |notes|
  {
    if |notes| > 0 {
      FilterMonotone(notes[1..], ids, more);
      var a := FilterByIds(notes[1..], ids);
      var b := FilterByIds(notes[1..], more);
      if Applies(notes[0], ids) {
        var t :| t in NormalizedTargets(notes[0].target) && t in ids;
        assert t in more;
        assert ([notes[0]] + a)[1..] == a;
        assert ([notes[0]] + b)[1..] == b;
      } else if Applies(notes[0], more) {
        assert ([notes[0]] + b)[1..] == b;
      }
    }
  }

  /** With the ids of a fragment, a note is kept exactly when one of its
      targets names an element of the fragment. */
  lemma FilterByFragment(notes: seq<Note>, fragment: seq<Node>, n: Note)
    ensures n in FilterByIds(notes, FragmentIds(fragment))
      <==> n in notes && exists t :: t in NormalizedTargets(n.target) && HasIdIn(fragment, t)
  {
  }
}

=== FILE: note_positions.dfy ===
/**
  `extraer_posiciones_notas.py`: the notes of the HTML edition. Each `<sup>`
  whose link text is a number marks a note; the words before it in the
  enclosing cell or paragraph give the annotated word and its context. The
  notes of all files are sorted by number, and the numbers missing between
  the smallest and the largest are listed.
 */
module NotePositions {
  import opened Text
  import opened Sorting

  // ---------------------------------------------------------------------
  // limpiar_texto
  // ---------------------------------------------------------------------

  /** The entity table, in the order the replacements run. */
  const Entities: seq<(string, char)> := [
    ("&ntilde;", 'ñ'), ("&aacute;", 'á'), ("&eacute;", 'é'), ("&iacute;", 'í'),
    ("&oacute;", 'ó'), ("&uacute;", 'ú'), ("&Ntilde;", 'Ñ'), ("&Aacute;", 'Á'),
    ("&Eacute;", 'É'), ("&Iacute;", 'Í'), ("&Oacute;", 'Ó'), ("&Uacute;", 'Ú'),
    ("&iquest;", '¿'), ("&iexcl;", '¡'), ("&ordm;", 'º'), ("&ordf;", 'ª')
  ]

  /** An entity: `&`, a name free of `&` and `;`, then `;`. */
  predicate IsEntity(e: string) {
    && |e| >= 2 && e[0] == '&' && e[|e| - 1] == ';'
    && (forall i :: 1 <= i < |e| ==> e[i] != '&')
    && (forall i :: 0 <= i < |e| - 1 ==> e[i] != ';')
  }

  /** The table holds sixteen distinct entities, none replaced by `&`. */
  lemma EntitiesWellFormed()
    ensures |Entities| == 16
    ensures forall k :: 0 <= k < |Entities| ==> IsEntity(Entities[k].0) && Entities[k].1 != '&'
    ensures forall j, k :: 0 <= j < k < |Entities| ==> Entities[j].0 != Entities[k].0
  {
  }

  /** The replacements of the table from entry `j` on. */
  function ReplaceFrom(t: string, j: nat): string
    requires j <= |Entities|
    decreases |Entities| - j
  {
    if j == |Entities| then t
    else
      EntitiesWellFormed();
      ReplaceFrom(ReplaceAll(t, Entities[j].0, [Entities[j].1]), j + 1)
  }

  /** `limpiar_texto`: every entity of the table replaced, then whitespace
      runs made single spaces and the ends trimmed. */
  function CleanText(t: string): (r: string)
    ensures Squashed(r)
  {
    SquashIsSquashed(ReplaceFrom(t, 0));
    Squash(ReplaceFrom(t, 0))
  }

  /** A pattern starting with a character the text lacks does not occur. */
  lemma AbsentWithoutFirst(s: string, pat: string)
    requires |pat| > 0 && pat[0] !in s
    ensures !Contains(s, pat)
  {
    ContainsIff(s, pat);
    forall i | 0 <= i && i + |pat| <= |s| ensures !OccursAt(s, pat, i) {
      assert s[i..i + |pat|][0] == s[i];
    }
  }

  /** Text without `&` goes through the replacements unchanged. */
  lemma {:induction false} ReplaceFromPlain(t: string, j: nat)
    requires j <= |Entities| && '&' !in t
    ensures ReplaceFrom(t, j) == t
    decreases |Entities| - j
  {
    if j < |Entities| {
      EntitiesWellFormed();
      AbsentWithoutFirst(t, Entities[j].0);
      ReplaceAllAbsent(t, Entities[j].0, [Entities[j].1]);
      ReplaceFromPlain(t, j + 1);
    }
  }

  /** Another entity of the table does not occur where only one `&` stands. */
  lemma OtherEntityAbsent(p: string, k: nat, q: string, j: nat)
    requires k < |Entities| && j < |Entities| && j != k
    requires '&' !in p && '&' !in q
    ensures !Contains(p + Entities[k].0 + q, Entities[j].0)
  {
    EntitiesWellFormed();
    var e, f := Entities[k].0, Entities[j].0;
    var s := p + e + q;
    ContainsIff(s, f);
    forall i | 0 <= i && i + |f| <= |s| ensures !OccursAt(s, f, i) {
      if i == |p| {
        assert s[i..i + |e|] == e;
        EntityNotPrefix(e, f, s, i);
      } else {
        AmpOnlyAtEntity(p, e, q, i);
        assert s[i..i + |f|][0] == s[i];
      }
    }
  }

  /** In `p + e + q` with one `&`, it is the entity's. */
  lemma AmpOnlyAtEntity(p: string, e: string, q: string, i: nat)
    requires IsEntity(e) && '&' !in p && '&' !in q
    requires i < |p + e + q| && i != |p|
    ensures (p + e + q)[i] != '&'
  {
    var s := p + e + q;
    if i < |p| {
      assert s[i] == p[i];
    } else if i < |p| + |e| {
      assert s[i] == e[i - |p|];
    } else {
      assert s[i] == q[i - |p| - |e|];
    }
  }

  /** Where one entity stands, another does not: the first `;` tells them
      apart. */
  lemma EntityNotPrefix(e: string, f: string, s: string, i: nat)
    requires IsEntity(e) && IsEntity(f) && e != f
    requires i + |e| <= |s| && s[i..i + |e|] == e && i + |f| <= |s|
    ensures s[i..i + |f|] != f
  {
    var w := s[i..i + |f|];
    if |f| < |e| {
      assert w[|f| - 1] == e[|f| - 1];
    } else if |f| == |e| {
      assert w == e;
    } else {
      assert w[|e| - 1] == e[|e| - 1];
    }
  }

  /** The entity at position `k` of the table becomes its character. */
  lemma EntityAlone(p: string, k: nat, q: string)
    requires k < |Entities| && '&' !in p && '&' !in q
    ensures ReplaceAll(p + Entities[k].0 + q, Entities[k].0, [Entities[k].1]) == p + [Entities[k].1] + q
  {
    EntitiesWellFormed();
    var e, c := Entities[k].0, Entities[k].1;
    ReplaceAllSkip(p, e + q, e, [c]);
    assert p + e + q == p + (e + q);
    assert StartsWith(e + q, e) && (e + q)[|e|..] == q;
    AbsentWithoutFirst(q, e);
    ReplaceAllAbsent(q, e, [c]);
  }

  lemma {:induction false} ReplaceFromEntity(p: string, k: nat, q: string, j: nat)
    requires k < |Entities| && j <= k && '&' !in p && '&' !in q
    ensures ReplaceFrom(p + Entities[k].0 + q, j) == p + [Entities[k].1] + q
    decreases k - j
  {
    if j == k {
      EntityStep(p, k, q);
    } else {
      OtherEntityStep(p, k, q, j);
      ReplaceFromEntity(p, k, q, j + 1);
    }
  }

  /** The entity's own replacement, then nothing more to replace. */
  lemma EntityStep(p: string, k: nat, q: string)
    requires k < |Entities| && '&' !in p && '&' !in q
    ensures ReplaceFrom(p + Entities[k].0 + q, k) == p + [Entities[k].1] + q
  {
    EntitiesWellFormed();
    EntityAlone(p, k, q);
    ReplaceFromPlain(p + [Entities[k].1] + q, k + 1);
  }

  /** Another entity's replacement leaves the text as it is. */
  lemma OtherEntityStep(p: string, k: nat, q: string, j: nat)
    requires k < |Entities| && j < k && '&' !in p && '&' !in q
    ensures ReplaceFrom(p + Entities[k].0 + q, j) == ReplaceFrom(p + Entities[k].0 + q, j + 1)
  {
    var s := p + Entities[k].0 + q;
    OtherEntityAbsent(p, k, q, j);
    ReplaceAllAbsent(s, Entities[j].0, [Entities[j].1]);
  }

  /** Each entity of the table becomes its character (in text holding no
      other `&`), and the result is squashed. */
  lemma EntityReplaced(p: string, k: nat, q: string)
    requires k < |Entities| && '&' !in p && '&' !in q
    ensures CleanText(p + Entities[k].0 + q) == Squash(p + [Entities[k].1] + q)
  {
    ReplaceFromEntity(p, k, q, 0);
  }

  /** Text without `&` is only squashed. */
  lemma CleanPlain(t: string)
    requires '&' !in t
    ensures CleanText(t) == Squash(t)
  {
    ReplaceFromPlain(t, 0);
  }

  // ---------------------------------------------------------------------
  // extraer_notas_de_html
  // ---------------------------------------------------------------------

  /** The nearest enclosing `td`, `p` or `strong`: its `get_text()` and the
      text of its children before the one holding the `<sup>`. */
  datatype Parent = Parent(full: string, before: string)

  /** A `<sup>`: the `.string` of its first link (`None` when there is no link
      or it has no single string) and its enclosing block, if any. */
  datatype Sup = Sup(link: Option<string>, parent: Option<Parent>)

  datatype Note = Note(number: nat, word: string, context: string, full: string)

  /** `s.isdigit()` on ASCII text: not empty, and all digits. */
  predicate IsNumber(s: string) {
    |s| > 0 && AllDigits(s)
  }

  /** The last `n` elements, or all of them when there are fewer. */
  function Last(ws: seq<string>, n: nat): (r: seq<string>)
    ensures |r| == (if |ws| < n then |ws| else n)
    ensures forall i :: 0 <= i < |r| ==> r[i] == ws[|ws| - |r| + i]
  {
    if |ws| < n then ws else ws[|ws| - n..]
  }

  /** The words before the `<sup>`, after cleaning; `strip()` before `split()`
      changes nothing. */
  function WordsBefore(p: Parent): seq<string> {
    Words(CleanText(p.before))
  }

  /** The note a `<sup>` gives: its number, the last word before it, the last
      five words (or fewer) as context, and the first 200 characters of the
      block. */
  function NoteOf(s: Sup): (r: Option<Note>)
    ensures r.Some? <==>
      s.link.Some? && IsNumber(Strip(s.link.value)) && s.parent.Some? && |WordsBefore(s.parent.value)| > 0
    ensures r.Some? ==> r.value.number == ParseNat(Strip(s.link.value))
    ensures r.Some? ==> var c := CleanText(s.parent.value.full);
      |r.value.full| == (if 200 < |c| then 200 else |c|) && StartsWith(c, r.value.full)
  {
    if s.link.Some? && IsNumber(Strip(s.link.value)) && s.parent.Some? then
      var ws := WordsBefore(s.parent.value);
      if |ws| > 0 then
        Some(Note(ParseNat(Strip(s.link.value)), ws[|ws| - 1], Join(Last(ws, 5), " "),
                  Take(CleanText(s.parent.value.full), 200)))
      else None
    else None
  }

  /** The context's words are the last five words before the `<sup>` (all of
      them when there are fewer), and the annotated word is the last one. */
  lemma NoteContext(s: Sup)
    requires NoteOf(s).Some?
    ensures var ws := WordsBefore(s.parent.value);
      var n := NoteOf(s).value;
      && Words(n.context) == Last(ws, 5)
      && |Words(n.context)| == (if |ws| < 5 then |ws| else 5)
      && n.word == ws[|ws| - 1]
      && n.word == Words(n.context)[|Words(n.context)| - 1]
  {
    var ws := WordsBefore(s.parent.value);
    NoteFields(s);
    LastWordsRead(ws);
  }

  /** The word and the context of the note. */
  lemma NoteFields(s: Sup)
    requires NoteOf(s).Some?
    ensures var ws := WordsBefore(s.parent.value);
      |ws| > 0 && NoteOf(s).value.word == ws[|ws| - 1] && NoteOf(s).value.context == Join(Last(ws, 5), " ")
  {
  }

  /** The last words, joined by spaces, split back into themselves. */
  lemma LastWordsRead(ws: seq<string>)
    requires |ws| > 0 && forall k :: 0 <= k < |ws| ==> IsWord(ws[k])
    ensures Words(Join(Last(ws, 5), " ")) == Last(ws, 5)
    ensures Last(ws, 5)[|Last(ws, 5)| - 1] == ws[|ws| - 1]
  {
    var last := Last(ws, 5);
    assert forall k :: 0 <= k < |last| ==> IsWord(last[k]);
    WordsOfJoin(last);
  }

  /** The notes of one file, in document order. */
  function FileNotes(sups: seq<Sup>): (r: seq<Note>)
    ensures |r| <= |sups|
  {
    Somes(seq(|sups|, k requires 0 <= k < |sups| => NoteOf(sups[k])))
  }

  /** Every `<sup>` that qualifies gives its note, and every note comes from
      one. */
  lemma FileNotesSpec(sups: seq<Sup>)
    ensures forall k :: 0 <= k < |sups| && NoteOf(sups[k]).Some? ==> NoteOf(sups[k]).value in FileNotes(sups)
    ensures forall n :: n in FileNotes(sups) ==> exists k :: 0 <= k < |sups| && NoteOf(sups[k]) == Some(n)
  {
    var os := seq(|sups|, k requires 0 <= k < |sups| => NoteOf(sups[k]));
    forall k | 0 <= k < |sups| && NoteOf(sups[k]).Some? ensures NoteOf(sups[k]).value in FileNotes(sups) {
      SomesComplete(os, k);
    }
    forall n | n in FileNotes(sups) ensures exists k :: 0 <= k < |sups| && NoteOf(sups[k]) == Some(n) {
      SomesSound(os, n);
    }
  }

  /** `todas_las_notas`: the files in order, each file's notes appended. */
  function AllNotes(files: seq<seq<Sup>>): (r: seq<Note>)
  {
    if |files| == 0 then [] else AllNotes(files[..|files| - 1]) + FileNotes(files[|files| - 1])
  }

  /** `n` is the note of some `<sup>` of some file. */
  predicate FromFiles(files: seq<seq<Sup>>, n: Note) {
    exists f, k :: 0 <= f < |files| && 0 <= k < |files[f]| && NoteOf(files[f][k]) == Some(n)
  }

  /** Every note of the list comes from a qualifying `<sup>` of some file. */
  lemma {:induction false} AllNotesSound(files: seq<seq<Sup>>, n: Note)
    requires n in AllNotes(files)
    ensures FromFiles(files, n)
  {
    var init := files[..|files| - 1];
    AllNotesStep(files);
    if n in AllNotes(init) {
      AllNotesSound(init, n);
      FromFilesInit(files, n);
    } else {
      FromLastFile(files, n);
    }
  }

  lemma AllNotesStep(files: seq<seq<Sup>>)
    requires |files| > 0
    ensures AllNotes(files) == AllNotes(files[..|files| - 1]) + FileNotes(files[|files| - 1])
  {
  }

  /** A note from the earlier files is from the files. */
  lemma FromFilesInit(files: seq<seq<Sup>>, n: Note)
    requires |files| > 0 && FromFiles(files[..|files| - 1], n)
    ensures FromFiles(files, n)
  {
    var init := files[..|files| - 1];
    var f, k :| 0 <= f < |init| && 0 <= k < |init[f]| && NoteOf(init[f][k]) == Some(n);
    assert files[f] == init[f];
  }

  /** A note of the last file is from the files. */
  lemma FromLastFile(files: seq<seq<Sup>>, n: Note)
    requires |files| > 0 && n in FileNotes(files[|files| - 1])
    ensures FromFiles(files, n)
  {
    var f := |files| - 1;
    FileNotesSpec(files[f]);
    var k :| 0 <= k < |files[f]| && NoteOf(files[f][k]) == Some(n);
  }

  /** By number, ascending. */
  function ByNumber(n: Note): Rank {
    Rank(n.number, 0)
  }

  /** `todas_las_notas.sort(key=lambda x: x['numero'])`, a stable sort. */
  function SortNotes(ns: seq<Note>): (r: seq<Note>)
    ensures multiset(r) == multiset(ns)
  {
    SortBy(ns, ByNumber)
  }

  /** The sorted notes ascend by number, and notes with the same number keep
      their order. */
  lemma SortNotesSpec(ns: seq<Note>)
    ensures forall i, j :: 0 <= i < j < |SortNotes(ns)| ==> SortNotes(ns)[i].number <= SortNotes(ns)[j].number
    ensures forall k :: OfRank(SortNotes(ns), ByNumber, k) == OfRank(ns, ByNumber, k)
  {
    SortByIsSorted(ns, ByNumber);
    var r := SortNotes(ns);
    forall i, j | 0 <= i < j < |r| ensures r[i].number <= r[j].number {
      assert !Below(ByNumber(r[j]), ByNumber(r[i]));
    }
    forall k { SortByStable(ns, ByNumber, k); }
  }

  // ---------------------------------------------------------------------
  // Missing numbers
  // ---------------------------------------------------------------------

  function MinOf(ns: seq<int>): (m: int)
    requires |ns| > 0
    ensures m in ns && forall i :: 0 <= i < |ns| ==> m <= ns[i]
  {
    if |ns| == 1 then ns[0]
    else
      var m := MinOf(ns[1..]);
      assert ns[1..][0] == ns[1];
      if ns[0] <= m then ns[0] else m
  }

  function MaxOf(ns: seq<int>): (m: int)
    requires |ns| > 0
    ensures m in ns && forall i :: 0 <= i < |ns| ==> ns[i] <= m
  {
    if |ns| == 1 then ns[0]
    else
      var m := MaxOf(ns[1..]);
      assert ns[1..][0] == ns[1];
      if ns[0] >= m then ns[0] else m
  }

  /** `[i for i in range(lo, hi + 1) if i not in ns]`. */
  function MissingIn(ns: seq<int>, lo: int, hi: int): (r: seq<int>)
    decreases hi - lo + 1
  {
    if lo > hi then [] else (if lo in ns then [] else [lo]) + MissingIn(ns, lo + 1, hi)
  }

  /** The missing numbers are exactly those of the range absent from the
      list, and they ascend strictly. */
  lemma {:induction false} MissingInSpec(ns: seq<int>, lo: int, hi: int)
    ensures forall x :: x in MissingIn(ns, lo, hi) <==> lo <= x <= hi && x !in ns
    ensures forall i, j :: 0 <= i < j < |MissingIn(ns, lo, hi)| ==> MissingIn(ns, lo, hi)[i] < MissingIn(ns, lo, hi)[j]
    ensures forall i :: 0 <= i < |MissingIn(ns, lo, hi)| ==> lo <= MissingIn(ns, lo, hi)[i]
    decreases hi - lo + 1
  {
    if lo <= hi {
      MissingInSpec(ns, lo + 1, hi);
    }
  }

  /** The missing numbers of a list of note numbers; `None` for an empty
      list, on which `min` raises. */
  function Missing(ns: seq<int>): (r: Option<seq<int>>)
    ensures r.None? <==> |ns| == 0
  {
    if |ns| == 0 then None else Some(MissingIn(ns, MinOf(ns), MaxOf(ns)))
  }

  /** A number is missing exactly when it lies between the smallest and the
      largest number of the list and is not in it; the list ascends. */
  lemma MissingSpec(ns: seq<int>)
    requires |ns| > 0
    ensures forall x :: x in Missing(ns).value <==> MinOf(ns) <= x <= MaxOf(ns) && x !in ns
    ensures forall i, j :: 0 <= i < j < |Missing(ns).value| ==> Missing(ns).value[i] < Missing(ns).value[j]
  {
    MissingInSpec(ns, MinOf(ns), MaxOf(ns));
  }

  /** The numbers of the notes, in order. */
  function NumbersOf(notes: seq<Note>): (r: seq<int>)
    ensures |r| == |notes| && forall i :: 0 <= i < |notes| ==> r[i] == notes[i].number
  {
    seq(|notes|, i requires 0 <= i < |notes| => notes[i].number)
  }

  /** The whole script on the files: the sorted notes and, when there is at
      least one note, the missing numbers. */
  function Extract(files: seq<seq<Sup>>): (r: (seq<Note>, Option<seq<int>>))
    ensures multiset(r.0) == multiset(AllNotes(files))
    ensures r.1.None? <==> |AllNotes(files)| == 0
  {
    var sorted := SortNotes(AllNotes(files));
    (sorted, Missing(NumbersOf(sorted)))
  }

  /** In an ascending list the least element is the first and the greatest
      the last. */
  lemma AscendingEnds(ns: seq<int>)
    requires |ns| > 0 && forall i, j :: 0 <= i < j < |ns| ==> ns[i] <= ns[j]
    ensures MinOf(ns) == ns[0] && MaxOf(ns) == ns[|ns| - 1]
  {
    var lo, hi := MinOf(ns), MaxOf(ns);
    var i :| 0 <= i < |ns| && ns[i] == lo;
    assert ns[0] <= ns[i] && lo <= ns[0];
    var j :| 0 <= j < |ns| && ns[j] == hi;
    assert ns[j] <= ns[|ns| - 1] && ns[|ns| - 1] <= hi;
  }

  lemma NumbersOfHas(notes: seq<Note>, x: int)
    ensures x in NumbersOf(notes) <==> exists n :: n in notes && n.number == x
  {
    var ns := NumbersOf(notes);
    if x in ns {
      var i :| 0 <= i < |ns| && ns[i] == x;
      assert notes[i] in notes;
    }
    if exists n :: n in notes && n.number == x {
      var n :| n in notes && n.number == x;
      var i :| 0 <= i < |notes| && notes[i] == n;
      assert ns[i] == x;
    }
  }

  /** A number between the first and the last note is missing exactly when no
      note carries it. */
  lemma ExtractMissing(files: seq<seq<Sup>>, x: int)
    requires |AllNotes(files)| > 0
    ensures var (sorted, missing) := Extract(files);
      x in missing.value <==>
        sorted[0].number <= x <= sorted[|sorted| - 1].number && forall n :: n in sorted ==> n.number != x
  {
    var all := AllNotes(files);
    var sorted := SortNotes(all);
    assert |sorted| == |all| by {
      assert |multiset(sorted)| == |multiset(all)|;
    }
    var ns := NumbersOf(sorted);
    SortNotesSpec(all);
    AscendingEnds(ns);
    MissingSpec(ns);
    NumbersOfHas(sorted, x);
  }
}

=== FILE: notes_text.dfy ===
/**
  `convertir_notas_xml.py`: the plain-text notes file is read line by line.
  A line that starts with a number followed by whitespace opens a new note;
  the lines after it, stripped, are added to the open note until the next
  such line. Each note is written out as a fixed block of lines of a
  `<notes>` XML document.
 */
module NotesText {
  import opened Text

  datatype Note = Note(number: string, text: string)

  // ---------------------------------------------------------------------
  // The note-start pattern ^(\d+)\s+(.*)$
  // ---------------------------------------------------------------------

  /** The length of the run of digits `s` starts with. */
  function DigitRun(s: string): (k: nat)
    ensures k <= |s| && AllDigits(s[..k])
    ensures k < |s| ==> !IsDigit(s[k])
  {
    if |s| > 0 && IsDigit(s[0]) then
      var k := 1 + DigitRun(s[1..]);
      assert s[..k] == [s[0]] + s[1..][..k - 1];
      k
    else 0
  }

  /** The pattern matches `line`: some non-empty digit prefix is followed by
      whitespace (the rest, `(.*)$`, matches anything without a newline). */
  predicate Matches(line: string) {
    exists k :: 0 < k < |line| && AllDigits(line[..k]) && IsPySpace(line[k])
  }

  predicate AllSpace(s: string) {
    forall i :: 0 <= i < |s| ==> IsPySpace(s[i])
  }

  /** `re.match(r'^(\d+)\s+(.*)$', line)` and its two groups. The greedy
      `\d+` takes the whole digit run and the greedy `\s+` the whole
      whitespace run after it, so the second group starts at the first
      character that is not whitespace. */
  function NoteStart(line: string): (r: Option<(string, string)>)
    ensures r.Some? ==> |r.value.0| > 0 && AllDigits(r.value.0)
    ensures r.Some? ==> |r.value.1| == 0 || !IsPySpace(r.value.1[0])
  {
    var k := DigitRun(line);
    if 0 < k < |line| && IsPySpace(line[k]) then
      var tail := line[k..];
      Some((line[..k], tail[SpaceRun(tail)..]))
    else None
  }

  /** The groups are there exactly when the pattern matches, and they are
      the line's number and its text after the whitespace. */
  lemma NoteStartMatches(line: string)
    ensures NoteStart(line).Some? <==> Matches(line)
    ensures NoteStart(line).Some? ==> var (num, rest) := NoteStart(line).value;
      && |num| + |rest| < |line| && StartsWith(line, num) && EndsWith(line, rest)
      && AllSpace(line[|num|..|line| - |rest|])
  {
    var k := DigitRun(line);
    if 0 < k < |line| && IsPySpace(line[k]) {
      var tail := line[k..];
      var j := SpaceRun(tail);
      assert line[k..|line| - |tail[j..]|] == tail[..j];
      assert line[..k][..k] == line[..k];
    } else {
      MatchAtRun(line);
    }
  }

  /** A match can only end its digits where the digit run ends. */
  lemma MatchAtRun(line: string)
    ensures Matches(line) ==> 0 < DigitRun(line) < |line| && IsPySpace(line[DigitRun(line)])
  {
    if Matches(line) {
      var k :| 0 < k < |line| && AllDigits(line[..k]) && IsPySpace(line[k]);
      DigitRunCovers(line, k);
      DigitRunDigits(line, k);
      assert !IsDigit(line[k]);
      assert DigitRun(line) == k;
    }
  }

  /** A digit prefix lies inside the digit run. */
  lemma {:induction false} DigitRunCovers(s: string, k: nat)
    requires k <= |s| && AllDigits(s[..k])
    ensures k <= DigitRun(s)
    decreases k
  {
    if k > 0 {
      assert s[..k][0] == s[0];
      assert s[1..][..k - 1] == s[..k][1..];
      DigitRunCovers(s[1..], k - 1);
    }
  }

  /** Inside the digit run every character is a digit. */
  lemma DigitRunDigits(s: string, k: nat)
    ensures k < DigitRun(s) ==> IsDigit(s[k])
  {
    var d := DigitRun(s);
    if k < d {
      assert s[..d][k] == s[k];
    }
  }

  /** A number, whitespace and text that does not start with whitespace
      match, and the groups give the number and the text back. */
  lemma NoteStartOf(num: string, w: string, text: string)
    requires |num| > 0 && AllDigits(num) && |w| > 0 && AllSpace(w)
    requires |text| == 0 || !IsPySpace(text[0])
    ensures NoteStart(num + w + text) == Some((num, text))
  {
    var line := num + w + text;
    var tail := w + text;
    assert line == num + tail;
    assert !IsDigit(tail[0]) by { assert tail[0] == w[0]; }
    DigitRunOf(num, tail);
    var k := |num|;
    assert line[k] == w[0];
    assert line[..k] == num;
    assert line[k..] == tail;
    SpaceRunOf(w, text);
    assert tail[|w|..] == text;
  }

  /** The whitespace run of `w + text` is `w`. */
  lemma SpaceRunOf(w: string, text: string)
    requires AllSpace(w) && (|text| == 0 || !IsPySpace(text[0]))
    ensures SpaceRun(w + text) == |w|
  {
    var s := w + text;
    forall i | 0 <= i < |w| ensures IsPySpace(s[i]) {
      assert s[i] == w[i];
    }
    if |w| < |s| {
      assert s[|w|] == text[0];
    }
    SpaceRunIs(s, |w|);
  }

  lemma {:induction false} DigitRunOf(num: string, t: string)
    requires AllDigits(num) && (|t| == 0 || !IsDigit(t[0]))
    ensures DigitRun(num + t) == |num|
    decreases |num|
  {
    if |num| > 0 {
      assert (num + t)[1..] == num[1..] + t;
      assert (num + t)[0] == num[0];
      DigitRunOf(num[1..], t);
    } else {
      assert num + t == t;
    }
  }

  // ---------------------------------------------------------------------
  // The parser
  // ---------------------------------------------------------------------

  /** The note being read: `numero_actual` and `texto_actual`. */
  datatype Open = Open(number: string, parts: seq<string>)

  /** A finished note: `' '.join(texto_actual).strip()`. */
  function Close(o: Open): (n: Note)
    ensures n.number == o.number
    ensures |n.text| > 0 ==> !IsPySpace(n.text[0]) && !IsPySpace(n.text[|n.text| - 1])
  {
    Note(o.number, Strip(Join(o.parts, " ")))
  }

  function Closed(open: Option<Open>): seq<Note> {
    if open.Some? then [Close(open.value)] else []
  }

  /** A line that starts no note adds its stripped text, if any, to the note
      being read; before the first note it is skipped. */
  function Extend(open: Option<Open>, line: string): (r: Option<Open>)
    ensures r.Some? <==> open.Some?
    ensures r.Some? ==> r.value.number == open.value.number
  {
    if open.Some? && Strip(line) != "" then Some(Open(open.value.number, open.value.parts + [Strip(line)]))
    else open
  }

  /** The notes produced by the loop over `lines` with `open` the note being
      read, including the last note closed after the loop. */
  function Run(lines: seq<string>, open: Option<Open>): seq<Note>
    decreases |lines|
  {
    if |lines| == 0 then Closed(open)
    else match NoteStart(lines[0])
      case Some((num, text)) => Closed(open) + Run(lines[1..], Some(Open(num, [text])))
      case None =>
        Run(lines[1..], Extend(open, lines[0]))
  }

  /** The notes of a file's lines. */
  function Parse(lines: seq<string>): seq<Note> {
    Run(lines, None)
  }

  /** The loop of `convertir_notas_a_xml` over `contenido.split('\n')`. */
  method ParseNotes(content: string) returns (notes: seq<Note>)
    ensures notes == Parse(SplitOn(content, '\n'))
  {
    var lines := SplitOn(content, '\n');
    notes := [];
    var open: Option<Open> := None;
    var i := 0;
    assert lines[i..] == lines;
    while i < |lines|
      invariant 0 <= i <= |lines|
      invariant notes + Run(lines[i..], open) == Parse(lines)
    {
      var line := lines[i];
      var rest := lines[i + 1..];
      assert lines[i..][0] == line && lines[i..][1..] == rest;
      var m := NoteStart(line);
      if m.Some? {
        var next := Some(Open(m.value.0, [m.value.1]));
        assert Run(lines[i..], open) == Closed(open) + Run(rest, next);
        SeqAssoc(notes, Closed(open), Run(rest, next));
        notes := notes + Closed(open);
        open := next;
      } else {
        var next := Extend(open, line);
        assert Run(lines[i..], open) == Run(rest, next);
        open := next;
      }
      i := i + 1;
    }
    assert lines[i..] == [];
    if open.Some? {
      notes := notes + [Close(open.value)];
    }
  }

  /** The lines that start notes, and their numbers. */
  function CountStarts(lines: seq<string>): nat {
    if |lines| == 0 then 0 else (if NoteStart(lines[0]).Some? then 1 else 0) + CountStarts(lines[1..])
  }

  function StartNumbers(lines: seq<string>): seq<string> {
    if |lines| == 0 then []
    else match NoteStart(lines[0])
      case Some((num, _)) => [num] + StartNumbers(lines[1..])
      case None => StartNumbers(lines[1..])
  }

  function Numbers(notes: seq<Note>): seq<string> {
    if |notes| == 0 then [] else [notes[0].number] + Numbers(notes[1..])
  }

  lemma NumbersAppend(a: seq<Note>, b: seq<Note>)
    ensures Numbers(a + b) == Numbers(a) + Numbers(b)
  {
    if |a| > 0 {
      assert (a + b)[1..] == a[1..] + b;
    } else {
      assert a + b == b;
    }
  }

  /** One note per starting line, numbered as those lines are, in order. */
  lemma {:induction false} RunNumbers(lines: seq<string>, open: Option<Open>)
    ensures Numbers(Run(lines, open)) == Numbers(Closed(open)) + StartNumbers(lines)
    ensures |Run(lines, open)| == |Closed(open)| + CountStarts(lines)
    decreases |lines|
  {
    if |lines| > 0 {
      var rest := lines[1..];
      var m := NoteStart(lines[0]);
      if m.Some? {
        var next := Some(Open(m.value.0, [m.value.1]));
        assert Run(lines, open) == Closed(open) + Run(rest, next);
        assert StartNumbers(lines) == [m.value.0] + StartNumbers(rest);
        RunNumbers(rest, next);
        NumbersAppend(Closed(open), Run(rest, next));
        assert Numbers(Closed(next)) == [m.value.0];
      } else {
        var line := lines[0];
        var next := if open.Some? && Strip(line) != "" then Some(Open(open.value.number, open.value.parts + [Strip(line)]))
                    else open;
        assert Run(lines, open) == Run(rest, next);
        assert StartNumbers(lines) == StartNumbers(rest);
        RunNumbers(rest, next);
        assert Numbers(Closed(next)) == Numbers(Closed(open));
      }
    }
  }

  lemma ParseNumbers(lines: seq<string>)
    ensures Numbers(Parse(lines)) == StartNumbers(lines)
    ensures |Parse(lines)| == CountStarts(lines)
  {
    RunNumbers(lines, None);
  }

  /** The stripped lines of `lines` that are not blank. */
  function Continuations(lines: seq<string>): seq<string> {
    if |lines| == 0 then []
    else (if Strip(lines[0]) != "" then [Strip(lines[0])] else []) + Continuations(lines[1..])
  }

  predicate NoStarts(lines: seq<string>) {
    forall i :: 0 <= i < |lines| ==> NoteStart(lines[i]).None?
  }

  /** Lines that start no note are added, stripped and without the blank
      ones, to the note being read. */
  lemma {:induction false} RunContinues(lines: seq<string>, num: string, parts: seq<string>)
    requires NoStarts(lines)
    ensures Run(lines, Some(Open(num, parts))) == [Close(Open(num, parts + Continuations(lines)))]
    decreases |lines|
  {
    if |lines| > 0 {
      assert NoteStart(lines[0]).None?;
      var more := if Strip(lines[0]) != "" then [Strip(lines[0])] else [];
      assert parts + more == if Strip(lines[0]) != "" then parts + [Strip(lines[0])] else parts;
      assert Run(lines, Some(Open(num, parts))) == Run(lines[1..], Some(Open(num, parts + more)));
      RunContinues(lines[1..], num, parts + more);
      assert Continuations(lines) == more + Continuations(lines[1..]);
      SeqAssoc(parts, more, Continuations(lines[1..]));
    } else {
      assert parts + Continuations(lines) == parts;
    }
  }

  /** A note is its first line's text and its stripped continuation lines,
      joined by single spaces and stripped. */
  lemma OneNote(num: string, w: string, text: string, rest: seq<string>)
    requires |num| > 0 && AllDigits(num) && |w| > 0 && AllSpace(w)
    requires |text| == 0 || !IsPySpace(text[0])
    requires NoStarts(rest)
    ensures Parse([num + w + text] + rest) == [Note(num, Strip(Join([text] + Continuations(rest), " ")))]
  {
    NoteStartOf(num, w, text);
    var lines := [num + w + text] + rest;
    assert lines[1..] == rest;
    RunContinues(rest, num, [text]);
  }

  /** Lines before the first note are ignored. */
  lemma {:induction false} PreambleIgnored(pre: seq<string>, lines: seq<string>)
    requires NoStarts(pre)
    ensures Parse(pre + lines) == Parse(lines)
    decreases |pre|
  {
    if |pre| > 0 {
      assert NoteStart(pre[0]).None?;
      assert (pre + lines)[0] == pre[0];
      assert (pre + lines)[1..] == pre[1..] + lines;
      PreambleIgnored(pre[1..], lines);
    } else {
      assert pre + lines == lines;
    }
  }

  // ---------------------------------------------------------------------
  // The XML document
  // ---------------------------------------------------------------------

  const Header := ["<?xml version=\"1.0\" encoding=\"UTF-8\"?>", "<notes>", ""]
  const Footer := "</notes>"

  /** The line holding a note's number and text. */
  function ContentLine(n: Note): string {
    "  " + n.number + " " + n.text
  }

  /** The fixed block of eight lines written for a note. */
  function Block(n: Note): (b: seq<string>)
    ensures |b| == 8 && b[5] == ContentLine(n)
  {
    ["<note", "  xml:id=\"\"", "  target=\"#\"", "  type=\"\"", "  version=\"v1.0\">", ContentLine(n), "</note>", ""]
  }

  function Blocks(notes: seq<Note>): (r: seq<string>)
    ensures |r| == 8 * |notes|
  {
    if |notes| == 0 then [] else Block(notes[0]) + Blocks(notes[1..])
  }

  /** `xml_lines`: the header, one block per note, the closing tag. */
  function XmlLines(notes: seq<Note>): (r: seq<string>)
    ensures |r| == 4 + 8 * |notes|
    ensures r[..3] == Header && r[|r| - 1] == Footer
  {
    Header + Blocks(notes) + [Footer]
  }

  /** `'\n'.join(xml_lines)`, the text written to the file. */
  function Xml(notes: seq<Note>): string {
    Join(XmlLines(notes), "\n")
  }

  /** A note as the parser makes it: a number of digits and a text that does
      not start with whitespace. */
  predicate WellFormed(n: Note) {
    |n.number| > 0 && AllDigits(n.number) && (|n.text| == 0 || !IsPySpace(n.text[0]))
  }

  predicate AllWellFormed(ns: seq<Note>) {
    forall k :: 0 <= k < |ns| ==> WellFormed(ns[k])
  }

  /** A note being read has a number of digits. */
  predicate NumberOk(open: Option<Open>) {
    open.Some? ==> |open.value.number| > 0 && AllDigits(open.value.number)
  }

  lemma {:induction false} RunWellFormed(lines: seq<string>, open: Option<Open>)
    requires NumberOk(open)
    ensures AllWellFormed(Run(lines, open))
    decreases |lines|
  {
    if |lines| == 0 {
      ClosedWellFormed(open);
    } else {
      var m := NoteStart(lines[0]);
      if m.Some? {
        var next := Some(Open(m.value.0, [m.value.1]));
        RunStartStep(lines, open);
        ClosedWellFormed(open);
        RunWellFormed(lines[1..], next);
        AllWellFormedConcat(Closed(open), Run(lines[1..], next));
      } else {
        RunOtherStep(lines, open);
        RunWellFormed(lines[1..], Extend(open, lines[0]));
      }
    }
  }

  lemma RunStartStep(lines: seq<string>, open: Option<Open>)
    requires |lines| > 0 && NoteStart(lines[0]).Some?
    ensures Run(lines, open) == Closed(open) + Run(lines[1..], Some(Open(NoteStart(lines[0]).value.0, [NoteStart(lines[0]).value.1])))
  {
  }

  lemma RunOtherStep(lines: seq<string>, open: Option<Open>)
    requires |lines| > 0 && NoteStart(lines[0]).None?
    ensures Run(lines, open) == Run(lines[1..], Extend(open, lines[0]))
  {
  }

  lemma ClosedWellFormed(open: Option<Open>)
    requires NumberOk(open)
    ensures AllWellFormed(Closed(open))
  {
    if open.Some? {
      var n := Close(open.value);
      assert Closed(open)[0] == n;
    }
  }

  lemma AllWellFormedConcat(a: seq<Note>, b: seq<Note>)
    requires AllWellFormed(a) && AllWellFormed(b)
    ensures AllWellFormed(a + b)
  {
    forall k | 0 <= k < |a + b| ensures WellFormed((a + b)[k]) {
      if k < |a| { assert (a + b)[k] == a[k]; } else { assert (a + b)[k] == b[k - |a|]; }
    }
  }

  /** Every parsed note is well formed. */
  lemma ParseWellFormed(lines: seq<string>)
    ensures forall k :: 0 <= k < |Parse(lines)| ==> WellFormed(Parse(lines)[k])
  {
    RunWellFormed(lines, None);
  }

  /** Reading the notes back from the blocks: each block's sixth line,
      without its indentation, is matched by the note-start pattern. */
  function ReadBlocks(body: seq<string>): seq<Option<Note>>
    decreases |body|
  {
    if |body| < 8 then []
    else
      var line := body[5];
      var m := if |line| >= 2 then NoteStart(line[2..]) else None;
      [if m.Some? then Some(Note(m.value.0, m.value.1)) else None] + ReadBlocks(body[8..])
  }

  function ReadXml(lines: seq<string>): seq<Option<Note>> {
    if |lines| < 4 then [] else ReadBlocks(lines[3..|lines| - 1])
  }

  /** Reading back found exactly `notes`, each one present. */
  predicate ReadsBack(r: seq<Option<Note>>, notes: seq<Note>) {
    |r| == |notes| && forall k :: 0 <= k < |notes| ==> r[k] == Some(notes[k])
  }

  /** The document holds the notes: reading its blocks back gives every
      well-formed note again, in order. */
  lemma XmlRoundTrip(notes: seq<Note>)
    requires forall k :: 0 <= k < |notes| ==> WellFormed(notes[k])
    ensures ReadsBack(ReadXml(XmlLines(notes)), notes)
  {
    var lines := XmlLines(notes);
    assert lines[3..|lines| - 1] == Blocks(notes);
    BlocksRoundTrip(notes);
  }

  lemma {:induction false} BlocksRoundTrip(notes: seq<Note>)
    requires forall k :: 0 <= k < |notes| ==> WellFormed(notes[k])
    ensures ReadsBack(ReadBlocks(Blocks(notes)), notes)
    decreases |notes|
  {
    if |notes| > 0 {
      var tail := notes[1..];
      assert Blocks(notes) == Block(notes[0]) + Blocks(tail);
      ReadBlock(notes[0], Blocks(tail));
      var r := ReadBlocks(Blocks(notes));
      var rest := ReadBlocks(Blocks(tail));
      assert r == [Some(notes[0])] + rest;
      BlocksRoundTrip(tail);
      forall k | 1 <= k < |notes| ensures r[k] == Some(notes[k]) {
        assert r[k] == rest[k - 1] && tail[k - 1] == notes[k];
      }
    }
  }

  /** One block reads back to its note; the blocks after it are read on. */
  lemma ReadBlock(n: Note, rest: seq<string>)
    requires WellFormed(n)
    ensures ReadBlocks(Block(n) + rest) == [Some(n)] + ReadBlocks(rest)
  {
    var body := Block(n) + rest;
    assert body[5] == ContentLine(n);
    assert body[5][2..] == n.number + " " + n.text;
    NoteStartOf(n.number, " ", n.text);
    assert body[8..] == rest;
  }

  // ---------------------------------------------------------------------
  // The output file
  // ---------------------------------------------------------------------

  /** `Path(archivo_entrada).parent / 'notas.xml'`, for a path written
      without `.`, `..` or repeated separators. */
  function DefaultOutput(input: string): (r: string)
    ensures EndsWith(r, "notas.xml")
  {
    input[..AfterLast(input, '/')] + "notas.xml"
  }

  /** `archivo_salida` when given, else the default. */
  function OutputFor(input: string, output: Option<string>): (r: string)
    ensures output.Some? ==> r == output.value
    ensures output.None? ==> EndsWith(r, "notas.xml")
  {
    if output.None? then DefaultOutput(input) else output.value
  }

  /** The default file sits in the input's directory. */
  lemma DefaultOutputBeside(dir: string, name: string)
    requires '/' !in name
    ensures DefaultOutput(dir + "/" + name) == dir + "/notas.xml"
    ensures DefaultOutput(name) == "notas.xml"
  {
    var input := dir + "/" + name;
    var i := AfterLast(input, '/');
    AfterLastSpec(input, '/');
    var m := |dir| + 1;
    assert input[m - 1] == '/';
    assert input[..m] == dir + "/";
  }
}

=== FILE: pasajes.dfy ===
/**
  Cutting a passage out of the TEI document between two `xml:id`s, and
  listing the ids of a fragment.

  The fragment holds clones; in this model nodes are values, so the
  document is never changed by construction.
 */
module Pasajes {
  import opened Text
  import opened Dom

  /** A passage record: the ids of its first and last element. */
  datatype Passage = Passage(start: string, end: string)

  /** `null` when an id is missing; the run-time error of the source when the
      start's container has no parent element; otherwise the new
      `div.pasaje-fragmento` with its children. */
  datatype Extraction = Missing | NoParent | Fragment(children: seq<Node>)

  predicate IsSpeechOrStage(n: Node) {
    n.Element? && (n.tag == "sp" || n.tag == "stage")
  }

  lemma {:induction false} PrefixValid(f: seq<Node>, p: seq<nat>, k: nat)
    requires ValidPath(f, p) && 1 <= k <= |p|
    ensures ValidPath(f, p[..k])
    ensures k < |p| ==> At(f, p[..k]).Element?
    decreases |p|
  {
    if k > 1 {
      assert p[..k][1..] == p[1..][..k - 1];
      PrefixValid(f[p[0]].children, p[1..], k - 1);
    }
  }

  /** `closest('sp, stage') || element`: the nearest `sp` or `stage` among the
      element and its ancestors, else the element itself. */
  function Closest(doc: seq<Node>, p: seq<nat>): (r: seq<nat>)
    requires ValidPath(doc, p)
    ensures IsPrefix(r, p) && ValidPath(doc, r) && |r| >= 1
    ensures r == p || IsSpeechOrStage(At(doc, r))
    ensures forall k :: |r| < k <= |p| ==> ValidPath(doc, p[..k]) && !IsSpeechOrStage(At(doc, p[..k]))
  {
    ClosestFrom(doc, p, |p|)
  }

  function ClosestFrom(doc: seq<Node>, p: seq<nat>, k: nat): (r: seq<nat>)
    requires ValidPath(doc, p) && k <= |p|
    requires forall j :: k < j <= |p| ==> ValidPath(doc, p[..j]) && !IsSpeechOrStage(At(doc, p[..j]))
    ensures IsPrefix(r, p) && ValidPath(doc, r) && |r| >= 1
    ensures r == p || IsSpeechOrStage(At(doc, r))
    ensures forall j :: |r| < j <= |p| ==> ValidPath(doc, p[..j]) && !IsSpeechOrStage(At(doc, p[..j]))
    decreases k
  {
    if k == 0 then
      assert p[..|p|] == p;
      p
    else
      PrefixValid(doc, p, k);
      if IsSpeechOrStage(At(doc, p[..k])) then p[..k] else ClosestFrom(doc, p, k - 1)
  }

  /** The loop over `contenedorComun.children` (elements only): start capturing
      at the child that is or contains the start, stop after the child that
      is or contains the end. */
  function Scan(cs: seq<Node>, parent: seq<nat>, i: nat, capturing: bool,
                a1: seq<nat>, p1: seq<nat>, a2: seq<nat>, p2: seq<nat>): seq<Node>
    decreases |cs| - i
  {
    if i >= |cs| then []
    else if cs[i].TextNode? then Scan(cs, parent, i + 1, capturing, a1, p1, a2, p2)
    else
      var here := parent + [i];
      var cap := capturing || here == a1 || IsPrefix(here, p1);
      var out := if cap then [cs[i]] else [];
      if here == a2 || IsPrefix(here, p2) then out
      else out + Scan(cs, parent, i + 1, cap, a1, p1, a2, p2)
  }

  /** `extraerFragmento`. */
  function Extract(doc: seq<Node>, ps: Passage): (r: Extraction)
    ensures r.Missing? <==> !HasIdIn(doc, ps.start) || !HasIdIn(doc, ps.end)
    ensures !r.Missing? && ps.start == ps.end ==> r == Fragment([Find(doc, ps.start).value])
    ensures !r.Missing? && IsPrefix(FindPath(doc, ps.start).value, FindPath(doc, ps.end).value)
            ==> r == Fragment([Find(doc, ps.start).value])
    ensures r.NoParent? <==>
      && !r.Missing? && ps.start != ps.end
      && !IsPrefix(FindPath(doc, ps.start).value, FindPath(doc, ps.end).value)
      && |Closest(doc, FindPath(doc, ps.start).value)| == 1
  {
    var q1 := FindPath(doc, ps.start);
    var q2 := FindPath(doc, ps.end);
    if q1.None? || q2.None? then Missing
    else
      var p1 := q1.value;
      var p2 := q2.value;
      if ps.start == ps.end then Fragment([At(doc, p1)])
      else if IsPrefix(p1, p2) then Fragment([At(doc, p1)])
      else
        var a1 := Closest(doc, p1);
        var a2 := Closest(doc, p2);
        if |a1| == 1 then NoParent
        else
          var parent := a1[..|a1| - 1];
          PrefixValid(doc, a1, |a1| - 1);
          var cs := At(doc, parent).children;
          Fragment(Scan(cs, parent, 0, false, a1, p1, a2, p2))
  }

  /** The element nodes of a list, in order (`.children`). */
  function ElementsOf(cs: seq<Node>): (r: seq<Node>)
    ensures |r| <= |cs|
  {
    if |cs| == 0 then []
    else (if cs[0].Element? then [cs[0]] else []) + ElementsOf(cs[1..])
  }

  /** With the start child at index `s` and the end child, if any, at `e`, the
      scan from `i` returns the element children from `max(i, s)` through `e`
      (or to the end), and nothing when the end comes before the start. */
  lemma {:induction false} ScanRange(cs: seq<Node>, parent: seq<nat>, i: nat,
                                     a1: seq<nat>, p1: seq<nat>, a2: seq<nat>, p2: seq<nat>,
                                     s: nat, e: Option<nat>)
    requires s < |cs| && cs[s].Element? && i <= |cs|
    requires e.Some? ==> e.value < |cs| && cs[e.value].Element? && i <= e.value
    requires forall j :: 0 <= j < |cs| ==> ((parent + [j] == a1 || IsPrefix(parent + [j], p1)) <==> j == s)
    requires forall j :: 0 <= j < |cs| ==> ((parent + [j] == a2 || IsPrefix(parent + [j], p2)) <==> e == Some(j))
    ensures var hi := if e.Some? then e.value + 1 else |cs|;
            var lo := if i < s then s else i;
      Scan(cs, parent, i, i > s, a1, p1, a2, p2)
        == if e.Some? && e.value < s then [] else ElementsOf(cs[lo..hi])
    decreases |cs| - i
  {
    if i < |cs| {
      if e.None? || e.value != i {
        ScanRange(cs, parent, i + 1, a1, p1, a2, p2, s, e);
      }
      if i >= s {
        ElementsOfCons(cs, i, if e.Some? then e.value + 1 else |cs|);
      }
    }
  }

  /** The element children of a slice: its first node's, then the rest's. */
  lemma ElementsOfCons(cs: seq<Node>, lo: nat, hi: nat)
    requires lo < hi <= |cs|
    ensures ElementsOf(cs[lo..hi]) == (if cs[lo].Element? then [cs[lo]] else []) + ElementsOf(cs[lo + 1..hi])
  {
    assert cs[lo..hi][0] == cs[lo];
    assert cs[lo..hi][1..] == cs[lo + 1..hi];
  }

  /** Neither id is missing, they differ, the start does not contain the
      end, and the start's container has a parent. */
  predicate RangeCase(doc: seq<Node>, ps: Passage) {
    HasIdIn(doc, ps.start) && HasIdIn(doc, ps.end) && ps.start != ps.end
    && !IsPrefix(FindPath(doc, ps.start).value, FindPath(doc, ps.end).value)
    && |Closest(doc, FindPath(doc, ps.start).value)| > 1
  }

  /** The path of the common container (`ancestroInicio.parentElement`). */
  function Container(doc: seq<Node>, ps: Passage): (r: seq<nat>)
    requires RangeCase(doc, ps)
    ensures ValidPath(doc, r) && At(doc, r).Element?
  {
    var a1 := Closest(doc, FindPath(doc, ps.start).value);
    PrefixValid(doc, a1, |a1| - 1);
    a1[..|a1| - 1]
  }

  /** The index, among the container's children, of the child holding the start. */
  function StartChild(doc: seq<Node>, ps: Passage): (r: nat)
    requires RangeCase(doc, ps)
    ensures r < |At(doc, Container(doc, ps)).children|
    ensures At(doc, Container(doc, ps)).children[r].Element?
  {
    var a1 := Closest(doc, FindPath(doc, ps.start).value);
    var parent := Container(doc, ps);
    assert a1 == parent + [a1[|a1| - 1]];
    ChildOnPath(doc, parent, a1);
    a1[|a1| - 1]
  }

  /** The index of the child holding the end, when the end is inside the container. */
  function EndChild(doc: seq<Node>, ps: Passage): (r: Option<nat>)
    requires RangeCase(doc, ps)
    ensures r.Some? ==> r.value < |At(doc, Container(doc, ps)).children|
                        && At(doc, Container(doc, ps)).children[r.value].Element?
  {
    var p2 := FindPath(doc, ps.end).value;
    var parent := Container(doc, ps);
    if IsPrefix(parent, p2) && |p2| > |parent| then
      PrefixValid(doc, p2, |parent| + 1);
      assert p2[..|parent| + 1] == parent + [p2[|parent|]];
      ChildOnPath(doc, parent, p2[..|parent| + 1]);
      assert |p2| == |parent| + 1 ==> p2[..|parent| + 1] == p2;
      Some(p2[|parent|])
    else None
  }

  lemma ExtractIsScan(doc: seq<Node>, ps: Passage)
    requires RangeCase(doc, ps)
    ensures var p1 := FindPath(doc, ps.start).value;
            var p2 := FindPath(doc, ps.end).value;
      Extract(doc, ps) == Fragment(Scan(At(doc, Container(doc, ps)).children, Container(doc, ps), 0, false,
                                        Closest(doc, p1), p1, Closest(doc, p2), p2))
  {
  }

  /** The range case returns the contiguous run of element children of the
      start's container, from the child holding the start to the child
      holding the end inclusive; empty if the end's child comes first. */
  lemma ExtractRange(doc: seq<Node>, ps: Passage)
    requires RangeCase(doc, ps)
    ensures var cs := At(doc, Container(doc, ps)).children;
            var s := StartChild(doc, ps);
            var e := EndChild(doc, ps);
      Extract(doc, ps)
        == Fragment(if e.Some? && e.value < s then []
                    else ElementsOf(cs[s..(if e.Some? then e.value + 1 else |cs|)]))
  {
    var p1 := FindPath(doc, ps.start).value;
    var p2 := FindPath(doc, ps.end).value;
    var parent := Container(doc, ps);
    var cs := At(doc, parent).children;
    ExtractIsScan(doc, ps);
    RangeConditions(doc, ps);
    ScanRange(cs, parent, 0, Closest(doc, p1), p1, Closest(doc, p2), p2,
              StartChild(doc, ps), EndChild(doc, ps));
  }

  lemma RangeConditions(doc: seq<Node>, ps: Passage)
    requires RangeCase(doc, ps)
    ensures var p1 := FindPath(doc, ps.start).value;
            var p2 := FindPath(doc, ps.end).value;
            var parent := Container(doc, ps);
            var cs := At(doc, parent).children;
      && (forall j :: 0 <= j < |cs| ==>
            ((parent + [j] == Closest(doc, p1) || IsPrefix(parent + [j], p1)) <==> j == StartChild(doc, ps)))
      && (forall j :: 0 <= j < |cs| ==>
            ((parent + [j] == Closest(doc, p2) || IsPrefix(parent + [j], p2)) <==> EndChild(doc, ps) == Some(j)))
  {
    var p1 := FindPath(doc, ps.start).value;
    var p2 := FindPath(doc, ps.end).value;
    var parent := Container(doc, ps);
    var cs := At(doc, parent).children;
    var a1 := Closest(doc, p1);
    assert a1 == parent + [StartChild(doc, ps)];
    StartCondition(cs, parent, StartChild(doc, ps), a1, p1);
    EndCondition(doc, cs, parent, Closest(doc, p2), p2, EndChild(doc, ps));
  }

  /** Only the start's own child of the container is, or holds, the start. */
  lemma StartCondition(cs: seq<Node>, parent: seq<nat>, s: nat, a1: seq<nat>, p1: seq<nat>)
    requires a1 == parent + [s] && IsPrefix(a1, p1)
    ensures forall j :: 0 <= j < |cs| ==> ((parent + [j] == a1 || IsPrefix(parent + [j], p1)) <==> j == s)
  {
    forall j | 0 <= j < |cs|
      ensures (parent + [j] == a1 || IsPrefix(parent + [j], p1)) <==> j == s
    {
      if IsPrefix(parent + [j], p1) { assert p1[|parent|] == j && a1[|parent|] == s; }
    }
  }

  /** Only the end's own child of the container, if the end is inside it, is
      or holds the end or its `sp`/`stage`. */
  lemma EndCondition(doc: seq<Node>, cs: seq<Node>, parent: seq<nat>, a2: seq<nat>, p2: seq<nat>, e: Option<nat>)
    requires IsPrefix(a2, p2)
    requires e == if IsPrefix(parent, p2) && |p2| > |parent| then Some(p2[|parent|]) else None
    ensures forall j :: 0 <= j < |cs| ==> ((parent + [j] == a2 || IsPrefix(parent + [j], p2)) <==> e == Some(j))
  {
    forall j | 0 <= j < |cs|
      ensures (parent + [j] == a2 || IsPrefix(parent + [j], p2)) <==> e == Some(j)
    {
      if parent + [j] == a2 { assert IsPrefix(parent + [j], p2); }
      if IsPrefix(parent + [j], p2) { assert p2[..|parent|] == parent; }
      if e == Some(j) { assert p2[..|parent| + 1] == parent + [j]; }
    }
  }

  /** The node at `parent + [j]` is child `j` of the node at `parent`. */
  lemma {:induction false} ChildOnPath(doc: seq<Node>, parent: seq<nat>, q: seq<nat>)
    requires ValidPath(doc, parent) && ValidPath(doc, q)
    requires |q| == |parent| + 1 && q[..|parent|] == parent
    ensures At(doc, parent).Element?
    ensures q[|parent|] < |At(doc, parent).children|
    ensures At(doc, q) == At(doc, parent).children[q[|parent|]]
    decreases |parent|
  {
    if |parent| > 1 {
      assert q[1..][..|parent| - 1] == parent[1..];
      ChildOnPath(doc[parent[0]].children, parent[1..], q[1..]);
    }
  }

  /** `extraerXmlIdsDelFragmento`: one entry per element carrying an id, in
      document order, duplicates kept. */
  function FragmentIds(fragment: seq<Node>): (r: seq<string>)
    ensures forall x :: x in r <==> HasIdIn(fragment, x)
  {
    forall x ensures x in IdsIn(fragment) <==> HasIdIn(fragment, x) {
      HasIdInIffInIds(fragment, x);
    }
    IdsIn(fragment)
  }

  /** The list is built in document order, one entry per element with an
      id and duplicates kept: nodes side by side contribute their lists in
      turn, a text node nothing, and an element its own id ahead of its
      descendants'. These equations fix the list on every fragment. */
  lemma FragmentIdsOrder(a: seq<Node>, b: seq<Node>, n: Node)
    ensures FragmentIds([]) == []
    ensures FragmentIds(a + b) == FragmentIds(a) + FragmentIds(b)
    ensures n.TextNode? ==> FragmentIds([n]) == []
    ensures n.Element? ==> FragmentIds([n]) == (if n.id.Some? then [n.id.value] else []) + FragmentIds(n.children)
  {
    IdsInAppend(a, b);
    assert [n][1..] == [];
    assert IdsIn([n]) == Ids(n) + IdsIn([]);
    assert IdsIn([n]) == Ids(n);
  }

  lemma {:induction false} IdsInAppend(a: seq<Node>, b: seq<Node>)
    ensures IdsIn(a + b) == IdsIn(a) + IdsIn(b)
    decreases |a|
  {
    if |a| == 0 {
      assert a + b == b;
    } else {
      assert (a + b)[0] == a[0];
      assert (a + b)[1..] == a[1..] + b;
      IdsInAppend(a[1..], b);
      SeqAssoc(Ids(a[0]), IdsIn(a[1..]), IdsIn(b));
    }
  }
}

=== FILE: paths.dfy ===
/**
  The output-file choice shared by the command-line scripts that rewrite a
  TEI file: the input itself with `--inplace`, else `--output`, else a name
  derived from the input.
 */
module Paths {
  import opened Text

  /** Python's `path.lower().endswith('.xml')`. */
  predicate HasXmlExtension(path: string) {
    EndsWith(Lower(path), ".xml")
  }

  /** `--inplace` wins, then a non-empty `--output`; otherwise a `.xml`
      extension in any case is replaced by `suffix`, or `suffix` is added. */
  function ChooseOutput(input: string, output: Option<string>, inplace: bool, suffix: string): (r: string)
    ensures inplace ==> r == input
    ensures !inplace && Present(output) ==> r == output.value
    ensures !inplace && !Present(output) ==> EndsWith(r, suffix)
    ensures !inplace && !Present(output) && |suffix| > 4 ==> r != input
  {
    if inplace then input
    else if Present(output) then output.value
    else if HasXmlExtension(input) then input[..|input| - 4] + suffix
    else input + suffix
  }

  /** The stem before an extension `.xml`, `.XML`, `.Xml`, ... is kept: only
      the extension is swapped. */
  lemma ChooseOutputKeepsStem(stem: string, ext: string, suffix: string)
    requires |ext| == 4 && Lower(ext) == ".xml"
    ensures ChooseOutput(stem + ext, None, false, suffix) == stem + suffix
  {
    var input := stem + ext;
    assert Lower(input)[|input| - 4..] == Lower(ext);
    assert input[..|input| - 4] == stem;
  }

  /** A name without that extension keeps all of it and gets `suffix` added. */
  lemma ChooseOutputAppends(input: string, suffix: string)
    requires !HasXmlExtension(input)
    ensures ChooseOutput(input, None, false, suffix) == input + suffix
  {
  }
}

=== FILE: punctuation.dfy ===
/**
  `limpiar_espacios_puntuacion.py`: three regular-expression substitutions
  that delete whitespace before punctuation and before closing tags, each
  applied by `re.sub` leftmost-first and without overlaps, and the count of
  remaining `\s+[,?:;.!)\]]` matches the script reports.
 */
module Punctuation {
  import opened Text
  import opened Paths

  /** The class `[,?:;.!)\]]` of the first pattern. */
  const Closers := ",?:;.!)]"
  /** The class `[,?:;.!]` of the second pattern. */
  const Marks := ",?:;.!"

  // ---------------------------------------------------------------------
  // The three substitutions
  // ---------------------------------------------------------------------

  /** A match of `\s+([,?:;.!)\]])` at the start of `s`: a non-empty
      whitespace run followed by a closer. */
  predicate CloserAfterRun(s: string) {
    var j := SpaceRun(s);
    0 < j < |s| && s[j] in Closers
  }

  /** `re.sub(r'\s+([,?:;.!)\]])', r'\1', s)`. */
  function DropBeforeCloser(s: string): (r: string)
    ensures |s| > 0 ==> |r| > 0
    ensures |r| > 0 && r[0] in Closers ==> SpaceRun(s) < |s| && s[SpaceRun(s)] in Closers
    decreases |s|
  {
    if |s| == 0 then ""
    else if CloserAfterRun(s) then
      var j := SpaceRun(s);
      [s[j]] + DropBeforeCloser(s[j + 1..])
    else [s[0]] + DropBeforeCloser(s[1..])
  }

  /** A match of `>\s+([,?:;.!])` at the start of `s`. */
  predicate MarkAfterTag(s: string) {
    |s| > 0 && s[0] == '>' &&
    var j := SpaceRun(s[1..]);
    0 < j < |s| - 1 && s[1 + j] in Marks
  }

  /** `re.sub(r'>\s+([,?:;.!])', r'>\1', s)`. */
  function DropAfterTag(s: string): (r: string)
    decreases |s|
  {
    if |s| == 0 then ""
    else if MarkAfterTag(s) then
      var j := SpaceRun(s[1..]);
      ['>', s[1 + j]] + DropAfterTag(s[j + 2..])
    else [s[0]] + DropAfterTag(s[1..])
  }

  /** A match of `\s+(\s*</)` at the start of `s`: a non-empty whitespace run
      followed by `</`. The greedy `\s+` takes the whole run, so the group is
      just `</`. */
  predicate CloseTagAfterRun(s: string) {
    var j := SpaceRun(s);
    0 < j && StartsWith(s[j..], "</")
  }

  /** `re.sub(r'\s+(\s*</)', r'\1', s)`. */
  function DropBeforeCloseTag(s: string): (r: string)
    ensures |s| > 0 ==> |r| > 0 && (r[0] == s[0] || r[0] == '<')
    ensures |r| > 1 && r[0] == '<' && r[1] == '/' ==> StartsWith(s[SpaceRun(s)..], "</")
    decreases |s|
  {
    if |s| == 0 then ""
    else if CloseTagAfterRun(s) then
      var j := SpaceRun(s);
      "</" + DropBeforeCloseTag(s[j + 2..])
    else
      var r := [s[0]] + DropBeforeCloseTag(s[1..]);
      assert |r| > 1 && r[0] == '<' && r[1] == '/' ==> s[1] == '/';
      r
  }

  /** `limpiar_espacios_puntuacion`: the three substitutions in order. */
  function Clean(s: string): string {
    DropBeforeCloseTag(DropAfterTag(DropBeforeCloser(s)))
  }

  /** `len(re.findall(r'\s+[,?:;.!)\]]', s))`. */
  function CountBeforeCloser(s: string): nat
    decreases |s|
  {
    if |s| == 0 then 0
    else if CloserAfterRun(s) then 1 + CountBeforeCloser(s[SpaceRun(s) + 1..])
    else CountBeforeCloser(s[1..])
  }

  // ---------------------------------------------------------------------
  // What the cleaning promises
  // ---------------------------------------------------------------------

  /** `r` is `s` with some whitespace characters deleted and nothing else
      changed. */
  predicate Erases(r: string, s: string)
    decreases |s|
  {
    if |s| == 0 then |r| == 0
    else (|r| > 0 && r[0] == s[0] && Erases(r[1..], s[1..]))
         || (IsPySpace(s[0]) && Erases(r, s[1..]))
  }

  /** The non-whitespace characters of `s`, in order. */
  function Visible(s: string): (r: string)
    ensures forall i :: 0 <= i < |r| ==> !IsPySpace(r[i])
    decreases |s|
  {
    if |s| == 0 then ""
    else if IsPySpace(s[0]) then Visible(s[1..])
    else [s[0]] + Visible(s[1..])
  }

  /** No whitespace character stands right before a character of `cls`. */
  predicate NoSpaceBefore(r: string, cls: string) {
    forall i :: 0 <= i < |r| - 1 && IsPySpace(r[i]) ==> r[i + 1] !in cls
  }

  /** No whitespace character stands right before `</`. */
  predicate NoSpaceBeforeCloseTag(r: string) {
    forall i :: 0 <= i < |r| - 2 && IsPySpace(r[i]) ==> !(r[i + 1] == '<' && r[i + 2] == '/')
  }

  lemma {:induction false} ErasesRefl(s: string)
    ensures Erases(s, s)
    decreases |s|
  {
    if |s| > 0 { ErasesRefl(s[1..]); }
  }

  /** Deleting a whitespace run in front. */
  lemma {:induction false} ErasesRun(r: string, s: string, j: nat)
    requires j <= |s| && forall i :: 0 <= i < j ==> IsPySpace(s[i])
    requires Erases(r, s[j..])
    ensures Erases(r, s)
    decreases j
  {
    if j > 0 {
      assert s[1..][j - 1..] == s[j..];
      ErasesRun(r, s[1..], j - 1);
    }
  }

  lemma {:induction false} ErasesTrans(a: string, b: string, c: string)
    requires Erases(a, b) && Erases(b, c)
    ensures Erases(a, c)
    decreases |c|
  {
    if |c| > 0 {
      if |b| > 0 && b[0] == c[0] && Erases(b[1..], c[1..]) {
        if |a| > 0 && a[0] == b[0] && Erases(a[1..], b[1..]) {
          ErasesTrans(a[1..], b[1..], c[1..]);
        } else {
          ErasesTrans(a, b[1..], c[1..]);
        }
      } else {
        ErasesTrans(a, b, c[1..]);
      }
    }
  }

  /** Erasing whitespace keeps the visible text. */
  lemma {:induction false} ErasesKeepsVisible(r: string, s: string)
    requires Erases(r, s)
    ensures Visible(r) == Visible(s)
    decreases |s|
  {
    if |s| > 0 {
      if |r| > 0 && r[0] == s[0] && Erases(r[1..], s[1..]) {
        ErasesKeepsVisible(r[1..], s[1..]);
      } else {
        ErasesKeepsVisible(r, s[1..]);
      }
    }
  }

  lemma {:induction false} DropBeforeCloserErases(s: string)
    ensures Erases(DropBeforeCloser(s), s)
    decreases |s|
  {
    if |s| > 0 {
      if CloserAfterRun(s) {
        var j := SpaceRun(s);
        DropBeforeCloserErases(s[j + 1..]);
        var r := DropBeforeCloser(s);
        assert r[1..] == DropBeforeCloser(s[j + 1..]);
        assert s[j..][1..] == s[j + 1..];
        assert Erases(r, s[j..]);
        ErasesRun(r, s, j);
      } else {
        DropBeforeCloserErases(s[1..]);
        assert DropBeforeCloser(s)[1..] == DropBeforeCloser(s[1..]);
      }
    }
  }

  lemma {:induction false} DropAfterTagErases(s: string)
    ensures Erases(DropAfterTag(s), s)
    decreases |s|
  {
    if |s| > 0 {
      var r := DropAfterTag(s);
      if MarkAfterTag(s) {
        var j := SpaceRun(s[1..]);
        DropAfterTagErases(s[j + 2..]);
        assert r[1..][1..] == DropAfterTag(s[j + 2..]);
        assert s[1..][j..][1..] == s[j + 2..];
        assert s[1..][j..][0] == s[1 + j];
        assert Erases(r[1..], s[1..][j..]);
        ErasesRun(r[1..], s[1..], j);
      } else {
        DropAfterTagErases(s[1..]);
        assert r[1..] == DropAfterTag(s[1..]);
      }
    }
  }

  lemma {:induction false} DropBeforeCloseTagErases(s: string)
    ensures Erases(DropBeforeCloseTag(s), s)
    decreases |s|
  {
    if |s| > 0 {
      var r := DropBeforeCloseTag(s);
      if CloseTagAfterRun(s) {
        var j := SpaceRun(s);
        DropBeforeCloseTagErases(s[j + 2..]);
        var t := s[j..];
        assert t[0] == '<' && t[1] == '/';
        assert r[0] == '<' && r[1..][0] == '/';
        assert r[1..][1..] == DropBeforeCloseTag(s[j + 2..]);
        assert t[1..][1..] == s[j + 2..];
        assert Erases(r[1..], t[1..]);
        assert Erases(r, t);
        ErasesRun(r, s, j);
      } else {
        DropBeforeCloseTagErases(s[1..]);
        assert r[1..] == DropBeforeCloseTag(s[1..]);
      }
    }
  }

  /** Cleaning deletes whitespace characters and nothing else: every other
      character is kept, in order. */
  lemma CleanOnlyDeletesSpaces(s: string)
    ensures Erases(Clean(s), s)
    ensures Visible(Clean(s)) == Visible(s)
  {
    var a := DropBeforeCloser(s);
    var b := DropAfterTag(a);
    DropBeforeCloserErases(s);
    DropAfterTagErases(a);
    DropBeforeCloseTagErases(b);
    ErasesTrans(b, a, s);
    ErasesTrans(Clean(s), b, s);
    ErasesKeepsVisible(Clean(s), s);
  }

  /** After the first substitution no whitespace precedes a closer. */
  lemma {:induction false} DropBeforeCloserLeavesNone(s: string)
    ensures NoSpaceBefore(DropBeforeCloser(s), Closers)
    decreases |s|
  {
    if |s| > 0 {
      var r := DropBeforeCloser(s);
      if CloserAfterRun(s) {
        var j := SpaceRun(s);
        DropBeforeCloserLeavesNone(s[j + 1..]);
        assert !IsPySpace(r[0]) by { assert r[0] == s[j]; }
        assert r[1..] == DropBeforeCloser(s[j + 1..]);
      } else {
        var t := DropBeforeCloser(s[1..]);
        DropBeforeCloserLeavesNone(s[1..]);
        assert r == [s[0]] + t;
        if IsPySpace(s[0]) { SpaceRunStep(s); }
      }
    }
  }

  /** The guarantees hold of every suffix. */
  lemma NoSpaceBeforeSuffix(s: string, cls: string, k: nat)
    requires k <= |s| && NoSpaceBefore(s, cls)
    ensures NoSpaceBefore(s[k..], cls)
  {
    forall i | 0 <= i < |s[k..]| - 1 && IsPySpace(s[k..][i]) ensures s[k..][i + 1] !in cls {
      assert s[k..][i] == s[k + i] && s[k..][i + 1] == s[k + i + 1];
    }
  }

  lemma NoSpaceBeforeCloseTagSuffix(s: string, k: nat)
    requires k <= |s| && NoSpaceBeforeCloseTag(s)
    ensures NoSpaceBeforeCloseTag(s[k..])
  {
    forall i | 0 <= i < |s[k..]| - 2 && IsPySpace(s[k..][i])
      ensures !(s[k..][i + 1] == '<' && s[k..][i + 2] == '/')
    {
      assert s[k..][i] == s[k + i] && s[k..][i + 1] == s[k + i + 1] && s[k..][i + 2] == s[k + i + 2];
    }
  }

  /** Putting one character in front keeps the guarantees when that character
      is not a whitespace right before a forbidden one. */
  lemma NoSpaceBeforeCons(c: char, t: string, cls: string)
    requires NoSpaceBefore(t, cls)
    requires IsPySpace(c) && |t| > 0 ==> t[0] !in cls
    ensures NoSpaceBefore([c] + t, cls)
  {
    var r := [c] + t;
    forall i | 0 <= i < |r| - 1 && IsPySpace(r[i]) ensures r[i + 1] !in cls {
      if i > 0 { assert r[i] == t[i - 1] && r[i + 1] == t[i]; }
    }
  }

  lemma NoSpaceBeforeCloseTagCons(c: char, t: string)
    requires NoSpaceBeforeCloseTag(t)
    requires IsPySpace(c) && |t| > 1 ==> !(t[0] == '<' && t[1] == '/')
    ensures NoSpaceBeforeCloseTag([c] + t)
  {
    var r := [c] + t;
    forall i | 0 <= i < |r| - 2 && IsPySpace(r[i]) ensures !(r[i + 1] == '<' && r[i + 2] == '/') {
      if i > 0 { assert r[i] == t[i - 1] && r[i + 1] == t[i] && r[i + 2] == t[i + 1]; }
    }
  }

  /** Text with no whitespace before a mark has no match of the second
      pattern, so the second substitution leaves it alone. */
  lemma {:induction false} DropAfterTagNoMatch(s: string)
    requires NoSpaceBefore(s, Marks)
    ensures DropAfterTag(s) == s
    decreases |s|
  {
    if |s| > 0 {
      MarkAfterTagFollowsSpace(s);
      NoSpaceBeforeSuffix(s, Marks, 1);
      DropAfterTagNoMatch(s[1..]);
    }
  }

  /** A match of the second pattern puts a whitespace right before a mark. */
  lemma MarkAfterTagFollowsSpace(s: string)
    ensures MarkAfterTag(s) ==> exists i :: 0 <= i < |s| - 1 && IsPySpace(s[i]) && s[i + 1] in Marks
  {
    if MarkAfterTag(s) {
      var j := SpaceRun(s[1..]);
      assert s[j] == s[1..][j - 1];
    }
  }

  /** The third substitution keeps the first one's guarantee and adds its
      own. */
  lemma {:induction false} DropBeforeCloseTagLeavesNone(s: string)
    requires NoSpaceBefore(s, Closers)
    ensures NoSpaceBefore(DropBeforeCloseTag(s), Closers)
    ensures NoSpaceBeforeCloseTag(DropBeforeCloseTag(s))
    decreases |s|, 1
  {
    if |s| > 0 {
      if CloseTagAfterRun(s) {
        CloseTagStepClean(s);
      } else {
        CharacterStepClean(s);
      }
    }
  }

  lemma {:induction false} CloseTagStepClean(s: string)
    requires |s| > 0 && CloseTagAfterRun(s) && NoSpaceBefore(s, Closers)
    ensures NoSpaceBefore(DropBeforeCloseTag(s), Closers)
    ensures NoSpaceBeforeCloseTag(DropBeforeCloseTag(s))
    decreases |s|, 0
  {
    var j := SpaceRun(s);
    NoSpaceBeforeSuffix(s, Closers, j + 2);
    DropBeforeCloseTagLeavesNone(s[j + 2..]);
    CloseTagKept(s);
  }

  lemma {:induction false} CharacterStepClean(s: string)
    requires |s| > 0 && !CloseTagAfterRun(s) && NoSpaceBefore(s, Closers)
    ensures NoSpaceBefore(DropBeforeCloseTag(s), Closers)
    ensures NoSpaceBeforeCloseTag(DropBeforeCloseTag(s))
    decreases |s|, 0
  {
    NoSpaceBeforeSuffix(s, Closers, 1);
    DropBeforeCloseTagLeavesNone(s[1..]);
    CharacterKept(s);
  }

  /** A match step: `</` in front of a clean rest is clean. */
  lemma CloseTagKept(s: string)
    requires |s| > 0 && CloseTagAfterRun(s)
    requires var t := DropBeforeCloseTag(s[SpaceRun(s) + 2..]);
      NoSpaceBefore(t, Closers) && NoSpaceBeforeCloseTag(t)
    ensures NoSpaceBefore(DropBeforeCloseTag(s), Closers)
    ensures NoSpaceBeforeCloseTag(DropBeforeCloseTag(s))
  {
    var t := DropBeforeCloseTag(s[SpaceRun(s) + 2..]);
    CloseTagPrefix(t);
  }

  lemma CloseTagPrefix(t: string)
    requires NoSpaceBefore(t, Closers) && NoSpaceBeforeCloseTag(t)
    ensures NoSpaceBefore("</" + t, Closers) && NoSpaceBeforeCloseTag("</" + t)
  {
    var r := "</" + t;
    assert !IsPySpace(r[0]) && !IsPySpace(r[1]);
    forall i | 2 <= i < |r| ensures r[i] == t[i - 2] { }
  }

  /** A copy step: a character that starts no match, in front of a clean
      rest, is clean. */
  lemma CharacterKept(s: string)
    requires |s| > 0 && !CloseTagAfterRun(s) && NoSpaceBefore(s, Closers)
    requires var t := DropBeforeCloseTag(s[1..]);
      NoSpaceBefore(t, Closers) && NoSpaceBeforeCloseTag(t)
    ensures NoSpaceBefore(DropBeforeCloseTag(s), Closers)
    ensures NoSpaceBeforeCloseTag(DropBeforeCloseTag(s))
  {
    var t := DropBeforeCloseTag(s[1..]);
    assert DropBeforeCloseTag(s) == [s[0]] + t;
    if |s| > 1 && IsPySpace(s[0]) { FirstAfterSpace(s); }
    NoSpaceBeforeCons(s[0], t, Closers);
    NoSpaceBeforeCloseTagCons(s[0], t);
  }

  /** What may follow a whitespace character that starts no match. */
  lemma FirstAfterSpace(s: string)
    requires |s| > 1 && IsPySpace(s[0]) && !CloseTagAfterRun(s)
    requires NoSpaceBefore(s, Closers)
    ensures var t := DropBeforeCloseTag(s[1..]);
      t[0] !in Closers && (|t| > 1 ==> !(t[0] == '<' && t[1] == '/'))
  {
    var t := DropBeforeCloseTag(s[1..]);
    SpaceRunStep(s);
    assert s[1..][SpaceRun(s[1..])..] == s[SpaceRun(s)..];
    assert s[1] !in Closers;
  }

  /** After cleaning, no whitespace precedes a closer or `</`, and the count
      of `\s+[,?:;.!)\]]` the script reports for the result is zero. */
  lemma CleanLeavesNone(s: string)
    ensures NoSpaceBefore(Clean(s), Closers)
    ensures NoSpaceBeforeCloseTag(Clean(s))
    ensures CountBeforeCloser(Clean(s)) == 0
  {
    var a := DropBeforeCloser(s);
    DropBeforeCloserLeavesNone(s);
    DropAfterTagNoMatch(a);
    DropBeforeCloseTagLeavesNone(a);
    CountZeroIff(Clean(s));
  }

  /** The reported count is zero exactly when no whitespace precedes a
      closer. */
  lemma {:induction false} CountZeroIff(s: string)
    ensures CountBeforeCloser(s) == 0 <==> NoSpaceBefore(s, Closers)
    decreases |s|
  {
    if |s| > 0 {
      if CloserAfterRun(s) {
        CloserAfterRunBreaks(s);
      } else {
        assert CountBeforeCloser(s) == CountBeforeCloser(s[1..]);
        CountZeroIff(s[1..]);
        NoSpaceBeforeStep(s);
      }
    }
  }

  /** Whitespace then a closer is a place the clean text may not have. */
  lemma CloserAfterRunBreaks(s: string)
    requires CloserAfterRun(s)
    ensures !NoSpaceBefore(s, Closers)
  {
    var j := SpaceRun(s);
    assert IsPySpace(s[j - 1]) && s[j - 1 + 1] in Closers;
  }

  /** Where no match starts at the first character, that character breaks
      nothing and the rest decides. */
  lemma NoSpaceBeforeStep(s: string)
    requires |s| > 0 && !CloserAfterRun(s)
    ensures NoSpaceBefore(s, Closers) <==> NoSpaceBefore(s[1..], Closers)
  {
    if |s| > 1 && IsPySpace(s[0]) {
      SpaceRunStep(s);
      assert s[1] !in Closers;
    }
    if NoSpaceBefore(s[1..], Closers) {
      NoSpaceBeforeCons(s[0], s[1..], Closers);
      assert [s[0]] + s[1..] == s;
    }
    if NoSpaceBefore(s, Closers) {
      NoSpaceBeforeSuffix(s, Closers, 1);
    }
  }

  /** Clean text is a fixed point of each substitution. */
  lemma CleanTextUnchanged(s: string)
    requires NoSpaceBefore(s, Closers) && NoSpaceBeforeCloseTag(s)
    ensures Clean(s) == s
  {
    DropBeforeCloserNoMatch(s);
    DropAfterTagNoMatch(s);
    DropBeforeCloseTagNoMatch(s);
  }

  lemma {:induction false} DropBeforeCloserNoMatch(s: string)
    requires NoSpaceBefore(s, Closers)
    ensures DropBeforeCloser(s) == s
    decreases |s|
  {
    if |s| > 0 {
      NoSpaceBeforeSuffix(s, Closers, 1);
      DropBeforeCloserNoMatch(s[1..]);
    }
  }

  lemma {:induction false} DropBeforeCloseTagNoMatch(s: string)
    requires NoSpaceBeforeCloseTag(s)
    ensures DropBeforeCloseTag(s) == s
    decreases |s|
  {
    if |s| > 0 {
      var j := SpaceRun(s);
      assert CloseTagAfterRun(s) ==> IsPySpace(s[j - 1]) && s[j] == '<' && s[j + 1] == '/' by {
        if CloseTagAfterRun(s) { assert s[j..][0] == s[j] && s[j..][1] == s[j + 1]; }
      }
      NoSpaceBeforeCloseTagSuffix(s, 1);
      DropBeforeCloseTagNoMatch(s[1..]);
    }
  }

  /** Cleaning twice is cleaning once. */
  lemma CleanIdempotent(s: string)
    ensures Clean(Clean(s)) == Clean(s)
  {
    CleanLeavesNone(s);
    CleanTextUnchanged(Clean(s));
  }

  /** `main`'s output path: `.xml` replaced by `.clean.xml`. */
  lemma CleanOutputPath(stem: string)
    ensures ChooseOutput(stem + ".xml", None, false, ".clean.xml") == stem + ".clean.xml"
    ensures ChooseOutput(stem + ".XML", None, false, ".clean.xml") == stem + ".clean.xml"
  {
    ChooseOutputKeepsStem(stem, ".xml", ".clean.xml");
    ChooseOutputKeepsStem(stem, ".XML", ".clean.xml");
  }
}

=== FILE: sorting.dfy ===
/**
  The stable sort behind `Array.prototype.sort` with a comparator that
  orders by a two-level rank: a stable insertion sort. It is proved to be
  a permutation, ordered by rank, and stable (elements of equal rank keep
  their relative order), which determines the result uniquely.
 */
module Sorting {

  /** A lexicographic rank: `major` first, then `minor`. */
  datatype Rank = Rank(major: int, minor: int)

  predicate Below(a: Rank, b: Rank) {
    a.major < b.major || (a.major == b.major && a.minor < b.minor)
  }

  predicate SortedBy<T>(s: seq<T>, rank: T -> Rank) {
    forall i, j :: 0 <= i < j < |s| ==> !Below(rank(s[j]), rank(s[i]))
  }

  /** The elements of rank `k`, in order. */
  function OfRank<T>(s: seq<T>, rank: T -> Rank, k: Rank): (r: seq<T>)
    ensures |r| <= |s|
  {
    if |s| == 0 then []
    else if rank(s[0]) == k then [s[0]] + OfRank(s[1..], rank, k)
    else OfRank(s[1..], rank, k)
  }

  /** Inserts `x` after every element that does not rank above it. */
  function Insert<T>(x: T, r: seq<T>, rank: T -> Rank): (q: seq<T>)
    ensures multiset(q) == multiset(r) + multiset{x}
  {
    if |r| == 0 then [x]
    else if Below(rank(x), rank(r[0])) then [x] + r
    else
      assert r == [r[0]] + r[1..];
      [r[0]] + Insert(x, r[1..], rank)
  }

  /** Stable sort by rank. */
  function SortBy<T>(s: seq<T>, rank: T -> Rank): (r: seq<T>)
    ensures multiset(r) == multiset(s)
  {
    if |s| == 0 then []
    else
      assert s == s[..|s| - 1] + [s[|s| - 1]];
      Insert(s[|s| - 1], SortBy(s[..|s| - 1], rank), rank)
  }

  lemma {:induction false} InsertSorted<T>(x: T, r: seq<T>, rank: T -> Rank)
    requires SortedBy(r, rank)
    ensures SortedBy(Insert(x, r, rank), rank)
    decreases |r|
  {
    if |r| > 0 && !Below(rank(x), rank(r[0])) {
      InsertSorted(x, r[1..], rank);
      var q := Insert(x, r[1..], rank);
      assert multiset(q) == multiset(r[1..]) + multiset{x};
      forall j | 0 <= j < |q| ensures !Below(rank(q[j]), rank(r[0])) {
        assert q[j] in multiset(q);
        if q[j] != x {
          assert q[j] in multiset(r[1..]);
          var k :| 0 <= k < |r[1..]| && r[1..][k] == q[j];
          assert r[k + 1] == q[j];
        }
      }
    }
  }

  /** The sorted list is ordered by rank. */
  lemma {:induction false} SortByIsSorted<T>(s: seq<T>, rank: T -> Rank)
    ensures SortedBy(SortBy(s, rank), rank)
    decreases |s|
  {
    if |s| > 0 {
      SortByIsSorted(s[..|s| - 1], rank);
      InsertSorted(s[|s| - 1], SortBy(s[..|s| - 1], rank), rank);
    }
  }

  lemma {:induction false} OfRankInsert<T>(x: T, r: seq<T>, rank: T -> Rank, k: Rank)
    requires SortedBy(r, rank)
    ensures OfRank(Insert(x, r, rank), rank, k)
      == OfRank(r, rank, k) + (if rank(x) == k then [x] else [])
    decreases |r|
  {
    if |r| > 0 {
      if Below(rank(x), rank(r[0])) {
        if rank(x) == k {
          OfRankNone(r, rank, k);
        }
      } else {
        OfRankInsert(x, r[1..], rank, k);
      }
    }
  }

  /** In a sorted list whose head ranks above `k`, nothing has rank `k`. */
  lemma {:induction false} OfRankNone<T>(r: seq<T>, rank: T -> Rank, k: Rank)
    requires SortedBy(r, rank)
    requires |r| > 0 && Below(k, rank(r[0]))
    ensures OfRank(r, rank, k) == []
    decreases |r|
  {
    if |r| > 1 {
      assert !Below(rank(r[1]), rank(r[0]));
      OfRankNone(r[1..], rank, k);
    }
  }

  lemma {:induction false} OfRankAppend<T>(s: seq<T>, x: T, rank: T -> Rank, k: Rank)
    ensures OfRank(s + [x], rank, k) == OfRank(s, rank, k) + (if rank(x) == k then [x] else [])
    decreases |s|
  {
    if |s| > 0 {
      assert (s + [x])[1..] == s[1..] + [x];
      OfRankAppend(s[1..], x, rank, k);
    }
  }

  /** Stability: the elements of each rank keep their input order. */
  lemma {:induction false} SortByStable<T>(s: seq<T>, rank: T -> Rank, k: Rank)
    ensures OfRank(SortBy(s, rank), rank, k) == OfRank(s, rank, k)
    decreases |s|
  {
    if |s| > 0 {
      var p, x := s[..|s| - 1], s[|s| - 1];
      SortByStep(s, rank);
      SortByStable(p, rank, k);
      SortByIsSorted(p, rank);
      OfRankInsert(x, SortBy(p, rank), rank, k);
      OfRankLast(s, rank, k);
    }
  }

  lemma SortByStep<T>(s: seq<T>, rank: T -> Rank)
    requires |s| > 0
    ensures SortBy(s, rank) == Insert(s[|s| - 1], SortBy(s[..|s| - 1], rank), rank)
  {
  }

  lemma OfRankLast<T>(s: seq<T>, rank: T -> Rank, k: Rank)
    requires |s| > 0
    ensures OfRank(s, rank, k)
      == OfRank(s[..|s| - 1], rank, k) + (if rank(s[|s| - 1]) == k then [s[|s| - 1]] else [])
  {
    assert s == s[..|s| - 1] + [s[|s| - 1]];
    OfRankAppend(s[..|s| - 1], s[|s| - 1], rank, k);
  }
}

=== FILE: sp_ids.dfy ===
/**
  `anadir_ids_sp.py`: every `<sp>` (speech) element, found in document order
  whatever its namespace, gets the `xml:id` `prefix-i` with `i` counting up
  from `--start`; with `--preserve` an element that already has an id keeps
  it, but the count still moves on. Also the choice of output file and the
  removal of repeated blank lines from the written file.
 */
module SpIds {
  import opened Text
  import opened Paths

  // ---------------------------------------------------------------------
  // local_name
  // ---------------------------------------------------------------------

  /** An ElementTree tag `{namespace}name` without its namespace part. */
  function LocalName(tag: string): string {
    tag[AfterLast(tag, '}')..]
  }

  /** The local name ends the tag and holds no `}`. */
  lemma LocalNameSuffix(tag: string)
    ensures '}' !in LocalName(tag) && EndsWith(tag, LocalName(tag))
  {
    var i := AfterLast(tag, '}');
    AfterLastSpec(tag, '}');
    forall k | 0 <= k < |tag| - i ensures LocalName(tag)[k] != '}' {
      assert LocalName(tag)[k] == tag[i + k];
    }
  }

  /** `local_name`'s expression `tag.split('}')[-1] if '}' in tag else tag`
      is the text after the last `}`. */
  lemma LocalNameIsLastPiece(tag: string)
    ensures LocalName(tag) == if '}' in tag then SplitOn(tag, '}')[|SplitOn(tag, '}')| - 1] else tag
  {
    if '}' in tag {
      LastPieceIsSuffix(tag, '}');
      SplitOnPiecesFree(tag, '}');
      var pieces := SplitOn(tag, '}');
      AfterLastBrace(tag, pieces[|pieces| - 1]);
    } else {
      NoBraceStart(tag);
    }
  }

  /** A suffix free of `}` right after a `}` starts where the local name does. */
  lemma AfterLastBrace(tag: string, last: string)
    requires EndsWith(tag, last) && '}' !in last
    requires |last| < |tag| && tag[|tag| - |last| - 1] == '}'
    ensures LocalName(tag) == last
  {
    var i := AfterLast(tag, '}');
    AfterLastSpec(tag, '}');
    var m := |tag| - |last|;
    assert tag[m..] == last;
  }

  lemma NoBraceStart(tag: string)
    requires '}' !in tag
    ensures LocalName(tag) == tag
  {
  }

  /** The last piece of `s.split(c)` ends `s`, right after the last `c`. */
  lemma {:induction false} LastPieceIsSuffix(s: string, c: char)
    ensures var pieces := SplitOn(s, c);
      EndsWith(s, pieces[|pieces| - 1])
      && (c in s ==> |pieces[|pieces| - 1]| < |s| && s[|s| - |pieces[|pieces| - 1]| - 1] == c)
    decreases |s|
  {
    if c in s {
      var i := FirstIndexOf(s, c);
      var rest := s[i + 1..];
      LastPieceIsSuffix(rest, c);
      LastPieceStep(s, c);
      var pieces := SplitOn(rest, c);
      SuffixOfRest(s, i + 1, pieces[|pieces| - 1], c);
    }
  }

  /** Past the first `c`, the last piece is that of the rest. */
  lemma LastPieceStep(s: string, c: char)
    requires c in s
    ensures var rest := SplitOn(s[FirstIndexOf(s, c) + 1..], c);
      var pieces := SplitOn(s, c);
      pieces[|pieces| - 1] == rest[|rest| - 1]
  {
    var i := FirstIndexOf(s, c);
    var rest := SplitOn(s[i + 1..], c);
    var pieces := SplitOn(s, c);
    assert pieces == [s[..i]] + rest;
    assert pieces[|pieces| - 1] == rest[|rest| - 1];
  }

  /** A suffix of `s[i..]` is a suffix of `s`; the character before it is the
      same in both, or is `s[i - 1]` when it is all of `s[i..]`. */
  lemma SuffixOfRest(s: string, i: nat, last: string, c: char)
    requires 0 < i <= |s| && s[i - 1] == c
    requires var rest := s[i..];
      EndsWith(rest, last) && (c in rest ==> |last| < |rest| && rest[|rest| - |last| - 1] == c)
    requires c !in s[i..] ==> last == s[i..]
    ensures EndsWith(s, last) && |last| < |s| && s[|s| - |last| - 1] == c
  {
    var rest := s[i..];
    assert s[|s| - |last|..] == rest[|rest| - |last|..];
    if c in rest {
      assert s[|s| - |last| - 1] == rest[|rest| - |last| - 1];
    }
  }

  /** A namespaced tag gives back its local name, an unprefixed one itself. */
  lemma LocalNameOfQualified(ns: string, local: string)
    requires '}' !in local
    ensures LocalName("{" + ns + "}" + local) == local
    ensures LocalName(local) == local
  {
    var tag := "{" + ns + "}" + local;
    assert tag[|tag| - |local|..] == local;
    assert tag[|tag| - |local| - 1] == '}';
    AfterLastBrace(tag, local);
    NoBraceStart(local);
  }

  // ---------------------------------------------------------------------
  // The id loop
  // ---------------------------------------------------------------------

  /** An element of `root.iter()`, in document order. */
  datatype Elem = Elem(tag: string, id: Option<string>)

  predicate IsSp(e: Elem) {
    LocalName(e.tag) == "sp"
  }

  /** The speeches before position `k`. */
  function SpsBefore(es: seq<Elem>, k: nat): (c: nat)
    requires k <= |es|
    ensures c <= k
  {
    if k == 0 then 0 else SpsBefore(es, k - 1) + (if IsSp(es[k - 1]) then 1 else 0)
  }

  /** `f"{prefix}-{i}"`. */
  function SpId(prefix: string, i: int): string {
    prefix + "-" + IntToString(i)
  }

  /** The element at `k` after the loop: a speech gets the id of its
      position among the speeches unless `--preserve` keeps the one it has. */
  function SpAfter(es: seq<Elem>, k: nat, prefix: string, start: int, preserve: bool): Elem
    requires k < |es|
  {
    if Renamed(es[k], preserve)
    then es[k].(id := Some(SpId(prefix, start + SpsBefore(es, k))))
    else es[k]
  }

  /** A speech the loop gives a new id: all of them, or with `--preserve`
      only those without one. */
  predicate Renamed(e: Elem, preserve: bool) {
    IsSp(e) && !(preserve && e.id.Some?)
  }

  /** One pass of the loop body: a speech takes `f"{prefix}-{i}"` unless
      `--preserve` is given and it already has an id; every speech moves the
      counter on. */
  function Visit(e: Elem, i: int, prefix: string, preserve: bool): (r: (Elem, int))
    ensures r.0.tag == e.tag
    ensures r.1 == if IsSp(e) then i + 1 else i
    ensures !IsSp(e) || (preserve && e.id.Some?) ==> r.0 == e
    ensures IsSp(e) && !(preserve && e.id.Some?) ==> r.0 == e.(id := Some(SpId(prefix, i)))
  {
    if LocalName(e.tag) == "sp" then
      if preserve && e.id.Some? then (e, i + 1)
      else (e.(id := Some(prefix + "-" + IntToString(i))), i + 1)
    else (e, i)
  }

  /** The loop of `main`, with the counter `i`. */
  method AssignSpIds(es: seq<Elem>, prefix: string, start: int, preserve: bool) returns (r: seq<Elem>)
    ensures |r| == |es|
    ensures forall k :: 0 <= k < |es| ==> r[k] == SpAfter(es, k, prefix, start, preserve)
  {
    r := [];
    var i := start;
    while |r| < |es|
      invariant |r| <= |es|
      invariant i == start + SpsBefore(es, |r|)
      invariant Assigned(r, es, prefix, start, preserve)
    {
      var k := |r|;
      VisitStep(es, k, i, prefix, start, preserve);
      var (e, next) := Visit(es[k], i, prefix, preserve);
      AssignedSnoc(r, e, es, prefix, start, preserve);
      r := r + [e];
      i := next;
    }
  }

  /** The first `|r|` elements have been visited. */
  predicate Assigned(r: seq<Elem>, es: seq<Elem>, prefix: string, start: int, preserve: bool)
    requires |r| <= |es|
  {
    forall j :: 0 <= j < |r| ==> r[j] == SpAfter(es, j, prefix, start, preserve)
  }

  lemma AssignedSnoc(r: seq<Elem>, e: Elem, es: seq<Elem>, prefix: string, start: int, preserve: bool)
    requires |r| < |es| && Assigned(r, es, prefix, start, preserve)
    requires e == SpAfter(es, |r|, prefix, start, preserve)
    ensures Assigned(r + [e], es, prefix, start, preserve)
  {
    var r' := r + [e];
    forall j | 0 <= j < |r'| ensures r'[j] == SpAfter(es, j, prefix, start, preserve) {
      if j < |r| {
        assert r'[j] == r[j];
      }
    }
  }

  /** The loop body, run with the counter at the speeches seen so far, does
      what `SpAfter` says and counts the element if it is a speech. */
  lemma VisitStep(es: seq<Elem>, k: nat, i: int, prefix: string, start: int, preserve: bool)
    requires k < |es| && i == start + SpsBefore(es, k)
    ensures Visit(es[k], i, prefix, preserve) == (SpAfter(es, k, prefix, start, preserve), start + SpsBefore(es, k + 1))
  {
  }

  lemma {:induction false} SpsBeforeGrows(es: seq<Elem>, a: nat, b: nat)
    requires a < b <= |es| && IsSp(es[a])
    ensures SpsBefore(es, b) > SpsBefore(es, a)
    decreases b - a
  {
    if b > a + 1 {
      SpsBeforeGrows(es, a, b - 1);
    }
  }

  /** Different numbers give different ids. */
  lemma SpIdInjective(prefix: string, a: int, b: int)
    ensures a != b ==> SpId(prefix, a) != SpId(prefix, b)
  {
    if SpId(prefix, a) == SpId(prefix, b) {
      assert IntToString(a) == SpId(prefix, a)[|prefix| + 1..];
      assert IntToString(b) == SpId(prefix, b)[|prefix| + 1..];
      IntToStringInjective(a, b);
    }
  }

  /** Two speeches that receive generated ids receive different ones. */
  lemma GeneratedIdsDistinct(es: seq<Elem>, a: nat, b: nat, prefix: string, start: int, preserve: bool)
    requires a < b < |es| && IsSp(es[a]) && IsSp(es[b])
    requires !preserve || (es[a].id.None? && es[b].id.None?)
    ensures SpAfter(es, a, prefix, start, preserve).id != SpAfter(es, b, prefix, start, preserve).id
  {
    SpsBeforeGrows(es, a, b);
    SpIdInjective(prefix, start + SpsBefore(es, a), start + SpsBefore(es, b));
    Generated(es, a, prefix, start, preserve);
    Generated(es, b, prefix, start, preserve);
  }

  /** A speech that is not preserved gets the id of its position. */
  lemma Generated(es: seq<Elem>, k: nat, prefix: string, start: int, preserve: bool)
    requires k < |es| && IsSp(es[k]) && (!preserve || es[k].id.None?)
    ensures SpAfter(es, k, prefix, start, preserve).id == Some(SpId(prefix, start + SpsBefore(es, k)))
  {
    assert Renamed(es[k], preserve);
  }

  /** With `--preserve`, a speech without an id gets the same id it would
      get without the option: the kept ids do not shift the others. */
  lemma PreserveKeepsPositions(es: seq<Elem>, k: nat, prefix: string, start: int)
    requires k < |es| && es[k].id.None?
    ensures SpAfter(es, k, prefix, start, true) == SpAfter(es, k, prefix, start, false)
  {
  }

  // ---------------------------------------------------------------------
  // The output file
  // ---------------------------------------------------------------------

  /** Without `--inplace` and `--output`, `.xml` becomes `.ids.xml`. */
  lemma IdsOutputPath(stem: string)
    ensures ChooseOutput(stem + ".xml", None, false, ".ids.xml") == stem + ".ids.xml"
    ensures ChooseOutput(stem + ".XML", None, false, ".ids.xml") == stem + ".ids.xml"
  {
    ChooseOutputKeepsStem(stem, ".xml", ".ids.xml");
    ChooseOutputKeepsStem(stem, ".XML", ".ids.xml");
  }

  // ---------------------------------------------------------------------
  // Blank-line collapse in pretty_write
  // ---------------------------------------------------------------------

  /** `ln.strip() == ''`, stated as: every character is whitespace. */
  predicate Blank(ln: string) {
    forall i :: 0 <= i < |ln| ==> IsPySpace(ln[i])
  }

  /** That is the same as stripping to nothing. */
  lemma BlankIsStripEmpty(ln: string)
    ensures Blank(ln) <==> Strip(ln) == ""
  {
    StripEmptyIff(ln);
  }

  /** The lines kept from `lines` when the line before them was blank
      (`prevBlank`) or not: a blank line right after a blank line goes. */
  function Collapse(lines: seq<string>, prevBlank: bool): (r: seq<string>)
    ensures |r| <= |lines|
  {
    if |lines| == 0 then []
    else if Blank(lines[0]) then
      if prevBlank then Collapse(lines[1..], true) else [lines[0]] + Collapse(lines[1..], true)
    else [lines[0]] + Collapse(lines[1..], false)
  }

  /** The loop over `fh.readlines()`. */
  method CollapseBlankLines(lines: seq<string>) returns (out: seq<string>)
    ensures out == Collapse(lines, false)
  {
    out := [];
    var prevBlank := false;
    var i := 0;
    while i < |lines|
      invariant 0 <= i <= |lines|
      invariant out + Collapse(lines[i..], prevBlank) == Collapse(lines, false)
    {
      var ln := lines[i];
      CollapseStep(lines, i, prevBlank);
      var rest := Collapse(lines[i + 1..], Blank(ln));
      if Blank(ln) {
        if !prevBlank {
          assert out + ([ln] + rest) == (out + [ln]) + rest;
          out := out + [ln];
          prevBlank := true;
        } else {
          prevBlank := true;
        }
      } else {
        assert out + ([ln] + rest) == (out + [ln]) + rest;
        out := out + [ln];
        prevBlank := false;
      }
      i := i + 1;
    }
  }

  /** One line of the collapse: it is kept unless it is a blank line after
      a blank line, and it decides what the next line follows. */
  lemma CollapseStep(lines: seq<string>, i: nat, prevBlank: bool)
    requires i < |lines|
    ensures Collapse(lines[i..], prevBlank)
            == (if Blank(lines[i]) && prevBlank then [] else [lines[i]])
               + Collapse(lines[i + 1..], Blank(lines[i]))
  {
    assert lines[i..][0] == lines[i];
    assert lines[i..][1..] == lines[i + 1..];
  }

  /** The lines that are not blank, in order. */
  function NonBlank(lines: seq<string>): seq<string> {
    if |lines| == 0 then []
    else (if Blank(lines[0]) then [] else [lines[0]]) + NonBlank(lines[1..])
  }

  /** No two blank lines in a row survive, and none right after a blank line
      before the start. */
  predicate NoDoubleBlank(r: seq<string>) {
    forall i :: 0 <= i < |r| - 1 ==> !(Blank(r[i]) && Blank(r[i + 1]))
  }

  lemma {:induction false} CollapseNoDoubleBlank(lines: seq<string>, prevBlank: bool)
    ensures NoDoubleBlank(Collapse(lines, prevBlank))
    ensures prevBlank && |Collapse(lines, prevBlank)| > 0 ==> !Blank(Collapse(lines, prevBlank)[0])
    decreases |lines|
  {
    if |lines| > 0 {
      var next := Blank(lines[0]);
      CollapseNoDoubleBlank(lines[1..], next);
      var rest := Collapse(lines[1..], next);
      if !(next && prevBlank) {
        var r := [lines[0]] + rest;
        assert Collapse(lines, prevBlank) == r;
        forall i | 0 <= i < |r| - 1 ensures !(Blank(r[i]) && Blank(r[i + 1])) {
          assert r[i + 1] == rest[i];
          if i > 0 {
            assert r[i] == rest[i - 1];
          }
        }
      }
    }
  }

  /** Every line that is not blank is kept, in order. */
  lemma {:induction false} CollapseKeepsText(lines: seq<string>, prevBlank: bool)
    ensures NonBlank(Collapse(lines, prevBlank)) == NonBlank(lines)
    decreases |lines|
  {
    if |lines| > 0 {
      var next := Blank(lines[0]);
      CollapseKeepsText(lines[1..], next);
      var rest := Collapse(lines[1..], next);
      if Blank(lines[0]) && prevBlank {
      } else {
        assert ([lines[0]] + rest)[1..] == rest;
      }
    }
  }
}

=== FILE: split_candidates.dfy ===
/**
  `detectar_versos_partidos.py`: pairs of consecutive speeches whose boundary
  verses look like the two halves of one split verse. Syllables are counted
  roughly, as the runs of vowels of the text.
 */
module SplitCandidates {
  import opened Text

  // ---------------------------------------------------------------------
  // contar_silabas_aprox
  // ---------------------------------------------------------------------

  /** The class `[aeiouáéíóúü]`. */
  predicate IsVowel(c: char) {
    c in "aeiouáéíóúü"
  }

  /** `re.sub(r'[^\w\s]', '', s)`: only word characters and whitespace stay. */
  function KeepWordsAndSpaces(s: string): (r: string)
    ensures |r| <= |s|
    ensures forall i :: 0 <= i < |r| ==> (IsWordChar(r[i]) || IsPySpace(r[i])) && r[i] in s
    ensures (forall i :: 0 <= i < |s| ==> IsWordChar(s[i]) || IsPySpace(s[i])) ==> r == s
  {
    if |s| == 0 then ""
    else
      var rest := KeepWordsAndSpaces(s[1..]);
      if IsWordChar(s[0]) || IsPySpace(s[0]) then
        assert (forall i :: 0 <= i < |s| ==> IsWordChar(s[i]) || IsPySpace(s[i])) ==> s == [s[0]] + s[1..];
        [s[0]] + rest
      else rest
  }

  /** The deletion works character by character, in order: a piece of text
      followed by another gives what each gives, one after the other, and a
      single character is kept exactly when it is a word character or
      whitespace. These equations fix the result on every text. */
  lemma KeepWordsAndSpacesSpec(a: string, b: string, c: char)
    ensures KeepWordsAndSpaces(a + b) == KeepWordsAndSpaces(a) + KeepWordsAndSpaces(b)
    ensures KeepWordsAndSpaces([c]) == if IsWordChar(c) || IsPySpace(c) then [c] else []
  {
    KeepAppend(a, b);
    assert [c][1..] == [];
  }

  lemma {:induction false} KeepAppend(a: string, b: string)
    ensures KeepWordsAndSpaces(a + b) == KeepWordsAndSpaces(a) + KeepWordsAndSpaces(b)
    decreases |a|
  {
    if |a| == 0 {
      assert a + b == b;
    } else {
      assert (a + b)[0] == a[0];
      assert (a + b)[1..] == a[1..] + b;
      KeepAppend(a[1..], b);
      var h := if IsWordChar(a[0]) || IsPySpace(a[0]) then [a[0]] else [];
      SeqAssoc(h, KeepWordsAndSpaces(a[1..]), KeepWordsAndSpaces(b));
    }
  }

  /** The length of the run of vowels that starts `s`. */
  function VowelPrefix(s: string): (n: nat)
    ensures n <= |s| && (n < |s| ==> !IsVowel(s[n]))
    ensures forall i :: 0 <= i < n ==> IsVowel(s[i])
  {
    if |s| == 0 || !IsVowel(s[0]) then 0 else 1 + VowelPrefix(s[1..])
  }

  /** `re.findall(r'[aeiouáéíóúü]+', s)`: the maximal vowel runs, left to right. */
  function FindRuns(s: string): (r: seq<string>)
    ensures forall k :: 0 <= k < |r| ==> |r[k]| > 0 && forall i :: 0 <= i < |r[k]| ==> IsVowel(r[k][i])
    decreases |s|
  {
    if |s| == 0 then []
    else if !IsVowel(s[0]) then FindRuns(s[1..])
    else
      var n := VowelPrefix(s);
      [s[..n]] + FindRuns(s[n..])
  }

  /** `contar_silabas_aprox`: the number of vowel runs of the lower-cased
      text once punctuation is deleted. */
  function Syllables(t: string): nat {
    |FindRuns(KeepWordsAndSpaces(Lower(t)))|
  }

  /** A vowel run begins at `i`: a vowel at the start or after a non-vowel. */
  predicate IsRunStart(s: string, i: int) {
    0 <= i < |s| && IsVowel(s[i]) && (i == 0 || !IsVowel(s[i - 1]))
  }

  /** The number of run starts among positions `lo` to `hi - 1`. */
  function StartsIn(s: string, lo: nat, hi: nat): nat
    requires lo <= hi <= |s|
    decreases hi - lo
  {
    if lo == hi then 0 else StartsIn(s, lo, hi - 1) + (if IsRunStart(s, hi - 1) then 1 else 0)
  }

  lemma {:induction false} StartsSplit(s: string, lo: nat, mid: nat, hi: nat)
    requires lo <= mid <= hi <= |s|
    ensures StartsIn(s, lo, hi) == StartsIn(s, lo, mid) + StartsIn(s, mid, hi)
    decreases hi - mid
  {
    if mid < hi {
      StartsSplit(s, lo, mid, hi - 1);
    }
  }

  /** Counting on a suffix from `m` on: run starts past `m` are the same, and
      so is `m` itself unless a vowel run crosses it. */
  lemma {:induction false} StartsShift(s: string, m: nat, lo: nat, hi: nat)
    requires m <= lo <= hi <= |s|
    requires lo > m || m == 0 || !IsVowel(s[m - 1]) || m == |s| || !IsVowel(s[m])
    ensures StartsIn(s, lo, hi) == StartsIn(s[m..], lo - m, hi - m)
    decreases hi - lo
  {
    if lo < hi {
      StartsShift(s, m, lo, hi - 1);
      var j := hi - 1;
      assert s[m..][j - m] == s[j];
      if j > m {
        assert s[m..][j - m - 1] == s[j - 1];
      }
    }
  }

  /** Inside the run of vowels that starts `s`, only position 0 starts a run. */
  lemma {:induction false} StartsInRun(s: string, k: nat)
    requires 1 <= k <= VowelPrefix(s)
    ensures StartsIn(s, 0, k) == 1
  {
    if k > 1 {
      StartsInRun(s, k - 1);
    }
  }

  /** The runs `re.findall` returns are exactly the positions where a vowel
      follows a non-vowel or starts the text. */
  lemma {:induction false} FindRunsCountsStarts(s: string)
    ensures |FindRuns(s)| == StartsIn(s, 0, |s|)
    decreases |s|
  {
    if |s| > 0 {
      if !IsVowel(s[0]) {
        FindRunsCountsStarts(s[1..]);
        StartsSplit(s, 0, 1, |s|);
        StartsShift(s, 1, 1, |s|);
      } else {
        var n := VowelPrefix(s);
        FindRunsCountsStarts(s[n..]);
        StartsSplit(s, 0, n, |s|);
        StartsInRun(s, n);
        StartsShift(s, n, n, |s|);
      }
    }
  }

  /** The syllable count is the number of run starts in the cleaned text. */
  lemma SyllablesCountStarts(t: string)
    ensures var c := KeepWordsAndSpaces(Lower(t));
      Syllables(t) == StartsIn(c, 0, |c|)
  {
    FindRunsCountsStarts(KeepWordsAndSpaces(Lower(t)));
  }

  /** No vowel, no syllable; a vowel gives at least one. */
  lemma {:induction false} FindRunsEmptyIff(s: string)
    ensures |FindRuns(s)| == 0 <==> forall i :: 0 <= i < |s| ==> !IsVowel(s[i])
    decreases |s|
  {
    if |s| > 0 {
      FindRunsEmptyIff(s[1..]);
      assert forall i :: 1 <= i < |s| ==> s[i] == s[1..][i - 1];
    }
  }

  /** `es_verso_corto`. */
  predicate IsShort(t: string, threshold: int) {
    Syllables(t) <= threshold
  }

  // ---------------------------------------------------------------------
  // The pairs of consecutive speeches
  // ---------------------------------------------------------------------

  /** A verse `<l>`: its `part` attribute and its direct `.text`. */
  datatype Verse = Verse(part: Option<string>, text: Option<string>)

  /** A speech `<sp>`: the `.text` of its `<speaker>` (`Some("")` when the
      element has no text, `None` when there is no element) and its verses. */
  datatype Speech = Speech(speaker: Option<string>, verses: seq<Verse>)

  datatype Candidate = Candidate(
    speaker1: string, verse1: string, syllables1: nat,
    speaker2: string, verse2: string, syllables2: nat,
    sum: nat, count1: nat, count2: nat)

  /** `(l.text or "").strip()`. */
  function VerseText(v: Verse): string {
    Strip(if v.text.Some? then v.text.value else "")
  }

  /** Both speeches have a speaker and verses, and neither boundary verse is
      marked `part` yet. */
  predicate Considered(a: Speech, b: Speech) {
    && a.speaker.Some? && b.speaker.Some?
    && |a.verses| > 0 && |b.verses| > 0
    && !Present(a.verses[|a.verses| - 1].part) && !Present(b.verses[0].part)
  }

  /** The rule: both boundary verses short (at most 7), different speakers,
      and 7 to 12 syllables together. */
  predicate Looks(a: Speech, b: Speech)
    requires Considered(a, b)
  {
    var t1, t2 := VerseText(a.verses[|a.verses| - 1]), VerseText(b.verses[0]);
    IsShort(t1, 7) && IsShort(t2, 7) && a.speaker.value != b.speaker.value
    && 7 <= Syllables(t1) + Syllables(t2) <= 12
  }

  /** The candidate one pair gives, if any. */
  function PairCandidate(a: Speech, b: Speech): Option<Candidate> {
    if !Considered(a, b) then None
    else
      var t1, t2 := VerseText(a.verses[|a.verses| - 1]), VerseText(b.verses[0]);
      var s1, s2 := Syllables(t1), Syllables(t2);
      if IsShort(t1, 7) && IsShort(t2, 7) && a.speaker.value != b.speaker.value && 7 <= s1 + s2 <= 12 then
        Some(Candidate(a.speaker.value, t1, s1, b.speaker.value, t2, s2, s1 + s2,
                       |a.verses|, |b.verses|))
      else None
  }

  /** A candidate comes out exactly when the rule accepts the pair, and it
      holds two different speakers, two short pieces and their syllable
      counts, which add up to 7 to 12. */
  lemma PairCandidateSpec(a: Speech, b: Speech)
    ensures PairCandidate(a, b).Some? <==> Considered(a, b) && Looks(a, b)
    ensures var r := PairCandidate(a, b); r.Some? ==>
      && r.value.speaker1 != r.value.speaker2
      && r.value.syllables1 <= 7 && r.value.syllables2 <= 7
      && 7 <= r.value.sum <= 12 && r.value.sum == r.value.syllables1 + r.value.syllables2
      && r.value.count1 > 0 && r.value.count2 > 0
  {
  }

  /** The pair of speeches `i` and `i + 1`. */
  function PairAt(sps: seq<Speech>, i: nat): Option<Candidate>
    requires i + 1 < |sps|
  {
    PairCandidate(sps[i], sps[i + 1])
  }

  /** `candidatos`: the loop over `range(len(sps) - 1)`. */
  function Candidates(sps: seq<Speech>): (r: seq<Candidate>)
    ensures |r| <= (if |sps| == 0 then 0 else |sps| - 1)
  {
    var n := if |sps| == 0 then 0 else |sps| - 1;
    Somes(seq(n, i requires 0 <= i < n => PairAt(sps, i)))
  }

  /** A candidate is reported exactly for the consecutive pairs the rule
      accepts. */
  lemma CandidatesSpec(sps: seq<Speech>)
    ensures forall i :: 0 <= i && i + 1 < |sps| && PairAt(sps, i).Some? ==> PairAt(sps, i).value in Candidates(sps)
    ensures forall c :: c in Candidates(sps) ==> exists i :: 0 <= i && i + 1 < |sps| && PairAt(sps, i) == Some(c)
  {
    var n := if |sps| == 0 then 0 else |sps| - 1;
    var os := seq(n, i requires 0 <= i < n => PairAt(sps, i));
    forall i | 0 <= i && i + 1 < |sps| && PairAt(sps, i).Some? ensures PairAt(sps, i).value in Candidates(sps)
    {
      SomesComplete(os, i);
    }
    forall c | c in Candidates(sps) ensures exists i :: 0 <= i && i + 1 < |sps| && PairAt(sps, i) == Some(c) {
      SomesSound(os, c);
    }
  }
}

=== FILE: split_verse_ids.dfy ===
/**
  `corregir_ids_versos_partidos.py`: the final piece (`part="F"`) of a split
  verse whose `xml:id` still ends in `-a` gets `-b` instead. The verses are
  the `<l>` elements in document order.
 */
module SplitVerseIds {
  import opened Text
  import opened Tei

  /** The condition of the loop: part `F` and a non-empty id ending in `-a`. */
  predicate NeedsFix(v: Verse) {
    v.part == Some("F") && Present(v.id) && EndsWith(v.id.value, "-a")
  }

  /** `re.sub(r'-a$', '-b', id)` on an id that ends in `-a`: such an id does
      not end in a newline, so `$` only matches at its very end and the one
      match is the final `-a`. */
  function FixId(id: string): (r: string)
    requires EndsWith(id, "-a")
    ensures |r| == |id| && EndsWith(r, "-b")
    ensures forall k :: 0 <= k < |id| - 1 ==> r[k] == id[k]
  {
    id[..|id| - 1] + "b"
  }

  /** One verse after the loop body. */
  function Fix(v: Verse): (r: Verse)
    ensures !NeedsFix(r)
    ensures r.n == v.n && r.part == v.part
    ensures r != v <==> NeedsFix(v)
    ensures NeedsFix(v) ==> r.id == Some(FixId(v.id.value))
  {
    if NeedsFix(v) then v.(id := Some(FixId(v.id.value))) else v
  }

  /** Every verse after the loop. */
  function FixAll(vs: seq<Verse>): (r: seq<Verse>)
    ensures |r| == |vs| && forall i :: 0 <= i < |vs| ==> r[i] == Fix(vs[i])
  {
    seq(|vs|, i requires 0 <= i < |vs| => Fix(vs[i]))
  }

  /** The verses that need the correction. */
  function CountFixes(vs: seq<Verse>): (c: nat)
    ensures c <= |vs|
  {
    if |vs| == 0 then 0 else CountFixes(vs[..|vs| - 1]) + (if NeedsFix(vs[|vs| - 1]) then 1 else 0)
  }

  /** The script's loop: the verses it leaves and the `correcciones` it reports. */
  method FixIds(vs: seq<Verse>) returns (r: seq<Verse>, corrections: nat)
    ensures r == FixAll(vs)
    ensures corrections == CountFixes(vs)
  {
    r := [];
    corrections := 0;
    var i := 0;
    while i < |vs|
      invariant 0 <= i <= |vs|
      invariant r == FixAll(vs[..i])
      invariant corrections == CountFixes(vs[..i])
    {
      var v := vs[i];
      if v.part == Some("F") && v.id.Some? && |v.id.value| > 0 && EndsWith(v.id.value, "-a") {
        var newId := v.id.value[..|v.id.value| - 1] + "b";
        v := v.(id := Some(newId));
        corrections := corrections + 1;
      }
      r := r + [v];
      assert vs[..i + 1][..i] == vs[..i];
      i := i + 1;
    }
    assert vs[..i] == vs;
  }

  /** The count is the number of verses the loop changes: those that need
      the correction (`Fix` changes exactly those). */
  lemma {:induction false} CountFixesCountsChanges(vs: seq<Verse>)
    ensures CountFixes(vs) == |set i | 0 <= i < |vs| && NeedsFix(vs[i])|
  {
    if |vs| > 0 {
      var init := vs[..|vs| - 1];
      var last := |vs| - 1;
      CountFixesCountsChanges(init);
      var a := set i | 0 <= i < |init| && NeedsFix(init[i]);
      var b := set i | 0 <= i < |vs| && NeedsFix(vs[i]);
      assert a == set i | 0 <= i < last && NeedsFix(vs[i]);
      if NeedsFix(vs[last]) {
        assert b == a + {last};
        assert last !in a;
      } else {
        assert b == a;
      }
    }
  }

  /** After one run no verse needs the correction, so a second run changes
      nothing and reports zero. */
  lemma {:induction false} SecondRunChangesNothing(vs: seq<Verse>)
    ensures CountFixes(FixAll(vs)) == 0
    ensures FixAll(FixAll(vs)) == FixAll(vs)
  {
    NoneLeft(FixAll(vs));
  }

  lemma {:induction false} NoneLeft(vs: seq<Verse>)
    requires forall i :: 0 <= i < |vs| ==> !NeedsFix(vs[i])
    ensures CountFixes(vs) == 0
  {
    if |vs| > 0 {
      NoneLeft(vs[..|vs| - 1]);
    }
  }
}

=== FILE: tei.dfy ===
/**
  The TEI records the verse scripts read and write. A verse `<l>` carries
  three optional attributes: its number `n`, its `part` (`I`, `M`, `F` for
  the pieces of a verse split between speakers) and its `xml:id`. A missing
  attribute is `None`; an attribute written with an empty value is `Some("")`.
 */
module Tei {
  import opened Text

  /** The TEI namespace the edition's file declares as its default. */
  const TeiNs := "http://www.tei-c.org/ns/1.0"

  datatype Verse = Verse(n: Option<string>, part: Option<string>, id: Option<string>)
}

=== FILE: text.dfy ===
/**
  Character classes and string operations shared by the scripts and the
  browser code: Python's `str.split()`, `str.strip()`, `' '.join(...)`,
  `str.replace`, `str.find`, `str(int)`, JavaScript's `split(/\s+/)` and
  `split(' ')`. Every operation here is the one the source calls, written
  over `seq<char>`.
 */
module Text {

  // ---------------------------------------------------------------------
  // Character classes
  // ---------------------------------------------------------------------

  /** The characters Python's `str.isspace()` and the `re` class `\s` accept. */
  predicate IsPySpace(c: char) {
    c == ' ' || ('\t' <= c <= '\r') || ('\U{1c}' <= c <= '\U{1f}')
    || c == '\U{85}' || c == '\U{a0}' || c == '\U{1680}'
    || ('\U{2000}' <= c <= '\U{200a}') || c == '\U{2028}' || c == '\U{2029}'
    || c == '\U{202f}' || c == '\U{205f}' || c == '\U{3000}'
  }

  /** The characters the JavaScript regular-expression class `\s` accepts. */
  predicate IsJsSpace(c: char) {
    c == ' ' || ('\t' <= c <= '\r') || c == '\U{a0}' || c == '\U{1680}'
    || ('\U{2000}' <= c <= '\U{200a}') || c == '\U{2028}' || c == '\U{2029}'
    || c == '\U{202f}' || c == '\U{205f}' || c == '\U{3000}' || c == '\U{feff}'
  }

  predicate IsDigit(c: char) { '0' <= c <= '9' }

  predicate IsUpperLatin(c: char) {
    ('A' <= c <= 'Z') || ('\U{c0}' <= c <= '\U{de}' && c != '\U{d7}')
  }

  /** Lower-casing of ASCII and Latin-1 capitals (Á, É, Ñ, Ü, ...); it keeps the length. */
  function LowerChar(c: char): (r: char)
    ensures !IsUpperLatin(r)
    ensures !IsUpperLatin(c) ==> r == c
  {
    if IsUpperLatin(c) then (c as int + 32) as char else c
  }

  function Lower(s: string): (r: string)
    ensures |r| == |s|
    ensures forall i :: 0 <= i < |s| ==> r[i] == LowerChar(s[i])
  {
    seq(|s|, i requires 0 <= i < |s| => LowerChar(s[i]))
  }

  /** Word characters of `\w`: ASCII and Latin-1 letters, digits and `_`. */
  predicate IsWordChar(c: char) {
    ('a' <= c <= 'z') || ('A' <= c <= 'Z') || IsDigit(c) || c == '_'
    || c == '\U{aa}' || c == '\U{b5}' || c == '\U{ba}'
    || ('\U{c0}' <= c <= '\U{ff}' && c != '\U{d7}' && c != '\U{f7}')
  }

  predicate AllDigits(s: string) {
    forall i :: 0 <= i < |s| ==> IsDigit(s[i])
  }

  // ---------------------------------------------------------------------
  // Prefixes, suffixes and searching
  // ---------------------------------------------------------------------

  /** Concatenation is associative; stated once so that proofs can use it
      on sequences whose contents the solver should not look into. */
  lemma SeqAssoc<T>(a: seq<T>, b: seq<T>, c: seq<T>)
    ensures a + (b + c) == (a + b) + c
  {
  }

  predicate StartsWith(s: string, p: string) {
    |p| <= |s| && s[..|p|] == p
  }

  predicate EndsWith(s: string, p: string) {
    |p| <= |s| && s[|s| - |p|..] == p
  }

  /** `p` occurs in `s` at position `i`. */
  predicate OccursAt(s: string, p: string, i: int) {
    0 <= i && i + |p| <= |s| && s[i..i + |p|] == p
  }

  /** Python's `s.find(p)` / JavaScript's `s.indexOf(p)`: the leftmost occurrence. */
  function IndexOf(s: string, p: string): (r: Option<nat>)
    ensures r.Some? ==> OccursAt(s, p, r.value)
    ensures r.Some? ==> forall j :: 0 <= j < r.value ==> !OccursAt(s, p, j)
    ensures r.None? ==> forall j :: !OccursAt(s, p, j)
    decreases |s|
  {
    if |p| > |s| then None
    else if s[..|p|] == p then Some(0)
    else
      var r := IndexOf(s[1..], p);
      ShiftOccurrence(s, p);
      assert !OccursAt(s, p, 0);
      if r.Some? then Some(r.value + 1) else None
  }

  lemma ShiftOccurrence(s: string, p: string)
    requires |s| > 0
    ensures forall j :: 1 <= j ==> (OccursAt(s, p, j) <==> OccursAt(s[1..], p, j - 1))
  {
    forall j | 1 <= j ensures OccursAt(s, p, j) <==> OccursAt(s[1..], p, j - 1) {
      if j + |p| <= |s| {
        assert s[1..][j - 1..j - 1 + |p|] == s[j..j + |p|];
      }
    }
  }

  /** Python's `p in s` and JavaScript's `s.includes(p)`. */
  predicate Contains(s: string, p: string) {
    IndexOf(s, p).Some?
  }

  lemma ContainsIff(s: string, p: string)
    ensures Contains(s, p) <==> exists j :: OccursAt(s, p, j)
  {
    var r := IndexOf(s, p);
    if r.Some? { assert OccursAt(s, p, r.value); }
  }

  /** A substring of `s` is a substring of any string that has `s` inside it. */
  lemma ContainsInside(a: string, s: string, b: string, p: string)
    requires Contains(s, p)
    ensures Contains(a + s + b, p)
  {
    var i := IndexOf(s, p).value;
    assert (a + s + b)[|a| + i..|a| + i + |p|] == s[i..i + |p|];
    assert OccursAt(a + s + b, p, |a| + i);
    ContainsIff(a + s + b, p);
  }

  // ---------------------------------------------------------------------
  // Python's str.split(), str.strip() and ' '.join(...)
  // ---------------------------------------------------------------------

  predicate NoSpace(w: string) {
    forall i :: 0 <= i < |w| ==> !IsPySpace(w[i])
  }

  /** A word of `str.split()`: non-empty and free of whitespace. */
  predicate IsWord(w: string) {
    |w| > 0 && NoSpace(w)
  }

  /** Removes the leading whitespace. */
  function DropSpaces(s: string): (r: string)
    ensures |r| <= |s| && r == s[|s| - |r|..]
    ensures |r| > 0 ==> !IsPySpace(r[0])
    ensures forall i :: 0 <= i < |s| - |r| ==> IsPySpace(s[i])
  {
    if |s| > 0 && IsPySpace(s[0]) then DropSpaces(s[1..]) else s
  }

  /** The longest prefix free of whitespace. */
  function WordPrefix(s: string): (w: string)
    ensures |w| <= |s| && w == s[..|w|] && NoSpace(w)
    ensures |w| < |s| ==> IsPySpace(s[|w|])
  {
    if |s| > 0 && !IsPySpace(s[0]) then [s[0]] + WordPrefix(s[1..]) else []
  }

  /** Python's `s.split()` with no argument. */
  function Words(s: string): (ws: seq<string>)
    ensures forall k :: 0 <= k < |ws| ==> IsWord(ws[k])
    decreases |s|
  {
    var t := DropSpaces(s);
    if |t| == 0 then []
    else
      var w := WordPrefix(t);
      [w] + Words(t[|w|..])
  }

  /** The first word is the non-space run after the leading whitespace. */
  lemma WordsStep(s: string)
    requires |DropSpaces(s)| > 0
    ensures Words(s) == [WordPrefix(DropSpaces(s))] + Words(DropSpaces(s)[|WordPrefix(DropSpaces(s))|..])
  {
  }

  /** `sep.join(ws)`. */
  function Join(ws: seq<string>, sep: string): string {
    if |ws| == 0 then ""
    else if |ws| == 1 then ws[0]
    else ws[0] + sep + Join(ws[1..], sep)
  }

  /** `' '.join(s.split())`: whitespace runs become single spaces, ends trimmed. */
  function Squash(s: string): string {
    Join(Words(s), " ")
  }

  /** A squashed string: no whitespace but single inner spaces. */
  predicate Squashed(r: string) {
    && (|r| > 0 ==> r[0] != ' ' && r[|r| - 1] != ' ')
    && (forall i :: 0 <= i < |r| && IsPySpace(r[i]) ==> r[i] == ' ')
    && (forall i :: 0 <= i < |r| - 1 && r[i] == ' ' ==> r[i + 1] != ' ')
  }

  lemma {:induction false} JoinWordsSquashed(ws: seq<string>)
    requires forall k :: 0 <= k < |ws| ==> IsWord(ws[k])
    ensures Squashed(Join(ws, " "))
    ensures |ws| > 0 ==> |Join(ws, " ")| > 0 && !IsPySpace(Join(ws, " ")[0])
    decreases |ws|
  {
    if |ws| > 1 {
      var rest := Join(ws[1..], " ");
      JoinWordsSquashed(ws[1..]);
      var w := ws[0];
      var r := w + " " + rest;
      assert Join(ws, " ") == r;
      assert forall i :: 0 <= i < |w| ==> r[i] == w[i];
      assert r[|w|] == ' ' && r[|w| + 1] == rest[0];
      assert forall i :: |w| < i < |r| ==> r[i] == rest[i - |w| - 1];
      assert r[0] == w[0];
      assert r[|r| - 1] == rest[|rest| - 1];
    } else if |ws| == 1 {
      assert Join(ws, " ") == ws[0];
    }
  }

  /** The result of `' '.join(s.split())` is squashed. */
  lemma SquashIsSquashed(s: string)
    ensures Squashed(Squash(s))
  {
    JoinWordsSquashed(Words(s));
  }

  lemma WordPrefixOfWord(w: string, t: string)
    requires IsWord(w) && (|t| == 0 || IsPySpace(t[0]))
    ensures WordPrefix(w + t) == w
    decreases |w|
  {
    if |w| > 1 {
      assert (w + t)[1..] == w[1..] + t;
      WordPrefixOfWord(w[1..], t);
    } else {
      assert (w + t)[1..] == t;
    }
  }

  /** Splitting a joined list of words gives the words back. */
  lemma {:induction false} WordsOfJoin(ws: seq<string>)
    requires forall k :: 0 <= k < |ws| ==> IsWord(ws[k])
    ensures Words(Join(ws, " ")) == ws
    decreases |ws|
  {
    if |ws| == 1 {
      WordsAfterWord(ws[0], "");
      assert ws[0] + "" == ws[0];
    } else if |ws| > 1 {
      WordsOfJoin(ws[1..]);
      WordsOfJoinStep(ws);
    }
  }

  /** One more word in front of a joined list that splits back. */
  lemma WordsOfJoinStep(ws: seq<string>)
    requires |ws| > 1 && IsWord(ws[0])
    requires Words(Join(ws[1..], " ")) == ws[1..]
    ensures Words(Join(ws, " ")) == ws
  {
    var rest := Join(ws[1..], " ");
    assert Join(ws, " ") == ws[0] + " " + rest;
    WordsAfterSpace(ws[0], rest);
    assert ws == [ws[0]] + ws[1..];
  }

  /** A word, one space, then more text: the word is the first of the
      words. */
  lemma WordsAfterSpace(w: string, rest: string)
    requires IsWord(w)
    ensures Words(w + " " + rest) == [w] + Words(rest)
  {
    assert w + " " + rest == w + (" " + rest);
    WordsAfterWord(w, " " + rest);
    WordsSkipSpace(" " + rest);
    assert (" " + rest)[1..] == rest;
  }

  lemma WordsAfterWord(w: string, t: string)
    requires IsWord(w) && (|t| == 0 || IsPySpace(t[0]))
    ensures Words(w + t) == [w] + Words(t)
  {
    WordPrefixOfWord(w, t);
    assert (w + t)[0] == w[0];
    assert DropSpaces(w + t) == w + t;
    assert (w + t)[|w|..] == t;
  }

  lemma WordsSkipSpace(s: string)
    requires |s| > 0 && IsPySpace(s[0])
    ensures Words(s) == Words(s[1..])
  {
    assert DropSpaces(s) == DropSpaces(s[1..]);
  }

  /** Squashing is idempotent. */
  lemma SquashIdempotent(s: string)
    ensures Squash(Squash(s)) == Squash(s)
  {
    WordsOfJoin(Words(s));
  }

  /** Python's `s.strip()`. */
  function Strip(s: string): (r: string)
    ensures |r| <= |s|
    ensures |r| > 0 ==> !IsPySpace(r[0]) && !IsPySpace(r[|r| - 1])
  {
    DropTrailingSpaces(DropSpaces(s))
  }

  function DropTrailingSpaces(s: string): (r: string)
    ensures |r| <= |s|
    ensures |r| > 0 ==> !IsPySpace(r[|r| - 1])
    ensures |s| > 0 && !IsPySpace(s[0]) ==> |r| > 0 && r[0] == s[0]
    ensures forall i :: |r| <= i < |s| ==> IsPySpace(s[i])
  {
    if |s| > 0 && IsPySpace(s[|s| - 1]) then DropTrailingSpaces(s[..|s| - 1]) else s
  }

  /** A string is blank for Python (`s.strip() == ''`) exactly when it is all whitespace. */
  lemma StripEmptyIff(s: string)
    ensures Strip(s) == "" <==> forall i :: 0 <= i < |s| ==> IsPySpace(s[i])
  {
    var t := DropSpaces(s);
    assert |t| > 0 ==> |Strip(s)| > 0;
    assert |t| == 0 <==> forall i :: 0 <= i < |s| ==> IsPySpace(s[i]) by {
      if |t| > 0 { assert t[0] == s[|s| - |t|]; }
    }
  }

  // ---------------------------------------------------------------------
  // Splitting on one character: Python's s.split(c), JavaScript's s.split(c)
  // ---------------------------------------------------------------------

  /** `s.split(c)`: the pieces between occurrences of `c`, empty pieces kept. */
  function SplitOn(s: string, c: char): (r: seq<string>)
    ensures |r| > 0
    decreases |s|
  {
    if c !in s then [s]
    else
      var i := FirstIndexOf(s, c);
      [s[..i]] + SplitOn(s[i + 1..], c)
  }

  /** No piece holds the separator. */
  lemma {:induction false} SplitOnPiecesFree(s: string, c: char)
    ensures forall k :: 0 <= k < |SplitOn(s, c)| ==> c !in SplitOn(s, c)[k]
    decreases |s|
  {
    if c in s {
      var i := FirstIndexOf(s, c);
      SplitOnPiecesFree(s[i + 1..], c);
      assert SplitOn(s, c) == [s[..i]] + SplitOn(s[i + 1..], c);
    }
  }

  function FirstIndexOf(s: string, c: char): (i: nat)
    requires c in s
    ensures i < |s| && s[i] == c && c !in s[..i]
  {
    if s[0] == c then 0 else 1 + FirstIndexOf(s[1..], c)
  }

  /** The first `c` of `v + [c] + rest` is the one after `v` when `v` has none. */
  lemma {:induction false} FirstIndexOfAfter(v: string, c: char, rest: string)
    requires c !in v
    ensures c in v + [c] + rest && FirstIndexOf(v + [c] + rest, c) == |v|
    decreases |v|
  {
    var s := v + [c] + rest;
    assert s[|v|] == c;
    if |v| > 0 {
      assert s[0] == v[0];
      assert s[1..] == v[1..] + [c] + rest;
      FirstIndexOfAfter(v[1..], c, rest);
    }
  }

  /** Joining the pieces with the separator gives the string back. */
  lemma {:induction false} JoinSplitOn(s: string, c: char)
    ensures Join(SplitOn(s, c), [c]) == s
    decreases |s|
  {
    if c in s {
      var i := FirstIndexOf(s, c);
      JoinSplitOn(s[i + 1..], c);
      var rest := SplitOn(s[i + 1..], c);
      assert SplitOn(s, c) == [s[..i]] + rest;
      assert s == s[..i] + [c] + s[i + 1..];
    }
  }

  /** Splitting pieces joined by a separator they do not hold gives them back. */
  lemma {:induction false} SplitOnJoin(ws: seq<string>, c: char)
    requires |ws| > 0 && forall k :: 0 <= k < |ws| ==> c !in ws[k]
    ensures SplitOn(Join(ws, [c]), c) == ws
    decreases |ws|
  {
    if |ws| > 1 {
      SplitOnJoin(ws[1..], c);
      SplitOnStep(ws[0], c, Join(ws[1..], [c]));
      assert ws == [ws[0]] + ws[1..];
    }
  }

  /** A piece without the separator, the separator, and the rest. */
  lemma SplitOnStep(w: string, c: char, rest: string)
    requires c !in w
    ensures SplitOn(w + [c] + rest, c) == [w] + SplitOn(rest, c)
  {
    var s := w + [c] + rest;
    FirstIndexOfAfter(w, c, rest);
    assert s[..|w|] == w;
    assert s[|w| + 1..] == rest;
  }

  /** JavaScript's `s.split(/\s+/)`: pieces between whitespace runs, empty end pieces kept. */
  function JsSplitWs(s: string): (r: seq<string>)
    ensures |r| > 0
    decreases |s|
  {
    if forall i :: 0 <= i < |s| ==> !IsJsSpace(s[i]) then [s]
    else
      var i := FirstJsSpace(s);
      var j := EndOfJsSpaces(s, i);
      [s[..i]] + JsSplitWs(s[j..])
  }

  function FirstJsSpace(s: string): (i: nat)
    requires exists k :: 0 <= k < |s| && IsJsSpace(s[k])
    ensures i < |s| && IsJsSpace(s[i])
    ensures forall k :: 0 <= k < i ==> !IsJsSpace(s[k])
  {
    if IsJsSpace(s[0]) then 0
    else
      assert exists k :: 0 <= k < |s[1..]| && IsJsSpace(s[1..][k]) by {
        var k :| 0 <= k < |s| && IsJsSpace(s[k]);
        assert s[1..][k - 1] == s[k];
      }
      1 + FirstJsSpace(s[1..])
  }

  function EndOfJsSpaces(s: string, i: nat): (j: nat)
    requires i < |s| && IsJsSpace(s[i])
    ensures i < j <= |s|
    ensures j == |s| || !IsJsSpace(s[j])
    decreases |s| - i
  {
    if i + 1 < |s| && IsJsSpace(s[i + 1]) then EndOfJsSpaces(s, i + 1) else i + 1
  }

  /** A word for `split(/\s+/)`: non-empty and free of JavaScript whitespace. */
  predicate IsJsWord(w: string) {
    |w| > 0 && forall i :: 0 <= i < |w| ==> !IsJsSpace(w[i])
  }

  /** Splitting words joined by single spaces gives them back. */
  lemma {:induction false} JsSplitWsJoin(ws: seq<string>)
    requires |ws| > 0 && forall k :: 0 <= k < |ws| ==> IsJsWord(ws[k])
    ensures JsSplitWs(Join(ws, " ")) == ws
    decreases |ws|
  {
    if |ws| == 1 {
      assert JsSplitWs(ws[0]) == [ws[0]];
    } else {
      JsSplitWsJoin(ws[1..]);
      JsSplitWsStep(ws[0], Join(ws[1..], " "));
      assert Join(ws, " ") == ws[0] + " " + Join(ws[1..], " ");
      assert ws == [ws[0]] + ws[1..];
    }
  }

  /** A word, one space and text starting with a non-space split after the
      word. */
  lemma JsSplitWsStep(w: string, rest: string)
    requires IsJsWord(w) && |rest| > 0 && !IsJsSpace(rest[0])
    ensures JsSplitWs(w + " " + rest) == [w] + JsSplitWs(rest)
  {
    var s := w + " " + rest;
    var n := |w|;
    assert s[n] == ' ';
    forall k | 0 <= k < n ensures !IsJsSpace(s[k]) { assert s[k] == w[k]; }
    var i := FirstJsSpace(s);
    assert i == n;
    assert s[n + 1] == rest[0];
    assert EndOfJsSpaces(s, n) == n + 1;
    assert s[..n] == w && s[n + 1..] == rest;
  }

  /** JavaScript's `s.replace(c, '')` with a one-character string: drops the first `c`. */
  function RemoveFirst(s: string, c: char): (r: string)
    ensures c !in s ==> r == s
    ensures c in s ==> |r| == |s| - 1
  {
    if c in s then var i := FirstIndexOf(s, c); s[..i] + s[i + 1..] else s
  }

  /** The `#` in front of a reference is the one dropped. */
  lemma RemoveHash(id: string)
    requires '#' !in id
    ensures RemoveFirst("#" + id, '#') == id
  {
    var s := "#" + id;
    assert s[0] == '#';
    assert FirstIndexOf(s, '#') == 0;
    assert s[1..] == id;
  }

  // ---------------------------------------------------------------------
  // Python's str.replace(old, new)
  // ---------------------------------------------------------------------

  /** `s.replace(pat, rep)`: leftmost, non-overlapping occurrences. */
  function ReplaceAll(s: string, pat: string, rep: string): string
    requires |pat| > 0
    decreases |s|
  {
    if |s| == 0 then ""
    else if StartsWith(s, pat) then rep + ReplaceAll(s[|pat|..], pat, rep)
    else [s[0]] + ReplaceAll(s[1..], pat, rep)
  }

  /** Text without an occurrence of the pattern is left as it is. */
  lemma {:induction false} ReplaceAllAbsent(s: string, pat: string, rep: string)
    requires |pat| > 0 && !Contains(s, pat)
    ensures ReplaceAll(s, pat, rep) == s
    decreases |s|
  {
    if |s| > 0 {
      ContainsIff(s, pat);
      assert !OccursAt(s, pat, 0);
      ShiftOccurrence(s, pat);
      ContainsIff(s[1..], pat);
      ReplaceAllAbsent(s[1..], pat, rep);
    }
  }

  /** The replacement agrees with the find-and-replace loop: the text before the
      first occurrence is kept, that occurrence is replaced, the rest is handled
      the same way. */
  lemma {:induction false} ReplaceAllAtFirst(s: string, pat: string, rep: string)
    requires |pat| > 0 && Contains(s, pat)
    ensures var i := IndexOf(s, pat).value;
      ReplaceAll(s, pat, rep) == s[..i] + rep + ReplaceAll(s[i + |pat|..], pat, rep)
    decreases |s|
  {
    var i := IndexOf(s, pat).value;
    if i > 0 {
      IndexOfTail(s, pat);
      ReplaceAllAtFirst(s[1..], pat, rep);
      ReplaceAllCons(s, pat, rep);
      assert s[1..][i - 1 + |pat|..] == s[i + |pat|..];
      PrefixCons(s, i, rep, ReplaceAll(s[i + |pat|..], pat, rep));
    }
  }

  /** When the pattern is not at the front, it is found one further in the tail. */
  lemma IndexOfTail(s: string, pat: string)
    requires |pat| > 0 && Contains(s, pat) && IndexOf(s, pat).value > 0
    ensures !StartsWith(s, pat) && IndexOf(s[1..], pat) == Some(IndexOf(s, pat).value - 1)
  {
    assert !OccursAt(s, pat, 0);
  }

  /** Where the pattern does not start, the first character is kept. */
  lemma ReplaceAllCons(s: string, pat: string, rep: string)
    requires |pat| > 0 && |s| > 0 && !StartsWith(s, pat)
    ensures ReplaceAll(s, pat, rep) == [s[0]] + ReplaceAll(s[1..], pat, rep)
  {
  }

  lemma PrefixCons(s: string, i: nat, rep: string, rest: string)
    requires 0 < i <= |s|
    ensures [s[0]] + (s[1..][..i - 1] + rep + rest) == s[..i] + rep + rest
  {
    assert [s[0]] + s[1..][..i - 1] == s[..i];
  }

  // ---------------------------------------------------------------------
  // Decimal numbers: Python's str(n) and int(s)
  // ---------------------------------------------------------------------

  function DigitChar(d: nat): char
    requires d < 10
  {
    ('0' as int + d) as char
  }

  /** `str(n)` for a natural number. */
  function NatToString(n: nat): (r: string)
    ensures |r| > 0 && AllDigits(r)
  {
    if n < 10 then [DigitChar(n)] else NatToString(n / 10) + [DigitChar(n % 10)]
  }

  /** `str(n)` for any integer. */
  function IntToString(n: int): (r: string)
    ensures |r| > 0
  {
    if n < 0 then "-" + NatToString(-n) else NatToString(n)
  }

  /** `int(s)` for a string of ASCII digits. */
  function ParseNat(s: string): nat
    requires AllDigits(s)
  {
    if |s| == 0 then 0 else 10 * ParseNat(s[..|s| - 1]) + (s[|s| - 1] as int - '0' as int)
  }

  lemma {:induction false} ParseNatToString(n: nat)
    ensures ParseNat(NatToString(n)) == n
  {
    if n >= 10 {
      var s := NatToString(n);
      assert s[..|s| - 1] == NatToString(n / 10);
      ParseNatToString(n / 10);
    }
  }

  /** Different numbers print differently. */
  lemma IntToStringInjective(a: int, b: int)
    requires IntToString(a) == IntToString(b)
    ensures a == b
  {
    var s := IntToString(a);
    assert s[0] == '-' <==> a < 0;
    assert s[0] == '-' <==> b < 0;
    if a < 0 {
      assert NatToString(-a) == s[1..] == NatToString(-b);
      ParseNatToString(-a);
      ParseNatToString(-b);
    } else {
      ParseNatToString(a);
      ParseNatToString(b);
    }
  }

  // ---------------------------------------------------------------------
  // Leading whitespace runs (the regular-expression pieces `\s*`, `\s+`)
  // ---------------------------------------------------------------------

  /** The length of the whitespace run `s` starts with. */
  function SpaceRun(s: string): (j: nat)
    ensures j <= |s|
    ensures forall i :: 0 <= i < j ==> IsPySpace(s[i])
    ensures j < |s| ==> !IsPySpace(s[j])
  {
    |s| - |DropSpaces(s)|
  }

  /** A run that starts with a space is one longer than the run after it. */
  lemma SpaceRunStep(s: string)
    requires |s| > 0 && IsPySpace(s[0])
    ensures SpaceRun(s) == 1 + SpaceRun(s[1..])
  {
  }

  /** The run is the one prefix of whitespace followed by the end or by a
      character that is not whitespace. */
  lemma SpaceRunIs(s: string, k: nat)
    requires k <= |s| && forall i :: 0 <= i < k ==> IsPySpace(s[i])
    requires k < |s| ==> !IsPySpace(s[k])
    ensures SpaceRun(s) == k
  {
  }

  /** The occurrences of `pat` that `s.replace` meets are those after a prefix
      free of `pat`'s first character: the prefix is copied as it is. */
  lemma {:induction false} ReplaceAllSkip(p: string, q: string, pat: string, rep: string)
    requires |pat| > 0 && pat[0] !in p
    ensures ReplaceAll(p + q, pat, rep) == p + ReplaceAll(q, pat, rep)
    decreases |p|
  {
    if |p| > 0 {
      assert !StartsWith(p + q, pat) by { assert (p + q)[0] == p[0]; }
      assert (p + q)[1..] == p[1..] + q;
      ReplaceAllSkip(p[1..], q, pat, rep);
    } else {
      assert p + q == q;
    }
  }

  /** Where the text after the last `c` of `s` starts: just after that `c`,
      or at 0 when `s` has none (see `AfterLastSpec`). */
  function AfterLast(s: string, c: char): (i: nat)
    ensures i <= |s| && (i > 0 ==> s[i - 1] == c)
  {
    AfterLastIn(s, c, |s|)
  }

  /** The same, looking only at the first `n` characters. */
  function AfterLastIn(s: string, c: char, n: nat): (i: nat)
    requires n <= |s|
    ensures i <= n && (i > 0 ==> s[i - 1] == c)
  {
    if n == 0 then 0
    else if s[n - 1] == c then n
    else AfterLastIn(s, c, n - 1)
  }

  /** No `c` stands after the position `AfterLast` finds. */
  lemma AfterLastSpec(s: string, c: char)
    ensures forall k :: AfterLast(s, c) <= k < |s| ==> s[k] != c
  {
    AfterLastInSpec(s, c, |s|);
  }

  lemma {:induction false} AfterLastInSpec(s: string, c: char, n: nat)
    requires n <= |s|
    ensures forall k :: AfterLastIn(s, c, n) <= k < n ==> s[k] != c
    decreases n
  {
    if n > 0 && s[n - 1] != c {
      AfterLastInSpec(s, c, n - 1);
    }
  }

  /** Python's `s[:n]`: at most the first `n` characters. */
  function Take(s: string, n: nat): (r: string)
    ensures |r| == (if n < |s| then n else |s|) && StartsWith(s, r)
  {
    if n < |s| then s[..n] else s
  }

  /** An attribute that is present and not empty: what Python's `if value:`
      accepts for an optional string. */
  predicate Present(o: Option<string>) {
    o.Some? && |o.value| > 0
  }

  /** The present values, in order. */
  function Somes<T>(s: seq<Option<T>>): (r: seq<T>)
    ensures |r| <= |s|
  {
    if |s| == 0 then [] else (if s[0].Some? then [s[0].value] else []) + Somes(s[1..])
  }

  lemma {:induction false} SomesComplete<T>(s: seq<Option<T>>, k: nat)
    requires k < |s| && s[k].Some?
    ensures s[k].value in Somes(s)
  {
    if k > 0 {
      SomesComplete(s[1..], k - 1);
      assert s[1..][k - 1] == s[k];
    }
  }

  lemma {:induction false} SomesSound<T>(s: seq<Option<T>>, x: T)
    requires x in Somes(s)
    ensures exists k :: 0 <= k < |s| && s[k] == Some(x)
  {
    if x in Somes(s[1..]) {
      SomesSound(s[1..], x);
      var k :| 0 <= k < |s[1..]| && s[1..][k] == Some(x);
      assert s[k + 1] == s[1..][k];
    } else {
      assert s[0] == Some(x);
    }
  }

  datatype Option<T> = None | Some(value: T)
}

=== FILE: verse_ids.dfy ===
/**
  `anadir_ids_versos.py`: every `<l>` with a usable number gets an `xml:id`,
  `l-N` for a whole verse and `l-N-a`, `l-N-b`, ... for the pieces of a
  split verse, in the order the pieces appear. A piece without `n` borrows
  the last number seen. The verses are the `<l>` elements in document order.
 */
module VerseIds {
  import opened Text
  import opened Tei

  // ---------------------------------------------------------------------
  // The numbers
  // ---------------------------------------------------------------------

  /** The position of the last verse that has a non-empty `n`. */
  function LastNumbered(vs: seq<Verse>): (r: Option<nat>)
    ensures r.Some? ==> r.value < |vs| && Present(vs[r.value].n)
    ensures r.Some? ==> forall j :: r.value < j < |vs| ==> !Present(vs[j].n)
    ensures r.None? ==> forall j :: 0 <= j < |vs| ==> !Present(vs[j].n)
  {
    if |vs| == 0 then None
    else if Present(vs[|vs| - 1].n) then Some(|vs| - 1)
    else LastNumbered(vs[..|vs| - 1])
  }

  /** `ultimo_numero_verso` once the verses `vs` have been seen. */
  function LastNumber(vs: seq<Verse>): Option<string> {
    match LastNumbered(vs)
    case Some(j) => vs[j].n
    case None => None
  }

  /** `numero_a_usar` for the verse at `i`: its own `n`, or, for a piece of a
      split verse, the number of the nearest verse before it that has one. */
  function NumberFor(vs: seq<Verse>, i: nat): (r: Option<string>)
    requires i < |vs|
    ensures r.Some? ==> Present(r) && (Present(vs[i].n) || Present(vs[i].part))
    ensures r.Some? ==> exists j :: 0 <= j <= i && vs[j].n == r
                          && forall k :: j < k <= i ==> !Present(vs[k].n)
    ensures r.None? && (Present(vs[i].n) || Present(vs[i].part))
            ==> forall k :: 0 <= k <= i ==> !Present(vs[k].n)
  {
    if Present(vs[i].n) then vs[i].n
    else if Present(vs[i].part) then
      var prior := vs[..i];
      match LastNumbered(prior)
      case Some(j) =>
        assert vs[j] == prior[j];
        assert forall k :: j < k < i ==> vs[k] == prior[k];
        prior[j].n
      case None =>
        assert forall k :: 0 <= k < i ==> vs[k] == prior[k];
        None
    else None
  }

  /** The verse at `i` is a piece of split verse `num`. */
  predicate IsPieceOf(vs: seq<Verse>, i: nat, num: string)
    requires i < |vs|
  {
    NumberFor(vs, i) == Some(num) && Present(vs[i].part)
  }

  /** `contador_partes[num]` before the verse at `i`: the pieces of `num`
      seen so far, with or without an id of their own. */
  function PiecesBefore(vs: seq<Verse>, i: nat, num: string): (c: nat)
    requires i <= |vs|
    ensures c <= i
  {
    if i == 0 then 0
    else PiecesBefore(vs, i - 1, num) + (if IsPieceOf(vs, i - 1, num) then 1 else 0)
  }

  // ---------------------------------------------------------------------
  // The ids
  // ---------------------------------------------------------------------

  /** `chr(ord('a') + k)`. */
  function SuffixChar(k: nat): (c: char)
    ensures k < 0xD800 - 97 ==> c as int == 97 + k
  {
    if 97 + k < 0xD800 then (97 + k) as char else '?'
  }

  /** The id a verse with a number and no id receives. */
  function IdFor(vs: seq<Verse>, i: nat): (r: string)
    requires i < |vs| && NumberFor(vs, i).Some?
    ensures var num := NumberFor(vs, i).value;
      StartsWith(r, "l-" + num)
      && (Present(vs[i].part) ==> r == "l-" + num + "-" + [SuffixChar(PiecesBefore(vs, i, num))])
      && (!Present(vs[i].part) ==> r == "l-" + num)
  {
    var num := NumberFor(vs, i).value;
    if Present(vs[i].part) then "l-" + num + "-" + [SuffixChar(PiecesBefore(vs, i, num))]
    else "l-" + num
  }

  /** An id read back: the verse number after `l-`, and the suffix letter
      after a final `-` for a piece. */
  function ParseId(id: string): Option<(string, Option<char>)> {
    if !StartsWith(id, "l-") then None
    else
      var rest := id[2..];
      if |rest| >= 2 && rest[|rest| - 2] == '-' then Some((rest[..|rest| - 2], Some(rest[|rest| - 1])))
      else Some((rest, None))
  }

  /** A new id reads back to the verse's number and, for a piece, the letter
      counting the pieces of that number before it, provided the number has
      no `-` of its own. */
  lemma IdForParses(vs: seq<Verse>, i: nat)
    requires i < |vs| && NumberFor(vs, i).Some? && '-' !in NumberFor(vs, i).value
    ensures var num := NumberFor(vs, i).value;
      ParseId(IdFor(vs, i)) == Some((num, if Present(vs[i].part) then Some(SuffixChar(PiecesBefore(vs, i, num))) else None))
  {
    var num := NumberFor(vs, i).value;
    if Present(vs[i].part) {
      ParseIdPiece(num, SuffixChar(PiecesBefore(vs, i, num)));
    } else {
      ParseIdWhole(num);
    }
  }

  lemma ParseIdWhole(num: string)
    requires '-' !in num
    ensures ParseId("l-" + num) == Some((num, None))
  {
    var r := "l-" + num;
    assert r[..2] == "l-" && r[2..] == num;
    if |num| >= 2 {
      assert num[|num| - 2] in num;
    }
  }

  lemma ParseIdPiece(num: string, c: char)
    ensures ParseId("l-" + num + "-" + [c]) == Some((num, Some(c)))
  {
    var r := "l-" + num + "-" + [c];
    var rest := num + "-" + [c];
    assert r[..2] == "l-" && r[2..] == rest;
    assert rest[|rest| - 2] == '-' && rest[|rest| - 1] == c && rest[..|rest| - 2] == num;
  }

  /** The verse at `i` after the loop: only a verse with a number and no id
      changes, and only its id. */
  function Assigned(vs: seq<Verse>, i: nat): (r: Verse)
    requires i < |vs|
    ensures r.n == vs[i].n && r.part == vs[i].part
    ensures Present(vs[i].id) || NumberFor(vs, i).None? ==> r == vs[i]
    ensures NumberFor(vs, i).Some? ==> Present(r.id)
    ensures NumberFor(vs, i).Some? && !Present(vs[i].id) ==> r.id == Some(IdFor(vs, i))
  {
    if NumberFor(vs, i).Some? && !Present(vs[i].id) then vs[i].(id := Some(IdFor(vs, i)))
    else vs[i]
  }

  function AssignAll(vs: seq<Verse>): (r: seq<Verse>)
    ensures |r| == |vs| && forall i :: 0 <= i < |vs| ==> r[i] == Assigned(vs, i)
  {
    seq(|vs|, i requires 0 <= i < |vs| => Assigned(vs, i))
  }

  /** The whole pass: numbers and parts are kept, existing ids are kept, and
      afterwards a verse has an id exactly when it had one or has a number. */
  lemma AssignAllSpec(vs: seq<Verse>)
    ensures var r := AssignAll(vs);
      && (forall i :: 0 <= i < |vs| ==> r[i].n == vs[i].n && r[i].part == vs[i].part)
      && (forall i :: 0 <= i < |vs| && Present(vs[i].id) ==> r[i].id == vs[i].id)
      && (forall i :: 0 <= i < |vs| ==> (Present(r[i].id) <==> Present(vs[i].id) || NumberFor(vs, i).Some?))
  {
  }

  /** `versos_actualizados`, `versos_ya_con_id` and the verses with a number,
      among the first `i`. */
  function CountNew(vs: seq<Verse>, i: nat): nat
    requires i <= |vs|
  {
    if i == 0 then 0
    else CountNew(vs, i - 1) + (if NumberFor(vs, i - 1).Some? && !Present(vs[i - 1].id) then 1 else 0)
  }

  function CountHad(vs: seq<Verse>, i: nat): nat
    requires i <= |vs|
  {
    if i == 0 then 0
    else CountHad(vs, i - 1) + (if NumberFor(vs, i - 1).Some? && Present(vs[i - 1].id) then 1 else 0)
  }

  function CountNumbered(vs: seq<Verse>, i: nat): nat
    requires i <= |vs|
  {
    if i == 0 then 0 else CountNumbered(vs, i - 1) + (if NumberFor(vs, i - 1).Some? then 1 else 0)
  }

  function Get(m: map<string, nat>, k: string): nat {
    if k in m then m[k] else 0
  }

  /** The script's loop, with the `defaultdict` of piece counters and the
      last number seen. */
  method AssignIds(vs: seq<Verse>) returns (r: seq<Verse>, updated: nat, had: nat)
    ensures r == AssignAll(vs)
    ensures updated == CountNew(vs, |vs|) && had == CountHad(vs, |vs|)
    ensures updated + had == CountNumbered(vs, |vs|)
  {
    var counters: map<string, nat> := map[];
    var last: Option<string> := None;
    r := [];
    updated, had := 0, 0;
    var i := 0;
    while i < |vs|
      invariant 0 <= i <= |vs|
      invariant last == LastNumber(vs[..i])
      invariant forall num :: Get(counters, num) == PiecesBefore(vs, i, num)
      invariant |r| == i && AssignedTo(r, vs)
      invariant updated == CountNew(vs, i) && had == CountHad(vs, i)
      invariant updated + had == CountNumbered(vs, i)
    {
      var v := vs[i];
      LastNumberStep(vs, i);
      if Present(v.n) {
        last := v.n;
      }
      var use := if Present(v.n) then v.n else if Present(v.part) then last else None;
      assert use == NumberFor(vs, i);
      if use.Some? && |use.value| > 0 {
        var num := use.value;
        if Present(v.id) {
          had := had + 1;
          if Present(v.part) {
            counters := counters[num := Get(counters, num) + 1];
          }
        } else {
          var newId;
          if Present(v.part) {
            var k := Get(counters, num);
            counters := counters[num := Get(counters, num) + 1];
            newId := "l-" + num + "-" + [SuffixChar(k)];
          } else {
            newId := "l-" + num;
          }
          v := v.(id := Some(newId));
          updated := updated + 1;
        }
      }
      AssignedSnoc(r, vs, v);
      r := r + [v];
      i := i + 1;
    }
    assert vs[..i] == vs;
  }

  /** The first `|r|` verses have been through the loop. */
  predicate AssignedTo(r: seq<Verse>, vs: seq<Verse>)
    requires |r| <= |vs|
  {
    forall k :: 0 <= k < |r| ==> r[k] == Assigned(vs, k)
  }

  lemma AssignedSnoc(r: seq<Verse>, vs: seq<Verse>, v: Verse)
    requires |r| < |vs| && AssignedTo(r, vs) && v == Assigned(vs, |r|)
    ensures AssignedTo(r + [v], vs)
  {
    var r' := r + [v];
    forall k | 0 <= k < |r'| ensures r'[k] == Assigned(vs, k) {
      if k < |r| {
        assert r'[k] == r[k];
      }
    }
  }

  /** The last number after one more verse: that verse's own, if it has one. */
  lemma LastNumberStep(vs: seq<Verse>, i: nat)
    requires i < |vs|
    ensures LastNumber(vs[..i + 1]) == if Present(vs[i].n) then vs[i].n else LastNumber(vs[..i])
  {
    assert vs[..i + 1][..i] == vs[..i];
  }

  // ---------------------------------------------------------------------
  // Properties
  // ---------------------------------------------------------------------

  lemma {:induction false} PiecesBeforeGrows(vs: seq<Verse>, i: nat, j: nat, num: string)
    requires i < j <= |vs| && IsPieceOf(vs, i, num)
    ensures PiecesBefore(vs, j, num) >= PiecesBefore(vs, i, num) + 1
    decreases j - i
  {
    if j > i + 1 {
      PiecesBeforeGrows(vs, i, j - 1, num);
    }
  }

  /** Two new pieces of the same split verse get different ids: the later
      one's suffix letter comes after the earlier one's. */
  lemma PiecesGetDistinctIds(vs: seq<Verse>, i: nat, j: nat)
    requires i < j < |vs|
    requires NumberFor(vs, i).Some? && NumberFor(vs, i) == NumberFor(vs, j)
    requires Present(vs[i].part) && Present(vs[j].part)
    requires PiecesBefore(vs, j, NumberFor(vs, j).value) < 0xD800 - 97
    ensures IdFor(vs, i) != IdFor(vs, j)
    ensures !Present(vs[i].id) && !Present(vs[j].id) ==> AssignAll(vs)[i].id != AssignAll(vs)[j].id
  {
    var num := NumberFor(vs, i).value;
    PiecesBeforeGrows(vs, i, j, num);
    var a := IdFor(vs, i);
    var b := IdFor(vs, j);
    assert |a| == |b|;
    assert a[|a| - 1] != b[|b| - 1];
  }

  /** Two verses that agree on `n` and `part` get the same numbers. */
  lemma {:induction false} SameNumbers(a: seq<Verse>, b: seq<Verse>, i: nat)
    requires |a| == |b| && i < |a|
    requires forall k :: 0 <= k < |a| ==> a[k].n == b[k].n && a[k].part == b[k].part
    ensures NumberFor(a, i) == NumberFor(b, i)
  {
    SameLastNumbered(a[..i], b[..i]);
  }

  lemma {:induction false} SameLastNumbered(a: seq<Verse>, b: seq<Verse>)
    requires |a| == |b|
    requires forall k :: 0 <= k < |a| ==> a[k].n == b[k].n
    ensures LastNumbered(a) == LastNumbered(b)
  {
    if |a| > 0 {
      SameLastNumbered(a[..|a| - 1], b[..|b| - 1]);
    }
  }

  /** Running the script again changes nothing: every verse with a number
      now has an id, and the numbers do not depend on the ids. */
  lemma AssignIdempotent(vs: seq<Verse>)
    ensures AssignAll(AssignAll(vs)) == AssignAll(vs)
  {
    var once := AssignAll(vs);
    forall i | 0 <= i < |vs| ensures Assigned(once, i) == once[i] {
      SameNumbers(vs, once, i);
    }
  }
}

=== FILE: verse_numbers.dfy ===
/**
  `numerar_versos.py`: one counter, starting at 1, runs over the verses of
  every act (or, when there is no act, of every `play` division). A whole
  verse or the first piece of a split verse (`part` absent or `I`) takes the
  counter's value as its `n`; the middle and final pieces (`M`, `F`) lose
  their `n`; any other `part` value is left alone.

  The divisions are selected with ElementTree paths written without a
  namespace prefix (`.//div[@type="act"]`, `.//l`). Such a path names
  elements in no namespace, so the selection depends on the namespace the
  document's elements are in: the model carries it (`""` for none).
 */
module VerseNumbers {
  import opened Text
  import opened Tei

  /** A `<div>` with its `type` and its `<l>` descendants in document order. */
  datatype Div = Div(kind: Option<string>, verses: seq<Verse>)

  /** A document: the namespace of its elements and its divisions in
      document order (divisions are not nested in one another). */
  datatype Doc = Doc(ns: string, divs: seq<Div>)

  /** A verse that takes a number. */
  predicate Counted(v: Verse) {
    v.part.None? || v.part == Some("I")
  }

  /** The verse after the loop body, with `k` the counter's value. */
  function Renumber(v: Verse, k: nat): (r: Verse)
    ensures r.part == v.part && r.id == v.id
    ensures Counted(v) ==> r.n == Some(NatToString(k))
    ensures v.part == Some("M") || v.part == Some("F") ==> r.n.None?
    ensures !Counted(v) && v.part != Some("M") && v.part != Some("F") ==> r == v
  {
    if Counted(v) then v.(n := Some(NatToString(k)))
    else if v.part == Some("M") || v.part == Some("F") then v.(n := None)
    else v
  }

  /** How many of the first `i` verses take a number. */
  function CountBefore(vs: seq<Verse>, i: nat): (c: nat)
    requires i <= |vs|
    ensures c <= i
  {
    if i == 0 then 0 else CountBefore(vs, i - 1) + (if Counted(vs[i - 1]) then 1 else 0)
  }

  /** The verse at `i` of a division numbered from `next`: the counter has
      moved on once for every counted verse before it. */
  function VerseAfter(vs: seq<Verse>, i: nat, next: nat): (r: Verse)
    requires i < |vs|
    ensures r.part == vs[i].part && r.id == vs[i].id
  {
    Renumber(vs[i], next + CountBefore(vs, i))
  }

  /** The verses of one division numbered from `next`. */
  function NumberVerses(vs: seq<Verse>, next: nat): (r: seq<Verse>)
    ensures |r| == |vs| && forall i :: 0 <= i < |vs| ==> r[i] == VerseAfter(vs, i, next)
  {
    seq(|vs|, i requires 0 <= i < |vs| => VerseAfter(vs, i, next))
  }

  predicate IsKind(d: Div, kind: string) {
    d.kind == Some(kind)
  }

  /** Counted verses in the divisions of type `kind`. */
  function CountIn(divs: seq<Div>, kind: string): nat {
    if |divs| == 0 then 0
    else
      var d := divs[|divs| - 1];
      CountIn(divs[..|divs| - 1], kind) + (if IsKind(d, kind) then CountBefore(d.verses, |d.verses|) else 0)
  }

  /** The division at `k` after the loop: one of type `kind` numbered from
      where the previous ones left the shared counter, any other untouched. */
  function DivAfter(divs: seq<Div>, k: nat, kind: string, next: nat): (r: Div)
    requires k < |divs|
    ensures r.kind == divs[k].kind && |r.verses| == |divs[k].verses|
  {
    if IsKind(divs[k], kind)
    then Div(divs[k].kind, NumberVerses(divs[k].verses, next + CountIn(divs[..k], kind)))
    else divs[k]
  }

  function NumberDivs(divs: seq<Div>, kind: string, next: nat): (r: seq<Div>)
    ensures |r| == |divs| && forall k :: 0 <= k < |divs| ==> r[k] == DivAfter(divs, k, kind, next)
  {
    seq(|divs|, k requires 0 <= k < |divs| => DivAfter(divs, k, kind, next))
  }

  /** The inner loop over the verses of one division. */
  method NumberVersesLoop(vs: seq<Verse>, start: nat) returns (done: seq<Verse>, counter: nat)
    ensures done == NumberVerses(vs, start)
    ensures counter == start + CountBefore(vs, |vs|)
  {
    counter := start;
    done := [];
    var j := 0;
    while j < |vs|
      invariant 0 <= j <= |vs|
      invariant counter == start + CountBefore(vs, j)
      invariant |done| == j
      invariant forall i :: 0 <= i < j ==> done[i] == VerseAfter(vs, i, start)
    {
      var v := vs[j];
      if v.part.None? || v.part == Some("I") {
        v := v.(n := Some(NatToString(counter)));
        counter := counter + 1;
      } else if v.part == Some("M") || v.part == Some("F") {
        v := v.(n := None);
      }
      assert v == VerseAfter(vs, j, start);
      done := done + [v];
      j := j + 1;
    }
    assert vs[..j] == vs;
    assert forall i :: 0 <= i < |vs| ==> done[i] == NumberVerses(vs, start)[i];
  }

  /** The script's outer loop with the shared counter `contador_global`. */
  method NumberLoop(divs: seq<Div>, kind: string) returns (out: seq<Div>, counter: nat)
    ensures out == NumberDivs(divs, kind, 1)
    ensures counter == 1 + CountIn(divs, kind)
  {
    out := [];
    counter := 1;
    var k := 0;
    while k < |divs|
      invariant 0 <= k <= |divs|
      invariant counter == 1 + CountIn(divs[..k], kind)
      invariant |out| == k && forall i :: 0 <= i < k ==> out[i] == DivAfter(divs, i, kind, 1)
    {
      var d := divs[k];
      assert divs[..k + 1][..k] == divs[..k];
      if IsKind(d, kind) {
        var done;
        done, counter := NumberVersesLoop(d.verses, counter);
        out := out + [Div(d.kind, done)];
      } else {
        out := out + [d];
      }
      k := k + 1;
    }
    assert divs[..k] == divs;
  }

  predicate HasKind(divs: seq<Div>, kind: string) {
    exists k :: 0 <= k < |divs| && IsKind(divs[k], kind)
  }

  /** The kind of division numbered: `act`, else `play`. */
  function Selected(divs: seq<Div>): string {
    if HasKind(divs, "act") then "act" else "play"
  }

  /** The whole script on a document whose divisions are looked for in
      namespace `pathNs`: the document afterwards and the total it reports
      (`contador_global - 1`). */
  function NumberPlay(d: Doc, pathNs: string): (r: (Doc, nat))
    ensures d.ns != pathNs ==> r == (d, 0)
    ensures d.ns == pathNs ==> r.1 == CountIn(d.divs, Selected(d.divs))
    ensures r.0.ns == d.ns && |r.0.divs| == |d.divs|
    ensures forall k :: 0 <= k < |d.divs| && (d.ns != pathNs || !IsKind(d.divs[k], Selected(d.divs)))
              ==> r.0.divs[k] == d.divs[k]
    ensures d.ns == pathNs ==>
      forall k :: 0 <= k < |d.divs| ==> r.0.divs[k] == DivAfter(d.divs, k, Selected(d.divs), 1)
  {
    if d.ns != pathNs then (d, 0)
    else (Doc(d.ns, NumberDivs(d.divs, Selected(d.divs), 1)), CountIn(d.divs, Selected(d.divs)))
  }

  /** The script as written: its paths carry no prefix. */
  function NumberAsWritten(d: Doc): (r: (Doc, nat))
    ensures d.ns == "" ==> r.1 == CountIn(d.divs, Selected(d.divs))
    ensures |r.0.divs| == |d.divs|
    ensures d.ns == "" ==>
      forall k :: 0 <= k < |d.divs| ==> r.0.divs[k] == DivAfter(d.divs, k, Selected(d.divs), 1)
    ensures d.ns != "" ==> r == (d, 0)
  {
    NumberPlay(d, "")
  }

  /** The script with `tei:`-prefixed paths, as its namespace map intends. */
  function NumberTei(d: Doc): (r: (Doc, nat))
    ensures d.ns == TeiNs ==> r.1 == CountIn(d.divs, Selected(d.divs))
    ensures |r.0.divs| == |d.divs|
    ensures d.ns == TeiNs ==>
      forall k :: 0 <= k < |d.divs| ==> r.0.divs[k] == DivAfter(d.divs, k, Selected(d.divs), 1)
    ensures d.ns != TeiNs ==> r == (d, 0)
  {
    NumberPlay(d, TeiNs)
  }

  // ---------------------------------------------------------------------
  // The numbers handed out
  // ---------------------------------------------------------------------

  /** The rank of a counted verse among the counted verses grows strictly
      along the sequence. */
  lemma {:induction false} RankGrows(vs: seq<Verse>, i: nat, j: nat)
    requires i < j <= |vs| && Counted(vs[i])
    ensures CountBefore(vs, j) > CountBefore(vs, i)
    decreases j - i
  {
    if j > i + 1 {
      RankGrows(vs, i, j - 1);
    }
  }

  /** Every rank below the count of the first `n` verses belongs to some
      counted verse among them. */
  lemma {:induction false} RankOnto(vs: seq<Verse>, n: nat, k: nat)
    requires n <= |vs| && k < CountBefore(vs, n)
    ensures exists i :: 0 <= i < n && Counted(vs[i]) && CountBefore(vs, i) == k
  {
    if k < CountBefore(vs, n - 1) {
      RankOnto(vs, n - 1, k);
    } else {
      assert Counted(vs[n - 1]) && CountBefore(vs, n - 1) == k;
    }
  }

  /** The number a counted verse receives. */
  lemma NumberOf(vs: seq<Verse>, next: nat, i: nat)
    requires i < |vs| && Counted(vs[i])
    ensures NumberVerses(vs, next)[i].n == Some(NatToString(next + CountBefore(vs, i)))
    ensures ParseNat(NumberVerses(vs, next)[i].n.value) == next + CountBefore(vs, i)
  {
    ParseNatToString(next + CountBefore(vs, i));
  }

  /** A `part` the script knows: none, `I`, `M` or `F`. */
  predicate KnownPart(v: Verse) {
    v.part.None? || v.part == Some("I") || v.part == Some("M") || v.part == Some("F")
  }

  /** Numbering a division again gives the same verses, and afterwards a
      verse with a known `part` has an `n` exactly when it is counted. */
  lemma NumberVersesIdempotent(vs: seq<Verse>, next: nat)
    ensures NumberVerses(NumberVerses(vs, next), next) == NumberVerses(vs, next)
    ensures forall i :: 0 <= i < |vs| && KnownPart(vs[i]) ==>
      (NumberVerses(vs, next)[i].n.Some? <==> Counted(vs[i]))
  {
    var r := NumberVerses(vs, next);
    var r2 := NumberVerses(r, next);
    forall i | 0 <= i < |vs|
      ensures r2[i] == r[i] && (KnownPart(vs[i]) ==> (r[i].n.Some? <==> Counted(vs[i])))
    {
      NumberedAgainAt(vs, next, i);
    }
  }

  /** One position of the division, numbered once and twice. */
  lemma NumberedAgainAt(vs: seq<Verse>, next: nat, i: nat)
    requires i < |vs|
    ensures var r := NumberVerses(vs, next);
      NumberVerses(r, next)[i] == r[i] && (KnownPart(vs[i]) ==> (r[i].n.Some? <==> Counted(vs[i])))
  {
    var r := NumberVerses(vs, next);
    var k := next + CountBefore(vs, i);
    NumberingKeepsParts(vs, next);
    SameCount(r, vs, i);
    RenumberTwice(vs[i], k);
    assert r[i] == Renumber(vs[i], k);
    assert NumberVerses(r, next)[i] == Renumber(r[i], k);
  }

  /** Numbering changes no verse's `part`. */
  lemma NumberingKeepsParts(vs: seq<Verse>, next: nat)
    ensures SameParts(NumberVerses(vs, next), vs)
  {
    var r := NumberVerses(vs, next);
    forall k | 0 <= k < |vs| ensures r[k].part == vs[k].part {
      assert r[k] == VerseAfter(vs, k, next);
    }
  }

  /** The loop body applied twice with the same counter value. */
  lemma RenumberTwice(v: Verse, k: nat)
    ensures Renumber(Renumber(v, k), k) == Renumber(v, k)
    ensures KnownPart(v) ==> (Renumber(v, k).n.Some? <==> Counted(v))
  {
  }

  predicate SameParts(a: seq<Verse>, b: seq<Verse>) {
    |a| == |b| && forall k :: 0 <= k < |a| ==> a[k].part == b[k].part
  }

  /** Verses with the same parts have the same counted verses before `i`. */
  lemma {:induction false} SameCount(a: seq<Verse>, b: seq<Verse>, i: nat)
    requires SameParts(a, b) && i <= |a|
    ensures CountBefore(a, i) == CountBefore(b, i)
  {
    if i > 0 {
      SameCount(a, b, i - 1);
    }
  }

  /** The numbers given in one division grow along it, one per counted
      verse. */
  lemma NumbersGrow(vs: seq<Verse>, next: nat, i: nat, j: nat)
    requires i < j < |vs| && Counted(vs[i]) && Counted(vs[j])
    ensures ParseNat(NumberVerses(vs, next)[i].n.value) < ParseNat(NumberVerses(vs, next)[j].n.value)
  {
    RankGrows(vs, i, j);
    NumberOf(vs, next, i);
    NumberOf(vs, next, j);
  }

  /** Every value from `next` up to the counter's final value minus one is
      given to some counted verse. */
  lemma NumbersCover(vs: seq<Verse>, next: nat, m: nat)
    requires next <= m < next + CountBefore(vs, |vs|)
    ensures exists i :: 0 <= i < |vs| && Counted(vs[i]) && NumberVerses(vs, next)[i].n == Some(NatToString(m))
  {
    RankOnto(vs, |vs|, m - next);
    var i :| 0 <= i < |vs| && Counted(vs[i]) && CountBefore(vs, i) == m - next;
    NumberOf(vs, next, i);
  }

  // ---------------------------------------------------------------------
  // The numbers handed out across the whole play
  // ---------------------------------------------------------------------

  /** A verse of a selected division and a counted one. */
  predicate CountedAt(divs: seq<Div>, kind: string, k: nat, i: nat) {
    k < |divs| && IsKind(divs[k], kind) && i < |divs[k].verses| && Counted(divs[k].verses[i])
  }

  /** The counted verses of the selected divisions before verse `i` of
      division `k`. */
  function RankIn(divs: seq<Div>, kind: string, k: nat, i: nat): nat
    requires k < |divs| && i <= |divs[k].verses|
  {
    CountIn(divs[..k], kind) + CountBefore(divs[k].verses, i)
  }

  /** One more division on the prefix. */
  lemma CountInStep(divs: seq<Div>, kind: string, k: nat)
    requires k < |divs|
    ensures CountIn(divs[..k + 1], kind) == CountIn(divs[..k], kind)
      + (if IsKind(divs[k], kind) then CountBefore(divs[k].verses, |divs[k].verses|) else 0)
  {
    assert divs[..k + 1][..k] == divs[..k];
  }

  /** A longer prefix holds no fewer counted verses. */
  lemma {:induction false} CountInGrows(divs: seq<Div>, kind: string, a: nat, b: nat)
    requires a <= b <= |divs|
    ensures CountIn(divs[..a], kind) <= CountIn(divs[..b], kind)
    decreases b - a
  {
    if a < b {
      CountInGrows(divs, kind, a, b - 1);
      CountInStep(divs, kind, b - 1);
    }
  }

  /** The rank of a counted verse is below the count of the whole prefix
      that ends with its division. */
  lemma RankBelow(divs: seq<Div>, kind: string, k: nat, i: nat)
    requires CountedAt(divs, kind, k, i)
    ensures RankIn(divs, kind, k, i) < CountIn(divs[..k + 1], kind)
  {
    RankGrows(divs[k].verses, i, |divs[k].verses|);
    CountInStep(divs, kind, k);
  }

  /** Verse `i` of a selected division `k` receives one more than its rank
      across the selected divisions, which lies between 1 and the total. */
  lemma NumberPlayNumbers(d: Doc, pathNs: string, k: nat, i: nat)
    requires d.ns == pathNs && CountedAt(d.divs, Selected(d.divs), k, i)
    ensures NumberPlay(d, pathNs).0.divs[k].verses[i].n
      == Some(NatToString(1 + RankIn(d.divs, Selected(d.divs), k, i)))
    ensures 1 <= 1 + RankIn(d.divs, Selected(d.divs), k, i) <= NumberPlay(d, pathNs).1
  {
    var kind := Selected(d.divs);
    var vs := d.divs[k].verses;
    var next := 1 + CountIn(d.divs[..k], kind);
    SelectedDivNumbered(d, pathNs, k);
    NumberOf(vs, next, i);
    RankBelow(d.divs, kind, k, i);
    CountInGrows(d.divs, kind, k + 1, |d.divs|);
    assert d.divs[..|d.divs|] == d.divs;
  }

  /** Across the selected divisions, a verse later in document order gets a
      strictly larger number. */
  lemma NumberPlayGrows(d: Doc, pathNs: string, k1: nat, i1: nat, k2: nat, i2: nat)
    requires d.ns == pathNs
    requires CountedAt(d.divs, Selected(d.divs), k1, i1) && CountedAt(d.divs, Selected(d.divs), k2, i2)
    requires k1 < k2 || (k1 == k2 && i1 < i2)
    ensures ParseNat(NumberPlay(d, pathNs).0.divs[k1].verses[i1].n.value)
          < ParseNat(NumberPlay(d, pathNs).0.divs[k2].verses[i2].n.value)
  {
    var kind := Selected(d.divs);
    NumberPlayNumbers(d, pathNs, k1, i1);
    NumberPlayNumbers(d, pathNs, k2, i2);
    ParseNatToString(1 + RankIn(d.divs, kind, k1, i1));
    ParseNatToString(1 + RankIn(d.divs, kind, k2, i2));
    if k1 < k2 {
      RankBelow(d.divs, kind, k1, i1);
      CountInGrows(d.divs, kind, k1 + 1, k2);
    } else {
      RankGrows(d.divs[k1].verses, i1, i2);
    }
  }

  /** Some selected division holds the counted verse of rank `c`. */
  lemma {:induction false} DivOnto(divs: seq<Div>, kind: string, n: nat, c: nat) returns (k: nat)
    requires n <= |divs| && c < CountIn(divs[..n], kind)
    ensures k < n && IsKind(divs[k], kind)
    ensures CountIn(divs[..k], kind) <= c < CountIn(divs[..k], kind) + CountBefore(divs[k].verses, |divs[k].verses|)
  {
    CountInStep(divs, kind, n - 1);
    if c < CountIn(divs[..n - 1], kind) {
      k := DivOnto(divs, kind, n - 1, c);
    } else {
      k := n - 1;
    }
  }

  /** Every number from 1 to the reported total is given to a counted verse
      of a selected division. */
  lemma NumberPlayCovers(d: Doc, pathNs: string, m: nat)
    requires d.ns == pathNs && 1 <= m <= NumberPlay(d, pathNs).1
    ensures exists k: nat, i: nat ::
      (CountedAt(d.divs, Selected(d.divs), k, i)
       && NumberPlay(d, pathNs).0.divs[k].verses[i].n == Some(NatToString(m)))
  {
    var kind := Selected(d.divs);
    assert d.divs[..|d.divs|] == d.divs;
    var k := DivOnto(d.divs, kind, |d.divs|, m - 1);
    var vs := d.divs[k].verses;
    var next := 1 + CountIn(d.divs[..k], kind);
    NumbersCover(vs, next, m);
    var i :| 0 <= i < |vs| && Counted(vs[i]) && NumberVerses(vs, next)[i].n == Some(NatToString(m));
    SelectedDivNumbered(d, pathNs, k);
    assert CountedAt(d.divs, kind, k, i);
  }

  /** A selected division is numbered from one more than the counted verses
      of the selected divisions before it. */
  lemma SelectedDivNumbered(d: Doc, pathNs: string, k: nat)
    requires d.ns == pathNs && k < |d.divs| && IsKind(d.divs[k], Selected(d.divs))
    ensures NumberPlay(d, pathNs).0.divs[k]
      == Div(d.divs[k].kind, NumberVerses(d.divs[k].verses, 1 + CountIn(d.divs[..k], Selected(d.divs))))
  {
  }

  /** In a TEI document the unprefixed paths select nothing: nothing is
      numbered and the total is zero, however many verses the acts hold. */
  lemma UnprefixedPathsFindNothing()
    ensures var d := Doc(TeiNs, [Div(Some("act"), [Verse(None, None, None)])]);
      NumberAsWritten(d) == (d, 0) && NumberTei(d).1 == 1
  {
    var d := Doc(TeiNs, [Div(Some("act"), [Verse(None, None, None)])]);
    assert HasKind(d.divs, "act") by { assert IsKind(d.divs[0], "act"); }
    assert d.divs[..0] == [];
    assert d.divs[0].verses[..0] == [];
  }

  /** With no act, the `play` divisions are numbered instead. */
  lemma FallsBackToPlay(d: Doc)
    requires forall k :: 0 <= k < |d.divs| ==> !IsKind(d.divs[k], "act")
    ensures NumberTei(d).1 == if d.ns == TeiNs then CountIn(d.divs, "play") else 0
  {
  }
}

=== FILE: who.dfy ===
/**
  `asignar_who.py`: every `<sp>` without `who` gets the id of its speaker,
  looked up by normalised name among the people of `listPerson` and the
  roles of `castList`, with a fixed table of aliases as a fallback.
  `normalize` (Unicode decomposition, accents dropped, upper case, strip) is
  a parameter of the model.
 */
module Who {
  import opened Text

  /** The key under which ElementTree stores a parsed `xml:id` attribute. */
  const XmlIdKey := "{http://www.w3.org/XML/1998/namespace}id"

  /** The key the script reads. */
  const PrefixedIdKey := "xml:id"

  /** The fallback table `aliases`. */
  const Aliases: map<string, string> := map[
    "ALCALDE" := "#esteban", "ALC ESTEBAN" := "#esteban", "ALCADE" := "#esteban",
    "COMENDADOR" := "#comendador", "MAESTRE" := "#maestre", "REY" := "#fernando",
    "ISABEL" := "#isabel", "MUSICOS" := "#musicos", "MUSICA" := "#musicos",
    "REGIDOR" := "#regidor", "REGIDOR I" := "#regidor", "REGIDOR II" := "#regidor",
    "REGIDOR 2" := "#cuadrado", "SOLDADO" := "#cimbranos", "JUAN" := "#juan_rojo"
  ]

  /** A `<person>`: its attributes as ElementTree keys them, and the text of
      its `<persName>` (`None` when there is no such element or no text). */
  datatype Person = Person(attrs: map<string, string>, name: Option<string>)

  /** A `<role>` of the cast list: its `corresp` and its text. */
  datatype Role = Role(corresp: Option<string>, text: Option<string>)

  type Assignments = map<string, set<string>>

  /** `assignments.get(n, set())`. */
  function Lookup(m: Assignments, n: string): set<string> {
    if n in m then m[n] else {}
  }

  /** `assignments.setdefault(n, set()).add(id)`. */
  function Add(m: Assignments, n: string, id: string): (r: Assignments)
    ensures Lookup(r, n) == Lookup(m, n) + {id}
    ensures forall k :: k != n ==> Lookup(r, k) == Lookup(m, k)
  {
    m[n := Lookup(m, n) + {id}]
  }

  /** The id a person gives under the name `n`, reading its id under `key`. */
  predicate PersonGives(p: Person, key: string, norm: string -> string, n: string, id: string) {
    key in p.attrs && |p.attrs[key]| > 0 && Present(p.name)
    && norm(p.name.value) == n && id == "#" + p.attrs[key]
  }

  /** The id a role gives under the name `n`. */
  predicate RoleGives(r: Role, norm: string -> string, n: string, id: string) {
    Present(r.corresp) && norm(if r.text.Some? then r.text.value else "") == n && id == r.corresp.value
  }

  /** The loop over the people: one without an id or a name adds nothing. */
  function AddPersons(m: Assignments, ps: seq<Person>, key: string, norm: string -> string): Assignments
    decreases |ps|
  {
    if |ps| == 0 then m
    else
      var p := ps[0];
      var m1 := if key in p.attrs && |p.attrs[key]| > 0 && Present(p.name)
                then Add(m, norm(p.name.value), "#" + p.attrs[key]) else m;
      AddPersons(m1, ps[1..], key, norm)
  }

  /** The loop over the roles: one without `corresp` adds nothing. */
  function AddRoles(m: Assignments, rs: seq<Role>, norm: string -> string): Assignments
    decreases |rs|
  {
    if |rs| == 0 then m
    else
      var r := rs[0];
      var m1 := if Present(r.corresp) then Add(m, norm(if r.text.Some? then r.text.value else ""), r.corresp.value) else m;
      AddRoles(m1, rs[1..], norm)
  }

  /** The assignments, reading the people's ids under `key`. */
  function Build(ps: seq<Person>, rs: seq<Role>, key: string, norm: string -> string): Assignments {
    AddRoles(AddPersons(map[], ps, key, norm), rs, norm)
  }

  lemma {:induction false} AddPersonsSpec(m: Assignments, ps: seq<Person>, key: string, norm: string -> string, n: string, id: string)
    ensures id in Lookup(AddPersons(m, ps, key, norm), n) <==>
      id in Lookup(m, n) || exists i :: 0 <= i < |ps| && PersonGives(ps[i], key, norm, n, id)
    decreases |ps|
  {
    if |ps| > 0 {
      var p := ps[0];
      var m1 := if key in p.attrs && |p.attrs[key]| > 0 && Present(p.name)
                then Add(m, norm(p.name.value), "#" + p.attrs[key]) else m;
      AddPersonsSpec(m1, ps[1..], key, norm, n, id);
      assert forall i :: 1 <= i < |ps| ==> ps[i] == ps[1..][i - 1];
      if exists i :: 0 <= i < |ps[1..]| && PersonGives(ps[1..][i], key, norm, n, id) {
        var i :| 0 <= i < |ps[1..]| && PersonGives(ps[1..][i], key, norm, n, id);
        assert PersonGives(ps[i + 1], key, norm, n, id);
      }
    }
  }

  lemma {:induction false} AddRolesSpec(m: Assignments, rs: seq<Role>, norm: string -> string, n: string, id: string)
    ensures id in Lookup(AddRoles(m, rs, norm), n) <==>
      id in Lookup(m, n) || exists j :: 0 <= j < |rs| && RoleGives(rs[j], norm, n, id)
    decreases |rs|
  {
    if |rs| > 0 {
      var r := rs[0];
      var m1 := if Present(r.corresp) then Add(m, norm(if r.text.Some? then r.text.value else ""), r.corresp.value) else m;
      AddRolesSpec(m1, rs[1..], norm, n, id);
      assert forall j :: 1 <= j < |rs| ==> rs[j] == rs[1..][j - 1];
      if exists j :: 0 <= j < |rs[1..]| && RoleGives(rs[1..][j], norm, n, id) {
        var j :| 0 <= j < |rs[1..]| && RoleGives(rs[1..][j], norm, n, id);
        assert RoleGives(rs[j + 1], norm, n, id);
      }
    }
  }

  /** A name's ids are the union of those the people and the roles give. */
  lemma BuildSpec(ps: seq<Person>, rs: seq<Role>, key: string, norm: string -> string, n: string, id: string)
    ensures id in Lookup(Build(ps, rs, key, norm), n) <==>
      (exists i :: 0 <= i < |ps| && PersonGives(ps[i], key, norm, n, id))
      || (exists j :: 0 <= j < |rs| && RoleGives(rs[j], norm, n, id))
  {
    AddPersonsSpec(map[], ps, key, norm, n, id);
    AddRolesSpec(AddPersons(map[], ps, key, norm), rs, norm, n, id);
  }

  // ---------------------------------------------------------------------
  // The loop over the speeches
  // ---------------------------------------------------------------------

  /** An `<sp>`: its `who` and the text of its `<speaker>` (`None` when there
      is no such element or no text). */
  datatype Sp = Sp(who: Option<string>, speaker: Option<string>)

  datatype Outcome =
    | Skipped
    | Resolved(id: string)
    | Ambiguous(name: string, ids: set<string>)
    | Missing(name: string)

  /** The speaker's ids: the assignments, else the alias table. */
  function Matches(m: Assignments, norm: string -> string, speaker: string): (r: set<string>)
    ensures |Lookup(m, norm(speaker))| > 0 ==> r == Lookup(m, norm(speaker))
    ensures |Lookup(m, norm(speaker))| == 0 ==>
      r == (if norm(speaker) in Aliases then {Aliases[norm(speaker)]} else {})
  {
    var n := norm(speaker);
    var found := Lookup(m, n);
    if |found| == 0 && n in Aliases then {Aliases[n]} else found
  }

  /** The only element of a one-element set. */
  function Only(s: set<string>): (x: string)
    requires |s| == 1
    ensures s == {x}
  {
    var x :| x in s;
    assert |s - {x}| == 0;
    assert s == {x};
    x
  }

  /** What happens to one `<sp>`. */
  function Resolve(sp: Sp, m: Assignments, norm: string -> string): (o: Outcome)
    ensures Present(sp.who) || !Present(sp.speaker) <==> o.Skipped?
    ensures o.Resolved? <==> !o.Skipped? && |Matches(m, norm, sp.speaker.value)| == 1
    ensures o.Resolved? ==> Matches(m, norm, sp.speaker.value) == {o.id}
    ensures o.Ambiguous? <==> !o.Skipped? && |Matches(m, norm, sp.speaker.value)| > 1
    ensures o.Missing? <==> !o.Skipped? && |Matches(m, norm, sp.speaker.value)| == 0
  {
    if Present(sp.who) || !Present(sp.speaker) then Skipped
    else
      var ms := Matches(m, norm, sp.speaker.value);
      if |ms| == 1 then Resolved(Only(ms))
      else if |ms| > 1 then Ambiguous(sp.speaker.value, ms)
      else Missing(sp.speaker.value)
  }

  /** The `<sp>` after the loop: `who` is set exactly when it is resolved. */
  function Apply(sp: Sp, o: Outcome): (r: Sp)
    ensures r.speaker == sp.speaker
    ensures r.who == if o.Resolved? then Some(o.id) else sp.who
  {
    if o.Resolved? then sp.(who := Some(o.id)) else sp
  }

  /** A speech keeps any `who` it has; it gets one only when its speaker's
      name matches exactly one id, and then that id; the speaker is kept. */
  lemma ResolveApply(sp: Sp, m: Assignments, norm: string -> string)
    ensures var r := Apply(sp, Resolve(sp, m, norm));
      && r.speaker == sp.speaker
      && (Present(sp.who) || !Present(sp.speaker) ==> r == sp)
      && (!Present(sp.who) && Present(sp.speaker) && |Matches(m, norm, sp.speaker.value)| != 1 ==> r == sp)
      && (!Present(sp.who) && Present(sp.speaker) && |Matches(m, norm, sp.speaker.value)| == 1
          ==> r.who.Some? && Matches(m, norm, sp.speaker.value) == {r.who.value})
  {
  }

  /** The counts the script reports. */
  datatype Report = Report(resolved: nat, ambiguous: seq<(string, set<string>)>, missing: seq<string>)

  /** The loop over the speeches, reading the people's ids under `key`. */
  method AssignWith(ps: seq<Person>, rs: seq<Role>, sps: seq<Sp>, key: string, norm: string -> string)
    returns (out: seq<Sp>, report: Report)
    ensures |out| == |sps|
    ensures forall i :: 0 <= i < |sps| ==> out[i] == Apply(sps[i], Resolve(sps[i], Build(ps, rs, key, norm), norm))
    ensures Total(report) == Considered(sps)
    ensures report.ambiguous == AmbiguousNames(sps, Build(ps, rs, key, norm), norm)
    ensures report.missing == MissingNames(sps, Build(ps, rs, key, norm), norm)
  {
    var m := Build(ps, rs, key, norm);
    out := [];
    report := Report(0, [], []);
    var i := 0;
    while i < |sps|
      invariant 0 <= i <= |sps| && |out| == i
      invariant AppliedTo(out, sps, m, norm)
      invariant Total(report) == Considered(sps[..i])
      invariant report.ambiguous == AmbiguousNames(sps[..i], m, norm)
      invariant report.missing == MissingNames(sps[..i], m, norm)
    {
      var o := Resolve(sps[i], m, norm);
      ConsideredStep(sps, i);
      NamesStep(sps, i, m, norm);
      report := Tally(report, o);
      AppliedSnoc(out, sps, m, norm);
      out := out + [Apply(sps[i], o)];
      i := i + 1;
    }
    assert sps[..i] == sps;
  }

  /** The first `|out|` speeches have been through the loop. */
  predicate AppliedTo(out: seq<Sp>, sps: seq<Sp>, m: Assignments, norm: string -> string)
    requires |out| <= |sps|
  {
    forall k :: 0 <= k < |out| ==> out[k] == Apply(sps[k], Resolve(sps[k], m, norm))
  }

  lemma AppliedSnoc(out: seq<Sp>, sps: seq<Sp>, m: Assignments, norm: string -> string)
    requires |out| < |sps| && AppliedTo(out, sps, m, norm)
    ensures AppliedTo(out + [Apply(sps[|out|], Resolve(sps[|out|], m, norm))], sps, m, norm)
  {
    var r := out + [Apply(sps[|out|], Resolve(sps[|out|], m, norm))];
    forall k | 0 <= k < |r| ensures r[k] == Apply(sps[k], Resolve(sps[k], m, norm)) {
      if k < |out| {
        assert r[k] == out[k];
      }
    }
  }

  /** How many speeches the report accounts for. */
  function Total(report: Report): nat {
    report.resolved + |report.ambiguous| + |report.missing|
  }

  /** The report after one speech: a resolved one is counted, an ambiguous
      or missing one is listed with its name, a skipped one leaves it. */
  function Tally(report: Report, o: Outcome): (r: Report)
    ensures Total(r) == Total(report) + (if o.Skipped? then 0 else 1)
    ensures o.Ambiguous? ==> r.ambiguous == report.ambiguous + [(o.name, o.ids)]
    ensures o.Missing? ==> r.missing == report.missing + [o.name]
  {
    match o
    case Skipped => report
    case Resolved(_) => report.(resolved := report.resolved + 1)
    case Ambiguous(name, ids) => report.(ambiguous := report.ambiguous + [(name, ids)])
    case Missing(name) => report.(missing := report.missing + [name])
  }

  /** The speeches the loop looks at: no `who` yet, and a speaker text. */
  function Considered(sps: seq<Sp>): (c: nat)
    ensures c <= |sps|
  {
    if |sps| == 0 then 0
    else Considered(sps[..|sps| - 1])
         + (if !Present(sps[|sps| - 1].who) && Present(sps[|sps| - 1].speaker) then 1 else 0)
  }

  lemma ConsideredStep(sps: seq<Sp>, i: nat)
    requires i < |sps|
    ensures Considered(sps[..i + 1]) == Considered(sps[..i])
      + (if !Present(sps[i].who) && Present(sps[i].speaker) then 1 else 0)
  {
    assert sps[..i + 1][..i] == sps[..i];
  }

  /** The speaker names with more than one match and their ids, in the
      order of the speeches. */
  function AmbiguousNames(sps: seq<Sp>, m: Assignments, norm: string -> string): seq<(string, set<string>)> {
    if |sps| == 0 then []
    else
      var sp := sps[|sps| - 1];
      var o := Resolve(sp, m, norm);
      AmbiguousNames(sps[..|sps| - 1], m, norm)
        + (if o.Ambiguous? then [(sp.speaker.value, Matches(m, norm, sp.speaker.value))] else [])
  }

  /** The speaker names with no match, in the order of the speeches. */
  function MissingNames(sps: seq<Sp>, m: Assignments, norm: string -> string): seq<string> {
    if |sps| == 0 then []
    else
      var sp := sps[|sps| - 1];
      MissingNames(sps[..|sps| - 1], m, norm)
        + (if Resolve(sp, m, norm).Missing? then [sp.speaker.value] else [])
  }

  lemma NamesStep(sps: seq<Sp>, i: nat, m: Assignments, norm: string -> string)
    requires i < |sps|
    ensures var o := Resolve(sps[i], m, norm);
      && AmbiguousNames(sps[..i + 1], m, norm) == AmbiguousNames(sps[..i], m, norm)
           + (if o.Ambiguous? then [(o.name, o.ids)] else [])
      && MissingNames(sps[..i + 1], m, norm) == MissingNames(sps[..i], m, norm)
           + (if o.Missing? then [o.name] else [])
  {
    assert sps[..i + 1][..i] == sps[..i];
  }

  /** The script as written: it reads `pers.get("xml:id")`. */
  method AssignAsWritten(ps: seq<Person>, rs: seq<Role>, sps: seq<Sp>, norm: string -> string)
    returns (out: seq<Sp>, report: Report)
    ensures out == seq(|sps|, i requires 0 <= i < |sps| => Apply(sps[i], Resolve(sps[i], Build(ps, rs, PrefixedIdKey, norm), norm)))
  {
    out, report := AssignWith(ps, rs, sps, PrefixedIdKey, norm);
  }

  /** The intended script: it reads the id under the key ElementTree uses. */
  method Assign(ps: seq<Person>, rs: seq<Role>, sps: seq<Sp>, norm: string -> string)
    returns (out: seq<Sp>, report: Report)
    ensures out == seq(|sps|, i requires 0 <= i < |sps| => Apply(sps[i], Resolve(sps[i], Build(ps, rs, XmlIdKey, norm), norm)))
    ensures Total(report) == Considered(sps)
    ensures report.missing == MissingNames(sps, Build(ps, rs, XmlIdKey, norm), norm)
  {
    out, report := AssignWith(ps, rs, sps, XmlIdKey, norm);
  }

  /** ElementTree never keys an attribute `xml:id` (it expands the prefix),
      so as written no person contributes an id: only the roles count. */
  lemma AsWrittenIgnoresPersons(ps: seq<Person>, rs: seq<Role>, norm: string -> string, n: string)
    requires forall i :: 0 <= i < |ps| ==> PrefixedIdKey !in ps[i].attrs
    ensures Lookup(Build(ps, rs, PrefixedIdKey, norm), n) == Lookup(Build([], rs, PrefixedIdKey, norm), n)
  {
    forall id | true
      ensures id in Lookup(Build(ps, rs, PrefixedIdKey, norm), n) <==> id in Lookup(Build([], rs, PrefixedIdKey, norm), n)
    {
      BuildSpec(ps, rs, PrefixedIdKey, norm, n, id);
      BuildSpec([], rs, PrefixedIdKey, norm, n, id);
    }
  }

  /** One person with an id and a name, no cast list, and one speech by that
      person: as written the speech stays without `who`; read under the
      right key, it gets the person's id. */
  lemma PersonIdLost()
    ensures var p := Person(map[XmlIdKey := "laurencia"], Some("LAURENCIA"));
      var sp := Sp(None, Some("LAURENCIA"));
      var id := (s: string) => s;
      && Resolve(sp, Build([p], [], PrefixedIdKey, id), id) == Missing("LAURENCIA")
      && Resolve(sp, Build([p], [], XmlIdKey, id), id) == Resolved("#laurencia")
  {
    var p := Person(map[XmlIdKey := "laurencia"], Some("LAURENCIA"));
    var id := (s: string) => s;
    assert PrefixedIdKey != XmlIdKey by { assert PrefixedIdKey[0] != XmlIdKey[0]; }
    assert [p][1..] == [];
    assert AddPersons(map[], [p], PrefixedIdKey, id) == map[];
    assert "#" + p.attrs[XmlIdKey] == "#laurencia" && id(p.name.value) == "LAURENCIA";
    var empty: Assignments := map[];
    assert Lookup(empty, "LAURENCIA") == {};
    assert Lookup(empty, "LAURENCIA") + {"#laurencia"} == {"#laurencia"};
    assert Add(empty, "LAURENCIA", "#laurencia") == map["LAURENCIA" := {"#laurencia"}];
    assert AddPersons(map[], [p], XmlIdKey, id) == map["LAURENCIA" := {"#laurencia"}];
    assert "LAURENCIA" !in Aliases;
  }
}
